=== FILE: README.md ===
# FutureOfDev core, modelled in Dafny

This project models the pure decision logic of the FutureOfDev coding-assistant benchmark and of its
agent tooling, and proves properties of that logic. It covers:

- **Scoring engine** (`Scoring`). Category-specific raw metrics become weighted evaluation factors.
  Latency and cost are min-max normalised over the whole run. Each tool gets per-factor averages, a
  weighted composite and a small tie-break bonus. The tools are then ranked.
- **Battle harness** (`Runner`). It iterates tool → category → test case. In simulation mode it draws
  metrics from tool profiles. In any other mode it calls an adapter, and every adapter failure becomes
  an error result.
- **Kanban board store** (`Board`): the column and card reducers, including drag-and-drop reordering
  and renumbering.
- **Orchestrator core** (`OrchestratorCore`): project configuration, check scope filtering, agent
  result files, and task input parsing and resolution.
- **Definition-of-Done runner** (`DodRunner`): glob matching of artifacts, loading the definition, the
  scope filter and the gate decision.
- **Telegram helpers** (`Formatters`, `Buttons`): MarkdownV2 escaping, the progress bar, badges,
  durations, truncation and the inline-keyboard builders.
- **Migration order** (`MigrationOrder`): the Kahn topological sort of the refactoring benchmark.
- **Player findings watcher** (`FindingWatcher`): the semantic title fingerprint, state capping, the
  exact and semantic dedup of findings, the one-run-per-poll rule and the file cursor.
- **Hyper-explorer** (`StateFingerprint`, `KnowledgeGraph`, `Planner`):
  - page-state keys and deltas;
  - the exploration graph, with node and transition bookkeeping, coverage figures and breadth-first
    search to the frontier;
  - the planner's goal decomposition and replanning.

Shared pieces are in `Wrappers` (Option), `Seqs` (filter, subsequences, prefixes, sums), `Strings`
(ASCII case, containment, decimal formatting and parsing, split/join), `JsonModel` (parsed JSON values
and JavaScript truthiness), `Paths` (Node's `path.basename`, `path.dirname`, `path.normalize` and `path.join` on POSIX paths, trailing slashes included, and Python's `PurePosixPath.name`) and `Checks` (the
check record both scope filters read).

Scores are Dafny `real`s: the engine does exact weighted averaging, and Python's float rounding is not
modelled. File, process, clock, network and randomness inputs become parameters:

- adapter outcomes, random draws and elapsed times (`Runner`);
- parsed JSON documents and directory listings (`OrchestratorCore`, `DodRunner`);
- the findings file contents, the content hash, the ledger id and the Agency exit code (`FindingWatcher`);
- fingerprint hashes (`StateFingerprint`).

Where the written specification and the code disagree, the model follows the code:

- `compute_scores` builds the latency and cost normalisers from every result's raw value, over all
  tools. It then evaluates them at the tool's mean. They are not built from per-tool means.
- In category D, Refactoring ends up equal to `duplication_reduction`. The second averaging combines
  the value with itself, so it is not the mean of complexity and duplication.
- The Execution Loop credit is floored at 0 but not capped at 1. An iteration count below 1 gives
  more than 1.
- `agency-dod-runner.mjs` treats any gate other than `all` and `any` as artifacts-only, and keeps its
  own scope filter without the check-scope equality test. `orchestrator-core.cjs` maps unknown gates
  to `all`. The two modules are modelled separately.
- `reorderColumns` with an unknown active id moves the last column, because `splice(-1, 1)` removes
  the last element. `reorderCards` returns the state unchanged when the over id is unknown, whatever
  the active id. With a known over id and an unknown active id it throws, so in that case it requires a
  known active id.

## Model

| member | source | states |
|---|---|---|
| Scoring.WeightsSumToOne | reports/generator.py:14-23 | The eight weights cover each canonical factor exactly once and add up to 1 |
| Scoring.MapMetricsToFactors | reports/generator.py:25-83 | Raw time and tokens are copied exactly when present; a moat key appears exactly when the metrics carry it, with its value; latency and cost are never set per result |
| Scoring.MapMetricsMatchesTable | reports/generator.py:29-68 | The chain of overriding assignments equals an independent per-category table of canonical factors |
| Scoring.CodeQualityOfCategoryA | reports/generator.py:30-31 | Category A sets only Code Quality, the mean of correctness and style, and a missing key counts as 0 |
| Scoring.CodeQualityScenario | reports/generator.py:30-31 | Correctness 0.8 and style 0.7 give Code Quality 0.75 |
| Scoring.RefactoringIsDuplication | reports/generator.py:36-68 | In category D, Refactoring equals duplication_reduction and Code Quality equals complexity_reduction |
| Scoring.ExecutionLoopFromIterations | reports/generator.py:42-52 | For C and F with an iteration count, Execution Loop is the iteration credit; for F this overrides root_cause_accuracy |
| Scoring.IterationCreditPoints | reports/generator.py:52 | The credit is 1 at one iteration, 0 from ten iterations on, never negative, and in [0, 1] from one iteration on |
| Scoring.IterationCreditNotCapped | reports/generator.py:52 | Zero iterations give 10/9, which is above 1 |
| Scoring.KnownCategorySetsCodeQuality | reports/generator.py:30-47 | Each of the categories A to G sets Code Quality whatever the metrics hold |
| Scoring.UnknownCategoryHasNoFactor | reports/generator.py:29-68 | Any other category yields no canonical factor |
| Scoring.CanonicalFactorsInUnit | reports/generator.py:29-68 | With score-like metrics in [0, 1] and at least one iteration, every canonical factor is in [0, 1] |
| Scoring.Normalize | reports/generator.py:85-96 | No values give the neutral normaliser; all-equal values give the constant-1 normaliser; otherwise min-max scaling between the least and greatest value |
| Scoring.NormalizeDegenerate | reports/generator.py:87-92 | Empty input maps every value to 0.5; all-equal input maps every value to 1.0 |
| Scoring.InvertedIsDecreasing | reports/generator.py:93-95 | The inverted normaliser never increases, and strictly decreases when the observed values differ |
| Scoring.NormalizeInRange | reports/generator.py:89-96 | A value inside the observed range normalises into [0, 1]; inverted, the least value maps to 1 and the greatest to 0 |
| Scoring.LatencyScenario | reports/generator.py:119-139 | Run times of 5 s and 10 s give Latency/Throughput 1.0 and 0.0 |
| Scoring.RawTimes | reports/generator.py:100-112 | The run-wide time list holds exactly the time_sec values of all results, over all tools |
| Scoring.RawTokens | reports/generator.py:101-114 | The run-wide token list holds exactly the tokens values of all results, over all tools |
| Scoring.ToolValues | reports/generator.py:134-135 | A value is in a tool's time or token list exactly when some result of that tool carries that metric with that value; there is at most one value per result |
| Scoring.ToolValuesConcat | reports/generator.py:134-135 | The list for concatenated results is the first part's list followed by the second's, so the values keep result order |
| Scoring.ToolValuesSingle | reports/generator.py:134-135 | One result contributes its metric value exactly when it is the tool's and carries the metric |
| Scoring.ScoredTools | reports/generator.py:115-126 | The scored tools are distinct, and a tool is scored exactly when one of its results yields a canonical factor |
| Scoring.FactorMeans | reports/generator.py:126-130 | A factor has an average exactly when the tool has values for it, and the average is their mean |
| Scoring.Averages | reports/generator.py:126-146 | Every other factor is present exactly when the tool has values for it, with their mean; Latency/Throughput and Cost Efficiency are always present, as the run-wide normaliser applied to the mean of the tool's times or tokens, or 0.5 when it has none |
| Scoring.ComputeScores | reports/generator.py:98-168 | There is one score per scored tool, in first-appearance order; each is that tool's entry under the normalisers built from all raw times and tokens of the run, and its averages are the run's averages for the tool |
| Scoring.ScoreTool | reports/generator.py:126-166 | A tool's entry carries its averages, and its score is the weighted composite of them plus the tool's bonus |
| Scoring.ToolMeanInRange | reports/generator.py:134-144 | The mean of a tool's raw values lies within the run-wide range the normaliser was built from |
| Scoring.LatencyAndCostInUnit | reports/generator.py:136-146 | Latency/Throughput and Cost Efficiency are always in [0, 1], and 0.5 when the tool has no data |
| Scoring.AveragesInUnit | reports/generator.py:126-146 | Every factor average of a well-scaled run is in [0, 1] |
| Scoring.CompositeInUnit | reports/generator.py:150-157 | Factor values in [0, 1] give a pre-bonus composite in [0, 1] |
| Scoring.CompositeIgnoresMissing | reports/generator.py:153-155 | A factor the tool lacks contributes exactly as a 0 would, and keeps its weight |
| Scoring.FinalScoreBounds | reports/generator.py:150-166 | Every final score is a composite in [0, 1] plus a bonus in [0, 0.02] |
| Scoring.ScoreToolBounds | reports/generator.py:126-166 | One tool's score under the run-wide normalisers meets the same bounds |
| Scoring.MoatBonusRange | reports/generator.py:159-166 | The tie-break bonus is between 0 and 0.02 |
| Scoring.InsertRanked | reports/generator.py:180 | Inserting into a descending ranking keeps it descending and adds one entry |
| Scoring.InsertRankedPermutes | reports/generator.py:180 | Inserting adds exactly the new entry to the multiset of entries |
| Scoring.Rank | reports/generator.py:180 | The ranking is sorted by score, descending |
| Scoring.RankPermutes | reports/generator.py:180 | The ranking holds exactly the scored entries |
| Runner.Stem | harness/runner.py:31 | The tool name has no slash |
| Runner.StemCutsLastSuffix | harness/runner.py:31 | The stem is the file name cut just before its last dot when that dot is neither its first nor its last character, and the whole name otherwise |
| Runner.StemOfNamePath | harness/runner.py:31 | For `dir/name` with any number of trailing slashes, the stem depends only on `name` and its last dot |
| Runner.AiderStem | harness/runner.py:31 | adapters/aider.py followed by any number of slashes gives the tool name aider |
| Runner.StemOfAdapterPath | harness/runner.py:31 | adapters/aider.py gives the tool name aider |
| Runner.StemIgnoresTrailingSlash | harness/runner.py:31 | adapters/aider.py/ gives the tool name aider too |
| Runner.StemKeepsInnerDots | harness/runner.py:31 | Only the last suffix goes: lib/a.b.c gives a.b |
| Runner.Trunc | harness/runner.py:67-76 | `int()` truncates toward zero for either sign |
| Runner.ProfileFor | harness/runner.py:42-58 | A tool without a profile gets the default profile |
| Runner.ProfilesInUnit | harness/runner.py:42-58 | Every profile value, the default one included, is in [0, 1] |
| Runner.Noise | harness/runner.py:61 | Noise clamps the perturbed value into [0, 1] and leaves it unchanged when it is already inside |
| Runner.SimulatedMetricsShape | harness/runner.py:63-116 | Simulated metrics are well scaled; C has at least 1 and F at least 3 iterations; known categories report time and tokens; an unknown category gives only score 0.5 |
| Runner.CategoryShape | harness/runner.py:63-116 | The same shape holds for any profile |
| Runner.SimulationIsScored | harness/runner.py:63-114 | A simulated result of a known category always yields a canonical factor, so the tool gets scored |
| Runner.RunSimulation | harness/runner.py:28-119 | The result carries the tool stem, category, test id and mode "simulation", and the simulated metrics |
| Runner.RunAutomated | harness/runner.py:132-185 | Success copies metrics (default {}) and elapsed_sec (default 0); any failure sets an error message and elapsed 0 and returns normally, and a nonzero exit also records return_code |
| Runner.ClassifyErrorMessage | harness/runner.py:168-183 | The error message alone tells which failure occurred: missing script, nonzero exit, invalid JSON or unexpected error |
| Runner.CaseJobs | harness/runner.py:205-206 | The jobs of a category are exactly the suite's test cases of that category |
| Runner.CaseJobsIsComprehension | harness/runner.py:205-206 | A category's jobs are the list comprehension's cases: each matching case once per occurrence, in suite order |
| Runner.CategoryJobsConcat | harness/runner.py:203-206 | For one tool, the jobs of two category lists in a row are the first list's jobs followed by the second's |
| Runner.ScheduleConcat | harness/runner.py:201-206 | The jobs of two tool lists in a row are the first list's jobs followed by the second's |
| Runner.ScheduleNesting | harness/runner.py:201-206 | One tool's jobs are its category blocks in order; one category's block is its test cases in suite order |
| Runner.Schedule | harness/runner.py:201-206 | The schedule holds exactly the configured tools paired with configured categories and their matching test cases |
| Runner.UnconfiguredCategoryNeverRuns | harness/runner.py:203-205 | A test case whose category is not configured never runs |
| Runner.ScheduleLength | harness/runner.py:201-206 | With distinct categories there are (tools) × (test cases of configured categories) jobs |
| Runner.RunAll | harness/runner.py:199-212 | One result per scheduled job, in schedule order, with the job's tool, category and test id; in simulation mode each result is the simulation of its job, and in any other mode the automated run of its job |
| Board.ColumnIndex | opencode/src/stores/boardStore.ts:149-150 | `findIndex`: -1 exactly when no column has the id, otherwise the first column that has it |
| Board.CardIndex | opencode/src/stores/boardStore.ts:118-119 | `findIndex`: -1 exactly when no card has the id, otherwise the first card that has it |
| Board.AddColumn | opencode/src/stores/boardStore.ts:47-56 | Appends one column with the title, the generated id and the current time as order; the cards are unchanged |
| Board.UpdateColumn | opencode/src/stores/boardStore.ts:58-64 | Retitles exactly the columns with the id; every other column and all cards are unchanged |
| Board.UpdateColumnUnknownId | opencode/src/stores/boardStore.ts:58-64 | An unknown id leaves the board unchanged |
| Board.DeleteColumn | opencode/src/stores/boardStore.ts:66-71 | Removes exactly the column and its cards, keeping the order of the rest |
| Board.DeleteColumnKeepsOtherCards | opencode/src/stores/boardStore.ts:69 | When no card is in the column, the cards are unchanged |
| Board.ToggleColumnCollapse | opencode/src/stores/boardStore.ts:73-79 | Flips `collapsed` (absent counts as false) on exactly the matching columns |
| Board.ToggleTwice | opencode/src/stores/boardStore.ts:73-79 | Toggling twice restores every column, with an absent flag becoming false |
| Board.AddCard | opencode/src/stores/boardStore.ts:81-92 | Appends one card with the column id and title; the description defaults to the empty string |
| Board.UpdateCard | opencode/src/stores/boardStore.ts:94-107 | Only cards with the id change; each field passed as undefined is kept |
| Board.UpdateCardNoOps | opencode/src/stores/boardStore.ts:94-107 | No fields, or an unknown id, leave the board unchanged |
| Board.DeleteCard | opencode/src/stores/boardStore.ts:109-113 | Removes exactly the cards with the id, keeping the order of the rest |
| Board.Renumber | opencode/src/stores/boardStore.ts:137-140 | Each card of the target column gets as order the number of target cards before it; other cards are unchanged |
| Board.RenumberedOrdersAreRanks | opencode/src/stores/boardStore.ts:137-140 | After renumbering, the target column's orders are exactly 0..k-1, increasing along the list |
| Board.ReorderCards | opencode/src/stores/boardStore.ts:115-144 | An unknown over id leaves the board unchanged whatever the active id; the card count and the columns are preserved |
| Board.ReorderCardsPlaces | opencode/src/stores/boardStore.ts:123-134 | The active card lands at the over card's index, in the target column when the columns differ |
| Board.ReorderCardsPermutes | opencode/src/stores/boardStore.ts:115-144 | The card ids after reordering are a permutation of those before |
| Board.ReorderCardsRenumbersTarget | opencode/src/stores/boardStore.ts:136-140 | The target column's orders become 0..k-1, increasing along the list |
| Board.ReorderCardsKeepsOthers | opencode/src/stores/boardStore.ts:115-144 | The moved card keeps its id, title and description, with the target column when the columns differ; with it taken out, the other cards are the original ones in their original order up to their orders, and those outside the target column are unchanged |
| Board.RenumberInsertKeepsOthers | opencode/src/stores/boardStore.ts:134-140 | Inserting a card and renumbering one column changes no other card's fields, and no field but the order of that column's cards |
| Board.ReorderColumns | opencode/src/stores/boardStore.ts:146-164 | An unknown over id leaves the board unchanged; the cards are never touched |
| Board.ReorderColumnsMoves | opencode/src/stores/boardStore.ts:146-164 | The column ids are permuted; orders become 0..n-1; the active column, or the last one when the active id is unknown, lands at the over index |
| Board.ReorderColumnsKeepsOthers | opencode/src/stores/boardStore.ts:146-164 | The moved column keeps its id, title and collapsed flag at the over index with order = that index; with it taken out, the other columns are the original ones in their original order, up to their orders |
| Board.MoveThenOrderKeepsOthers | opencode/src/stores/boardStore.ts:154-160 | Splicing a column out and back in and renumbering by index leaves the other columns in their order, up to their orders |
| Board.ReorderColumnsExample | opencode/src/stores/boardStore.test.ts:263-284 | Dragging the third of three columns onto the first gives third, first, second with orders 0, 1, 2 |
| Board.MoveLastToFront | opencode/src/stores/boardStore.test.ts:263-284 | The splice and renumbering behind that example |
| OrchestratorCore.NormalizeGate | opencode/lib/orchestrator-core.cjs:16 | 'any' and 'none' are kept; anything else becomes 'all' |
| OrchestratorCore.LoadProjectConfig | opencode/lib/orchestrator-core.cjs:9-28 | A config exists exactly when the parsed file has a definitionOfDone with a checks array; the checks and taskPolicies (default {}) are copied, the gate is `any` or `none` when given so and `all` otherwise, and artifacts default to [] |
| OrchestratorCore.LoadProjectConfigRejects | opencode/lib/orchestrator-core.cjs:11-27 | A missing or unparsable file, or a definition without checks, gives null |
| OrchestratorCore.FilterChecksByScope | opencode/lib/orchestrator-core.cjs:30-41 | A missing, 'full' or 'unknown' scope keeps every check; otherwise the result is the subsequence of checks the scope rule keeps |
| OrchestratorCore.UnknownScopeKeepsAll | opencode/lib/orchestrator-core.cjs:39 | A scope that names none of the three filters keeps every check |
| OrchestratorCore.ScopeFieldSuffices | opencode/lib/orchestrator-core.cjs:36-38 | A check whose scope field is frontend, backend or doc survives the matching filter |
| OrchestratorCore.ReadAgentResult | opencode/lib/orchestrator-core.cjs:43-56 | A result exists exactly when outcome is APPROVE, REJECT or BLOCKED; reason and nextStep default to '' |
| OrchestratorCore.ReadAgentResultDefaults | opencode/lib/orchestrator-core.cjs:50 | An outcome alone, or with an empty reason, gives empty reason and next step |
| OrchestratorCore.ParseTaskInput | opencode/lib/orchestrator-core.cjs:58-67 | A non-empty value after the first --task wins; otherwise a non-empty first argument not starting with '-'; otherwise null; a result is never empty |
| OrchestratorCore.TaskFlagWins | opencode/lib/orchestrator-core.cjs:59-62 | `--task id` wins over any argument before or after it, as long as no earlier --task occurs |
| OrchestratorCore.DanglingTaskFlag | opencode/lib/orchestrator-core.cjs:59-66 | A trailing --task with no value falls back to a leading argument that is not a flag, else null |
| OrchestratorCore.ParseTaskInputCases | opencode/lib/orchestrator-core.cjs:58-67 | `--task id` gives id; a plain first argument is taken; no arguments, a dangling --task or a flag give null |
| OrchestratorCore.ResolveTask | opencode/lib/orchestrator-core.cjs:69-88 | A usable AGENCY_TASK_JSON wins; input that is not id-like becomes an ad-hoc task with that description |
| OrchestratorCore.ResolveTaskSources | opencode/lib/orchestrator-core.cjs:69-88 | The task always comes from the environment, the fallback, a loaded id or benchmark id, or the ad-hoc task |
| OrchestratorCore.ResolveTaskPrefersExactId | opencode/lib/orchestrator-core.cjs:70-87 | With AGENCY_TASK_JSON unset, empty, unparsable or naming neither id nor description, an id-like input loads the id itself first, then benchmark-id, then falls back to an ad-hoc task |
| OrchestratorCore.ResolveTaskFallback | opencode/lib/orchestrator-core.cjs:70-81 | With no usable AGENCY_TASK_JSON (unset, empty, unparsable or naming neither id nor description), no input loads benchmark-bench-002 |
| OrchestratorCore.InvalidEnvTaskIgnored | opencode/lib/orchestrator-core.cjs:70-76 | An AGENCY_TASK_JSON that fails to parse resolves exactly as an absent one |
| Paths.BaseName | opencode/mcp-servers/agency-dod-runner.mjs:17 | The basename holds no '/' |
| Paths.BaseNameIsLastSegment | opencode/mcp-servers/agency-dod-runner.mjs:17 | With trailing slashes stripped, the basename is the end of the path after its last '/', and it is empty exactly for a path of slashes only |
| Paths.DirName | opencode/mcp-servers/agency-dod-runner.mjs:16 | A path without '/' has the directory "."; an absolute path has an absolute directory; otherwise the directory is "/", "//" or a proper prefix of the path followed by '/' |
| Paths.StripAppendedSlashes | opencode/mcp-servers/agency-dod-runner.mjs:16-17 | Trailing slashes after a path that does not end in '/' are all ignored |
| Paths.DirBaseOfNames | opencode/mcp-servers/agency-dod-runner.mjs:16-17 | For a relative path of names with any trailing slashes, the basename is the last name and the dirname the names before it, or "." for one name |
| Paths.OneName | opencode/mcp-servers/agency-dod-runner.mjs:16-17 | One name with trailing slashes has the basename name and the dirname "." |
| Paths.DirNameAtRoot | opencode/mcp-servers/agency-dod-runner.mjs:16-17 | "/a" has the dirname "/" and the basename "a" |
| Paths.DirNameOfRoot | opencode/mcp-servers/agency-dod-runner.mjs:16-17 | "/" has the dirname "/" and the empty basename |
| Paths.DirNameDoubleSlash | opencode/mcp-servers/agency-dod-runner.mjs:16 | "//a" has the dirname "//" |
| Paths.DirNameRepeatedSlash | opencode/mcp-servers/agency-dod-runner.mjs:16-17 | "a//b" has the dirname "a/" and the basename "b" |
| Paths.Resolve | opencode/mcp-servers/agency-dod-runner.mjs:21 | Segments with no empty, "." or ".." piece are appended unchanged; in an absolute path no ".." survives |
| Paths.ResolveExamples | opencode/mcp-servers/agency-dod-runner.mjs:21 | "a/../f" resolves to "f"; a leading ".." is kept in a relative path and dropped in an absolute one |
| Paths.Normalize | opencode/mcp-servers/agency-dod-runner.mjs:21 | The result is never empty, the empty path gives ".", and an absolute path stays absolute |
| Paths.NormalizeNames | opencode/mcp-servers/agency-dod-runner.mjs:21 | A relative path of names is already normal |
| Paths.JoinPath | opencode/mcp-servers/agency-dod-runner.mjs:21 | The joined path is never empty |
| Paths.JoinPathNames | opencode/mcp-servers/agency-dod-runner.mjs:21 | Joining a relative directory of names and a name puts exactly one '/' between them |
| Paths.JoinPathDot | opencode/mcp-servers/agency-dod-runner.mjs:21 | Joining "." and a name gives the name |
| Paths.JoinPathParts | opencode/mcp-servers/agency-dod-runner.mjs:16-21 | dirname and basename take a joined directory of names and a name apart again |
| Paths.PyName | harness/runner.py:31 | The Python name holds no '/' and is empty or a segment other than "." |
| Paths.PyNameOfNames | harness/runner.py:31 | The Python name of a relative path of names, with any trailing slashes, is the last name |
| DodRunner.GlobLiteral | opencode/mcp-servers/agency-dod-runner.mjs:20 | A pattern without '*' matches only itself, with '.' literal |
| DodRunner.GlobStarSuffix | opencode/mcp-servers/agency-dod-runner.mjs:20 | `*b` matches the names ending in b whose prefix has no line terminator |
| DodRunner.GlobOneStar | opencode/mcp-servers/agency-dod-runner.mjs:20 | `a*b` matches the names starting with a and ending in b, with no line terminator in between |
| DodRunner.SimpleGlob | opencode/mcp-servers/agency-dod-runner.mjs:15-22 | A missing directory gives []; every result is an entry of the listing of the pattern's dirname that matches its basename, joined to that dirname |
| DodRunner.SimpleGlobComplete | opencode/mcp-servers/agency-dod-runner.mjs:15-22 | Every matching entry of that listing is returned, joined to the dirname |
| DodRunner.GlobAt | opencode/mcp-servers/agency-dod-runner.mjs:19-21 | No listing gives []; otherwise exactly the matching entries, each joined to the directory |
| DodRunner.GlobIn | opencode/mcp-servers/agency-dod-runner.mjs:21 | At most one result per entry; every result is a matching entry joined to the directory, and every matching entry appears |
| DodRunner.SimpleGlobDirectoryPattern | opencode/mcp-servers/agency-dod-runner.mjs:15-22 | A directory artifact `name/` is found exactly when the working directory lists `name`, and then the result is `name` |
| DodRunner.LoadProjectDod | opencode/mcp-servers/agency-dod-runner.mjs:24-44 | agency.json's definitionOfDone is used when truthy, else .agency/dod.json when truthy, else null; artifacts and checks are the document's arrays or [], and the gate is its truthy gate or 'all' |
| DodRunner.ArrayField | opencode/mcp-servers/agency-dod-runner.mjs:40-41 | A field that is an array is taken as is; anything else gives [] |
| DodRunner.LoadProjectDodDefaults | opencode/mcp-servers/agency-dod-runner.mjs:39-43 | An empty definition object gives no artifacts, no checks and the gate 'all', whatever dod.json holds |
| DodRunner.LoadProjectDodNonArrays | opencode/mcp-servers/agency-dod-runner.mjs:40-42 | Non-array artifacts and checks become [], and a truthy gate is kept |
| DodRunner.AgencyJsonTakesPrecedence | opencode/mcp-servers/agency-dod-runner.mjs:28-38 | With a definition in agency.json, .agency/dod.json is ignored |
| DodRunner.DodFilterChecksByScope | opencode/mcp-servers/agency-dod-runner.mjs:46-56 | The runner's own filter: identity for a missing, 'full' or 'unknown' scope, otherwise the subsequence its scope rule keeps |
| DodRunner.Required | opencode/mcp-servers/agency-dod-runner.mjs:82 | Exactly the artifacts not marked optional |
| DodRunner.Optional | opencode/mcp-servers/agency-dod-runner.mjs:83 | Exactly the artifacts marked optional |
| DodRunner.RecordRequired | opencode/mcp-servers/agency-dod-runner.mjs:84-87 | Each required artifact's path records, as a non-optional result, whether the match test holds of it, and no other path is recorded |
| DodRunner.GlobFound | opencode/mcp-servers/agency-dod-runner.mjs:85-86 | The match test holds of a pattern exactly when its glob returns something |
| DodRunner.RecordOptional | opencode/mcp-servers/agency-dod-runner.mjs:88-90 | Each optional artifact's path is recorded as passed and optional, overwriting an earlier entry for the same path |
| DodRunner.CountTrue | opencode/mcp-servers/agency-dod-runner.mjs:92 | The pass count equals the number of results exactly when all passed, and is at least 1 exactly when one passed |
| DodRunner.GateDecision | opencode/mcp-servers/agency-dod-runner.mjs:93-100 | 'all': every check and the artifacts pass; 'any': some check and the artifacts pass; any other gate: the artifacts pass |
| DodRunner.RunDodChecks | opencode/mcp-servers/agency-dod-runner.mjs:73-103 | No definition passes with empty results; otherwise the check results, the artifact record and the gate decision |
| DodRunner.AnyGateNeedsACheck | opencode/mcp-servers/agency-dod-runner.mjs:96-97 | The 'any' gate fails with zero checks |
| DodRunner.ArtifactsPassCharacterized | opencode/mcp-servers/agency-dod-runner.mjs:84-91 | The artifacts pass exactly when each required one matched, or shares its path with an optional one |
| DodRunner.UnknownGateDiverges | opencode/mcp-servers/agency-dod-runner.mjs:94-100 | An unrecognised gate ignores a failed check, where 'all' does not |
| Formatters.EscapeValue | opencode/telegram/formatters.js:11-17 | A non-string is returned unchanged; a string is escaped |
| Formatters.EscapeMarkdownCharwise | opencode/telegram/formatters.js:14-16 | Escaping equals the per-character rule: a backslash becomes four backslashes, a special character gets one backslash in front, and ']' is left alone |
| Formatters.UnescapeEscape | opencode/telegram/formatters.js:11-17 | Escaping is undone by an independent unescaper |
| Formatters.EscapeInjective | opencode/telegram/formatters.js:11-17 | Distinct strings escape differently |
| Formatters.EscapeExamples | opencode/telegram/formatters.js:14-16 | ']' stays as is, "a_b" becomes "a\_b", and one backslash becomes four |
| Formatters.Wrapped | opencode/telegram/formatters.js:101-102 | `bold` and `italic` wrap the text in '*' or '_', and the inside unescapes to the input |
| Formatters.Clamp | opencode/telegram/formatters.js:26 | The percentage is clamped into [0, 100] |
| Formatters.FilledCells | opencode/telegram/formatters.js:27 | The filled count is size·p/100 rounded to nearest, and at most size |
| Formatters.ProgressBar | opencode/telegram/formatters.js:25-30 | The bar is the filled cells, then the empty ones, then a space, the clamped percentage and '%' |
| Formatters.ProgressBarCells | opencode/telegram/formatters.js:27-28 | Filled plus empty cells equal the size; 0% has no filled cell and 100% no empty one |
| Formatters.ProgressBarDefault | opencode/telegram/formatters.js:25-30 | Without a size the bar has ten cells, followed by a space, the clamped percentage and '%' |
| Formatters.ProgressBarDefaultHalf | opencode/telegram/formatters.js:25-30 | 50% with the default size fills five cells and leaves five empty |
| Formatters.SeverityBadge | opencode/telegram/formatters.js:37-45 | Upper-cased HIGH, MEDIUM, LOW and INFO give red, yellow, green and blue circles; undefined or any other severity gives the white circle |
| Formatters.SeverityBadgeMatchesTable | opencode/telegram/formatters.js:37-45 | The badge is the object literal's entry for the upper-cased severity, or white when it has none |
| Formatters.SeverityBadgeCaseInsensitive | opencode/telegram/formatters.js:44 | Lower- or upper-casing the severity does not change the badge |
| Formatters.SeverityBadgeExamples | opencode/telegram/formatters.js:38-44 | HIGH and high give the red circle; INFO gives the blue one |
| Formatters.FormatDuration | opencode/telegram/formatters.js:63-68 | Under 60 seconds "Ns"; otherwise "Mm Ss" with M = floor(s/60) and S = s mod 60 |
| Formatters.ParseFormatDuration | opencode/telegram/formatters.js:63-68 | The formatted duration parses back to the same number of seconds |
| Formatters.FormatDurationExamples | opencode/telegram/formatters.js:63-68 | 45 gives "45s", 125 gives "2m 5s" and 60 gives "1m 0s" |
| Formatters.Truncate | opencode/telegram/formatters.js:91-94 | Falsy input gives ''; non-empty input up to max is unchanged; longer input becomes a prefix of it followed by '…': the first max-1 characters for max ≥ 1, and for a smaller max all but the last 1-max, as `slice` with a negative end gives |
| Formatters.TruncateZeroMax | opencode/telegram/formatters.js:93 | A max of 0 turns "abc" into "ab…" |
| Formatters.TruncateIdempotent | opencode/telegram/formatters.js:91-94 | Truncating twice equals truncating once |
| Buttons.MakeButton | opencode/telegram/buttons.js:13-19 | Text and callback are kept; the style key is present exactly for a primary button |
| Buttons.ReRunExplorer | opencode/telegram/buttons.js:24 | One row of one button with callback explorer_run |
| Buttons.VerifyFix | opencode/telegram/buttons.js:30 | One row of one button with callback verify_fix:id |
| Buttons.MuteFor | opencode/telegram/buttons.js:36 | One row of one button with callback mute:n, whose label names n |
| Buttons.ViewLog | opencode/telegram/buttons.js:42 | One row of one button with callback view_log:type |
| Buttons.Confirm | opencode/telegram/buttons.js:72-74 | One row of two buttons, confirm:action then confirm:cancel |
| Buttons.Combine | opencode/telegram/buttons.js:49-52 | null exactly when no argument is a non-empty array; otherwise the kept keyboards' rows, concatenated |
| Buttons.KeptRowsLength | opencode/telegram/buttons.js:50-51 | The combined keyboard has as many rows as the kept arguments together |
| Buttons.KeptRowsContains | opencode/telegram/buttons.js:50-51 | Every row of every keyboard argument appears in the combination |
| Buttons.CombineExamples | opencode/telegram/buttons.js:49-52 | Two keyboards concatenate; empty keyboards are dropped; only empty or non-array arguments give null |
| Buttons.PanelButtons | opencode/telegram/buttons.js:58-65 | Four buttons with a truthy finding id, three otherwise |
| Buttons.ActionPanelCallbacks | opencode/telegram/buttons.js:57-67 | The panel offers explorer_run, status, verify_fix:id exactly when the id is truthy, and mute:30, in that order |
| Buttons.ActionPanelAsWrittenIsNotMarkup | opencode/telegram/buttons.js:66 | As written, inline_keyboard holds button objects rather than rows, so it is not inline-keyboard markup |
| Buttons.ActionPanelIsMarkup | opencode/telegram/buttons.js:57-67 | The corrected panel is valid markup holding the same buttons in the same order |
| MigrationOrder.InitialIndegrees | tools/benchmark/refactor.js:78-80 | Every service starts with the number of dependency entries naming it |
| MigrationOrder.InitialQueue | tools/benchmark/refactor.js:82 | The queue starts with exactly the zero-indegree services, sorted by id |
| MigrationOrder.SortById | tools/benchmark/refactor.js:82 | Sorting by id yields a sorted permutation |
| MigrationOrder.FindByName | tools/benchmark/refactor.js:94 | Finding by name returns a service of that name |
| MigrationOrder.CalculateMigrationOrder | tools/benchmark/refactor.js:76-101 | The order has no duplicates, only known services and at most one entry per service; it starts with the initial queue; a source precedes the targets it releases; an unemitted service still has an unmet dependency |
| MigrationOrder.KahnStep | tools/benchmark/refactor.js:85-98 | One pop-and-release step keeps the Kahn invariant and emits exactly one service |
| MigrationOrder.ReleaseCalls | tools/benchmark/refactor.js:90-97 | Lowering each dependent's indegree enqueues exactly the ones that reach zero, and keeps the queue's prefix |
| MigrationOrder.ReleaseOne | tools/benchmark/refactor.js:92-95 | One decrement enqueues the dependent exactly when its indegree becomes zero |
| MigrationOrder.SourcesFirstOrders | tools/benchmark/refactor.js:89-97 | Whenever both ends of a dependency are emitted, the source comes first |
| MigrationOrder.CycleNeverEmitted | tools/benchmark/refactor.js:85-98 | No service on a dependency cycle is ever emitted |
| MigrationOrder.BenchmarkSkipsUsersAndOrders | tools/benchmark/refactor.js:76-101 | In a configuration where users and orders depend on each other, neither is emitted |
| FindingWatcher.BlankNonWord | opencode/player-finding-watcher.cjs:98 | Every character that is not a lower-case letter or digit becomes a space |
| FindingWatcher.TrimSpaces | opencode/player-finding-watcher.cjs:100 | The trimmed text neither starts nor ends with a space |
| FindingWatcher.SortLex | opencode/player-finding-watcher.cjs:103 | The default sort yields a code-unit-ordered permutation |
| FindingWatcher.SortedUnique | opencode/player-finding-watcher.cjs:103 | Two sorted lists with the same elements are equal |
| FindingWatcher.SemanticFingerprintShape | opencode/player-finding-watcher.cjs:94-105 | The fingerprint is the sorted, space-joined, lower-case alphanumeric words of more than three characters |
| FindingWatcher.SemanticFingerprintOrderFree | opencode/player-finding-watcher.cjs:94-105 | Titles with the same significant words, in any order, share a fingerprint |
| FindingWatcher.SemanticFingerprintIdempotent | opencode/player-finding-watcher.cjs:94-105 | Fingerprinting a fingerprint gives it back |
| FindingWatcher.SaveState | opencode/player-finding-watcher.cjs:83-92 | Both lists keep only their last 500 entries; shorter lists and the rest of the state are unchanged |
| FindingWatcher.SaveStateIdempotent | opencode/player-finding-watcher.cjs:85-90 | Capping twice equals capping once |
| FindingWatcher.SaveStateKeepsNewest | opencode/player-finding-watcher.cjs:85-90 | The newest fingerprint and title survive the cap |
| FindingWatcher.RunRecord | opencode/player-finding-watcher.cjs:294-313 | Exit code 0 gives fixed with changes, 2 gives processed_no_changes without, anything else gives failed |
| FindingWatcher.Skip | opencode/player-finding-watcher.cjs:236-240 | A semantic duplicate only adds its hash to the fingerprints |
| FindingWatcher.ScanWithoutRun | opencode/player-finding-watcher.cjs:228-241 | Without a run, only the fingerprint list grows, and every finding is known by hash or by title |
| FindingWatcher.ScanWithRun | opencode/player-finding-watcher.cjs:228-324 | A run is for a finding of the batch seen neither by hash nor by title; it records the outcome and remembers the hash and title |
| FindingWatcher.AllDuplicatesNoRun | opencode/player-finding-watcher.cjs:233-241 | A batch of duplicates triggers no run |
| FindingWatcher.ExactDuplicatesUnchanged | opencode/player-finding-watcher.cjs:233 | A batch of exact duplicates leaves the state unchanged |
| FindingWatcher.SemanticDuplicateMarked | opencode/player-finding-watcher.cjs:236-240 | A new block with a known title is marked handled without a run |
| FindingWatcher.Poll | opencode/player-finding-watcher.cjs:205-327 | The poll either saves or stops on a 429 exactly when the file exists, the interval has passed, there is new content and the last separator lies at or after the cursor; a save moves the cursor to the separator + 5 and keeps both lists capped; a stop saves nothing and requires the 429 condition |
| FindingWatcher.EmergencyStopOnOneLine | opencode/player-finding-watcher.cjs:244-252 | A one-line error log containing `error_code:429` triggers the stop |
| FindingWatcher.PollEmergencyStop | opencode/player-finding-watcher.cjs:243-254 | The watcher stops exactly when the error log meets the 429 condition and the poll would otherwise start a run; then no run happens, and otherwise the poll is the one with no log |
| FindingWatcher.PollCursorAdvances | opencode/player-finding-watcher.cjs:215-326 | The cursor never moves back, and strictly advances when the state is saved |
| FindingWatcher.PollRecordsRun | opencode/player-finding-watcher.cjs:257-320 | A run is recorded under the new id with its exit status, and the finding's hash and title become the newest entries |
| FindingWatcher.PollAgainIsNoop | opencode/player-finding-watcher.cjs:215-221 | Polling the same content again after a save changes nothing |
| StateFingerprint.Key | opencode/hyper-explorer/src/hyper-explorer.mjs:119-123 | The key starts with the URL path and ends with the title, with three separators |
| StateFingerprint.ShortKey | opencode/hyper-explorer/src/hyper-explorer.mjs:125-128 | The short key is at most 37 characters: up to 30 of the path, '\|', then up to 6 of the landmark hash |
| StateFingerprint.Delta | opencode/hyper-explorer/src/hyper-explorer.mjs:139-147 | Each field is listed exactly when it differs, once, in the order url, landmarks, dom, title |
| StateFingerprint.DeltaEmptyIff | opencode/hyper-explorer/src/hyper-explorer.mjs:139-147 | The delta is empty exactly when the four fields agree |
| StateFingerprint.DeltaSymmetric | opencode/hyper-explorer/src/hyper-explorer.mjs:139-147 | The delta does not depend on the order of the two states |
| StateFingerprint.StructuralIffDelta | opencode/hyper-explorer/src/hyper-explorer.mjs:134-147 | A structural change is exactly a delta naming url or landmarks |
| StateFingerprint.DeltaNonEmpty | opencode/hyper-explorer/src/hyper-explorer.mjs:130-147 | States that are not equal have a non-empty delta |
| StateFingerprint.HashTextShape | opencode/hyper-explorer/src/hyper-explorer.mjs:72-79 | A `hashString` result (1 to 7 base-36 digits) holds no '\|', and its first 8 characters are all of it |
| StateFingerprint.EqualsIff | opencode/hyper-explorer/src/hyper-explorer.mjs:119-132 | With `hashString` hashes and a path without '\|', two states are equal exactly when path, landmark hash, DOM hash and title agree |
| StateFingerprint.EqualsIffNoDelta | opencode/hyper-explorer/src/hyper-explorer.mjs:119-147 | With `hashString` hashes and a path without '\|', `equals` holds exactly when `delta` is empty |
| StateFingerprint.BarInPathCollides | opencode/hyper-explorer/src/hyper-explorer.mjs:100-123 | A '\|' kept in the path from the query lets two different pages with well-formed hashes share a key |
| KnowledgeGraph.SetEdge | opencode/hyper-explorer/src/hyper-explorer.mjs:353 | `Map.set`: the key then maps to the edge, a new key is appended, and other entries keep their place |
| KnowledgeGraph.Dedupe | opencode/hyper-explorer/src/hyper-explorer.mjs:330 | The first-occurrence filter keeps each element once and drops no value |
| KnowledgeGraph.DedupeFirstOccurrenceOrder | opencode/hyper-explorer/src/hyper-explorer.mjs:330 | The kept values are ordered by where each first occurs in the input |
| KnowledgeGraph.DedupeKeepsPrefix | opencode/hyper-explorer/src/hyper-explorer.mjs:329-330 | Deduplicating a distinct list followed by more elements keeps that list as the prefix |
| KnowledgeGraph.AddNode | opencode/hyper-explorer/src/hyper-explorer.mjs:300-335 | A new key gets visit count 1, the last 20 errors and a frontier entry; a known key gets visit count + 1, an unchanged frontier and, with new messages, its errors merged without duplicates and capped at 50 |
| KnowledgeGraph.AddNodeKeepsLastErrors | opencode/hyper-explorer/src/hyper-explorer.mjs:326-331 | A revisited node with new messages keeps the last 50 errors of the duplicate-free merge, or all of it when shorter |
| KnowledgeGraph.AddNodeKeepsEarlierErrors | opencode/hyper-explorer/src/hyper-explorer.mjs:329-331 | Below the cap, the earlier errors stay first and in order |
| KnowledgeGraph.MarkExplored | opencode/hyper-explorer/src/hyper-explorer.mjs:337-339 | Removes exactly the key from the frontier |
| KnowledgeGraph.RecordTransition | opencode/hyper-explorer/src/hyper-explorer.mjs:341-372 | The edge from::ref is taken once more; the target joins the frontier exactly when it is not a node; a surprise is logged per the prediction |
| KnowledgeGraph.TakenEdge | opencode/hyper-explorer/src/hyper-explorer.mjs:346-352 | A new edge starts at count 0; the count rises by one and the target is appended to the outcomes |
| KnowledgeGraph.SurprisesAfter | opencode/hyper-explorer/src/hyper-explorer.mjs:355-365 | A surprise is appended exactly when a prediction was given and differs; its delta is never empty |
| KnowledgeGraph.RecordTransitionOtherEdges | opencode/hyper-explorer/src/hyper-explorer.mjs:344-353 | Every other edge is unchanged |
| KnowledgeGraph.AddNodeKeepsInvariants | opencode/hyper-explorer/src/hyper-explorer.mjs:300-335 | Adding a node keeps the frontier within the nodes and the edge table consistent |
| KnowledgeGraph.RecordTransitionFrontier | opencode/hyper-explorer/src/hyper-explorer.mjs:367-369 | The frontier stays within the nodes exactly when the target is already a node |
| KnowledgeGraph.CoverageStats | opencode/hyper-explorer/src/hyper-explorer.mjs:406-410 | explored + frontier = total; explored is non-negative when the frontier holds only nodes; the percent is explored/total·100, or 0 for an empty graph |
| KnowledgeGraph.CoverageCanBeNegative | opencode/hyper-explorer/src/hyper-explorer.mjs:367-410 | One transition on an empty graph gives explored = -1 |
| KnowledgeGraph.CoverageStatsCorrected | opencode/hyper-explorer/src/hyper-explorer.mjs:406-410 | Counting explored as the nodes not on the frontier keeps it within [0, total] and the percent within [0, 100] |
| KnowledgeGraph.CoverageCorrectedAgrees | opencode/hyper-explorer/src/hyper-explorer.mjs:406-410 | When every frontier key is a node, the corrected figures equal `getCoverageStats` |
| KnowledgeGraph.CoverageCorrectedExample | opencode/hyper-explorer/src/hyper-explorer.mjs:367-410 | On the graph where `getCoverageStats` reports -1, the corrected count is 0 |
| KnowledgeGraph.FindPathToFrontier | opencode/hyper-explorer/src/hyper-explorer.mjs:384-404 | [start] when start is on the frontier; otherwise a distinct edge path from start to a frontier key; null only when no frontier key is reachable |
| KnowledgeGraph.Expand | opencode/hyper-explorer/src/hyper-explorer.mjs:396-401 | Expanding a dequeued path keeps the breadth-first invariant |
| Planner.Trim | opencode/hyper-explorer/src/hyper-explorer.mjs:486 | The result is the input without its leading and trailing white space |
| Planner.TrimIdempotent | opencode/hyper-explorer/src/hyper-explorer.mjs:486 | Trimming twice equals trimming once |
| Planner.StripKeepsCharacters | opencode/hyper-explorer/src/hyper-explorer.mjs:486 | Removing find and locate, in any case, introduces no characters |
| Planner.StripWithoutKeywords | opencode/hyper-explorer/src/hyper-explorer.mjs:486 | A goal without find or locate is left as is |
| Planner.FindTargetExample | opencode/hyper-explorer/src/hyper-explorer.mjs:486 | "find Locate it" gives the target "it" |
| Planner.DecomposeGoal | opencode/hyper-explorer/src/hyper-explorer.mjs:450-496 | Every goal yields at least one subtask |
| Planner.MentionedBy | opencode/hyper-explorer/src/hyper-explorer.mjs:453-485 | The category test mentions exactly the categories whose keywords occur in the goal |
| Planner.DecomposeGoalByPriority | opencode/hyper-explorer/src/hyper-explorer.mjs:450-496 | The chain of keyword tests equals the plan of the first mentioned category in the order register, login, squad, match, explore, find, else explore_depth |
| Planner.NoKeywordExploresDeeply | opencode/hyper-explorer/src/hyper-explorer.mjs:491-492 | A goal without keywords gives one explore_depth subtask of depth 5 |
| Planner.DecomposeGoalExamples | opencode/hyper-explorer/src/hyper-explorer.mjs:453-492 | "register then login" gives the register plan; "Find it" matches no keyword (the tests are case-sensitive) and explores deeply |
| Planner.GeneratePlan | opencode/hyper-explorer/src/hyper-explorer.mjs:442-448 | The current plan becomes the decomposition of the goal |
| Planner.MarkCompleted | opencode/hyper-explorer/src/hyper-explorer.mjs:521-523 | Appends the subtask to the completed goals |
| Planner.Recovery | opencode/hyper-explorer/src/hyper-explorer.mjs:502-511 | stuck_on_form gives backtrack then try_alternative_path, dead_end gives find_frontier, unexpected_state gives adapt, any other type nothing; each step has an intent and no depth |
| Planner.RecoveryMatchesTable | opencode/hyper-explorer/src/hyper-explorer.mjs:502-511 | The recovery step types are the entry of a failure-type table, or none |
| Planner.Replan | opencode/hyper-explorer/src/hyper-explorer.mjs:498-519 | The new plan is the recovery steps followed by the current plan from the slice start on |
| Planner.CompletedBeforeFailure | opencode/hyper-explorer/src/hyper-explorer.mjs:1445-1458 | The count of subtasks that completed before the first failure |
| Planner.ReplanAsWrittenRepeatsCompleted | opencode/hyper-explorer/src/hyper-explorer.mjs:498-519 | Called with a number (as the mission loop at lines 1445-1471 does), replan keeps the whole current plan, completed subtasks included |
| Planner.ReplanAsWrittenExample | opencode/hyper-explorer/src/hyper-explorer.mjs:498-519 | A login plan stuck on its second subtask comes back whole after backtrack and try_alternative_path |
| Planner.ReplanCorrected | opencode/hyper-explorer/src/hyper-explorer.mjs:513 | With the completed subtasks passed as a list, the plan resumes after them |
| Planner.ReplanResumesAtFailure | opencode/hyper-explorer/src/hyper-explorer.mjs:498-519 | The corrected replan resumes exactly at the subtask that failed |

## Left out

- File, JSON and process I/O: reading and writing config, results, state and report files, `subprocess.run`, `spawn`, and the 600 s timeout. Their outcomes are inputs.
- Clocks and randomness: `Date.now`, `datetime.utcnow`, `random.uniform` and `elapsed_sec` timing. The random draws and elapsed times are parameters.
- The shadowed first `run_automated` (harness/runner.py:121-130). Python replaces it with the second definition.
- The report table printing and `report.json` writing in `main` of the generator. They are output formatting only.
- Runner.RunAll: the per-result JSON files and `results.json` writing are not modelled.
- Scoring: Python float rounding is not modelled. Scores are exact reals, so the weights sum to exactly 1.
- Scoring.Rank: stability (ties keep their input order) is not stated, only the descending order and the permutation.
- The sha256 block fingerprint and the djb2 `hashString`. They are passed in as functions or taken as given strings.
- `formatCost`, `formatDate` and `code` in formatters.js: float and locale formatting.
- Formatters.FormatDuration: only whole seconds are modelled. `Math.round` of fractional seconds and the `!seconds` path for NaN are not.
- Formatters.Truncate: lengths count Unicode scalar values. JavaScript's `length` and `slice` count UTF-16 code units, so a character outside the Basic Multilingual Plane counts twice there, and `slice` can cut between the halves of a surrogate pair. The model cannot express this.
- Formatters.SeverityBadge and the case mapping in Strings: ASCII-only. JavaScript's `toUpperCase` and `toLowerCase` are Unicode-aware.
- Board.ReorderCards: `Array.from` copies only the array, so the moved card's `columnId` and the target column's `order` are written into card objects the previous state shares. The model returns a new board and leaves the old one as it was.
- Board.ReorderColumns: likewise, `col.order = index` writes into the column objects of the previous state. The model does not express that aliasing.
- DodRunner.SimpleGlob: an artifact whose `path` is not a string makes `path.dirname` throw, and a `path` whose dirname exists but is not a directory makes `readdirSync` throw ENOTDIR. Paths are strings here, and `listDir` answers `None` only for a missing directory, so neither throw is modelled.
- DodRunner.SimpleGlob: patterns containing regular-expression metacharacters other than `*` and `.` are not modelled.
- `runOneCheck` in agency-dod-runner.mjs spawns a shell command. Each check's pass or fail is an input.
- The JSON-RPC server loop of agency-dod-runner.mjs is transport only.
- `parseNewFindings` in the watcher (regex block splitting and title extraction) is a parameter of FindingWatcher.Poll.
- The watcher's ledger writes, dashboard, Telegram notification and feedback file are side effects with no bearing on the state kept.
- FindingWatcher.Poll: the 429 emergency stop is modelled as a result with `exited` set and the polled state unchanged, since `process.exit(1)` comes before the run and before `saveState`, so the cursor does not advance and the in-memory fingerprint pushes are lost. The log message and the exit code 1 are not modelled, and the contents of telemetry_error.log are a parameter (`None` when it cannot be read).
- Formatters.ProgressBar: the percent is a whole number. templates.js:44 passes `state.phases.hammer.percent` as it comes, so a fractional percent may reach `progressBar`, which prints it with its decimals; that case is not modelled.
- Paths: only POSIX paths are modelled, and `path.resolve(cwd, base)` is not; the directory listing is a function of the dirname, so the working directory is part of `listDir`.
- MigrationOrder.CalculateMigrationOrder: it requires unique service names and one dependency entry per source. JavaScript objects keyed by name cannot express anything else. Dependency names that are not services are ignored, as in `calculateMigrationOrder`, where their indegree becomes NaN and is never 0.
- The rest of refactor.js (simulated migration timing, integration tests, breaking-change validation) is synthetic timing and shell work.
- `getUnvisitedNeighbors`, `getRecommendedAction`, `checkGoalAchieved`, `load` and `save` of the explorer are not modelled. They lie outside the graph bookkeeping, search and planning modelled here.
- The StateFingerprint constructor's URL parsing and landmark hashing read the live page. The path and hashes are fields of the fingerprint.
- Playwright, browser and MCP driving (TacticalExecutor, HyperExplorer) are left out.

- KnowledgeGraph.AddNode: for a new key, `stateFingerprint.landmarks.headings.length` (hyper-explorer.mjs:319) throws when the fingerprint has no headings array, though the landmark hash tolerates one. The landmarks are not fields of the model's fingerprint, so that throw is not modelled.
- KnowledgeGraph.FindPathToFrontier: the breadth-first order makes the returned path one with the fewest edges. The contract states only that it is a simple edge path to a frontier key, not that it is shortest.
- KnowledgeGraph.CoverageStats: `percent` is the exact real explored/total·100. `getCoverageStats` returns `toFixed(1)`, a string rounded to one decimal: 80.04 becomes "80.0", which then fails the `> 80` goal test. That rounding is not modelled.
- Runner.PyTypeName: JSON numbers are reals here, so an integral float such as `1.0` is named 'int' where Python's `json` gives a float.
- StateFingerprint.EqualsIff: it is stated only for a URL path without '|'. `extractPath` keeps the query and fragment, which may hold one (see StateFingerprint.BarInPathCollides).

## Findings

| source | as written | input that shows it | evidently intended | confidence | as-written member | corrected member |
|---|---|---|---|---|---|---|
| opencode/telegram/buttons.js:66 | `inline_keyboard` is set to a flat list of button objects | `actionPanel()`: `inline_keyboard[0]` is the re-run button object, not a row | each button on a row of its own, as the Bot API's InlineKeyboardMarkup requires an array of arrays | not executed | Buttons.ActionPanelAsWrittenIsNotMarkup | Buttons.ActionPanelIsMarkup |
| opencode/hyper-explorer/src/hyper-explorer.mjs:513 | `replan` slices by `completedSubtasks.length`, but the mission loop (lines 1445-1471) passes a number, whose `length` is undefined, so `slice` starts at 0 | login plan, first subtask completed, second stuck on the form: the new plan repeats all four subtasks after the recovery steps | resume at the first subtask not completed | not executed | Planner.ReplanAsWrittenRepeatsCompleted | Planner.ReplanResumesAtFailure |
| opencode/hyper-explorer/src/hyper-explorer.mjs:408 | `explored` is the node count minus the frontier size, but `recordTransition` (lines 367-369) puts unseen targets on the frontier before they are nodes | an empty graph after one transition to an unseen state: 0 nodes, frontier of 1, explored -1 | explored counts the nodes not on the frontier, so it lies in [0, total] | not executed | KnowledgeGraph.CoverageCanBeNegative | KnowledgeGraph.CoverageStatsCorrected |

=== FILE: board.dfy ===
/**
 * The Kanban board store (opencode/src/stores/boardStore.ts): columns and cards with reducers
 * for add, update, delete, collapse and drag-and-drop reordering.  Each reducer is a pure
 * function from the old board to the new one; generated ids and `Date.now()` are parameters.
 */
module Board {
  import opened Wrappers
  import opened Seqs

  /** `description?`: `None` is an absent field. */
  datatype Card = Card(id: string, title: string, description: Option<string>, columnId: string, order: int)

  /** `collapsed?`: `None` is an absent field. */
  datatype Column = Column(id: string, title: string, order: int, collapsed: Option<bool>)

  datatype Board = Board(columns: seq<Column>, cards: seq<Card>)

  function ColumnIds(cols: seq<Column>): (ids: seq<string>)
    ensures |ids| == |cols| && forall i :: 0 <= i < |cols| ==> ids[i] == cols[i].id
  {
    seq(|cols|, i requires 0 <= i < |cols| => cols[i].id)
  }

  function CardIds(cards: seq<Card>): (ids: seq<string>)
    ensures |ids| == |cards| && forall i :: 0 <= i < |cards| ==> ids[i] == cards[i].id
  {
    seq(|cards|, i requires 0 <= i < |cards| => cards[i].id)
  }

  /** `findIndex(c => c.id === id)` over columns. */
  function ColumnIndex(cols: seq<Column>, id: string): (i: int)
    ensures -1 <= i < |cols|
    ensures i == -1 <==> id !in ColumnIds(cols)
    ensures 0 <= i ==> cols[i].id == id && forall k :: 0 <= k < i ==> cols[k].id != id
  {
    IndexOf(ColumnIds(cols), id)
  }

  /** `findIndex(c => c.id === id)` over cards. */
  function CardIndex(cards: seq<Card>, id: string): (i: int)
    ensures -1 <= i < |cards|
    ensures i == -1 <==> id !in CardIds(cards)
    ensures 0 <= i ==> cards[i].id == id && forall k :: 0 <= k < i ==> cards[k].id != id
  {
    IndexOf(CardIds(cards), id)
  }

  // ---------------------------------------------------------------------------
  // Columns

  /** `addColumn`: appends a column with the generated id and timestamp order; `collapsed` is absent. */
  function AddColumn(b: Board, title: string, newId: string, now: int): (r: Board)
    ensures |r.columns| == |b.columns| + 1
    ensures r.columns[..|b.columns|] == b.columns
    ensures r.columns[|b.columns|] == Column(newId, title, now, None)
    ensures r.cards == b.cards
  {
    b.(columns := b.columns + [Column(newId, title, now, None)])
  }

  /** `updateColumn`: retitles every column with the id. */
  function UpdateColumn(b: Board, id: string, title: string): (r: Board)
    ensures |r.columns| == |b.columns| && r.cards == b.cards
    ensures forall i :: 0 <= i < |b.columns| && b.columns[i].id == id ==> r.columns[i] == b.columns[i].(title := title)
    ensures forall i :: 0 <= i < |b.columns| && b.columns[i].id != id ==> r.columns[i] == b.columns[i]
  {
    b.(columns := seq(|b.columns|, i requires 0 <= i < |b.columns| =>
      if b.columns[i].id == id then b.columns[i].(title := title) else b.columns[i]))
  }

  /** An unknown id leaves the board as it was. */
  lemma UpdateColumnUnknownId(b: Board, id: string, title: string)
    requires id !in ColumnIds(b.columns)
    ensures UpdateColumn(b, id, title) == b
  {
    assert forall i :: 0 <= i < |b.columns| ==> b.columns[i].id != ColumnIds(b.columns)[i] || b.columns[i].id != id;
  }

  /** `deleteColumn`: drops the column and exactly the cards that belong to it, keeping the order of the rest. */
  function DeleteColumn(b: Board, id: string): (r: Board)
    ensures forall c :: c in r.columns <==> c in b.columns && c.id != id
    ensures forall c :: c in r.cards <==> c in b.cards && c.columnId != id
    ensures SubsequenceOf(r.columns, b.columns) && SubsequenceOf(r.cards, b.cards)
  {
    var keepColumn := (c: Column) => c.id != id;
    var keepCard := (c: Card) => c.columnId != id;
    FilterIsSubsequence(b.columns, keepColumn);
    FilterIsSubsequence(b.cards, keepCard);
    Board(Filter(b.columns, keepColumn), Filter(b.cards, keepCard))
  }

  /** Deleting a column that holds no card leaves the cards exactly as they were. */
  lemma DeleteColumnKeepsOtherCards(b: Board, id: string)
    requires forall c :: c in b.cards ==> c.columnId != id
    ensures DeleteColumn(b, id).cards == b.cards
  {
    FilterAll(b.cards, (c: Card) => c.columnId != id);
  }

  /** `!col.collapsed`, where an absent flag reads as false. */
  function Flip(collapsed: Option<bool>): (r: Option<bool>)
    ensures r.Some? && r.value == !collapsed.GetOr(false)
  {
    Some(!collapsed.GetOr(false))
  }

  /** `toggleColumnCollapse`. */
  function ToggleColumnCollapse(b: Board, id: string): (r: Board)
    ensures |r.columns| == |b.columns| && r.cards == b.cards
    ensures forall i :: 0 <= i < |b.columns| && b.columns[i].id == id ==>
              r.columns[i] == b.columns[i].(collapsed := Flip(b.columns[i].collapsed))
    ensures forall i :: 0 <= i < |b.columns| && b.columns[i].id != id ==> r.columns[i] == b.columns[i]
  {
    b.(columns := seq(|b.columns|, i requires 0 <= i < |b.columns| =>
      if b.columns[i].id == id then b.columns[i].(collapsed := Flip(b.columns[i].collapsed)) else b.columns[i]))
  }

  /** Toggling twice restores a present flag; an absent flag becomes an explicit `false`. */
  lemma ToggleTwice(b: Board, id: string)
    ensures var r := ToggleColumnCollapse(ToggleColumnCollapse(b, id), id);
            && |r.columns| == |b.columns|
            && forall i :: 0 <= i < |b.columns| ==>
                 r.columns[i] == if b.columns[i].id == id then b.columns[i].(collapsed := Some(b.columns[i].collapsed.GetOr(false)))
                                 else b.columns[i]
  {
  }

  // ---------------------------------------------------------------------------
  // Cards

  /** `description || ''` for an optional string. */
  function OrEmpty(description: Option<string>): string {
    if description.Some? && description.value != "" then description.value else ""
  }

  /** `addCard`: appends one card to the column; a missing description becomes ''. */
  function AddCard(b: Board, columnId: string, title: string, description: Option<string>, newId: string, now: int): (r: Board)
    ensures |r.cards| == |b.cards| + 1 && r.cards[..|b.cards|] == b.cards && r.columns == b.columns
    ensures var c := r.cards[|b.cards|];
            c.id == newId && c.columnId == columnId && c.title == title && c.order == now &&
            c.description == Some(description.GetOr(""))
  {
    b.(cards := b.cards + [Card(newId, title, Some(OrEmpty(description)), columnId, now)])
  }

  /** `x ?? fallback`. */
  function Coalesce<T>(x: Option<T>, fallback: T): T {
    if x.Some? then x.value else fallback
  }

  /** `updateCard`: every field passed as undefined keeps its value; other cards are untouched. */
  function UpdateCard(b: Board, id: string, title: Option<string>, description: Option<string>, columnId: Option<string>): (r: Board)
    ensures |r.cards| == |b.cards| && r.columns == b.columns
    ensures forall i :: 0 <= i < |b.cards| && b.cards[i].id != id ==> r.cards[i] == b.cards[i]
    ensures forall i :: 0 <= i < |b.cards| && b.cards[i].id == id ==>
              && r.cards[i].id == id && r.cards[i].order == b.cards[i].order
              && r.cards[i].title == title.GetOr(b.cards[i].title)
              && r.cards[i].columnId == columnId.GetOr(b.cards[i].columnId)
              && (description.None? ==> r.cards[i].description == b.cards[i].description)
              && (description.Some? ==> r.cards[i].description == description)
  {
    b.(cards := seq(|b.cards|, i requires 0 <= i < |b.cards| =>
      var c := b.cards[i];
      if c.id == id then
        c.(title := Coalesce(title, c.title),
           description := if description.Some? then description else c.description,
           columnId := Coalesce(columnId, c.columnId))
      else c))
  }

  /** Passing no fields, or an unknown id, leaves the board unchanged. */
  lemma UpdateCardNoOps(b: Board, id: string, title: Option<string>, description: Option<string>, columnId: Option<string>)
    ensures UpdateCard(b, id, None, None, None) == b
    ensures id !in CardIds(b.cards) ==> UpdateCard(b, id, title, description, columnId) == b
  {
    assert UpdateCard(b, id, None, None, None).cards == b.cards;
    if id !in CardIds(b.cards) {
      assert forall i :: 0 <= i < |b.cards| ==> b.cards[i].id == CardIds(b.cards)[i];
    }
  }

  /** `deleteCard`. */
  function DeleteCard(b: Board, id: string): (r: Board)
    ensures forall c :: c in r.cards <==> c in b.cards && c.id != id
    ensures SubsequenceOf(r.cards, b.cards) && r.columns == b.columns
  {
    var keep := (c: Card) => c.id != id;
    FilterIsSubsequence(b.cards, keep);
    b.(cards := Filter(b.cards, keep))
  }

  // ---------------------------------------------------------------------------
  // Reordering

  /** The number of cards of column `col` in `cards`. */
  function CountIn(cards: seq<Card>, col: string): nat
    decreases |cards|
  {
    if cards == [] then 0
    else CountIn(cards[..|cards| - 1], col) + (if cards[|cards| - 1].columnId == col then 1 else 0)
  }

  /** Gives each card of column `col` its rank among them; other cards are untouched. */
  function Renumber(cards: seq<Card>, col: string): (r: seq<Card>)
    ensures |r| == |cards|
    ensures forall i :: 0 <= i < |cards| ==>
              r[i] == if cards[i].columnId == col then cards[i].(order := CountIn(cards[..i], col)) else cards[i]
    decreases |cards|
  {
    if cards == [] then []
    else
      var n := |cards| - 1;
      var init := Renumber(cards[..n], col);
      assert forall i :: 0 <= i < n ==> cards[..n][..i] == cards[..i];
      var last := cards[n];
      init + [if last.columnId == col then last.(order := CountIn(cards[..n], col)) else last]
  }

  lemma {:induction false} CountInPrefixMonotone(cards: seq<Card>, col: string, i: nat, j: nat)
    requires i <= j <= |cards|
    ensures CountIn(cards[..i], col) <= CountIn(cards[..j], col)
    ensures i < j && cards[i].columnId == col ==> CountIn(cards[..i], col) < CountIn(cards[..j], col)
    decreases j - i
  {
    if i < j {
      CountInPrefixMonotone(cards, col, i, j - 1);
      assert cards[..j][..j - 1] == cards[..j - 1];
      if i == j - 1 {
        assert cards[..j][j - 1] == cards[i];
      }
    }
  }

  lemma {:induction false} CountInRankAttained(cards: seq<Card>, col: string, v: nat)
    requires v < CountIn(cards, col)
    ensures exists i :: 0 <= i < |cards| && cards[i].columnId == col && CountIn(cards[..i], col) == v
    decreases |cards|
  {
    var n := |cards| - 1;
    assert cards[..n + 1] == cards;
    if v < CountIn(cards[..n], col) {
      CountInRankAttained(cards[..n], col, v);
      var i :| 0 <= i < n && cards[..n][i].columnId == col && CountIn(cards[..n][..i], col) == v;
      assert cards[..n][..i] == cards[..i];
    } else {
      assert cards[n].columnId == col && CountIn(cards[..n], col) == v;
    }
  }

  /** Some card of column `col` has order `v`. */
  ghost predicate RankAttained(cards: seq<Card>, col: string, v: int) {
    exists i :: 0 <= i < |cards| && cards[i].columnId == col && cards[i].order == v
  }

  /**
   * After renumbering, the orders of column `col`'s cards are exactly 0..k-1 for its k cards,
   * increasing in sequence order.
   */
  lemma RenumberedOrdersAreRanks(cards: seq<Card>, col: string)
    ensures var r := Renumber(cards, col);
            && (forall i :: 0 <= i < |r| && r[i].columnId == col ==> 0 <= r[i].order < CountIn(cards, col))
            && (forall i, j :: 0 <= i < j < |r| && r[i].columnId == col && r[j].columnId == col ==> r[i].order < r[j].order)
            && (forall v :: 0 <= v < CountIn(cards, col) ==> RankAttained(r, col, v))
  {
    var r := Renumber(cards, col);
    forall i | 0 <= i < |r| && r[i].columnId == col
      ensures 0 <= r[i].order < CountIn(cards, col)
    {
      assert cards[..|cards|] == cards;
      CountInPrefixMonotone(cards, col, i, |cards|);
    }
    forall i, j | 0 <= i < j < |r| && r[i].columnId == col && r[j].columnId == col
      ensures r[i].order < r[j].order
    {
      CountInPrefixMonotone(cards, col, i, j);
    }
    forall v | 0 <= v < CountIn(cards, col)
      ensures RankAttained(r, col, v)
    {
      CountInRankAttained(cards, col, v);
      var i :| 0 <= i < |cards| && cards[i].columnId == col && CountIn(cards[..i], col) == v;
      assert r[i].columnId == col && r[i].order == v;
    }
  }

  /**
   * `reorderCards`: the active card is taken out, moved to the target column when the source
   * and target columns differ, put back at the over card's original index, and the target column
   * is renumbered.  An unknown over id leaves the board unchanged, whatever the active id.  With a
   * known over id the active id must exist too: otherwise `reorderCards` splices in `undefined`
   * and throws when it reads that entry's `columnId`.
   */
  function ReorderCards(b: Board, activeId: string, overId: string, sourceColumnId: string, targetColumnId: string): (r: Board)
    requires activeId in CardIds(b.cards) || CardIndex(b.cards, overId) == -1
    ensures r.columns == b.columns
    ensures CardIndex(b.cards, overId) == -1 ==> r == b
    ensures |r.cards| == |b.cards|
  {
    var cards := b.cards;
    var over := CardIndex(cards, overId);
    if over == -1 then b
    else
      var active := CardIndex(cards, activeId);
      var card := cards[active];
      var moved := if sourceColumnId != targetColumnId then card.(columnId := targetColumnId) else card;
      b.(cards := Renumber(InsertAt(RemoveAt(cards, active), over, moved), targetColumnId))
  }

  /** The active card, moved to the target column when the columns differ, lands at the over card's index. */
  lemma ReorderCardsPlaces(b: Board, activeId: string, overId: string, sourceColumnId: string, targetColumnId: string)
    requires activeId in CardIds(b.cards)
    requires CardIndex(b.cards, overId) != -1
    ensures var moved := ReorderCards(b, activeId, overId, sourceColumnId, targetColumnId).cards[CardIndex(b.cards, overId)];
            && moved.id == activeId
            && moved.columnId == (if sourceColumnId != targetColumnId then targetColumnId else b.cards[CardIndex(b.cards, activeId)].columnId)
            && moved.title == b.cards[CardIndex(b.cards, activeId)].title
  {
    var cards := b.cards;
    var over := CardIndex(cards, overId);
    var active := CardIndex(cards, activeId);
    var card := cards[active];
    var moved := if sourceColumnId != targetColumnId then card.(columnId := targetColumnId) else card;
    var arranged := InsertAt(RemoveAt(cards, active), over, moved);
    assert ReorderCards(b, activeId, overId, sourceColumnId, targetColumnId).cards == Renumber(arranged, targetColumnId);
    assert arranged[over] == moved;
  }

  /** The cards with every order cleared: what a renumbering cannot change. */
  function EraseCardOrders(cards: seq<Card>): (r: seq<Card>)
    ensures |r| == |cards| && forall i :: 0 <= i < |cards| ==> r[i] == cards[i].(order := 0)
  {
    seq(|cards|, i requires 0 <= i < |cards| => cards[i].(order := 0))
  }

  /**
   * Nothing but the moved card and the target column's orders changes: the moved card keeps its
   * id, title and description; with it taken out, the other cards are the original ones in their
   * original order up to their order numbers, and those outside the target column are unchanged.
   */
  lemma ReorderCardsKeepsOthers(b: Board, activeId: string, overId: string, sourceColumnId: string, targetColumnId: string)
    requires activeId in CardIds(b.cards)
    requires CardIndex(b.cards, overId) != -1
    ensures var r := ReorderCards(b, activeId, overId, sourceColumnId, targetColumnId).cards;
            var over, active := CardIndex(b.cards, overId), CardIndex(b.cards, activeId);
            var card := b.cards[active];
            && r[over].(order := 0) == (if sourceColumnId != targetColumnId then card.(columnId := targetColumnId) else card).(order := 0)
            && EraseCardOrders(RemoveAt(r, over)) == EraseCardOrders(RemoveAt(b.cards, active))
            && forall k :: 0 <= k < |b.cards| - 1 && RemoveAt(r, over)[k].columnId != targetColumnId ==>
                 RemoveAt(r, over)[k] == RemoveAt(b.cards, active)[k]
  {
    var cards := b.cards;
    var over := CardIndex(cards, overId);
    var active := CardIndex(cards, activeId);
    var card := cards[active];
    var moved := if sourceColumnId != targetColumnId then card.(columnId := targetColumnId) else card;
    var rest := RemoveAt(cards, active);
    assert ReorderCards(b, activeId, overId, sourceColumnId, targetColumnId).cards ==
           Renumber(InsertAt(rest, over, moved), targetColumnId);
    RenumberInsertKeepsOthers(rest, over, moved, targetColumnId);
  }

  /** Inserting a card and renumbering one column leaves the others in place, up to that column's orders. */
  lemma RenumberInsertKeepsOthers(rest: seq<Card>, at: nat, moved: Card, col: string)
    requires at <= |rest|
    ensures var r := Renumber(InsertAt(rest, at, moved), col);
            && r[at].(order := 0) == moved.(order := 0)
            && EraseCardOrders(RemoveAt(r, at)) == EraseCardOrders(rest)
            && forall k :: 0 <= k < |rest| && RemoveAt(r, at)[k].columnId != col ==> RemoveAt(r, at)[k] == rest[k]
  {
    var arranged := InsertAt(rest, at, moved);
    var r := Renumber(arranged, col);
    var a := RemoveAt(r, at);
    forall k | 0 <= k < |rest|
      ensures a[k].(order := 0) == rest[k].(order := 0)
      ensures a[k].columnId != col ==> a[k] == rest[k]
    {
      if k < at {
        assert a[k] == r[k] && arranged[k] == rest[k];
      } else {
        assert a[k] == r[k + 1] && arranged[k + 1] == rest[k];
      }
    }
    assert EraseCardOrders(a) == EraseCardOrders(rest);
  }

  /** The ids after a remove-and-insert are the same multiset of ids. */
  lemma MoveKeepsIds(cards: seq<Card>, from: nat, to: nat, moved: Card)
    requires from < |cards| && to < |cards| && moved.id == cards[from].id
    ensures multiset(CardIds(InsertAt(RemoveAt(cards, from), to, moved))) == multiset(CardIds(cards))
  {
    var ids := CardIds(cards);
    var removed := RemoveAt(cards, from);
    var removedIds := RemoveAt(ids, from);
    assert CardIds(removed) == removedIds by {
      forall k | 0 <= k < |removed| ensures CardIds(removed)[k] == removedIds[k] {
        if k < from {
          assert removed[k] == cards[k];
        } else {
          assert removed[k] == cards[k + 1];
        }
      }
    }
    CardIdsOfInsert(removed, to, moved);
  }

  lemma CardIdsOfInsert(cards: seq<Card>, i: nat, x: Card)
    requires i <= |cards|
    ensures CardIds(InsertAt(cards, i, x)) == InsertAt(CardIds(cards), i, x.id)
  {
    var a := InsertAt(cards, i, x);
    var b := InsertAt(CardIds(cards), i, x.id);
    forall k | 0 <= k < |a| ensures CardIds(a)[k] == b[k] {
      if k < i {
        assert a[k] == cards[k];
      } else if k > i {
        assert a[k] == cards[k - 1];
      }
    }
  }

  lemma RenumberKeepsIds(cards: seq<Card>, col: string)
    ensures CardIds(Renumber(cards, col)) == CardIds(cards)
  {
  }

  /** Reordering cards is a permutation of the card ids. */
  lemma ReorderCardsPermutes(b: Board, activeId: string, overId: string, sourceColumnId: string, targetColumnId: string)
    requires activeId in CardIds(b.cards)
    ensures multiset(CardIds(ReorderCards(b, activeId, overId, sourceColumnId, targetColumnId).cards)) == multiset(CardIds(b.cards))
  {
    var cards := b.cards;
    var over := CardIndex(cards, overId);
    if over != -1 {
      var active := CardIndex(cards, activeId);
      var card := cards[active];
      var moved := if sourceColumnId != targetColumnId then card.(columnId := targetColumnId) else card;
      var arranged := InsertAt(RemoveAt(cards, active), over, moved);
      assert ReorderCards(b, activeId, overId, sourceColumnId, targetColumnId).cards == Renumber(arranged, targetColumnId);
      MoveKeepsIds(cards, active, over, moved);
      RenumberKeepsIds(arranged, targetColumnId);
    }
  }

  /** After a move, the target column's cards carry the orders 0..k-1, increasing in sequence order. */
  lemma ReorderCardsRenumbersTarget(b: Board, activeId: string, overId: string, sourceColumnId: string, targetColumnId: string)
    requires activeId in CardIds(b.cards)
    requires CardIndex(b.cards, overId) != -1
    ensures var r := ReorderCards(b, activeId, overId, sourceColumnId, targetColumnId).cards;
            && (forall i, j :: 0 <= i < j < |r| && r[i].columnId == targetColumnId && r[j].columnId == targetColumnId ==>
                  0 <= r[i].order < r[j].order)
            && (forall i :: 0 <= i < |r| && r[i].columnId == targetColumnId ==> r[i].order < CountIn(r, targetColumnId))
            && (forall v :: 0 <= v < CountIn(r, targetColumnId) ==> RankAttained(r, targetColumnId, v))
  {
    var cards := b.cards;
    var over := CardIndex(cards, overId);
    var active := CardIndex(cards, activeId);
    var card := cards[active];
    var moved := if sourceColumnId != targetColumnId then card.(columnId := targetColumnId) else card;
    var arranged := InsertAt(RemoveAt(cards, active), over, moved);
    var r := Renumber(arranged, targetColumnId);
    assert ReorderCards(b, activeId, overId, sourceColumnId, targetColumnId).cards == r;
    RenumberedOrdersAreRanks(arranged, targetColumnId);
    RenumberKeepsCount(arranged, targetColumnId);
  }

  lemma {:induction false} RenumberKeepsCount(cards: seq<Card>, col: string)
    ensures CountIn(Renumber(cards, col), col) == CountIn(cards, col)
    decreases |cards|
  {
    if cards != [] {
      var n := |cards| - 1;
      var r := Renumber(cards, col);
      RenumberKeepsCount(cards[..n], col);
      assert r[..n] == Renumber(cards[..n], col);
    }
  }

  /**
   * `reorderColumns`: moves the active column to the over column's index and sets every
   * order to its index.  An unknown over id leaves the board unchanged; an unknown active id
   * moves the last column (`splice(-1, 1)`).
   */
  function ReorderColumns(b: Board, activeId: string, overId: string): (r: Board)
    ensures r.cards == b.cards
    ensures ColumnIndex(b.columns, overId) == -1 ==> r == b
  {
    var cols := b.columns;
    var over := ColumnIndex(cols, overId);
    if over == -1 then b
    else
      var found := ColumnIndex(cols, activeId);
      var active := if found == -1 then |cols| - 1 else found;
      b.(columns := OrderByIndex(MoveColumn(cols, active, over)))
  }

  /**
   * A known over id: the columns are permuted, the moved column (the active one, or the last
   * when the active id is unknown) lands at the over column's index, and every order is its index.
   */
  lemma ReorderColumnsMoves(b: Board, activeId: string, overId: string)
    requires ColumnIndex(b.columns, overId) != -1
    ensures var r := ReorderColumns(b, activeId, overId);
            && multiset(ColumnIds(r.columns)) == multiset(ColumnIds(b.columns))
            && |r.columns| == |b.columns|
            && (forall i :: 0 <= i < |r.columns| ==> r.columns[i].order == i)
            && r.columns[ColumnIndex(b.columns, overId)].id ==
                 (if activeId in ColumnIds(b.columns) then activeId else b.columns[|b.columns| - 1].id)
  {
    var cols := b.columns;
    var found := ColumnIndex(cols, activeId);
    var active := if found == -1 then |cols| - 1 else found;
    var over := ColumnIndex(cols, overId);
    var moved := MoveColumn(cols, active, over);
    var r := OrderByIndex(moved);
    assert ReorderColumns(b, activeId, overId).columns == r;
    assert r[over].id == ColumnIds(r)[over] == ColumnIds(moved)[over] == moved[over].id == cols[active].id;
  }

  /** The columns with every order cleared: what a renumbering cannot change. */
  function EraseColumnOrders(cols: seq<Column>): (r: seq<Column>)
    ensures |r| == |cols| && forall i :: 0 <= i < |cols| ==> r[i] == cols[i].(order := 0)
  {
    seq(|cols|, i requires 0 <= i < |cols| => cols[i].(order := 0))
  }

  /**
   * A known over id: the moved column keeps its id, title and collapsed flag at the over index,
   * and with it taken out, the other columns are the original ones in their original order, up
   * to their order numbers.
   */
  lemma ReorderColumnsKeepsOthers(b: Board, activeId: string, overId: string)
    requires ColumnIndex(b.columns, overId) != -1
    ensures var r := ReorderColumns(b, activeId, overId).columns;
            var over := ColumnIndex(b.columns, overId);
            var active := if activeId in ColumnIds(b.columns) then ColumnIndex(b.columns, activeId) else |b.columns| - 1;
            && r[over] == b.columns[active].(order := over)
            && EraseColumnOrders(RemoveAt(r, over)) == EraseColumnOrders(RemoveAt(b.columns, active))
  {
    var cols := b.columns;
    var found := ColumnIndex(cols, activeId);
    var active := if found == -1 then |cols| - 1 else found;
    var over := ColumnIndex(cols, overId);
    assert ReorderColumns(b, activeId, overId).columns == OrderByIndex(MoveColumn(cols, active, over));
    MoveThenOrderKeepsOthers(cols, active, over);
  }

  /** Moving a column and renumbering by index leaves the others in their order, up to order numbers. */
  lemma MoveThenOrderKeepsOthers(cols: seq<Column>, from: nat, to: nat)
    requires from < |cols| && to < |cols|
    ensures var r := OrderByIndex(MoveColumn(cols, from, to));
            && r[to] == cols[from].(order := to)
            && EraseColumnOrders(RemoveAt(r, to)) == EraseColumnOrders(RemoveAt(cols, from))
  {
    var rest := RemoveAt(cols, from);
    var moved := MoveColumn(cols, from, to);
    assert moved == InsertAt(rest, to, cols[from]);
    var r := OrderByIndex(moved);
    assert r[to] == moved[to].(order := to);
    var a, e := EraseColumnOrders(RemoveAt(r, to)), EraseColumnOrders(rest);
    forall k | 0 <= k < |rest| ensures a[k] == e[k] {
      if k < to {
        assert RemoveAt(r, to)[k] == r[k] == moved[k].(order := k);
        assert moved[k] == rest[k];
      } else {
        assert RemoveAt(r, to)[k] == r[k + 1] == moved[k + 1].(order := k + 1);
        assert moved[k + 1] == rest[k];
      }
    }
    assert a == e;
  }

  /**
   * Three columns, the last dragged onto the first: the order becomes last, first, middle,
   * renumbered 0, 1, 2.
   */
  lemma ReorderColumnsExample(c1: Column, c2: Column, c3: Column, cards: seq<Card>)
    requires c1.id != c2.id && c1.id != c3.id && c2.id != c3.id
    ensures ReorderColumns(Board([c1, c2, c3], cards), c3.id, c1.id).columns ==
              [c3.(order := 0), c1.(order := 1), c2.(order := 2)]
  {
    var cols := [c1, c2, c3];
    ThreeColumnIndexes(c1, c2, c3);
    assert ReorderColumns(Board(cols, cards), c3.id, c1.id).columns == OrderByIndex(MoveColumn(cols, 2, 0));
    MoveLastToFront(c1, c2, c3);
  }

  lemma ThreeColumnIndexes(c1: Column, c2: Column, c3: Column)
    requires c1.id != c2.id && c1.id != c3.id && c2.id != c3.id
    ensures ColumnIndex([c1, c2, c3], c1.id) == 0 && ColumnIndex([c1, c2, c3], c3.id) == 2
  {
    var ids := ColumnIds([c1, c2, c3]);
    assert ids[0] == c1.id && ids[2] == c3.id;
  }

  /** The column move and renumbering of the example above. */
  lemma MoveLastToFront(c1: Column, c2: Column, c3: Column)
    ensures OrderByIndex(MoveColumn([c1, c2, c3], 2, 0)) == [c3.(order := 0), c1.(order := 1), c2.(order := 2)]
  {
    RemoveLastOfThree(c1, c2, c3);
    InsertInFront(c1, c2, c3);
    OrderThree(c3, c1, c2);
  }

  lemma RemoveLastOfThree<T>(x: T, y: T, z: T)
    ensures RemoveAt([x, y, z], 2) == [x, y]
  {
    assert [x, y, z][..2] == [x, y];
  }

  lemma InsertInFront<T>(x: T, y: T, z: T)
    ensures InsertAt([x, y], 0, z) == [z, x, y]
  {
    assert [x, y][..0] == [];
  }

  lemma OrderThree(x: Column, y: Column, z: Column)
    ensures OrderByIndex([x, y, z]) == [x.(order := 0), y.(order := 1), z.(order := 2)]
  {
  }

  /** Takes the column at `from` out and puts it back at `to`. */
  function MoveColumn(cols: seq<Column>, from: nat, to: nat): (r: seq<Column>)
    requires from < |cols| && to < |cols|
    ensures |r| == |cols| && r[to] == cols[from]
    ensures multiset(ColumnIds(r)) == multiset(ColumnIds(cols))
  {
    MoveKeepsColumnIds(cols, from, to);
    InsertAt(RemoveAt(cols, from), to, cols[from])
  }

  /** Sets every column's order to its index. */
  function OrderByIndex(cols: seq<Column>): (r: seq<Column>)
    ensures |r| == |cols| && ColumnIds(r) == ColumnIds(cols)
    ensures forall i :: 0 <= i < |r| ==> r[i].order == i && r[i].title == cols[i].title
  {
    var r := seq(|cols|, i requires 0 <= i < |cols| => cols[i].(order := i));
    assert ColumnIds(r) == ColumnIds(cols);
    r
  }

  lemma MoveKeepsColumnIds(cols: seq<Column>, from: nat, to: nat)
    requires from < |cols| && to < |cols|
    ensures multiset(ColumnIds(InsertAt(RemoveAt(cols, from), to, cols[from]))) == multiset(ColumnIds(cols))
  {
    var ids := ColumnIds(cols);
    var removed := RemoveAt(cols, from);
    var removedIds := RemoveAt(ids, from);
    assert ColumnIds(removed) == removedIds by {
      forall k | 0 <= k < |removed| ensures ColumnIds(removed)[k] == removedIds[k] {
        if k < from {
          assert removed[k] == cols[k];
        } else {
          assert removed[k] == cols[k + 1];
        }
      }
    }
    ColumnIdsOfInsert(removed, to, cols[from]);
  }

  lemma ColumnIdsOfInsert(cols: seq<Column>, i: nat, x: Column)
    requires i <= |cols|
    ensures ColumnIds(InsertAt(cols, i, x)) == InsertAt(ColumnIds(cols), i, x.id)
  {
    var a := InsertAt(cols, i, x);
    var b := InsertAt(ColumnIds(cols), i, x.id);
    forall k | 0 <= k < |a| ensures ColumnIds(a)[k] == b[k] {
      if k < i {
        assert a[k] == cols[k];
      } else if k > i {
        assert a[k] == cols[k - 1];
      }
    }
  }
}

=== FILE: buttons.dfy ===
/**
 * The Telegram inline-keyboard builders (opencode/telegram/buttons.js). A keyboard is a list of
 * rows and a row a list of buttons, as the Bot API's InlineKeyboardMarkup requires.
 */
module Buttons {
  import opened Wrappers
  import opened Strings
  import opened JsonModel

  datatype Button = Button(text: string, callbackData: string, style: Option<string>)

  type Row = seq<Button>

  /** `button(text, callback_data, primary)`: the style key is present only for a primary button. */
  function MakeButton(text: string, callbackData: string, primary: bool): (b: Button)
    ensures b.text == text && b.callbackData == callbackData
    ensures b.style.Some? <==> primary
    ensures primary ==> b.style == Some("primary")
  {
    Button(text, callbackData, if primary then Some("primary") else None)
  }

  const Refresh := "\U{1F504}"
  const CheckMark := "\U{2705}"
  const Muted := "\U{1F515}"
  const Clipboard := "\U{1F4CB}"
  const BarChart := "\U{1F4CA}"
  const CrossMark := "\U{274C}"
  /** The non-breaking hyphen of "Re‑run". */
  const NonBreakingHyphen := "\U{2011}"

  const ReRunLabel := Refresh + " Re" + NonBreakingHyphen + "run Explorer"
  const VerifyLabel := CheckMark + " Verify Fix"

  /** A keyboard of one row holding one plain button. */
  function Single(text: string, callbackData: string): (k: seq<Row>)
    ensures |k| == 1 && |k[0]| == 1
    ensures k[0][0] == Button(text, callbackData, None)
  {
    [[MakeButton(text, callbackData, false)]]
  }

  function ReRunExplorer(): (k: seq<Row>)
    ensures |k| == 1 && |k[0]| == 1 && k[0][0].callbackData == "explorer_run"
  {
    Single(ReRunLabel, "explorer_run")
  }

  function VerifyFix(findingId: string): (k: seq<Row>)
    ensures |k| == 1 && |k[0]| == 1 && k[0][0].callbackData == "verify_fix:" + findingId
  {
    Single(VerifyLabel, "verify_fix:" + findingId)
  }

  function MuteFor(minutes: int): (k: seq<Row>)
    ensures |k| == 1 && |k[0]| == 1 && k[0][0].callbackData == "mute:" + IntToString(minutes)
    ensures Contains(k[0][0].text, IntToString(minutes))
  {
    var caption := Muted + " Mute " + IntToString(minutes) + "m";
    ContainsConcat(Muted + " Mute ", IntToString(minutes), "m");
    Single(caption, "mute:" + IntToString(minutes))
  }

  function ViewLog(kind: string): (k: seq<Row>)
    ensures |k| == 1 && |k[0]| == 1 && k[0][0].callbackData == "view_log:" + kind
  {
    Single(Clipboard + " View " + kind, "view_log:" + kind)
  }

  /** `confirm(action)`: one row with Yes and No. */
  function Confirm(action: string): (k: seq<Row>)
    ensures |k| == 1 && |k[0]| == 2
    ensures k[0][0].callbackData == "confirm:" + action
    ensures k[0][1].callbackData == "confirm:cancel"
  {
    [[MakeButton(CheckMark + " Yes", "confirm:" + action, false),
      MakeButton(CrossMark + " No", "confirm:cancel", false)]]
  }

  // ---------------------------------------------------------------------------
  // combine

  /** An argument of `combine`: a keyboard, or something that is not an array. */
  datatype KeyboardArg = NotArray | Keyboard(rows: seq<Row>)

  /** The rows of every keyboard argument, in order (`filter` then `flat`). */
  function KeptRows(args: seq<KeyboardArg>): (r: seq<Row>)
    decreases |args|
  {
    if args == [] then [] else (if args[0].Keyboard? then args[0].rows else []) + KeptRows(args[1..])
  }

  /** Every row of every keyboard argument is kept. */
  lemma {:induction false} KeptRowsContains(args: seq<KeyboardArg>, i: nat)
    requires i < |args| && args[i].Keyboard?
    ensures multiset(args[i].rows) <= multiset(KeptRows(args))
    decreases |args|
  {
    if i > 0 {
      KeptRowsContains(args[1..], i - 1);
    }
  }

  function RowCount(args: seq<KeyboardArg>): nat
    decreases |args|
  {
    if args == [] then 0 else (if args[0].Keyboard? then |args[0].rows| else 0) + RowCount(args[1..])
  }

  /** `combine(...rows)`: the stacked rows of every non-empty keyboard, or null when there are none. */
  function Combine(args: seq<KeyboardArg>): (r: Option<seq<Row>>)
    ensures r.None? <==> forall i :: 0 <= i < |args| && args[i].Keyboard? ==> args[i].rows == []
    ensures r.Some? ==> r.value == KeptRows(args)
  {
    var rows := KeptRows(args);
    NoRowsIff(args);
    if rows == [] then None else Some(rows)
  }

  lemma {:induction false} NoRowsIff(args: seq<KeyboardArg>)
    ensures KeptRows(args) == [] <==> forall i :: 0 <= i < |args| && args[i].Keyboard? ==> args[i].rows == []
    decreases |args|
  {
    if args != [] {
      NoRowsIff(args[1..]);
      assert forall i :: 1 <= i < |args| ==> args[i] == args[1..][i - 1];
    }
  }

  lemma {:induction false} KeptRowsLength(args: seq<KeyboardArg>)
    ensures |KeptRows(args)| == RowCount(args)
    decreases |args|
  {
    if args != [] {
      KeptRowsLength(args[1..]);
    }
  }

  /** Combining two argument lists stacks their keyboards. */
  lemma {:induction false} KeptRowsAppend(a: seq<KeyboardArg>, b: seq<KeyboardArg>)
    ensures KeptRows(a + b) == KeptRows(a) + KeptRows(b)
    decreases |a|
  {
    if a == [] {
      assert a + b == b;
    } else {
      assert (a + b)[1..] == a[1..] + b;
      KeptRowsAppend(a[1..], b);
    }
  }

  /** The cases the builders' tests exercise. */
  lemma CombineExamples()
    ensures Combine([Keyboard(ReRunExplorer()), Keyboard(MuteFor(30))]).value
              == ReRunExplorer() + MuteFor(30)
    ensures Combine([Keyboard([]), Keyboard(ReRunExplorer())]).value == ReRunExplorer()
    ensures Combine([Keyboard([]), Keyboard([])]).None?
    ensures Combine([NotArray]).None?
  {
    var x := [Keyboard(ReRunExplorer()), Keyboard(MuteFor(30))];
    assert KeptRows(x[1..]) == MuteFor(30) by {
      assert KeptRows(x[1..][1..]) == [];
    }
    var y := [Keyboard([]), Keyboard(ReRunExplorer())];
    assert KeptRows(y[1..]) == ReRunExplorer() by {
      assert KeptRows(y[1..][1..]) == [];
    }
  }

  // ---------------------------------------------------------------------------
  // actionPanel

  /** The panel's buttons in order; the verify button only for a truthy finding id. */
  function PanelButtons(findingId: Option<string>): (r: seq<Button>)
    ensures |r| == if findingId.Some? && findingId.value != "" then 4 else 3
  {
    [MakeButton(ReRunLabel, "explorer_run", false), MakeButton(BarChart + " Status", "status", false)]
    + (if findingId.Some? && findingId.value != "" then [MakeButton(VerifyLabel, "verify_fix:" + findingId.value, false)] else [])
    + [MakeButton(Muted + " Mute 30m", "mute:30", false)]
  }

  function Callbacks(buttons: seq<Button>): (r: seq<string>)
    ensures |r| == |buttons| && forall i :: 0 <= i < |r| ==> r[i] == buttons[i].callbackData
  {
    seq(|buttons|, i requires 0 <= i < |buttons| => buttons[i].callbackData)
  }

  function Flatten(rows: seq<Row>): (r: seq<Button>)
    decreases |rows|
  {
    if rows == [] then [] else rows[0] + Flatten(rows[1..])
  }

  /** `actionPanel` corrected: each panel button on a row of its own. */
  function ActionPanel(findingId: Option<string>): (k: seq<Row>)
    ensures |k| == |PanelButtons(findingId)|
    ensures forall i :: 0 <= i < |k| ==> k[i] == [PanelButtons(findingId)[i]]
  {
    var b := PanelButtons(findingId);
    seq(|b|, i requires 0 <= i < |b| => [b[i]])
  }

  lemma {:induction false} FlattenSingletons(k: seq<Row>, b: seq<Button>)
    requires |k| == |b| && forall i :: 0 <= i < |k| ==> k[i] == [b[i]]
    ensures Flatten(k) == b
    decreases |k|
  {
    if k != [] {
      FlattenSingletons(k[1..], b[1..]);
    }
  }

  /** The panel offers re-run, status, verify (exactly when a finding id is given) and mute, in that order. */
  lemma ActionPanelCallbacks(findingId: Option<string>)
    ensures Callbacks(Flatten(ActionPanel(findingId)))
              == ["explorer_run", "status"]
                 + (if findingId.Some? && findingId.value != "" then ["verify_fix:" + findingId.value] else [])
                 + ["mute:30"]
  {
    FlattenSingletons(ActionPanel(findingId), PanelButtons(findingId));
  }

  // Encoding as JSON, for comparing the shape with what the Bot API accepts.

  function ButtonJson(b: Button): (j: Json)
    ensures j.JObj? && "text" in j.fields && "callback_data" in j.fields
  {
    var base := map["text" := JStr(b.text), "callback_data" := JStr(b.callbackData)];
    JObj(if b.style.Some? then base["style" := JStr(b.style.value)] else base)
  }

  predicate IsInlineButton(j: Json) {
    j.JObj? && "text" in j.fields && j.fields["text"].JStr?
    && "callback_data" in j.fields && j.fields["callback_data"].JStr?
  }

  /** An array of rows, each an array of buttons. */
  predicate IsInlineKeyboard(j: Json) {
    j.JArr? && forall i :: 0 <= i < |j.items| ==>
      j.items[i].JArr? && forall k :: 0 <= k < |j.items[i].items| ==> IsInlineButton(j.items[i].items[k])
  }

  /** An object whose `inline_keyboard` is an inline keyboard. */
  predicate IsInlineKeyboardMarkup(j: Json) {
    j.JObj? && "inline_keyboard" in j.fields && IsInlineKeyboard(j.fields["inline_keyboard"])
  }

  function RowJson(row: Row): (j: Json)
    ensures j.JArr? && |j.items| == |row| && forall k :: 0 <= k < |row| ==> j.items[k] == ButtonJson(row[k])
  {
    JArr(seq(|row|, k requires 0 <= k < |row| => ButtonJson(row[k])))
  }

  function MarkupJson(rows: seq<Row>): (j: Json)
    ensures IsInlineKeyboardMarkup(j)
  {
    var kb := JArr(seq(|rows|, i requires 0 <= i < |rows| => RowJson(rows[i])));
    assert IsInlineKeyboard(kb) by {
      forall i | 0 <= i < |kb.items|
        ensures kb.items[i].JArr? && forall k :: 0 <= k < |kb.items[i].items| ==> IsInlineButton(kb.items[i].items[k])
      {
        assert kb.items[i] == RowJson(rows[i]);
      }
    }
    JObj(map["inline_keyboard" := kb])
  }

  /** `actionPanel` as written: `inline_keyboard` holds the buttons themselves, not rows of them. */
  function ActionPanelAsWritten(findingId: Option<string>): (j: Json)
    ensures j.JObj? && "inline_keyboard" in j.fields
  {
    var b := PanelButtons(findingId);
    JObj(map["inline_keyboard" := JArr(seq(|b|, i requires 0 <= i < |b| => ButtonJson(b[i])))])
  }

  /** The as-written panel is not an InlineKeyboardMarkup: its first row is a button object. */
  lemma ActionPanelAsWrittenIsNotMarkup(findingId: Option<string>)
    ensures !IsInlineKeyboardMarkup(ActionPanelAsWritten(findingId))
  {
    var kb := ActionPanelAsWritten(findingId).fields["inline_keyboard"];
    assert kb.items[0] == ButtonJson(PanelButtons(findingId)[0]);
  }

  /** The corrected panel is well-formed markup holding the same buttons in the same order. */
  lemma ActionPanelIsMarkup(findingId: Option<string>)
    ensures IsInlineKeyboardMarkup(MarkupJson(ActionPanel(findingId)))
    ensures Flatten(ActionPanel(findingId)) == PanelButtons(findingId)
  {
    FlattenSingletons(ActionPanel(findingId), PanelButtons(findingId));
  }
}

=== FILE: checks.dfy ===
/**
 * A Definition-of-Done check as both scope filters read it: optional `id`, `cwd` and `scope`
 * strings (the shell command is only used to run it).
 */
module Checks {
  import opened Wrappers
  import opened Strings

  datatype Check = Check(id: Option<string>, cwd: Option<string>, scope: Option<string>)

  /** `(field || '').toLowerCase()`. */
  function FieldText(field: Option<string>): (r: string)
    ensures |r| == |field.GetOr("")|
    ensures field.None? ==> r == ""
  {
    Lower(field.GetOr(""))
  }

  /** A scope under which both filters keep every check: missing, empty, 'full' or 'unknown'. */
  predicate KeepsAll(scope: Option<string>) {
    scope.None? || scope.value in {"", "full", "unknown"}
  }
}

=== FILE: dod_runner.dfy ===
/**
 * The Definition-of-Done runner (opencode/mcp-servers/agency-dod-runner.mjs): artifact globbing,
 * loading the project DOD after parsing, its own scope filter, and the pass/fail gate.  Running
 * the check commands and listing directories are inputs.
 */
module DodRunner {
  import opened Wrappers
  import opened Seqs
  import opened Strings
  import opened JsonModel
  import opened Checks
  import opened Paths

  // ---------------------------------------------------------------------------
  // simpleGlob

  /**
   * The anchored RegExp `simpleGlob` builds from a file-name pattern: `*` matches any run of
   * characters except line terminators (JavaScript `.*`), every other character only itself.
   */
  predicate GlobMatch(pattern: string, s: string)
    decreases |pattern| + |s|
  {
    if pattern == [] then s == []
    else if pattern[0] == '*' then
      GlobMatch(pattern[1..], s) || (s != [] && !IsLineTerminator(s[0]) && GlobMatch(pattern, s[1..]))
    else s != [] && s[0] == pattern[0] && GlobMatch(pattern[1..], s[1..])
  }

  predicate NoLineTerminator(s: string) {
    forall i :: 0 <= i < |s| ==> !IsLineTerminator(s[i])
  }

  lemma NoLineTerminatorCons(c: char, u: string)
    ensures NoLineTerminator([c] + u) <==> !IsLineTerminator(c) && NoLineTerminator(u)
  {
    var h := [c] + u;
    assert h[0] == c;
    assert forall j :: 0 <= j < |u| ==> u[j] == h[j + 1];
  }

  /** A pattern without `*` matches exactly itself: `.` is literal. */
  lemma {:induction false} GlobLiteral(pattern: string, s: string)
    requires '*' !in pattern
    ensures GlobMatch(pattern, s) <==> s == pattern
    decreases |pattern|
  {
    if pattern != [] {
      assert pattern[0] != '*';
      assert '*' !in pattern[1..] by {
        forall k | 0 <= k < |pattern[1..]| ensures pattern[1..][k] != '*' {
          assert pattern[1..][k] == pattern[k + 1];
        }
      }
      if s != [] {
        GlobLiteral(pattern[1..], s[1..]);
        if s[0] == pattern[0] && s[1..] == pattern[1..] {
          assert s == [s[0]] + s[1..] && pattern == [pattern[0]] + pattern[1..];
        }
      }
    }
  }

  /** A leading `*` followed by a literal tail matches exactly the names ending in the tail with no line break before it. */
  lemma {:induction false} GlobStarSuffix(b: string, s: string)
    requires '*' !in b
    ensures GlobMatch("*" + b, s) <==> EndsWith(s, b) && NoLineTerminator(s[..|s| - |b|])
    decreases |s|
  {
    var p := "*" + b;
    assert p[1..] == b;
    GlobLiteral(b, s);
    if |s| < |b| {
      if s != [] {
        GlobStarSuffix(b, s[1..]);
      }
    } else if |s| == |b| {
      assert s[|s| - |b|..] == s && s[..|s| - |b|] == [];
      if s != [] {
        GlobStarSuffix(b, s[1..]);
      }
    } else {
      var t := s[1..];
      GlobStarSuffix(b, t);
      assert s[|s| - |b|..] == t[|t| - |b|..];
      assert EndsWith(s, b) <==> EndsWith(t, b);
      assert s[..|s| - |b|] == [s[0]] + t[..|t| - |b|];
      NoLineTerminatorCons(s[0], t[..|t| - |b|]);
    }
  }

  /** A pattern with one `*`: literal head, any line-break-free middle, literal tail. */
  lemma {:induction false} GlobOneStar(a: string, b: string, s: string)
    requires '*' !in a && '*' !in b
    ensures GlobMatch(a + "*" + b, s) <==>
              StartsWith(s, a) && EndsWith(s[|a|..], b) && NoLineTerminator(s[|a|..][..|s| - |a| - |b|])
    decreases |a|
  {
    if a == [] {
      assert a + "*" + b == "*" + b;
      GlobStarSuffix(b, s);
      assert s[|a|..] == s;
    } else {
      var p := a + "*" + b;
      assert p[0] == a[0] && p[0] != '*';
      assert p[1..] == a[1..] + "*" + b;
      assert '*' !in a[1..] by {
        forall k | 0 <= k < |a[1..]| ensures a[1..][k] != '*' {
          assert a[1..][k] == a[k + 1];
        }
      }
      if s != [] {
        GlobOneStar(a[1..], b, s[1..]);
        if |a| <= |s| {
          assert s[1..][|a[1..]|..] == s[|a|..];
          if StartsWith(s, a) {
            assert s[1..][..|a[1..]|] == s[..|a|][1..];
          }
          if s[0] == a[0] && StartsWith(s[1..], a[1..]) {
            assert s[..|a|] == [s[0]] + s[1..][..|a[1..]|];
            assert a == [a[0]] + a[1..];
          }
        }
      }
    }
  }

  /**
   * `simpleGlob(pattern, cwd)`: `listDir` gives the entries of a directory relative to `cwd`,
   * or `None` when it does not exist.
   */
  function SimpleGlob(pattern: string, listDir: string -> Option<seq<string>>): (r: seq<string>)
    ensures listDir(DirName(pattern)).None? ==> r == []
    ensures forall x :: x in r ==> exists f :: f in listDir(DirName(pattern)).GetOr([]) && GlobMatch(BaseName(pattern), f) && x == JoinPath(DirName(pattern), f)
  {
    GlobAt(DirName(pattern), BaseName(pattern), listDir(DirName(pattern)))
  }

  /** Every listed entry of the pattern's directory that its base name matches is reported, joined to the directory. */
  lemma SimpleGlobComplete(pattern: string, listDir: string -> Option<seq<string>>, f: string)
    requires f in listDir(DirName(pattern)).GetOr([]) && GlobMatch(BaseName(pattern), f)
    ensures JoinPath(DirName(pattern), f) in SimpleGlob(pattern, listDir)
  {
  }

  /** The matches of `name` in the listing of the directory `base`; none when it does not exist. */
  function GlobAt(base: string, name: string, listing: Option<seq<string>>): (r: seq<string>)
    ensures listing.None? ==> r == []
    ensures forall x :: x in r ==> exists f :: f in listing.GetOr([]) && GlobMatch(name, f) && x == JoinPath(base, f)
    ensures forall f :: f in listing.GetOr([]) && GlobMatch(name, f) ==> JoinPath(base, f) in r
  {
    match listing
    case None => []
    case Some(entries) => GlobIn(base, name, entries)
  }

  /** `entries.filter(f => regex.test(f)).map(f => path.join(base, f))`, in listing order. */
  function GlobIn(base: string, name: string, entries: seq<string>): (r: seq<string>)
    ensures |r| <= |entries|
    ensures forall x :: x in r ==> exists f :: f in entries && GlobMatch(name, f) && x == JoinPath(base, f)
    ensures forall f :: f in entries && GlobMatch(name, f) ==> JoinPath(base, f) in r
    decreases |entries|
  {
    if entries == [] then []
    else
      var f := entries[0];
      assert entries == [f] + entries[1..];
      (if GlobMatch(name, f) then [JoinPath(base, f)] else []) + GlobIn(base, name, entries[1..])
  }

  /**
   * A directory artifact such as `dist/`: trailing slashes leave the directory "." and the base
   * name the directory's own name, so the glob reports the name exactly when the working
   * directory lists it.
   */
  lemma SimpleGlobDirectoryPattern(name: string, listDir: string -> Option<seq<string>>)
    requires IsName(name) && '*' !in name
    ensures name in SimpleGlob(name + "/", listDir) <==> listDir(".").Some? && name in listDir(".").value
    ensures forall x :: x in SimpleGlob(name + "/", listDir) ==> x == name
  {
    var pattern := name + "/";
    OneName(name, 1);
    assert name + Slashes(1) == pattern;
    assert DirName(pattern) == "." && BaseName(pattern) == name;
    JoinPathDot(name);
    forall f ensures GlobMatch(name, f) <==> f == name {
      GlobLiteral(name, f);
    }
    if listDir(".").Some? && name in listDir(".").value {
      SimpleGlobComplete(pattern, listDir, name);
    }
  }

  // ---------------------------------------------------------------------------
  // loadProjectDOD

  datatype Dod = Dod(artifacts: seq<Json>, checks: seq<Json>, gate: Json)

  /**
   * `loadProjectDOD` after parsing: `agency` is agency.json and `dodFile` is .agency/dod.json,
   * each `None` when missing or unparsable.  A truthy `definitionOfDone` in agency.json wins.
   */
  function LoadProjectDod(agency: Option<Json>, dodFile: Option<Json>): (r: Option<Dod>)
    ensures agency.Some? && Present(Get(agency.value, "definitionOfDone")) ==>
              var d := Get(agency.value, "definitionOfDone").value;
              && r.Some?
              && r.value.artifacts == ArrayField(d, "artifacts")
              && r.value.checks == ArrayField(d, "checks")
              && r.value.gate == OrElse(Get(d, "gate"), JStr("all"))
    ensures !(agency.Some? && Present(Get(agency.value, "definitionOfDone"))) ==>
              (r.Some? <==> dodFile.Some? && Truthy(dodFile.value))
    ensures !(agency.Some? && Present(Get(agency.value, "definitionOfDone"))) && dodFile.Some? && Truthy(dodFile.value) ==>
              && r.Some?
              && r.value.artifacts == ArrayField(dodFile.value, "artifacts")
              && r.value.checks == ArrayField(dodFile.value, "checks")
              && r.value.gate == OrElse(Get(dodFile.value, "gate"), JStr("all"))
    ensures r.Some? ==> Truthy(r.value.gate)
  {
    var fromAgency := if agency.Some? && Present(Get(agency.value, "definitionOfDone")) then Get(agency.value, "definitionOfDone") else None;
    var raw := if fromAgency.Some? then fromAgency else if dodFile.Some? && Truthy(dodFile.value) then dodFile else None;
    match raw
    case None => None
    case Some(d) =>
      Some(Dod(ArrayField(d, "artifacts"), ArrayField(d, "checks"), OrElse(Get(d, "gate"), JStr("all"))))
  }

  /**
   * An empty `definitionOfDone` object still counts (objects are truthy): no artifacts, no checks,
   * gate `all`, whatever .agency/dod.json says.
   */
  lemma LoadProjectDodDefaults(dodFile: Option<Json>)
    ensures LoadProjectDod(Some(JObj(map["definitionOfDone" := JObj(map[])])), dodFile) == Some(Dod([], [], JStr("all")))
  {
  }

  /** A dod.json whose arrays are not arrays is read as empty lists; its gate string is kept. */
  lemma LoadProjectDodNonArrays()
    ensures var d := JObj(map["artifacts" := JStr("dist"), "checks" := JNull, "gate" := JStr("any")]);
            LoadProjectDod(None, Some(d)) == Some(Dod([], [], JStr("any")))
  {
  }

  /** `Array.isArray(d.key) ? d.key : []`. */
  function ArrayField(d: Json, key: string): (r: seq<Json>)
    ensures Get(d, key).Some? && Get(d, key).value.JArr? ==> r == Get(d, key).value.items
    ensures !(Get(d, key).Some? && Get(d, key).value.JArr?) ==> r == []
  {
    match Get(d, key)
    case Some(JArr(items)) => items
    case _ => []
  }

  /** agency.json's definitionOfDone takes precedence over .agency/dod.json. */
  lemma AgencyJsonTakesPrecedence(agency: Json, dodFile: Option<Json>)
    requires Present(Get(agency, "definitionOfDone"))
    ensures LoadProjectDod(Some(agency), dodFile) == LoadProjectDod(Some(agency), None)
  {
  }

  // ---------------------------------------------------------------------------
  // filterChecksByScope (DOD runner version)

  /** The runner's per-check test: no `scope` field match for front/backend, and a raw `scope === 'doc'`. */
  predicate DodKeepsForScope(scope: string, c: Check) {
    var cwd := FieldText(c.cwd);
    var id := FieldText(c.id);
    if scope == "frontend_only" then Contains(cwd, "frontend") || Contains(id, "frontend")
    else if scope == "backend_only" then Contains(cwd, "backend") || Contains(id, "backend")
    else if scope == "doc_only" then c.scope == Some("doc") || Contains(id, "doc")
    else true
  }

  function DodFilterChecksByScope(checks: seq<Check>, scope: Option<string>): (r: seq<Check>)
    ensures KeepsAll(scope) ==> r == checks
    ensures SubsequenceOf(r, checks)
    ensures !KeepsAll(scope) ==> forall c :: c in r <==> c in checks && DodKeepsForScope(scope.value, c)
  {
    if KeepsAll(scope) then
      SubsequenceOfSelf(checks);
      checks
    else
      var keep := (c: Check) => DodKeepsForScope(scope.value, c);
      FilterIsSubsequence(checks, keep);
      Filter(checks, keep)
  }

  // ---------------------------------------------------------------------------
  // runDodChecks

  datatype Artifact = Artifact(path: string, optional: bool)

  datatype ArtifactResult = ArtifactResult(passed: bool, optional: bool)

  datatype Definition = Definition(artifacts: seq<Artifact>, checks: seq<Check>, gate: Json)

  datatype DodOutcome = DodOutcome(passed: bool, results: seq<bool>, artifactResults: map<string, ArtifactResult>)

  function Required(artifacts: seq<Artifact>): (r: seq<Artifact>)
    ensures forall a :: a in r <==> a in artifacts && !a.optional
  {
    Filter(artifacts, (a: Artifact) => !a.optional)
  }

  function Optional(artifacts: seq<Artifact>): (r: seq<Artifact>)
    ensures forall a :: a in r <==> a in artifacts && a.optional
  {
    Filter(artifacts, (a: Artifact) => a.optional)
  }

  /**
   * The first loop: one entry per required artifact path, passed iff `found` holds of it;
   * `runDodChecks` passes "the glob matched something" as `found`.
   */
  function RecordRequired(required: seq<Artifact>, found: string -> bool): (m: map<string, ArtifactResult>)
    ensures forall a :: a in required ==> a.path in m && m[a.path] == ArtifactResult(found(a.path), false)
    ensures forall p :: p in m ==> exists a :: a in required && a.path == p
    decreases |required|
  {
    if required == [] then map[]
    else
      var init := required[..|required| - 1];
      var a := required[|required| - 1];
      assert required == init + [a];
      RecordRequired(init, found)[a.path := ArtifactResult(found(a.path), false)]
  }

  /** Whether the glob `pattern` matches anything. */
  function GlobFound(listDir: string -> Option<seq<string>>): (found: string -> bool)
    ensures forall pattern :: found(pattern) == (SimpleGlob(pattern, listDir) != [])
  {
    pattern => SimpleGlob(pattern, listDir) != []
  }

  /** The second loop: every optional artifact path is overwritten to passed. */
  function RecordOptional(m: map<string, ArtifactResult>, optional: seq<Artifact>): (r: map<string, ArtifactResult>)
    ensures forall a :: a in optional ==> a.path in r && r[a.path] == ArtifactResult(true, true)
    ensures forall p :: p in m && (forall a :: a in optional ==> a.path != p) ==> p in r && r[p] == m[p]
    ensures forall p :: p in r ==> p in m || exists a :: a in optional && a.path == p
    decreases |optional|
  {
    if optional == [] then m
    else
      var init := optional[..|optional| - 1];
      var a := optional[|optional| - 1];
      assert optional == init + [a];
      RecordOptional(m, init)[a.path := ArtifactResult(true, true)]
  }

  /** The artifact map `runDodChecks` builds. */
  function ArtifactResults(artifacts: seq<Artifact>, listDir: string -> Option<seq<string>>): map<string, ArtifactResult> {
    RecordOptional(RecordRequired(Required(artifacts), GlobFound(listDir)), Optional(artifacts))
  }

  /** `requiredArtifacts.every(ar => artifactResults[ar.path]?.passed !== false)`. */
  predicate AllArtifactsPass(artifacts: seq<Artifact>, results: map<string, ArtifactResult>) {
    forall a :: a in Required(artifacts) ==> !(a.path in results && !results[a.path].passed)
  }

  function CountTrue(s: seq<bool>): (n: nat)
    ensures n <= |s|
    ensures n == |s| <==> forall i :: 0 <= i < |s| ==> s[i]
    ensures n >= 1 <==> exists i :: 0 <= i < |s| && s[i]
    decreases |s|
  {
    if s == [] then 0
    else
      var rest := CountTrue(s[1..]);
      assert forall i :: 1 <= i < |s| ==> s[i] == s[1..][i - 1];
      (if s[0] then 1 else 0) + rest
  }

  /** The gate decision given the per-check results. */
  function GateDecision(gate: Json, results: seq<bool>, artifactsPass: bool): (passed: bool)
    ensures gate == JStr("all") ==> (passed <==> (forall i :: 0 <= i < |results| ==> results[i]) && artifactsPass)
    ensures gate == JStr("any") ==> (passed <==> (exists i :: 0 <= i < |results| && results[i]) && artifactsPass)
    ensures gate != JStr("all") && gate != JStr("any") ==> passed == artifactsPass
  {
    var passCount := CountTrue(results);
    if gate == JStr("all") then passCount == |results| && artifactsPass
    else if gate == JStr("any") then passCount >= 1 && artifactsPass
    else artifactsPass
  }

  /**
   * `runDodChecks`: `checkPassed[i]` is whether the i-th check kept by the scope exited with 0.
   * Without a project DOD the gate is skipped and passes.
   */
  function RunDodChecks(dod: Option<Definition>, scope: Option<string>, checkPassed: seq<bool>,
                        listDir: string -> Option<seq<string>>): (r: DodOutcome)
    requires dod.Some? ==> |checkPassed| == |DodFilterChecksByScope(dod.value.checks, scope)|
    ensures dod.None? ==> r == DodOutcome(true, [], map[])
    ensures dod.Some? ==> r.results == checkPassed
    ensures dod.Some? ==> r.artifactResults == ArtifactResults(dod.value.artifacts, listDir)
    ensures dod.Some? ==>
              r.passed == GateDecision(dod.value.gate, checkPassed, AllArtifactsPass(dod.value.artifacts, r.artifactResults))
  {
    match dod
    case None => DodOutcome(true, [], map[])
    case Some(d) =>
      var artifactResults := ArtifactResults(d.artifacts, listDir);
      DodOutcome(GateDecision(d.gate, checkPassed, AllArtifactsPass(d.artifacts, artifactResults)), checkPassed, artifactResults)
  }

  /** Under gate 'any', a run with no checks fails however the artifacts fare. */
  lemma AnyGateNeedsACheck(artifactsPass: bool)
    ensures !GateDecision(JStr("any"), [], artifactsPass)
  {
  }

  /**
   * Artifacts pass iff every required artifact's glob matched, except that a required path also
   * listed as optional is recorded as passed.
   */
  lemma ArtifactsPassCharacterized(artifacts: seq<Artifact>, listDir: string -> Option<seq<string>>)
    ensures AllArtifactsPass(artifacts, ArtifactResults(artifacts, listDir)) <==>
              forall a :: a in artifacts && !a.optional ==>
                |SimpleGlob(a.path, listDir)| > 0 || exists o :: o in artifacts && o.optional && o.path == a.path
  {
    var req := RecordRequired(Required(artifacts), GlobFound(listDir));
    var res := ArtifactResults(artifacts, listDir);
    forall a | a in artifacts && !a.optional
      ensures (a.path in res && !res[a.path].passed) <==>
                !(|SimpleGlob(a.path, listDir)| > 0 || exists o :: o in artifacts && o.optional && o.path == a.path)
    {
      assert a in Required(artifacts);
      if exists o :: o in artifacts && o.optional && o.path == a.path {
        var o :| o in artifacts && o.optional && o.path == a.path;
        assert o in Optional(artifacts);
      } else {
        assert forall o :: o in Optional(artifacts) ==> o.path != a.path;
      }
    }
  }

  /**
   * The two gate readers disagree on unknown gates: the orchestrator core treats any gate
   * other than 'any' or 'none' as 'all', the runner as artifacts-only.
   */
  lemma UnknownGateDiverges(artifactsPass: bool)
    ensures GateDecision(JStr("sometimes"), [false], artifactsPass) == artifactsPass
    ensures !GateDecision(JStr("all"), [false], artifactsPass)
  {
  }
}

=== FILE: finding_watcher.dfy ===
/**
 * The Player finding watcher (opencode/player-finding-watcher.cjs): it polls the explorer's
 * findings file, deduplicates new findings by content hash and by a "semantic" title
 * fingerprint, runs the Agency for at most one new finding per poll and records its outcome.
 */
module FindingWatcher {
  import opened Wrappers
  import opened Seqs
  import opened Strings

  // ---------------------------------------------------------------------------
  // semanticFingerprint

  predicate WordChar(c: char) { IsAsciiLower(c) || IsDigit(c) }

  /** Every character is a word character or a space. */
  predicate WordsAndSpaces(s: string) {
    forall i :: 0 <= i < |s| ==> WordChar(s[i]) || s[i] == ' '
  }

  /** `.replace(/[^a-z0-9]/g, ' ')`. */
  function BlankNonWord(s: string): (r: string)
    ensures |r| == |s| && WordsAndSpaces(r)
    ensures forall i :: 0 <= i < |s| ==> r[i] == if WordChar(s[i]) then s[i] else ' '
  {
    seq(|s|, i requires 0 <= i < |s| => if WordChar(s[i]) then s[i] else ' ')
  }

  /** `.replace(/\s+/g, ' ')` on text whose only whitespace is the space. */
  function CollapseSpaces(s: string): (r: string)
    ensures |r| <= |s|
    ensures WordsAndSpaces(s) ==> WordsAndSpaces(r)
    decreases |s|
  {
    if s == [] then []
    else if |s| >= 2 && s[0] == ' ' && s[1] == ' ' then CollapseSpaces(s[1..])
    else
      var rest := CollapseSpaces(s[1..]);
      assert WordsAndSpaces(s) ==> WordsAndSpaces(s[1..]) by {
        if WordsAndSpaces(s) {
          forall i | 0 <= i < |s[1..]| ensures WordChar(s[1..][i]) || s[1..][i] == ' ' {
            assert s[1..][i] == s[i + 1];
          }
        }
      }
      [s[0]] + rest
  }

  /** `.trim()` on text whose only whitespace is the space. */
  function TrimSpaces(s: string): (r: string)
    ensures |r| <= |s|
    ensures WordsAndSpaces(s) ==> WordsAndSpaces(r)
    ensures r == [] || (r[0] != ' ' && r[|r| - 1] != ' ')
    decreases |s|
  {
    if s == [] then []
    else if s[0] == ' ' then TrimSpaces(s[1..])
    else if s[|s| - 1] == ' ' then TrimSpaces(s[..|s| - 1])
    else s
  }

  predicate Significant(w: string) { |w| > 3 }

  /** The title's words of more than three characters, in their original order. */
  function SignificantWords(title: string): (ws: seq<string>)
  {
    Filter(Split(TrimSpaces(CollapseSpaces(BlankNonWord(Lower(title)))), ' '), Significant)
  }

  /** A word of the fingerprint: lower-case letters and digits, more than three of them. */
  predicate FingerprintWord(w: string) {
    |w| > 3 && forall i :: 0 <= i < |w| ==> WordChar(w[i])
  }

  lemma SignificantWordsAreWords(title: string)
    ensures forall k :: 0 <= k < |SignificantWords(title)| ==> FingerprintWord(SignificantWords(title)[k])
  {
    var s := TrimSpaces(CollapseSpaces(BlankNonWord(Lower(title))));
    var parts := Split(s, ' ');
    SplitPiecesFrom(s, ' ');
    forall k | 0 <= k < |SignificantWords(title)| ensures FingerprintWord(SignificantWords(title)[k]) {
      var w := SignificantWords(title)[k];
      assert w in parts;
      var p :| 0 <= p < |parts| && parts[p] == w;
      forall i | 0 <= i < |w| ensures WordChar(w[i]) {
        assert w[i] in parts[p];
        assert w[i] != ' ';
      }
    }
  }

  /** Every character of a piece of `Split(s, c)` occurs in `s`. */
  lemma {:induction false} SplitPiecesFrom(s: string, c: char)
    ensures forall p, i :: 0 <= p < |Split(s, c)| && 0 <= i < |Split(s, c)[p]| ==> Split(s, c)[p][i] in s
    decreases |s|
  {
    if s != [] {
      SplitPiecesFrom(s[1..], c);
      var rest := Split(s[1..], c);
      var r := Split(s, c);
      forall p, i | 0 <= p < |r| && 0 <= i < |r[p]| ensures r[p][i] in s {
        if s[0] == c {
          assert r[p] == ([""] + rest)[p];
          if p > 0 {
            assert r[p] == rest[p - 1];
            assert r[p][i] in s[1..];
          }
        } else if p == 0 {
          assert r[0] == [s[0]] + rest[0];
          if i > 0 {
            assert r[0][i] == rest[0][i - 1];
            assert rest[0][i - 1] in s[1..];
          }
        } else {
          assert r[p] == rest[p];
          assert r[p][i] in s[1..];
        }
      }
    }
  }

  // JavaScript's default sort compares strings by code units: the lexicographic order.

  predicate LexLe(a: string, b: string)
    decreases |a|
  {
    a == [] || (b != [] && (a[0] < b[0] || (a[0] == b[0] && LexLe(a[1..], b[1..]))))
  }

  lemma {:induction false} LexTotal(a: string, b: string)
    ensures LexLe(a, b) || LexLe(b, a)
    decreases |a|
  {
    if a != [] && b != [] && a[0] == b[0] {
      LexTotal(a[1..], b[1..]);
    }
  }

  lemma {:induction false} LexAntisymmetric(a: string, b: string)
    requires LexLe(a, b) && LexLe(b, a)
    ensures a == b
    decreases |a|
  {
    if a != [] && b != [] {
      LexAntisymmetric(a[1..], b[1..]);
      assert a == [a[0]] + a[1..] && b == [b[0]] + b[1..];
    }
  }

  lemma {:induction false} LexTransitive(a: string, b: string, c: string)
    requires LexLe(a, b) && LexLe(b, c)
    ensures LexLe(a, c)
    decreases |a|
  {
    if a != [] && a[0] == b[0] && b[0] == c[0] {
      LexTransitive(a[1..], b[1..], c[1..]);
    }
  }

  predicate SortedLex(s: seq<string>) {
    forall i, j :: 0 <= i < j < |s| ==> LexLe(s[i], s[j])
  }

  function InsertLex(s: seq<string>, x: string): (r: seq<string>)
    requires SortedLex(s)
    ensures SortedLex(r)
    ensures multiset(r) == multiset(s) + multiset{x}
    ensures r[0] == x || (s != [] && r[0] == s[0])
    decreases |s|
  {
    if s == [] || LexLe(x, s[0]) then
      LeastInFront(s, x);
      [x] + s
    else
      LexTotal(x, s[0]);
      SortedTail(s);
      var rest := InsertLex(s[1..], x);
      assert s == [s[0]] + s[1..];
      LeastInFront(rest, s[0]);
      [s[0]] + rest
  }

  lemma SortedTail(s: seq<string>)
    requires SortedLex(s) && s != []
    ensures SortedLex(s[1..])
    ensures |s| > 1 ==> LexLe(s[0], s[1..][0])
  {
    assert forall i :: 0 <= i < |s[1..]| ==> s[1..][i] == s[i + 1];
  }

  /** An element no greater than the head of a sorted sequence can go in front of it. */
  lemma LeastInFront(s: seq<string>, x: string)
    requires SortedLex(s)
    requires s == [] || LexLe(x, s[0])
    ensures SortedLex([x] + s)
  {
    var r := [x] + s;
    forall i, j | 0 <= i < j < |r| ensures LexLe(r[i], r[j]) {
      assert r[j] == s[j - 1];
      if i == 0 {
        if j > 1 {
          LexTransitive(x, s[0], s[j - 1]);
        }
      } else {
        assert r[i] == s[i - 1];
      }
    }
  }

  /** `.sort()`. */
  function SortLex(s: seq<string>): (r: seq<string>)
    ensures SortedLex(r)
    ensures multiset(r) == multiset(s)
    decreases |s|
  {
    if s == [] then []
    else
      assert s == s[..|s| - 1] + [s[|s| - 1]];
      InsertLex(SortLex(s[..|s| - 1]), s[|s| - 1])
  }

  lemma {:induction false} LexReflexive(a: string)
    ensures LexLe(a, a)
    decreases |a|
  {
    if a != [] {
      LexReflexive(a[1..]);
    }
  }

  /** The head of a sorted sequence is its least element. */
  lemma SortedHeadLeast(s: seq<string>, x: string)
    requires SortedLex(s) && x in s
    ensures LexLe(s[0], x)
  {
    var i :| 0 <= i < |s| && s[i] == x;
    if i == 0 {
      LexReflexive(x);
    }
  }

  /** A sorted arrangement of a multiset of strings is unique. */
  lemma {:induction false} SortedUnique(a: seq<string>, b: seq<string>)
    requires SortedLex(a) && SortedLex(b)
    requires multiset(a) == multiset(b)
    ensures a == b
    decreases |a|
  {
    assert |a| == |multiset(a)| == |multiset(b)| == |b|;
    if a != [] {
      assert b[0] in multiset(a) && a[0] in multiset(b);
      SortedHeadLeast(a, b[0]);
      SortedHeadLeast(b, a[0]);
      LexAntisymmetric(a[0], b[0]);
      TailMultiset(a);
      TailMultiset(b);
      SortedTail(a);
      SortedTail(b);
      SortedUnique(a[1..], b[1..]);
      assert a == [a[0]] + a[1..] && b == [b[0]] + b[1..];
    }
  }

  lemma TailMultiset(s: seq<string>)
    requires s != []
    ensures multiset(s[1..]) == multiset(s) - multiset{s[0]}
  {
    assert s == [s[0]] + s[1..];
  }

  /** The fingerprint's words: the significant words, sorted. */
  function FingerprintWords(title: string): (ws: seq<string>)
    ensures SortedLex(ws)
    ensures multiset(ws) == multiset(SignificantWords(title))
  {
    SortLex(SignificantWords(title))
  }

  /** `semanticFingerprint(title)`. */
  function SemanticFingerprint(title: string): (r: string)
  {
    Join(" ", FingerprintWords(title))
  }

  lemma FingerprintWordsAreWords(title: string)
    ensures forall k :: 0 <= k < |FingerprintWords(title)| ==> FingerprintWord(FingerprintWords(title)[k])
  {
    var ws := FingerprintWords(title);
    SignificantWordsAreWords(title);
    forall k | 0 <= k < |ws| ensures FingerprintWord(ws[k]) {
      assert ws[k] in multiset(SignificantWords(title));
    }
  }

  /**
   * The fingerprint is the sorted list of the title's lower-cased words of more than three letters
   * or digits, joined by single spaces.
   */
  lemma SemanticFingerprintShape(title: string)
    ensures var ws := FingerprintWords(title);
            && SemanticFingerprint(title) == Join(" ", ws)
            && SortedLex(ws)
            && (forall k :: 0 <= k < |ws| ==> FingerprintWord(ws[k]))
            && multiset(ws) == multiset(SignificantWords(title))
  {
    FingerprintWordsAreWords(title);
  }

  /** Titles with the same significant words, in any order, share a fingerprint. */
  lemma SemanticFingerprintOrderFree(a: string, b: string)
    requires multiset(SignificantWords(a)) == multiset(SignificantWords(b))
    ensures SemanticFingerprint(a) == SemanticFingerprint(b)
  {
    SortedUnique(FingerprintWords(a), FingerprintWords(b));
  }

  // Idempotence: a fingerprint is its own fingerprint.

  /** Words and single spaces, with no space at either end. */
  predicate SpacedWords(s: string) {
    && WordsAndSpaces(s)
    && (s == [] || (s[0] != ' ' && s[|s| - 1] != ' '))
    && forall i :: 0 <= i < |s| - 1 ==> s[i] != ' ' || s[i + 1] != ' '
  }

  lemma WordThenSpaced(w: string, t: string)
    requires FingerprintWord(w)
    requires SpacedWords(t) && t != []
    ensures SpacedWords(w + " " + t)
  {
    var r := w + " " + t;
    assert forall i :: 0 <= i < |w| ==> r[i] == w[i];
    assert r[|w|] == ' ';
    assert forall i :: |w| < i < |r| ==> r[i] == t[i - |w| - 1];
  }

  lemma {:induction false} JoinOfWords(ws: seq<string>)
    requires forall k :: 0 <= k < |ws| ==> FingerprintWord(ws[k])
    ensures SpacedWords(Join(" ", ws))
    decreases |ws|
  {
    if |ws| == 1 {
      assert Join(" ", ws) == ws[0];
    } else if |ws| > 1 {
      JoinOfWords(ws[1..]);
      assert FingerprintWord(ws[1..][0]);
      assert Join(" ", ws[1..]) != [] by {
        if |ws[1..]| == 1 {
        } else {
          assert Join(" ", ws[1..]) == ws[1..][0] + " " + Join(" ", ws[2..]);
        }
      }
      WordThenSpaced(ws[0], Join(" ", ws[1..]));
    }
  }

  lemma LowerOfWords(s: string)
    requires WordsAndSpaces(s)
    ensures Lower(s) == s
  {
  }

  lemma BlankOfWords(s: string)
    requires WordsAndSpaces(s)
    ensures BlankNonWord(s) == s
  {
  }

  lemma {:induction false} CollapseOfSingleSpaces(s: string)
    requires forall i :: 0 <= i < |s| - 1 ==> s[i] != ' ' || s[i + 1] != ' '
    ensures CollapseSpaces(s) == s
    decreases |s|
  {
    if s != [] {
      forall i | 0 <= i < |s[1..]| - 1 ensures s[1..][i] != ' ' || s[1..][i + 1] != ' ' {
        assert s[1..][i] == s[i + 1] && s[1..][i + 1] == s[i + 2];
      }
      CollapseOfSingleSpaces(s[1..]);
      assert s == [s[0]] + s[1..];
    }
  }

  /** The significant words of a fingerprint are its own words. */
  lemma SignificantWordsOfJoin(ws: seq<string>)
    requires forall k :: 0 <= k < |ws| ==> FingerprintWord(ws[k])
    ensures SignificantWords(Join(" ", ws)) == ws
  {
    var j := Join(" ", ws);
    NormalizedJoin(ws);
    SignificantOfNormalized(j);
    SignificantPiecesOfJoin(ws);
  }

  lemma SignificantOfNormalized(s: string)
    requires TrimSpaces(CollapseSpaces(BlankNonWord(Lower(s)))) == s
    ensures SignificantWords(s) == Filter(Split(s, ' '), Significant)
  {
  }

  lemma SignificantPiecesOfJoin(ws: seq<string>)
    requires forall k :: 0 <= k < |ws| ==> FingerprintWord(ws[k])
    ensures Filter(Split(Join(" ", ws), ' '), Significant) == ws
  {
    if ws == [] {
      assert Join(" ", ws) == "";
      NoSignificantEmpty();
    } else {
      SplitOfJoin(ws);
      FilterAll(ws, Significant);
    }
  }

  lemma SplitOfJoin(ws: seq<string>)
    requires ws != []
    requires forall k :: 0 <= k < |ws| ==> FingerprintWord(ws[k])
    ensures Split(Join(" ", ws), ' ') == ws
  {
    forall k | 0 <= k < |ws| ensures ' ' !in ws[k] {
      assert forall i :: 0 <= i < |ws[k]| ==> WordChar(ws[k][i]);
    }
    SplitJoin(ws, ' ');
    assert [' '] == " ";
  }

  /** Normalising a fingerprint's text leaves it as it is. */
  lemma NormalizedJoin(ws: seq<string>)
    requires forall k :: 0 <= k < |ws| ==> FingerprintWord(ws[k])
    ensures TrimSpaces(CollapseSpaces(BlankNonWord(Lower(Join(" ", ws))))) == Join(" ", ws)
  {
    var j := Join(" ", ws);
    JoinOfWords(ws);
    LowerOfWords(j);
    BlankOfWords(j);
    CollapseOfSingleSpaces(j);
  }

  lemma NoSignificantEmpty()
    ensures Filter(Split("", ' '), Significant) == []
  {
    var r := Filter(Split("", ' '), Significant);
    assert Split("", ' ') == [""];
  }

  /** Fingerprinting a fingerprint changes nothing. */
  lemma SemanticFingerprintIdempotent(title: string)
    ensures SemanticFingerprint(SemanticFingerprint(title)) == SemanticFingerprint(title)
  {
    var ws := FingerprintWords(title);
    FingerprintWordsAreWords(title);
    SignificantWordsOfJoin(ws);
    SortedUnique(FingerprintWords(Join(" ", ws)), ws);
  }

  // ---------------------------------------------------------------------------
  // Watcher state and saveState.

  datatype FindingStatus = Pending | Fixed | ProcessedNoChanges | Failed

  /** A `findingStates` entry; `exitCode` is None when the child ended by a signal (code null). */
  datatype FindingRecord = FindingRecord(status: FindingStatus, title: string, exitCode: Option<int>, hasChanges: Option<bool>)

  datatype WatchState = WatchState(
    lastProcessedByte: nat,
    processedFingerprints: seq<string>,
    processedTitles: seq<string>,
    findingStates: map<string, FindingRecord>)

  const MaxProcessedFingerprints: nat := 500

  /** What `saveState` writes: both dedup lists cut to their last 500 entries. */
  function SaveState(st: WatchState): (r: WatchState)
    ensures |r.processedFingerprints| <= MaxProcessedFingerprints
    ensures |r.processedTitles| <= MaxProcessedFingerprints
    ensures |r.processedFingerprints| <= |st.processedFingerprints| && |r.processedTitles| <= |st.processedTitles|
    ensures r.processedFingerprints == st.processedFingerprints[|st.processedFingerprints| - |r.processedFingerprints|..]
    ensures r.processedTitles == st.processedTitles[|st.processedTitles| - |r.processedTitles|..]
    ensures |st.processedFingerprints| <= MaxProcessedFingerprints ==> r.processedFingerprints == st.processedFingerprints
    ensures |st.processedTitles| <= MaxProcessedFingerprints ==> r.processedTitles == st.processedTitles
    ensures r.lastProcessedByte == st.lastProcessedByte && r.findingStates == st.findingStates
  {
    st.(processedFingerprints := LastN(st.processedFingerprints, MaxProcessedFingerprints),
        processedTitles := LastN(st.processedTitles, MaxProcessedFingerprints))
  }

  /** Saving twice writes the same as saving once. */
  lemma SaveStateIdempotent(st: WatchState)
    ensures SaveState(SaveState(st)) == SaveState(st)
  {
  }

  /** The most recent entries survive the cut. */
  lemma SaveStateKeepsNewest(st: WatchState)
    requires st.processedFingerprints != [] && st.processedTitles != []
    ensures var r := SaveState(st);
            && r.processedFingerprints != [] && r.processedTitles != []
            && r.processedFingerprints[|r.processedFingerprints| - 1] == st.processedFingerprints[|st.processedFingerprints| - 1]
            && r.processedTitles[|r.processedTitles| - 1] == st.processedTitles[|st.processedTitles| - 1]
  {
  }

  // ---------------------------------------------------------------------------
  // The outcome of an Agency run.

  /** Exit code 0: fixed with changes; 2: processed without changes; anything else, null included: failed. */
  function RunRecord(title: string, exitCode: Option<int>): (r: FindingRecord)
    ensures r.title == title && r.exitCode == exitCode
    ensures r.status == Fixed <==> exitCode == Some(0)
    ensures r.status == ProcessedNoChanges <==> exitCode == Some(2)
    ensures r.status == Failed <==> exitCode != Some(0) && exitCode != Some(2)
    ensures r.status != Pending
    ensures r.hasChanges == (if exitCode == Some(0) then Some(true) else if exitCode == Some(2) then Some(false) else None)
  {
    match exitCode
    case Some(0) => FindingRecord(Fixed, title, exitCode, Some(true))
    case Some(2) => FindingRecord(ProcessedNoChanges, title, exitCode, Some(false))
    case _ => FindingRecord(Failed, title, exitCode, None)
  }

  // ---------------------------------------------------------------------------
  // poll

  /** A parsed finding: its text block and its title. */
  datatype Finding = Finding(block: string, title: string)

  /** A finding already seen by content or by title. */
  predicate Duplicate(st: WatchState, f: Finding, hash: string -> string) {
    hash(f.block) in st.processedFingerprints || SemanticFingerprint(f.title) in st.processedTitles
  }

  /**
   * What the loop does with a duplicate: an exact duplicate leaves the state alone, a semantic one
   * has its hash remembered so that it counts as handled.
   */
  function Skip(st: WatchState, f: Finding, hash: string -> string): (r: WatchState)
    ensures r.findingStates == st.findingStates && r.processedTitles == st.processedTitles
    ensures r.lastProcessedByte == st.lastProcessedByte
    ensures |st.processedFingerprints| <= |r.processedFingerprints|
    ensures r.processedFingerprints[..|st.processedFingerprints|] == st.processedFingerprints
    ensures hash(f.block) in r.processedFingerprints
  {
    var fp := hash(f.block);
    if fp in st.processedFingerprints then st
    else
      var r := st.(processedFingerprints := st.processedFingerprints + [fp]);
      assert r.processedFingerprints[|st.processedFingerprints|] == fp;
      r
  }

  /** The state after the run for a fresh finding: the outcome, its hash and its title's fingerprint recorded. */
  function Run(st: WatchState, f: Finding, hash: string -> string, newId: string, exitCode: Option<int>): (r: WatchState)
    ensures r.lastProcessedByte == st.lastProcessedByte
    ensures |st.processedFingerprints| <= |r.processedFingerprints|
    ensures r.processedFingerprints[..|st.processedFingerprints|] == st.processedFingerprints
  {
    var r := st.(findingStates := st.findingStates[newId := RunRecord(f.title, exitCode)],
                 processedFingerprints := st.processedFingerprints + [hash(f.block)],
                 processedTitles := st.processedTitles + [SemanticFingerprint(f.title)]);
    assert r.processedFingerprints[..|st.processedFingerprints|] == st.processedFingerprints;
    r
  }

  /**
   * The loop over new findings: exact duplicates are skipped, semantic duplicates are marked handled,
   * and the first fresh finding is run (with the id the ledger gives it and the Agency's exit code)
   * and ends the loop.
   */
  function ScanFindings(st: WatchState, findings: seq<Finding>, hash: string -> string,
                        newId: string, exitCode: Option<int>): (r: (WatchState, Option<Finding>))
    ensures r.0.lastProcessedByte == st.lastProcessedByte
    ensures |st.processedFingerprints| <= |r.0.processedFingerprints|
    ensures r.0.processedFingerprints[..|st.processedFingerprints|] == st.processedFingerprints
    decreases |findings|
  {
    if findings == [] then (st, None)
    else if Duplicate(st, findings[0], hash) then
      var next := Skip(st, findings[0], hash);
      var r := ScanFindings(next, findings[1..], hash, newId, exitCode);
      assert r.0.processedFingerprints[..|next.processedFingerprints|][..|st.processedFingerprints|]
          == r.0.processedFingerprints[..|st.processedFingerprints|];
      r
    else (Run(st, findings[0], hash, newId, exitCode), Some(findings[0]))
  }

  /** A member of a prefix is a member of the whole list. */
  lemma PrefixMember(a: seq<string>, b: seq<string>, x: string)
    requires |a| <= |b| && b[..|a|] == a
    requires x in a
    ensures x in b
  {
    var k :| 0 <= k < |a| && a[k] == x;
    assert b[k] == x;
  }

  /** The facts about a scan that ends without a run. */
  predicate NoRunFacts(st: WatchState, findings: seq<Finding>, hash: string -> string, after: WatchState) {
    && after.findingStates == st.findingStates
    && after.processedTitles == st.processedTitles
    && forall i :: 0 <= i < |findings| ==>
         hash(findings[i].block) in after.processedFingerprints
         || SemanticFingerprint(findings[i].title) in st.processedTitles
  }

  /**
   * Without a run, only the fingerprint list changes, and every finding of the batch ends up
   * known by its hash or by its title.
   */
  lemma {:induction false} ScanWithoutRun(st: WatchState, findings: seq<Finding>, hash: string -> string,
                                          newId: string, exitCode: Option<int>)
    ensures var r := ScanFindings(st, findings, hash, newId, exitCode);
            r.1.None? ==> NoRunFacts(st, findings, hash, r.0)
    decreases |findings|
  {
    if findings != [] && Duplicate(st, findings[0], hash) {
      var next := Skip(st, findings[0], hash);
      var r := ScanFindings(next, findings[1..], hash, newId, exitCode);
      ScanWithoutRun(next, findings[1..], hash, newId, exitCode);
      if r.1.None? {
        ScanWithoutRunStep(st, findings, hash, next, r.0);
      }
    }
  }

  /** One step of the induction: what holds for the rest of the batch and the skipped head holds for the batch. */
  lemma ScanWithoutRunStep(st: WatchState, findings: seq<Finding>, hash: string -> string, next: WatchState, after: WatchState)
    requires findings != [] && next == Skip(st, findings[0], hash)
    requires |next.processedFingerprints| <= |after.processedFingerprints|
    requires after.processedFingerprints[..|next.processedFingerprints|] == next.processedFingerprints
    requires NoRunFacts(next, findings[1..], hash, after)
    ensures NoRunFacts(st, findings, hash, after)
  {
    PrefixMember(next.processedFingerprints, after.processedFingerprints, hash(findings[0].block));
    forall i | 1 <= i < |findings|
      ensures hash(findings[i].block) in after.processedFingerprints
              || SemanticFingerprint(findings[i].title) in st.processedTitles
    {
      assert findings[i] == findings[1..][i - 1];
    }
  }

  /**
   * The state after a run for `f`: the outcome recorded under the new id, the title's fingerprint
   * appended, and the hash last in the fingerprint list.
   */
  predicate RanFor(st: WatchState, after: WatchState, f: Finding, hash: string -> string,
                   newId: string, exitCode: Option<int>) {
    && after.findingStates == st.findingStates[newId := RunRecord(f.title, exitCode)]
    && after.processedTitles == st.processedTitles + [SemanticFingerprint(f.title)]
    && after.processedFingerprints != []
    && after.processedFingerprints[|after.processedFingerprints| - 1] == hash(f.block)
  }

  /**
   * A run is for a finding of the batch that was neither seen by hash nor by title; it records the
   * outcome under the new id and remembers the finding's hash and title.
   */
  lemma {:induction false} ScanWithRun(st: WatchState, findings: seq<Finding>, hash: string -> string,
                                       newId: string, exitCode: Option<int>)
    ensures var r := ScanFindings(st, findings, hash, newId, exitCode);
            r.1.Some? ==> r.1.value in findings && !Duplicate(st, r.1.value, hash) && RanFor(st, r.0, r.1.value, hash, newId, exitCode)
    decreases |findings|
  {
    if findings != [] {
      if Duplicate(st, findings[0], hash) {
        var next := Skip(st, findings[0], hash);
        ScanWithRun(next, findings[1..], hash, newId, exitCode);
        var r := ScanFindings(next, findings[1..], hash, newId, exitCode);
        assert ScanFindings(st, findings, hash, newId, exitCode) == r;
        if r.1.Some? {
          ScanWithRunStep(st, findings, hash, next, r.1.value, r.0, newId, exitCode);
        }
      } else {
        RunIsRanFor(st, findings[0], hash, newId, exitCode);
      }
    }
  }

  lemma RunIsRanFor(st: WatchState, f: Finding, hash: string -> string, newId: string, exitCode: Option<int>)
    ensures RanFor(st, Run(st, f, hash, newId, exitCode), f, hash, newId, exitCode)
  {
    var r := Run(st, f, hash, newId, exitCode);
    assert r.processedFingerprints[|r.processedFingerprints| - 1] == hash(f.block);
  }

  /** One step of the induction: a finding fresh after skipping a duplicate was fresh before it. */
  lemma ScanWithRunStep(st: WatchState, findings: seq<Finding>, hash: string -> string, next: WatchState, g: Finding,
                        after: WatchState, newId: string, exitCode: Option<int>)
    requires findings != [] && next == Skip(st, findings[0], hash)
    requires g in findings[1..] && !Duplicate(next, g, hash) && RanFor(next, after, g, hash, newId, exitCode)
    ensures g in findings && !Duplicate(st, g, hash) && RanFor(st, after, g, hash, newId, exitCode)
  {
    if hash(g.block) in st.processedFingerprints {
      PrefixMember(st.processedFingerprints, next.processedFingerprints, hash(g.block));
    }
  }

  /** When every new finding is a duplicate, no Agency run happens and no title is added. */
  lemma {:induction false} AllDuplicatesNoRun(st: WatchState, findings: seq<Finding>, hash: string -> string,
                                              newId: string, exitCode: Option<int>)
    requires forall i :: 0 <= i < |findings| ==> Duplicate(st, findings[i], hash)
    ensures ScanFindings(st, findings, hash, newId, exitCode).1.None?
    decreases |findings|
  {
    if findings != [] {
      var next := Skip(st, findings[0], hash);
      forall i | 0 <= i < |findings[1..]| ensures Duplicate(next, findings[1..][i], hash) {
        assert findings[1..][i] == findings[i + 1];
        assert Duplicate(st, findings[i + 1], hash);
      }
      AllDuplicatesNoRun(next, findings[1..], hash, newId, exitCode);
    }
  }

  /** When every new finding is an exact duplicate, the scan changes nothing at all. */
  lemma {:induction false} ExactDuplicatesUnchanged(st: WatchState, findings: seq<Finding>, hash: string -> string,
                                                    newId: string, exitCode: Option<int>)
    requires forall i :: 0 <= i < |findings| ==> hash(findings[i].block) in st.processedFingerprints
    ensures ScanFindings(st, findings, hash, newId, exitCode) == (st, None)
    decreases |findings|
  {
    if findings != [] {
      forall i | 0 <= i < |findings[1..]| ensures hash(findings[1..][i].block) in st.processedFingerprints {
        assert findings[1..][i] == findings[i + 1];
      }
      ExactDuplicatesUnchanged(st, findings[1..], hash, newId, exitCode);
    }
  }

  /** A semantic duplicate is marked handled without a run. */
  lemma SemanticDuplicateMarked(st: WatchState, f: Finding, hash: string -> string, newId: string, exitCode: Option<int>)
    requires hash(f.block) !in st.processedFingerprints
    requires SemanticFingerprint(f.title) in st.processedTitles
    ensures ScanFindings(st, [f], hash, newId, exitCode)
            == (st.(processedFingerprints := st.processedFingerprints + [hash(f.block)]), None)
  {
    assert [f][1..] == [];
  }

  const Separator := "\n---\n"

  /** A line JavaScript's `trim` leaves non-empty. */
  predicate NonBlank(l: string) {
    exists i :: 0 <= i < |l| && !IsJsSpace(l[i])
  }

  /**
   * The emergency stop checked before each run: the telemetry error log mentions `error_code:429`
   * and its last non-blank line mentions `429`.  A log that cannot be read stops nothing.
   */
  predicate EmergencyStop(errorLog: Option<string>) {
    && errorLog.Some?
    && Contains(errorLog.value, "error_code:429")
    && var lines := Filter(Split(errorLog.value, '\n'), NonBlank);
       lines != [] && Contains(lines[|lines| - 1], "429")
  }

  /** A one-line log reporting `error_code:429` stops the watcher. */
  lemma EmergencyStopOnOneLine(l: string)
    requires '\n' !in l && Contains(l, "error_code:429")
    ensures EmergencyStop(Some(l))
  {
    var ls: seq<string> := [l];
    SplitNoSeparator(l, '\n');
    var i :| 0 <= i <= |l| && OccursAt(l, "error_code:429", i);
    assert l[i..i + 14][11..14] == l[i + 11..i + 14];
    assert "error_code:429"[11..14] == "429";
    assert OccursAt(l, "429", i + 11);
    assert l[i] == l[i..i + 14][0] == 'e';
    assert !IsJsSpace(l[i]);
    assert NonBlank(l);
    assert ls[1..] == [];
    assert Filter(ls, NonBlank) == ls;
  }

  /**
   * The result of one poll: the state the watcher is left with, the finding the Agency ran for,
   * whether the state was saved, and whether the process exited at the emergency stop.
   */
  datatype PollResult = PollResult(state: WatchState, ran: Option<Finding>, saved: bool, exited: bool)

  /**
   * `poll(config, state)`. The findings file's content (None when it does not exist), whether the
   * minimum interval since the last run has not yet passed, the block parser, the content hash, the
   * telemetry error log (None when unreadable), the ledger's next id and the Agency's exit code are
   * inputs.  The emergency stop exits the process on reaching a fresh finding, before its run and
   * before the state is saved: the saved state stays the one polled from.
   */
  function Poll(st: WatchState, content: Option<string>, tooSoon: bool, parse: string -> seq<Finding>,
                hash: string -> string, errorLog: Option<string>, newId: string, exitCode: Option<int>): (r: PollResult)
    ensures r.saved ==> content.Some? && LastIndexOf(content.value, Separator) >= st.lastProcessedByte
    ensures r.saved ==> r.state.lastProcessedByte == LastIndexOf(content.value, Separator) + 5
    ensures !r.saved ==> r.state == st && r.ran.None?
    ensures r.exited ==> !r.saved && EmergencyStop(errorLog)
    ensures (r.saved || r.exited) <==>
              && content.Some? && !tooSoon && |content.value| > st.lastProcessedByte
              && LastIndexOf(content.value, Separator) != -1
              && LastIndexOf(content.value, Separator) >= st.lastProcessedByte
    ensures r.saved ==> |r.state.processedFingerprints| <= MaxProcessedFingerprints
                        && |r.state.processedTitles| <= MaxProcessedFingerprints
  {
    if content.None? || tooSoon then PollResult(st, None, false, false)
    else
      var text := content.value;
      if |text| <= st.lastProcessedByte then PollResult(st, None, false, false)
      else
        var last := LastIndexOf(text, Separator);
        if last == -1 || last < st.lastProcessedByte then PollResult(st, None, false, false)
        else
          var processTo := last + 5;
          var blocks := parse(text[st.lastProcessedByte..processTo]);
          var scanned := ScanFindings(st, blocks, hash, newId, exitCode);
          if scanned.1.Some? && EmergencyStop(errorLog) then PollResult(st, None, false, true)
          else PollResult(SaveState(scanned.0.(lastProcessedByte := processTo)), scanned.1, true, false)
  }

  /**
   * The emergency stop fires exactly when the log reports a 429 and the poll would otherwise run
   * the Agency; when it does not fire the poll is the one without a stop.
   */
  lemma PollEmergencyStop(st: WatchState, content: Option<string>, tooSoon: bool, parse: string -> seq<Finding>,
                          hash: string -> string, errorLog: Option<string>, newId: string, exitCode: Option<int>)
    ensures var r := Poll(st, content, tooSoon, parse, hash, errorLog, newId, exitCode);
            var free := Poll(st, content, tooSoon, parse, hash, None, newId, exitCode);
            && (r.exited <==> EmergencyStop(errorLog) && free.ran.Some?)
            && (!r.exited ==> r == free)
            && (EmergencyStop(errorLog) ==> r.ran.None?)
  {
  }

  /** The cursor never moves back, and moves forward whenever the state is saved. */
  lemma PollCursorAdvances(st: WatchState, content: Option<string>, tooSoon: bool, parse: string -> seq<Finding>,
                           hash: string -> string, errorLog: Option<string>, newId: string, exitCode: Option<int>)
    ensures var r := Poll(st, content, tooSoon, parse, hash, errorLog, newId, exitCode);
            && r.state.lastProcessedByte >= st.lastProcessedByte
            && (r.saved ==> r.state.lastProcessedByte > st.lastProcessedByte)
            && (r.saved ==> r.state.lastProcessedByte <= |content.value|)
  {
  }

  /** A run is recorded under the new id with the status its exit code maps to, and its title is remembered. */
  lemma PollRecordsRun(st: WatchState, content: Option<string>, tooSoon: bool, parse: string -> seq<Finding>,
                       hash: string -> string, errorLog: Option<string>, newId: string, exitCode: Option<int>)
    ensures var r := Poll(st, content, tooSoon, parse, hash, errorLog, newId, exitCode);
            r.ran.Some? ==>
              && r.state.findingStates == st.findingStates[newId := RunRecord(r.ran.value.title, exitCode)]
              && r.state.processedTitles != []
              && r.state.processedTitles[|r.state.processedTitles| - 1] == SemanticFingerprint(r.ran.value.title)
              && r.state.processedFingerprints != []
              && r.state.processedFingerprints[|r.state.processedFingerprints| - 1] == hash(r.ran.value.block)
              && !Duplicate(st, r.ran.value, hash)
  {
    var r := Poll(st, content, tooSoon, parse, hash, errorLog, newId, exitCode);
    if r.ran.Some? {
      var text := content.value;
      var processTo := LastIndexOf(text, Separator) + 5;
      var blocks := parse(text[st.lastProcessedByte..processTo]);
      var scanned := ScanFindings(st, blocks, hash, newId, exitCode);
      ScanWithRun(st, blocks, hash, newId, exitCode);
      var moved := scanned.0.(lastProcessedByte := processTo);
      assert r.state == SaveState(moved);
      SaveStateKeepsNewest(moved);
    }
  }

  /** Polling the same file again right after a saved poll changes nothing: its separators lie behind the cursor. */
  lemma PollAgainIsNoop(st: WatchState, content: Option<string>, tooSoon: bool, tooSoon2: bool,
                        parse: string -> seq<Finding>, hash: string -> string, errorLog: Option<string>,
                        errorLog2: Option<string>, newId: string, newId2: string,
                        exitCode: Option<int>, exitCode2: Option<int>)
    ensures var r := Poll(st, content, tooSoon, parse, hash, errorLog, newId, exitCode);
            r.saved ==> Poll(r.state, content, tooSoon2, parse, hash, errorLog2, newId2, exitCode2)
                        == PollResult(r.state, None, false, false)
  {
  }
}

=== FILE: formatters.dfy ===
/**
 * The Telegram message formatters (opencode/telegram/formatters.js): MarkdownV2 escaping, a
 * progress bar, severity badges, durations, truncation and bold/italic wrappers.
 */
module Formatters {
  import opened Wrappers
  import opened Strings
  import opened JsonModel

  // ---------------------------------------------------------------------------
  // escapeMarkdown

  /** The character class of the second replacement; ']' is not in it. */
  predicate IsMarkdownSpecial(c: char) {
    c in {'_', '*', '[', '(', ')', '~', '`', '>', '#', '+', '=', '|', '{', '}', '.', '!', '\\', '-'}
  }

  /** First replacement: every backslash is doubled. */
  function DoubleBackslashes(s: string): (r: string)
    ensures |r| >= |s|
    decreases |s|
  {
    if s == [] then []
    else (if s[0] == '\\' then "\\\\" else [s[0]]) + DoubleBackslashes(s[1..])
  }

  /** Second replacement: every special character gets a backslash in front. */
  function PrefixSpecials(s: string): (r: string)
    ensures |r| >= |s|
    decreases |s|
  {
    if s == [] then []
    else (if IsMarkdownSpecial(s[0]) then ['\\', s[0]] else [s[0]]) + PrefixSpecials(s[1..])
  }

  /** `escapeMarkdown` on a string. */
  function EscapeMarkdown(s: string): (r: string)
    ensures |r| >= |s|
  {
    PrefixSpecials(DoubleBackslashes(s))
  }

  /** `escapeMarkdown` on any value: non-strings come back unchanged. */
  function EscapeValue(v: Json): (r: Json)
    ensures !v.JStr? ==> r == v
    ensures v.JStr? ==> r == JStr(EscapeMarkdown(v.s))
  {
    if v.JStr? then JStr(EscapeMarkdown(v.s)) else v
  }

  /** What one input character becomes: a backslash four backslashes, a special character a backslash and itself. */
  function EscapeChar(c: char): string {
    if c == '\\' then "\\\\\\\\" else if IsMarkdownSpecial(c) then ['\\', c] else [c]
  }

  /** Reference definition: escape character by character. */
  function EscapeCharwise(s: string): string
    decreases |s|
  {
    if s == [] then [] else EscapeChar(s[0]) + EscapeCharwise(s[1..])
  }

  lemma {:induction false} PrefixSpecialsConcat(a: string, b: string)
    ensures PrefixSpecials(a + b) == PrefixSpecials(a) + PrefixSpecials(b)
    decreases |a|
  {
    if a != [] {
      assert (a + b)[1..] == a[1..] + b;
      PrefixSpecialsConcat(a[1..], b);
    } else {
      assert a + b == b;
    }
  }

  /** The two passes together escape each character independently. */
  lemma {:induction false} EscapeMarkdownCharwise(s: string)
    ensures EscapeMarkdown(s) == EscapeCharwise(s)
    decreases |s|
  {
    if s != [] {
      var head := if s[0] == '\\' then "\\\\" else [s[0]];
      PrefixSpecialsConcat(head, DoubleBackslashes(s[1..]));
      EscapeMarkdownCharwise(s[1..]);
      if s[0] == '\\' {
        assert PrefixSpecials("\\\\") == "\\\\\\\\" by {
          assert PrefixSpecials("\\") == "\\\\";
          PrefixSpecialsConcat("\\", "\\");
          assert "\\" + "\\" == "\\\\";
        }
      } else {
        assert PrefixSpecials([s[0]]) == EscapeChar(s[0]) by {
          assert [s[0]][1..] == [];
        }
      }
    }
  }

  /** Undoes `PrefixSpecials`: a backslash takes the next character literally. */
  function DropPrefixes(s: string): string
    decreases |s|
  {
    if s == [] then []
    else if s[0] == '\\' && |s| >= 2 then [s[1]] + DropPrefixes(s[2..])
    else [s[0]] + DropPrefixes(s[1..])
  }

  /** Undoes `DoubleBackslashes`. */
  function HalveBackslashes(s: string): string
    decreases |s|
  {
    if s == [] then []
    else if |s| >= 2 && s[0] == '\\' && s[1] == '\\' then "\\" + HalveBackslashes(s[2..])
    else [s[0]] + HalveBackslashes(s[1..])
  }

  /** Reads MarkdownV2 text back into the string that was escaped. */
  function UnescapeMarkdown(s: string): string {
    HalveBackslashes(DropPrefixes(s))
  }

  lemma {:induction false} DropPrefixesInverse(s: string)
    ensures DropPrefixes(PrefixSpecials(s)) == s
    decreases |s|
  {
    if s != [] {
      var e := PrefixSpecials(s);
      DropPrefixesInverse(s[1..]);
      if IsMarkdownSpecial(s[0]) {
        assert e == ['\\', s[0]] + PrefixSpecials(s[1..]);
        assert e[2..] == PrefixSpecials(s[1..]);
      } else {
        assert e == [s[0]] + PrefixSpecials(s[1..]);
        assert e[1..] == PrefixSpecials(s[1..]);
      }
      assert [s[0]] + s[1..] == s;
    }
  }

  lemma {:induction false} HalveBackslashesInverse(s: string)
    ensures HalveBackslashes(DoubleBackslashes(s)) == s
    decreases |s|
  {
    if s != [] {
      var e := DoubleBackslashes(s);
      HalveBackslashesInverse(s[1..]);
      if s[0] == '\\' {
        assert e == "\\\\" + DoubleBackslashes(s[1..]);
        assert e[2..] == DoubleBackslashes(s[1..]);
      } else {
        assert e == [s[0]] + DoubleBackslashes(s[1..]);
        assert e[1..] == DoubleBackslashes(s[1..]);
      }
      assert [s[0]] + s[1..] == s;
    }
  }

  /** Escaping loses nothing: the original text can always be read back. */
  lemma UnescapeEscape(s: string)
    ensures UnescapeMarkdown(EscapeMarkdown(s)) == s
  {
    DropPrefixesInverse(DoubleBackslashes(s));
    HalveBackslashesInverse(s);
  }

  /** Distinct texts escape differently. */
  lemma EscapeInjective(s: string, t: string)
    requires EscapeMarkdown(s) == EscapeMarkdown(t)
    ensures s == t
  {
    UnescapeEscape(s);
    UnescapeEscape(t);
  }

  /** ']' and ordinary characters pass through; '_' gets one backslash, '\' becomes four. */
  lemma EscapeExamples()
    ensures EscapeMarkdown("]") == "]"
    ensures EscapeMarkdown("a_b") == "a\\_b"
    ensures EscapeMarkdown("\\") == "\\\\\\\\"
  {
    EscapeMarkdownCharwise("]");
    EscapeMarkdownCharwise("a_b");
    assert EscapeCharwise("a_b") == EscapeChar('a') + EscapeCharwise("_b");
    assert EscapeCharwise("_b") == EscapeChar('_') + EscapeCharwise("b");
    EscapeMarkdownCharwise("\\");
  }

  /** Escaped text between two copies of a MarkdownV2 marker. */
  function Wrapped(marker: char, s: string): (r: string)
    ensures r == [marker] + EscapeMarkdown(s) + [marker]
    ensures |r| >= 2 && r[0] == marker && r[|r| - 1] == marker
    ensures UnescapeMarkdown(r[1..|r| - 1]) == s
  {
    var r := [marker] + EscapeMarkdown(s) + [marker];
    assert r[1..|r| - 1] == EscapeMarkdown(s);
    UnescapeEscape(s);
    r
  }

  /** `bold`: escaped text between asterisks. */
  function Bold(s: string): string {
    Wrapped('*', s)
  }

  /** `italic`: escaped text between underscores. */
  function Italic(s: string): string {
    Wrapped('_', s)
  }

  // ---------------------------------------------------------------------------
  // progressBar

  const FullCell: char := '▰'
  const EmptyCell: char := '▱'

  function Repeat(c: char, n: nat): (r: string)
    ensures |r| == n && forall i :: 0 <= i < n ==> r[i] == c
  {
    seq(n, i => c)
  }

  function Clamp(percent: int): (p: nat)
    ensures p <= 100
    ensures 0 <= percent <= 100 ==> p == percent
    ensures percent < 0 ==> p == 0
    ensures percent > 100 ==> p == 100
  {
    if percent < 0 then 0 else if percent > 100 then 100 else percent
  }

  /** `Math.round(size * p / 100)`: the nearest whole number of cells, halves rounding up. */
  function FilledCells(p: nat, size: nat): (f: nat)
    requires p <= 100
    ensures f <= size
    ensures (size * p) as real / 100.0 - 0.5 < f as real <= (size * p) as real / 100.0 + 0.5
  {
    var x := (size * p) as real / 100.0;
    assert x <= size as real by {
      assert size * p <= size * 100;
    }
    (x + 0.5).Floor
  }

  /** `progressBar(percent, size)` for a whole-number percent. */
  function ProgressBar(percent: int, size: nat): (r: string)
    ensures |r| > size
    ensures var f := FilledCells(Clamp(percent), size);
            && r[..size] == Repeat(FullCell, f) + Repeat(EmptyCell, size - f)
            && r[size..] == " " + NatToString(Clamp(percent)) + "%"
  {
    var p := Clamp(percent);
    var f := FilledCells(p, size);
    var bar := Repeat(FullCell, f) + Repeat(EmptyCell, size - f);
    var r := bar + " " + NatToString(p) + "%";
    assert r[..size] == bar;
    r
  }

  function CountChar(s: string, c: char): (n: nat)
    ensures n <= |s|
    decreases |s|
  {
    if s == [] then 0 else (if s[0] == c then 1 else 0) + CountChar(s[1..], c)
  }

  lemma {:induction false} CountCharConcat(a: string, b: string, c: char)
    ensures CountChar(a + b, c) == CountChar(a, c) + CountChar(b, c)
    decreases |a|
  {
    if a == [] {
      assert a + b == b;
    } else {
      assert (a + b)[1..] == a[1..] + b;
      CountCharConcat(a[1..], b, c);
    }
  }

  lemma {:induction false} CountRepeat(c: char, d: char, n: nat)
    ensures CountChar(Repeat(c, n), d) == if c == d then n else 0
    decreases n
  {
    if n > 0 {
      assert Repeat(c, n)[1..] == Repeat(c, n - 1);
      CountRepeat(c, d, n - 1);
    }
  }

  lemma CountNoCells(s: string)
    requires AllDigits(s)
    ensures CountChar(s, FullCell) == 0 && CountChar(s, EmptyCell) == 0
    decreases |s|
  {
    if s != [] {
      assert AllDigits(s[1..]) by {
        forall i | 0 <= i < |s[1..]| ensures IsDigit(s[1..][i]) {
          assert s[1..][i] == s[i + 1];
        }
      }
      CountNoCells(s[1..]);
    }
  }

  /** The bar holds exactly `size` cells, filled ones first; clamping pins the extremes. */
  lemma ProgressBarCells(percent: int, size: nat)
    ensures var r := ProgressBar(percent, size);
            && CountChar(r, FullCell) == FilledCells(Clamp(percent), size)
            && CountChar(r, FullCell) + CountChar(r, EmptyCell) == size
    ensures percent <= 0 ==> CountChar(ProgressBar(percent, size), FullCell) == 0
    ensures percent >= 100 ==> CountChar(ProgressBar(percent, size), EmptyCell) == 0
  {
    var r := ProgressBar(percent, size);
    var p := Clamp(percent);
    var f := FilledCells(p, size);
    assert r == r[..size] + r[size..];
    LabelHasNoCells(p);
    BarCounts(f, size - f, r[size..]);
    if percent >= 100 {
      FilledFull(size);
    }
  }

  /** The number of cells `progressBar` draws when no size is given. */
  const DefaultBarSize: nat := 10

  /** `progressBar(percent)`, the size left at its default. */
  function ProgressBarDefault(percent: int): (r: string)
    ensures r == ProgressBar(percent, DefaultBarSize)
    ensures CountChar(r, FullCell) + CountChar(r, EmptyCell) == 10
    ensures r[10..] == " " + NatToString(Clamp(percent)) + "%"
  {
    ProgressBarCells(percent, DefaultBarSize);
    ProgressBar(percent, DefaultBarSize)
  }

  /** Half of the default bar is filled at fifty percent: five full cells and five empty ones. */
  lemma ProgressBarDefaultHalf()
    ensures CountChar(ProgressBarDefault(50), FullCell) == 5
    ensures CountChar(ProgressBarDefault(50), EmptyCell) == 5
  {
    ProgressBarCells(50, DefaultBarSize);
    assert FilledCells(50, 10) == 5;
  }

  lemma BarCounts(f: nat, e: nat, tail: string)
    requires CountChar(tail, FullCell) == 0 && CountChar(tail, EmptyCell) == 0
    ensures CountChar(Repeat(FullCell, f) + Repeat(EmptyCell, e) + tail, FullCell) == f
    ensures CountChar(Repeat(FullCell, f) + Repeat(EmptyCell, e) + tail, EmptyCell) == e
  {
    var a, b := Repeat(FullCell, f), Repeat(EmptyCell, e);
    CountCharConcat(a + b, tail, FullCell);
    CountCharConcat(a + b, tail, EmptyCell);
    CountCharConcat(a, b, FullCell);
    CountCharConcat(a, b, EmptyCell);
    CountRepeat(FullCell, FullCell, f);
    CountRepeat(FullCell, EmptyCell, f);
    CountRepeat(EmptyCell, FullCell, e);
    CountRepeat(EmptyCell, EmptyCell, e);
  }

  lemma LabelHasNoCells(p: nat)
    ensures CountChar(" " + NatToString(p) + "%", FullCell) == 0
    ensures CountChar(" " + NatToString(p) + "%", EmptyCell) == 0
  {
    var d := NatToString(p);
    assert " " + d + "%" == " " + (d + "%");
    CountCharConcat(" ", d + "%", FullCell);
    CountCharConcat(" ", d + "%", EmptyCell);
    CountCharConcat(d, "%", FullCell);
    CountCharConcat(d, "%", EmptyCell);
    CountNoCells(d);
  }

  lemma FilledFull(size: nat)
    ensures FilledCells(100, size) == size
  {
    assert (size * 100) as real / 100.0 == size as real;
  }

  // ---------------------------------------------------------------------------
  // severityBadge

  const RedCircle := "\U{1F534}"
  const YellowCircle := "\U{1F7E1}"
  const GreenCircle := "\U{1F7E2}"
  const BlueCircle := "\U{1F535}"
  const WhiteCircle := "⚪"

  /** `severityBadge`: the badge for HIGH, MEDIUM, LOW or INFO in any case; anything else is white. */
  function SeverityBadge(severity: Option<string>): (r: string)
    ensures severity.None? ==> r == WhiteCircle
    ensures severity.Some? && Upper(severity.value) !in {"HIGH", "MEDIUM", "LOW", "INFO"} ==> r == WhiteCircle
    ensures severity.Some? && Upper(severity.value) == "HIGH" ==> r == RedCircle
    ensures severity.Some? && Upper(severity.value) == "MEDIUM" ==> r == YellowCircle
    ensures severity.Some? && Upper(severity.value) == "LOW" ==> r == GreenCircle
    ensures severity.Some? && Upper(severity.value) == "INFO" ==> r == BlueCircle
  {
    match severity
    case None => WhiteCircle
    case Some(s) =>
      match Upper(s)
      case "HIGH" => RedCircle
      case "MEDIUM" => YellowCircle
      case "LOW" => GreenCircle
      case "INFO" => BlueCircle
      case _ => WhiteCircle
  }

  /** The object literal `severityBadge` indexes, keyed by upper-case severity. */
  const BadgeTable: map<string, string> :=
    map["HIGH" := RedCircle, "MEDIUM" := YellowCircle, "LOW" := GreenCircle, "INFO" := BlueCircle]

  /** The badge is the table entry for the upper-cased severity, or white when there is none. */
  lemma SeverityBadgeMatchesTable(s: string)
    ensures SeverityBadge(Some(s)) == if Upper(s) in BadgeTable then BadgeTable[Upper(s)] else WhiteCircle
  {
  }

  /** The badge depends only on the upper-cased severity. */
  lemma SeverityBadgeCaseInsensitive(s: string)
    ensures SeverityBadge(Some(Lower(s))) == SeverityBadge(Some(s))
    ensures SeverityBadge(Some(Upper(s))) == SeverityBadge(Some(s))
  {
    UpperOfLower(s);
    UpperOfUpper(s);
  }

  lemma UpperOfLower(s: string)
    ensures Upper(Lower(s)) == Upper(s)
  {
    assert forall i :: 0 <= i < |s| ==> UpperChar(LowerChar(s[i])) == UpperChar(s[i]);
  }

  lemma UpperOfUpper(s: string)
    ensures Upper(Upper(s)) == Upper(s)
  {
    assert forall i :: 0 <= i < |s| ==> UpperChar(UpperChar(s[i])) == UpperChar(s[i]);
  }

  lemma SeverityBadgeExamples()
    ensures SeverityBadge(Some("HIGH")) == RedCircle
    ensures SeverityBadge(Some("high")) == RedCircle
    ensures SeverityBadge(Some("INFO")) == BlueCircle
  {
    assert Upper("high") == "HIGH";
    assert Upper("HIGH") == "HIGH";
    assert Upper("INFO") == "INFO";
  }

  // ---------------------------------------------------------------------------
  // formatDuration

  /** `formatDuration` for whole seconds: "Ns" under a minute, otherwise "Mm Ss". */
  function FormatDuration(seconds: int): (r: string)
    ensures seconds < 60 ==> r == IntToString(seconds) + "s"
    ensures seconds >= 60 ==> r == IntToString(seconds / 60) + "m " + IntToString(seconds % 60) + "s"
  {
    if seconds < 60 then IntToString(seconds) + "s"
    else IntToString(seconds / 60) + "m " + IntToString(seconds % 60) + "s"
  }

  /** Reads a formatted duration back into seconds. */
  function ParseDuration(s: string): Option<int> {
    if s == [] || s[|s| - 1] != 's' then None
    else
      var body := s[..|s| - 1];
      var parts := Split(body, ' ');
      if |parts| == 1 then ParseInt(body)
      else if |parts| == 2 && parts[0] != [] && parts[0][|parts[0]| - 1] == 'm' then
        match (ParseInt(parts[0][..|parts[0]| - 1]), ParseInt(parts[1]))
        case (Some(m), Some(sec)) => Some(m * 60 + sec)
        case _ => None
      else None
  }

  lemma IntToStringHasNoSpace(i: int)
    ensures ' ' !in IntToString(i) && 'm' !in IntToString(i)
  {
    var r := IntToString(i);
    if i < 0 {
      var d := NatToString(-i);
      assert r == "-" + d;
      assert forall k :: 0 <= k < |d| ==> IsDigit(d[k]);
      assert forall k :: 1 <= k < |r| ==> r[k] == d[k - 1];
    }
  }

  /** Formatting then parsing gives the duration back. */
  lemma ParseFormatDuration(seconds: int)
    ensures ParseDuration(FormatDuration(seconds)) == Some(seconds)
  {
    var s := FormatDuration(seconds);
    if seconds < 60 {
      var body := IntToString(seconds);
      assert s[..|s| - 1] == body;
      IntToStringHasNoSpace(seconds);
      SplitNoSeparator(body, ' ');
      ParseIntToString(seconds);
    } else {
      ParseMinutesBody(seconds / 60, seconds % 60);
      assert s[..|s| - 1] == IntToString(seconds / 60) + "m " + IntToString(seconds % 60);
    }
  }

  /** The `"<m>m <s>"` body of a long duration splits at the space into `<m>m` and `<s>`, which parse back. */
  lemma ParseMinutesBody(minutes: int, seconds: int)
    ensures var body := IntToString(minutes) + "m " + IntToString(seconds);
            var parts := Split(body, ' ');
            && |parts| == 2 && parts[0] != [] && parts[0][|parts[0]| - 1] == 'm'
            && ParseInt(parts[0][..|parts[0]| - 1]) == Some(minutes)
            && ParseInt(parts[1]) == Some(seconds)
  {
    var m := IntToString(minutes);
    var sec := IntToString(seconds);
    var body := m + "m " + sec;
    IntToStringHasNoSpace(minutes);
    IntToStringHasNoSpace(seconds);
    assert ' ' !in m + "m" by {
      assert forall k :: 0 <= k < |m| ==> (m + "m")[k] == m[k];
    }
    assert body == Join([' '], [m + "m", sec]);
    SplitJoin([m + "m", sec], ' ');
    assert (m + "m")[..|m + "m"| - 1] == m;
    ParseIntToString(minutes);
    ParseIntToString(seconds);
  }

  lemma FormatDurationExamples()
    ensures FormatDuration(45) == "45s"
    ensures FormatDuration(125) == "2m 5s"
    ensures FormatDuration(60) == "1m 0s"
  {
    assert NatToString(45) == "45" by {
      assert NatToString(4) == "4";
    }
    assert NatToString(2) == "2";
    assert NatToString(5) == "5";
    assert NatToString(1) == "1";
    assert NatToString(0) == "0";
  }

  // ---------------------------------------------------------------------------
  // truncate

  /** JavaScript `s.slice(0, end)`: a negative end counts from the back. */
  function SliceTo(s: string, end: int): (r: string)
    ensures r <= s
    ensures 0 <= end <= |s| ==> |r| == end
    ensures end < 0 ==> |r| == if |s| + end > 0 then |s| + end else 0
  {
    if end < 0 then (if |s| + end > 0 then s[..|s| + end] else [])
    else if end > |s| then s
    else s[..end]
  }

  const Ellipsis: char := '…'

  /** `truncate(str, max)`: falsy input gives "", a long string is cut to `max` characters ending in '…'. */
  function Truncate(str: Option<string>, max: int): (r: string)
    ensures str.None? || str.value == "" ==> r == ""
    ensures str.Some? && 0 < |str.value| <= max ==> r == str.value
    ensures str.Some? && |str.value| > max >= 1 ==>
              |r| == max && r[max - 1] == Ellipsis && r[..max - 1] == str.value[..max - 1]
    ensures str.Some? && str.value != "" && |str.value| > max ==> |r| >= 1 && r[|r| - 1] == Ellipsis && r[..|r| - 1] <= str.value
    ensures str.Some? && str.value != "" && |str.value| > max && max < 1 ==>
              |r| == 1 + (if |str.value| + max - 1 > 0 then |str.value| + max - 1 else 0)
  {
    if str.None? || str.value == "" then ""
    else
      var s := str.value;
      if |s| > max then SliceTo(s, max - 1) + [Ellipsis] else s
  }

  /** A `max` of 0 makes `slice(0, -1)` drop only the last character: "abc" becomes "ab…". */
  lemma TruncateZeroMax()
    ensures Truncate(Some("abc"), 0) == "ab…"
  {
    assert SliceTo("abc", -1) == "ab";
  }

  /** Truncating an already truncated string changes nothing. */
  lemma TruncateIdempotent(str: Option<string>, max: int)
    requires max >= 1
    ensures Truncate(Some(Truncate(str, max)), max) == Truncate(str, max)
  {
  }
}

=== FILE: json.dfy ===
/**
 * Parsed JSON values as the JavaScript and Python code sees them after `JSON.parse` /
 * `json.loads`.  Object keys are unordered here; nothing in the modelled code depends on
 * key order.
 */
module JsonModel {
  import opened Wrappers

  datatype Json =
    | JNull
    | JBool(b: bool)
    | JNum(n: real)
    | JStr(s: string)
    | JArr(items: seq<Json>)
    | JObj(fields: map<string, Json>)

  /** JavaScript truthiness (NaN is not representable here). */
  predicate Truthy(j: Json) {
    match j
    case JNull => false
    case JBool(b) => b
    case JNum(n) => n != 0.0
    case JStr(s) => s != ""
    case JArr(_) => true
    case JObj(_) => true
  }

  /** Truthiness of a possibly undefined value, `undefined` being falsy. */
  predicate Present(v: Option<Json>) {
    v.Some? && Truthy(v.value)
  }

  /** Property access `j.key`: `None` is JavaScript's `undefined`, also for non-objects. */
  function Get(j: Json, key: string): (r: Option<Json>)
    ensures r.Some? <==> j.JObj? && key in j.fields
  {
    if j.JObj? && key in j.fields then Some(j.fields[key]) else None
  }

  /** Python's `d.get(key, default)` on an object. */
  function GetOr(j: Json, key: string, default: Json): (r: Json)
    ensures j.JObj? && key in j.fields ==> r == j.fields[key]
    ensures !(j.JObj? && key in j.fields) ==> r == default
  {
    Get(j, key).GetOr(default)
  }

  /** The string value at `key`, if it is one. */
  function GetString(j: Json, key: string): (r: Option<string>)
    ensures r.Some? <==> Get(j, key).Some? && Get(j, key).value.JStr?
  {
    match Get(j, key)
    case Some(JStr(s)) => Some(s)
    case _ => None
  }

  /** JavaScript `a || b` on a possibly undefined value: the value when truthy, else the fallback. */
  function OrElse(v: Option<Json>, fallback: Json): (r: Json)
    ensures v.Some? && Truthy(v.value) ==> r == v.value
    ensures !(v.Some? && Truthy(v.value)) ==> r == fallback
  {
    if v.Some? && Truthy(v.value) then v.value else fallback
  }
}

=== FILE: knowledge_graph.dfy ===
/**
 * The hyper-explorer's `KnowledgeGraph`: page states (nodes keyed by fingerprint key), the actions
 * observed between them (edges keyed by `from::ref`, kept in insertion order as a JavaScript `Map`
 * iterates them), the frontier of keys still to explore, and the surprises seen when a predicted
 * state did not match.
 */
module KnowledgeGraph {
  import opened Wrappers
  import opened Seqs
  import opened StateFingerprint

  datatype Node = Node(url: string, title: string, urlPath: string, domHash: string, landmarkHash: string,
                       consoleErrorCount: nat, consoleErrors: seq<string>, visitCount: nat)

  /** An observed action; `outcomes` lists the target key of every time it was taken. */
  datatype Edge = Edge(from: string, actionRef: string, actionType: string, to: string,
                       count: nat, outcomes: seq<string>)

  datatype EdgeEntry = EdgeEntry(key: string, edge: Edge)

  datatype Surprise = Surprise(from: string, actionRef: string, predicted: string, actual: string, delta: seq<Change>)

  datatype Graph = Graph(nodes: map<string, Node>, edges: seq<EdgeEntry>, frontier: set<string>, surprises: seq<Surprise>)

  const EmptyGraph := Graph(map[], [], {}, [])

  /** New nodes keep the last 20 console errors, revisited ones at most 50. */
  const NewNodeErrorCap := 20
  const NodeErrorCap := 50

  // ---------------------------------------------------------------------------
  // The edge table: a JavaScript Map from edge key to edge.

  /** Index of the entry stored under `key`, or -1. */
  function FindKey(t: seq<EdgeEntry>, key: string): (i: int)
    ensures -1 <= i < |t|
    ensures i >= 0 ==> t[i].key == key
    ensures forall j :: 0 <= j < |t| && (i == -1 || j < i) ==> t[j].key != key
    decreases |t|
  {
    if t == [] then -1
    else if t[0].key == key then 0
    else
      var j := FindKey(t[1..], key);
      assert forall k :: 1 <= k < |t| ==> t[k] == t[1..][k - 1];
      if j == -1 then -1 else j + 1
  }

  /** `edges.get(key)`. */
  function Lookup(t: seq<EdgeEntry>, key: string): (r: Option<Edge>)
    ensures r.None? <==> forall j :: 0 <= j < |t| ==> t[j].key != key
    ensures r.Some? ==> EdgeEntry(key, r.value) in t
  {
    var i := FindKey(t, key);
    if i < 0 then None
    else
      assert t[i] == EdgeEntry(key, t[i].edge);
      Some(t[i].edge)
  }

  /** `edges.set(key, e)`: an existing entry is replaced in place, a new one goes last. */
  function SetEdge(t: seq<EdgeEntry>, key: string, e: Edge): (r: seq<EdgeEntry>)
    ensures Lookup(r, key) == Some(e)
    ensures |r| == if Lookup(t, key).Some? then |t| else |t| + 1
    ensures forall i :: 0 <= i < |t| && t[i].key != key ==> r[i] == t[i]
    ensures forall i :: 0 <= i < |r| ==> r[i] == EdgeEntry(key, e) || r[i] in t
  {
    var i := FindKey(t, key);
    if i < 0 then
      var r := t + [EdgeEntry(key, e)];
      assert forall j :: 0 <= j < |t| ==> r[j] == t[j];
      assert r[|t|].key == key;
      assert FindKey(r, key) == |t|;
      r
    else
      var r := t[i := EdgeEntry(key, e)];
      assert forall j :: 0 <= j < |r| && j != i ==> r[j] == t[j];
      assert r[i].key == key;
      assert FindKey(r, key) == i;
      r
  }

  /** Setting one key leaves what every other key finds unchanged. */
  lemma SetEdgeOther(t: seq<EdgeEntry>, key: string, e: Edge, k: string)
    requires k != key
    ensures Lookup(SetEdge(t, key, e), k) == Lookup(t, k)
  {
    var r := SetEdge(t, key, e);
    var i := FindKey(t, k);
    assert forall j :: 0 <= j < |r| ==> (r[j].key == k <==> j < |t| && t[j].key == k);
    if i >= 0 {
      assert FindKey(r, k) == i;
    }
  }

  /** `from::ref`, the key an action is recorded under. */
  function EdgeKey(fromKey: string, actionRef: string): string {
    fromKey + "::" + actionRef
  }

  // ---------------------------------------------------------------------------
  // addNode

  /** `filter((v, i, a) => a.indexOf(v) === i)`: the first occurrence of every value, in order. */
  function Dedupe(s: seq<string>): (r: seq<string>)
    ensures Distinct(r)
    ensures forall x :: x in r <==> x in s
    ensures |r| <= |s|
    decreases |s|
  {
    if s == [] then []
    else
      var init := s[..|s| - 1];
      var last := s[|s| - 1];
      var d := Dedupe(init);
      assert s == init + [last];
      if last in init then d else d + [last]
  }

  /** Each value of `r` first occurs in `s` before the values that follow it in `r`. */
  ghost predicate InFirstOccurrenceOrder(r: seq<string>, s: seq<string>) {
    forall i, j :: 0 <= i < j < |r| ==> IndexOf(s, r[i]) < IndexOf(s, r[j])
  }

  /** The kept values come in the order of their first occurrences in the input. */
  lemma {:induction false} DedupeFirstOccurrenceOrder(s: seq<string>)
    ensures InFirstOccurrenceOrder(Dedupe(s), s)
    decreases |s|
  {
    if s != [] {
      var init := s[..|s| - 1];
      var last := s[|s| - 1];
      var d := Dedupe(init);
      DedupeFirstOccurrenceOrder(init);
      assert InFirstOccurrenceOrder(d, init);
      assert s == init + [last];
      var r := Dedupe(s);
      assert r == if last in init then d else d + [last];
      forall i, j | 0 <= i < j < |r| ensures IndexOf(s, r[i]) < IndexOf(s, r[j]) {
        assert r[i] == d[i] && d[i] in init;
        IndexOfSnoc(init, last, d[i]);
        if j < |d| {
          assert r[j] == d[j] && d[j] in init;
          IndexOfSnoc(init, last, d[j]);
          assert IndexOf(init, d[i]) < IndexOf(init, d[j]);
        } else {
          assert r[j] == last && last !in init;
          IndexOfSnoc(init, last, last);
        }
      }
    }
  }

  /** A duplicate-free list is left as it is. */
  lemma {:induction false} DedupeDistinct(s: seq<string>)
    requires Distinct(s)
    ensures Dedupe(s) == s
    decreases |s|
  {
    if s != [] {
      var init := s[..|s| - 1];
      var last := s[|s| - 1];
      assert Distinct(init) by {
        forall i, j | 0 <= i < j < |init| ensures init[i] != init[j] {
          assert init[i] == s[i] && init[j] == s[j];
        }
      }
      assert last !in init by {
        forall i | 0 <= i < |init| ensures init[i] != last {
          assert init[i] == s[i];
        }
      }
      DedupeDistinct(init);
    }
  }

  /** Appending values to a duplicate-free list keeps that list in front, in its order. */
  lemma {:induction false} DedupeKeepsPrefix(a: seq<string>, b: seq<string>)
    requires Distinct(a)
    ensures |a| <= |Dedupe(a + b)| && Dedupe(a + b)[..|a|] == a
    decreases |b|
  {
    if b == [] {
      assert a + b == a;
      DedupeDistinct(a);
    } else {
      var b' := b[..|b| - 1];
      DedupeKeepsPrefix(a, b');
      assert (a + b)[..|a + b| - 1] == a + b';
    }
  }

  /**
   * `addNode(fingerprint, consoleMessages)`: a new key becomes a node visited once, keeping the last 20
   * console errors, and joins the frontier; a known key has its visit count raised and, when there are
   * new messages, its error list merged without duplicates and cut to the last 50.
   */
  function AddNode(g: Graph, f: Fingerprint, msgs: seq<string>): (r: (Graph, string))
    ensures r.1 == Key(f) && r.1 in r.0.nodes
    ensures r.0.nodes == g.nodes[r.1 := r.0.nodes[r.1]]
    ensures r.0.edges == g.edges && r.0.surprises == g.surprises
    ensures var n := r.0.nodes[r.1];
            r.1 !in g.nodes ==>
              && r.0.frontier == g.frontier + {r.1}
              && n.visitCount == 1
              && n.url == f.url && n.title == f.title && n.urlPath == f.urlPath
              && n.domHash == f.domHash && n.landmarkHash == f.landmarkHash
              && n.consoleErrorCount == |msgs|
              && |n.consoleErrors| == (if |msgs| < NewNodeErrorCap then |msgs| else NewNodeErrorCap)
              && n.consoleErrors == msgs[|msgs| - |n.consoleErrors|..]
    ensures r.1 in g.nodes ==>
              var n, o := r.0.nodes[r.1], g.nodes[r.1];
              && r.0.frontier == g.frontier
              && n.visitCount == o.visitCount + 1
              && n.url == o.url && n.title == o.title && n.urlPath == o.urlPath
              && n.domHash == o.domHash && n.landmarkHash == o.landmarkHash
              && (msgs == [] ==> n.consoleErrors == o.consoleErrors && n.consoleErrorCount == o.consoleErrorCount)
              && (msgs != [] ==>
                    && n.consoleErrorCount == o.consoleErrorCount + |msgs|
                    && Distinct(n.consoleErrors)
                    && |n.consoleErrors| <= NodeErrorCap
                    && (forall x :: x in n.consoleErrors ==> x in o.consoleErrors || x in msgs)
                    && (|Dedupe(o.consoleErrors + msgs)| <= NodeErrorCap ==>
                          forall x :: x in o.consoleErrors + msgs ==> x in n.consoleErrors))
  {
    var key := Key(f);
    if key !in g.nodes then
      var n := Node(f.url, f.title, f.urlPath, f.domHash, f.landmarkHash, |msgs|, LastN(msgs, NewNodeErrorCap), 1);
      (g.(nodes := g.nodes[key := n], frontier := g.frontier + {key}), key)
    else
      var o := g.nodes[key];
      var merged := if |msgs| > 0 then
                      o.(consoleErrorCount := o.consoleErrorCount + |msgs|,
                         consoleErrors := LastN(Dedupe(o.consoleErrors + msgs), NodeErrorCap))
                    else o;
      LastNDistinct(Dedupe(o.consoleErrors + msgs), NodeErrorCap);
      (g.(nodes := g.nodes[key := merged.(visitCount := o.visitCount + 1)]), key)
  }

  /**
   * Over the cap a revisited node keeps the last 50 errors of the merged, duplicate-free list, and all
   * of it when it is shorter.
   */
  lemma AddNodeKeepsLastErrors(g: Graph, f: Fingerprint, msgs: seq<string>)
    requires Key(f) in g.nodes && msgs != []
    ensures var d, n := Dedupe(g.nodes[Key(f)].consoleErrors + msgs), AddNode(g, f, msgs).0.nodes[Key(f)].consoleErrors;
            && |n| == (if |d| < NodeErrorCap then |d| else NodeErrorCap)
            && n == d[|d| - |n|..]
  {
  }

  /**
   * When a revisited node's merged error list fits the cap, its earlier errors stay first and in
   * order, followed by the new distinct ones.
   */
  lemma AddNodeKeepsEarlierErrors(g: Graph, f: Fingerprint, msgs: seq<string>)
    requires Key(f) in g.nodes && Distinct(g.nodes[Key(f)].consoleErrors) && msgs != []
    requires |Dedupe(g.nodes[Key(f)].consoleErrors + msgs)| <= NodeErrorCap
    ensures var o, n := g.nodes[Key(f)].consoleErrors, AddNode(g, f, msgs).0.nodes[Key(f)].consoleErrors;
            |o| <= |n| && n[..|o|] == o
  {
    var o := g.nodes[Key(f)].consoleErrors;
    DedupeKeepsPrefix(o, msgs);
  }

  /** The last `n` elements of a duplicate-free list are duplicate-free and come from it. */
  predicate DistinctSuffix(s: seq<string>, n: nat)
    requires n > 0
  {
    && Distinct(LastN(s, n))
    && (forall x :: x in LastN(s, n) ==> x in s)
    && (|s| <= n ==> LastN(s, n) == s)
  }

  lemma LastNDistinct(s: seq<string>, n: nat)
    requires n > 0 && Distinct(s)
    ensures DistinctSuffix(s, n)
  {
    var r := LastN(s, n);
    assert forall i :: 0 <= i < |r| ==> r[i] == s[|s| - |r| + i];
  }

  /** `markExplored`: the key leaves the frontier. */
  function MarkExplored(g: Graph, key: string): (r: Graph)
    ensures key !in r.frontier && r.frontier + {key} >= g.frontier && r.frontier <= g.frontier
    ensures r.nodes == g.nodes && r.edges == g.edges && r.surprises == g.surprises
  {
    g.(frontier := g.frontier - {key})
  }

  // ---------------------------------------------------------------------------
  // recordTransition

  /**
   * `recordTransition(from, ref, type, to, predicted)`: the edge `from::ref` (created with count 0 if
   * new) is taken once more and records the target; when a prediction was given and differs, a
   * surprise with the delta is logged; a target that is not yet a node joins the frontier.
   */
  function RecordTransition(g: Graph, from: Fingerprint, actionRef: string, actionType: string,
                            to: Fingerprint, predicted: Option<Fingerprint>): (r: Graph)
    ensures r.nodes == g.nodes
    ensures Lookup(r.edges, EdgeKey(Key(from), actionRef))
            == Some(TakenEdge(Lookup(g.edges, EdgeKey(Key(from), actionRef)), Key(from), actionRef, actionType, Key(to)))
    ensures g.frontier <= r.frontier <= g.frontier + {Key(to)}
    ensures Key(to) in r.frontier <==> Key(to) in g.frontier || Key(to) !in g.nodes
    ensures r.surprises == SurprisesAfter(g.surprises, Key(from), actionRef, predicted, to)
  {
    var ek := EdgeKey(Key(from), actionRef);
    var e := TakenEdge(Lookup(g.edges, ek), Key(from), actionRef, actionType, Key(to));
    Graph(g.nodes, SetEdge(g.edges, ek, e),
          if Key(to) in g.nodes then g.frontier else g.frontier + {Key(to)},
          SurprisesAfter(g.surprises, Key(from), actionRef, predicted, to))
  }

  /**
   * The edge after one more traversal: a new edge starts from `from`, `ref`, `type` and the target with
   * count 0; either way the count goes up by one and the target is appended to the outcomes. An
   * existing edge keeps its `to` and `actionType`.
   */
  function TakenEdge(prev: Option<Edge>, fromKey: string, actionRef: string, actionType: string, toKey: string): (e: Edge)
    ensures prev.None? ==> e == Edge(fromKey, actionRef, actionType, toKey, 1, [toKey])
    ensures prev.Some? ==>
              && e.count == prev.value.count + 1
              && e.outcomes == prev.value.outcomes + [toKey]
              && e.from == prev.value.from && e.actionRef == prev.value.actionRef
              && e.actionType == prev.value.actionType && e.to == prev.value.to
  {
    var base := prev.GetOr(Edge(fromKey, actionRef, actionType, toKey, 0, []));
    base.(count := base.count + 1, outcomes := base.outcomes + [toKey])
  }

  /** A surprise is logged exactly when a prediction was given and is not the state reached; its delta is never empty. */
  function SurprisesAfter(surprises: seq<Surprise>, fromKey: string, actionRef: string,
                          predicted: Option<Fingerprint>, to: Fingerprint): (r: seq<Surprise>)
    ensures (predicted.Some? && !Equals(predicted.value, to)) <==> |r| == |surprises| + 1
    ensures |surprises| <= |r| <= |surprises| + 1 && r[..|surprises|] == surprises
    ensures |r| == |surprises| + 1 ==>
              && r[|surprises|].from == fromKey && r[|surprises|].actionRef == actionRef
              && r[|surprises|].delta == Delta(predicted.value, to) && r[|surprises|].delta != []
  {
    if predicted.Some? && !Equals(predicted.value, to) then
      DeltaNonEmpty(predicted.value, to);
      var r := surprises + [Surprise(fromKey, actionRef, ShortKey(predicted.value), ShortKey(to), Delta(predicted.value, to))];
      assert r[..|surprises|] == surprises;
      r
    else
      assert surprises[..|surprises|] == surprises;
      surprises
  }

  /** A transition touches only the edge stored under `from::ref`. */
  lemma RecordTransitionOtherEdges(g: Graph, from: Fingerprint, actionRef: string, actionType: string,
                                   to: Fingerprint, predicted: Option<Fingerprint>, k: string)
    requires k != EdgeKey(Key(from), actionRef)
    ensures Lookup(RecordTransition(g, from, actionRef, actionType, to, predicted).edges, k) == Lookup(g.edges, k)
  {
    var ek := EdgeKey(Key(from), actionRef);
    SetEdgeOther(g.edges, ek, TakenEdge(Lookup(g.edges, ek), Key(from), actionRef, actionType, Key(to)), k);
  }

  // ---------------------------------------------------------------------------
  // Invariants the operations keep.

  /** Every frontier key is a known node. */
  predicate FrontierKnown(g: Graph) {
    forall k :: k in g.frontier ==> k in g.nodes
  }

  /**
   * Every edge is stored under `from::ref`, its count is the number of recorded outcomes, and its
   * `to` is the first target ever observed.
   */
  predicate EdgesConsistent(g: Graph) {
    forall i :: 0 <= i < |g.edges| ==> EntryConsistent(g.edges[i])
  }

  predicate EntryConsistent(en: EdgeEntry) {
    && en.key == EdgeKey(en.edge.from, en.edge.actionRef)
    && en.edge.count == |en.edge.outcomes|
    && en.edge.outcomes != [] && en.edge.outcomes[0] == en.edge.to
  }

  lemma AddNodeKeepsInvariants(g: Graph, f: Fingerprint, msgs: seq<string>)
    ensures FrontierKnown(g) ==> FrontierKnown(AddNode(g, f, msgs).0)
    ensures EdgesConsistent(g) ==> EdgesConsistent(AddNode(g, f, msgs).0)
  {
  }

  lemma MarkExploredKeepsInvariants(g: Graph, key: string)
    ensures FrontierKnown(g) ==> FrontierKnown(MarkExplored(g, key))
    ensures EdgesConsistent(g) ==> EdgesConsistent(MarkExplored(g, key))
  {
  }

  /** A transition keeps every frontier key known exactly when its target is already a node. */
  lemma RecordTransitionFrontier(g: Graph, from: Fingerprint, actionRef: string, actionType: string,
                                 to: Fingerprint, predicted: Option<Fingerprint>)
    requires FrontierKnown(g)
    ensures FrontierKnown(RecordTransition(g, from, actionRef, actionType, to, predicted)) <==> Key(to) in g.nodes
  {
  }

  /** Recording a transition keeps the edge table consistent. */
  lemma RecordTransitionKeepsEdges(g: Graph, from: Fingerprint, actionRef: string, actionType: string,
                                   to: Fingerprint, predicted: Option<Fingerprint>)
    requires EdgesConsistent(g)
    ensures EdgesConsistent(RecordTransition(g, from, actionRef, actionType, to, predicted))
  {
    var ek := EdgeKey(Key(from), actionRef);
    match Lookup(g.edges, ek)
    case None =>
    case Some(o) =>
      assert EntryConsistent(EdgeEntry(ek, o));
  }

  // ---------------------------------------------------------------------------
  // getCoverageStats

  datatype Coverage = Coverage(total: nat, explored: int, frontier: nat, percent: real)

  /** `getCoverageStats`: node count, nodes minus frontier size, frontier size, explored share in percent. */
  function CoverageStats(g: Graph): (c: Coverage)
    ensures c.total == |g.nodes| && c.frontier == |g.frontier|
    ensures c.explored + c.frontier == c.total
    ensures FrontierKnown(g) ==> 0 <= c.explored
    ensures c.total == 0 ==> c.percent == 0.0
    ensures c.total > 0 ==> c.percent * (c.total as real) == (c.explored as real) * 100.0
  {
    var total := |g.nodes|;
    var explored := total - |g.frontier|;
    FrontierBound(g);
    Coverage(total, explored, |g.frontier|, if total == 0 then 0.0 else (explored as real) / (total as real) * 100.0)
  }

  lemma FrontierBound(g: Graph)
    ensures FrontierKnown(g) ==> |g.frontier| <= |g.nodes|
  {
    if FrontierKnown(g) {
      assert g.frontier <= g.nodes.Keys;
      assert g.nodes.Keys == g.frontier + (g.nodes.Keys - g.frontier);
    }
  }

  /** A transition to an unseen state in an empty graph leaves explored at -1. */
  lemma CoverageCanBeNegative(from: Fingerprint, to: Fingerprint)
    ensures CoverageStats(RecordTransition(EmptyGraph, from, "e1", "click", to, None)).explored == -1
  {
    var r := RecordTransition(EmptyGraph, from, "e1", "click", to, None);
    assert r.frontier == {Key(to)};
  }

  /**
   * Coverage as evidently intended: explored counts the nodes that are not on the frontier, so a
   * frontier entry that is not yet a node (a recorded transition's target) no longer pushes it
   * below zero.
   */
  function CoverageStatsCorrected(g: Graph): (c: Coverage)
    ensures c.total == |g.nodes| && c.frontier == |g.frontier|
    ensures 0 <= c.explored <= c.total
    ensures c.explored + |g.nodes.Keys * g.frontier| == c.total
    ensures c.total == 0 ==> c.percent == 0.0
    ensures c.total > 0 ==> 0.0 <= c.percent <= 100.0 && c.percent * (c.total as real) == (c.explored as real) * 100.0
  {
    var total := |g.nodes|;
    var keys := g.nodes.Keys;
    assert keys == (keys - g.frontier) + (keys * g.frontier);
    assert (keys - g.frontier) * (keys * g.frontier) == {};
    var explored := |keys - g.frontier|;
    var percent := if total == 0 then 0.0 else (explored as real) / (total as real) * 100.0;
    assert total > 0 ==> percent * (total as real) == (explored as real) * 100.0;
    Coverage(total, explored, |g.frontier|, percent)
  }

  /** With every frontier key a node, the corrected figures are the ones `getCoverageStats` gives. */
  lemma CoverageCorrectedAgrees(g: Graph)
    requires FrontierKnown(g)
    ensures CoverageStatsCorrected(g) == CoverageStats(g)
  {
    assert g.nodes.Keys * g.frontier == g.frontier;
  }

  /** On the graph where `getCoverageStats` reports -1, the corrected count is 0. */
  lemma CoverageCorrectedExample(from: Fingerprint, to: Fingerprint)
    ensures CoverageStatsCorrected(RecordTransition(EmptyGraph, from, "e1", "click", to, None)).explored == 0
  {
    var r := RecordTransition(EmptyGraph, from, "e1", "click", to, None);
    assert r.nodes == map[];
  }

  // ---------------------------------------------------------------------------
  // findPathToFrontier

  /** Some edge leads from `a` to `b`. */
  predicate HasEdge(g: Graph, a: string, b: string) {
    exists i :: 0 <= i < |g.edges| && g.edges[i].edge.from == a && g.edges[i].edge.to == b
  }

  /** A non-empty sequence of keys, each joined to the next by an edge. */
  predicate IsPath(g: Graph, p: seq<string>) {
    |p| > 0 && forall i :: 0 <= i < |p| - 1 ==> HasEdge(g, p[i], p[i + 1])
  }

  /** Every key the search can reach: the start and every edge target. */
  function Universe(g: Graph, start: string): set<string> {
    {start} + set i | 0 <= i < |g.edges| :: g.edges[i].edge.to
  }

  /** The keys the queued paths end in. */
  function Lasts(queue: seq<seq<string>>): set<string>
    decreases |queue|
  {
    if queue == [] then {}
    else (if queue[0] == [] then {} else {queue[0][|queue[0]| - 1]}) + Lasts(queue[1..])
  }

  lemma {:induction false} LastsSnoc(queue: seq<seq<string>>, p: seq<string>)
    requires p != []
    ensures Lasts(queue + [p]) == Lasts(queue) + {p[|p| - 1]}
    decreases |queue|
  {
    if queue == [] {
      assert ([p])[1..] == [];
    } else {
      assert (queue + [p])[1..] == queue[1..] + [p];
      LastsSnoc(queue[1..], p);
    }
  }

  /** A simple path from `start` whose keys have all been visited. */
  predicate PathOk(g: Graph, start: string, p: seq<string>, visited: set<string>) {
    IsPath(g, p) && p[0] == start && Distinct(p) && forall m :: 0 <= m < |p| ==> p[m] in visited
  }

  predicate QueueOk(g: Graph, start: string, queue: seq<seq<string>>, visited: set<string>) {
    forall k :: 0 <= k < |queue| ==> PathOk(g, start, queue[k], visited)
  }

  /** Every edge leaving a key of `done` ends in `visited`. */
  predicate Closed(g: Graph, done: set<string>, visited: set<string>) {
    forall i :: 0 <= i < |g.edges| && g.edges[i].edge.from in done ==> g.edges[i].edge.to in visited
  }

  /**
   * The breadth-first search's invariant: queued paths are simple paths from the start; expanded keys
   * (`done`) are outside the frontier and all their successors are visited; every visited key is
   * expanded or ends a queued path.
   */
  predicate BfsInv(g: Graph, start: string, queue: seq<seq<string>>, visited: set<string>, done: set<string>) {
    && start in visited
    && visited <= Universe(g, start)
    && QueueOk(g, start, queue, visited)
    && done <= visited
    && (forall x :: x in done ==> x !in g.frontier)
    && Closed(g, done, visited)
    && visited <= done + Lasts(queue)
  }

  /**
   * `findPathToFrontier(startKey)`: `[start]` when the start is on the frontier; otherwise the first
   * path breadth-first search finds from the start to a frontier key, or None when no frontier key can
   * be reached along edges.
   */
  method FindPathToFrontier(g: Graph, start: string) returns (path: Option<seq<string>>)
    ensures start in g.frontier ==> path == Some([start])
    ensures path.Some? ==> var p := path.value;
              IsPath(g, p) && p[0] == start && p[|p| - 1] in g.frontier && Distinct(p)
    ensures path.None? ==> forall p :: IsPath(g, p) && p[0] == start ==> p[|p| - 1] !in g.frontier
  {
    if start in g.frontier {
      return Some([start]);
    }
    var queue: seq<seq<string>> := [[start]];
    var visited: set<string> := {start};
    ghost var done: set<string> := {};
    assert Lasts(queue) == {start} by {
      assert queue[1..] == [];
    }
    while queue != []
      invariant BfsInv(g, start, queue, visited, done)
      decreases Universe(g, start) - visited, |queue|
    {
      var p := queue[0];
      var rest := queue[1..];
      assert PathOk(g, start, p, visited);
      var current := p[|p| - 1];
      if current in g.frontier {
        return Some(p);
      }
      assert QueueOk(g, start, rest, visited) by {
        forall k | 0 <= k < |rest| ensures PathOk(g, start, rest[k], visited) {
          assert rest[k] == queue[k + 1];
        }
      }
      assert Lasts(queue) == {current} + Lasts(rest);
      var queue', visited' := Expand(g, start, p, rest, visited, done);
      queue, visited := queue', visited';
      done := done + {current};
    }
    NothingReachable(g, start, visited, done);
    return None;
  }

  /** Queues a path one step longer for every edge from the end of `p` to an unvisited key. */
  method Expand(g: Graph, start: string, p: seq<string>, queue: seq<seq<string>>, visited: set<string>,
                ghost done: set<string>)
    returns (queue': seq<seq<string>>, visited': set<string>)
    requires PathOk(g, start, p, visited) && p[|p| - 1] !in g.frontier
    requires start in visited && visited <= Universe(g, start)
    requires QueueOk(g, start, queue, visited)
    requires done <= visited && (forall x :: x in done ==> x !in g.frontier) && Closed(g, done, visited)
    requires visited <= done + {p[|p| - 1]} + Lasts(queue)
    ensures BfsInv(g, start, queue', visited', done + {p[|p| - 1]})
    ensures visited <= visited'
    ensures visited' == visited ==> queue' == queue
  {
    var current := p[|p| - 1];
    queue', visited' := queue, visited;
    var j := 0;
    while j < |g.edges|
      invariant 0 <= j <= |g.edges|
      invariant visited <= visited' <= Universe(g, start)
      invariant visited' == visited ==> queue' == queue
      invariant QueueOk(g, start, queue', visited')
      invariant Closed(g, done, visited')
      invariant visited' <= done + {current} + Lasts(queue')
      invariant forall k :: 0 <= k < j && g.edges[k].edge.from == current ==> g.edges[k].edge.to in visited'
    {
      var e := g.edges[j].edge;
      if e.from == current && e.to !in visited' {
        var q := p + [e.to];
        assert HasEdge(g, current, e.to);
        assert IsPath(g, q) by {
          forall i | 0 <= i < |q| - 1 ensures HasEdge(g, q[i], q[i + 1]) {
            if i < |p| - 1 {
              assert q[i] == p[i] && q[i + 1] == p[i + 1];
            }
          }
        }
        assert Distinct(q) by {
          forall a, b | 0 <= a < b < |q| ensures q[a] != q[b] {
            if b < |p| {
              assert q[a] == p[a] && q[b] == p[b];
            } else {
              assert q[a] == p[a] && p[a] in visited;
            }
          }
        }
        LastsSnoc(queue', q);
        queue', visited' := queue' + [q], visited' + {e.to};
        assert e.to in Universe(g, start);
        assert PathOk(g, start, q, visited');
      }
      j := j + 1;
    }
  }

  /** With nothing queued, the visited keys are closed under edges and none is on the frontier. */
  lemma NothingReachable(g: Graph, start: string, visited: set<string>, done: set<string>)
    requires BfsInv(g, start, [], visited, done)
    ensures forall p :: IsPath(g, p) && p[0] == start ==> p[|p| - 1] !in g.frontier
  {
    assert visited == done;
    forall p | IsPath(g, p) && p[0] == start ensures p[|p| - 1] !in g.frontier {
      PathStaysInside(g, visited, p, |p| - 1);
    }
  }

  /** A path that starts among keys closed under edges never leaves them. */
  lemma {:induction false} PathStaysInside(g: Graph, visited: set<string>, p: seq<string>, i: nat)
    requires Closed(g, visited, visited)
    requires IsPath(g, p) && p[0] in visited && i < |p|
    ensures p[i] in visited
    decreases i
  {
    if i > 0 {
      PathStaysInside(g, visited, p, i - 1);
      assert HasEdge(g, p[i - 1], p[i]);
      var k :| 0 <= k < |g.edges| && g.edges[k].edge.from == p[i - 1] && g.edges[k].edge.to == p[i];
    }
  }
}

=== FILE: migration_order.dfy ===
/**
 * The migration order of the brownfield-refactor benchmark (tools/benchmark/refactor.js,
 * `calculateMigrationOrder`): Kahn's topological sort over "service calls service" edges, where a
 * service becomes ready once every service that calls it has been migrated.
 */
module MigrationOrder {
  import opened Seqs

  datatype Service = Service(id: int, name: string)

  /** One `dependencies` entry: the services `source` calls, repetitions included. */
  datatype DepEntry = DepEntry(source: string, targets: seq<string>)

  /** A JavaScript object's keys are distinct. */
  predicate DistinctSources(deps: seq<DepEntry>) {
    forall i, j :: 0 <= i < j < |deps| ==> deps[i].source != deps[j].source
  }

  function Names(s: seq<Service>): (r: seq<string>)
    ensures |r| == |s| && forall i :: 0 <= i < |s| ==> r[i] == s[i].name
  {
    seq(|s|, i requires 0 <= i < |s| => s[i].name)
  }

  function NameSet(s: seq<Service>): set<string> {
    set i | 0 <= i < |s| :: s[i].name
  }

  /** Service names identify services. */
  predicate UniqueNames(services: seq<Service>) {
    Distinct(Names(services))
  }

  /** `dependencies[a] || []`. */
  function Targets(deps: seq<DepEntry>, a: string): (r: seq<string>)
    ensures r != [] ==> exists i :: 0 <= i < |deps| && deps[i].source == a && deps[i].targets == r
    decreases |deps|
  {
    if deps == [] then []
    else if deps[0].source == a then deps[0].targets
    else
      var r := Targets(deps[1..], a);
      assert r != [] ==> exists i :: 1 <= i < |deps| && deps[i].source == a && deps[i].targets == r by {
        if r != [] {
          var k :| 0 <= k < |deps[1..]| && deps[1..][k].source == a && deps[1..][k].targets == r;
          assert deps[k + 1] == deps[1..][k];
        }
      }
      r
  }

  function Occurrences(t: seq<string>, x: string): (n: nat)
    ensures n <= |t|
    ensures n == 0 <==> x !in t
    decreases |t|
  {
    if t == [] then 0
    else Occurrences(t[..|t| - 1], x) + (if t[|t| - 1] == x then 1 else 0)
  }

  lemma {:induction false} OccurrencesPrefix(t: seq<string>, k: nat, x: string)
    requires k <= |t|
    ensures Occurrences(t[..k], x) <= Occurrences(t, x)
    decreases |t|
  {
    if k < |t| {
      assert t[..|t| - 1][..k] == t[..k];
      OccurrencesPrefix(t[..|t| - 1], k, x);
    } else {
      assert t[..k] == t;
    }
  }

  /**
   * The indegree `b` still has once every service in `done` has been processed: the calls to `b`
   * from entries whose source is not yet done.
   */
  function Remaining(deps: seq<DepEntry>, done: set<string>, b: string): nat
    decreases |deps|
  {
    if deps == [] then 0
    else (if deps[0].source in done then 0 else Occurrences(deps[0].targets, b)) + Remaining(deps[1..], done, b)
  }

  /** An unprocessed source still contributes all its calls. */
  lemma {:induction false} RemainingCovers(deps: seq<DepEntry>, done: set<string>, a: string, b: string)
    ensures a !in done ==> Remaining(deps, done, b) >= Occurrences(Targets(deps, a), b)
    decreases |deps|
  {
    if deps != [] && deps[0].source != a {
      RemainingCovers(deps[1..], done, a, b);
    }
  }

  /** A zero count means every caller has been processed. */
  lemma RemainingZeroSources(deps: seq<DepEntry>, done: set<string>, a: string, b: string)
    requires Remaining(deps, done, b) == 0
    requires b in Targets(deps, a)
    ensures a in done
  {
    RemainingCovers(deps, done, a, b);
  }

  lemma {:induction false} RemainingIgnores(deps: seq<DepEntry>, done: set<string>, a: string, b: string)
    requires forall i :: 0 <= i < |deps| ==> deps[i].source != a
    ensures Remaining(deps, done + {a}, b) == Remaining(deps, done, b)
    decreases |deps|
  {
    if deps != [] {
      RemainingIgnores(deps[1..], done, a, b);
    }
  }

  /** Processing `a` removes exactly its calls. */
  lemma {:induction false} RemainingStep(deps: seq<DepEntry>, done: set<string>, a: string, b: string)
    requires DistinctSources(deps)
    requires a !in done
    ensures Remaining(deps, done + {a}, b) == Remaining(deps, done, b) - Occurrences(Targets(deps, a), b)
    decreases |deps|
  {
    if deps != [] {
      assert DistinctSources(deps[1..]) by {
        forall i, j | 0 <= i < j < |deps[1..]| ensures deps[1..][i].source != deps[1..][j].source {
          assert deps[1..][i] == deps[i + 1] && deps[1..][j] == deps[j + 1];
        }
      }
      if deps[0].source == a {
        RemainingIgnores(deps[1..], done, a, b);
      } else {
        RemainingStep(deps[1..], done, a, b);
        RemainingCovers(deps[1..], done, a, b);
      }
    }
  }

  // ---------------------------------------------------------------------------
  // The initial queue: zero-indegree services in ascending id order.

  predicate SortedById(s: seq<Service>) {
    forall i, j :: 0 <= i < j < |s| ==> s[i].id <= s[j].id
  }

  /** Inserts `x` after every element whose id is not larger, as a stable sort does. */
  function InsertById(s: seq<Service>, x: Service): (r: seq<Service>)
    requires SortedById(s)
    ensures SortedById(r)
    ensures multiset(r) == multiset(s) + multiset{x}
    ensures r[0] == x || (s != [] && r[0] == s[0])
    decreases |s|
  {
    if s == [] || x.id < s[0].id then
      SortedCons(x, s);
      [x] + s
    else
      SortedTail(s);
      var rest := InsertById(s[1..], x);
      assert s == [s[0]] + s[1..];
      SortedCons(s[0], rest);
      [s[0]] + rest
  }

  lemma SortedTail(s: seq<Service>)
    requires SortedById(s) && s != []
    ensures SortedById(s[1..])
    ensures |s| > 1 ==> s[0].id <= s[1..][0].id
  {
    assert forall i :: 0 <= i < |s[1..]| ==> s[1..][i] == s[i + 1];
  }

  /** A service whose id is at most the head's can go in front of a sorted sequence. */
  lemma SortedCons(x: Service, s: seq<Service>)
    requires SortedById(s)
    requires s == [] || x.id <= s[0].id
    ensures SortedById([x] + s)
  {
    var r := [x] + s;
    forall i, j | 0 <= i < j < |r| ensures r[i].id <= r[j].id {
      assert r[j] == s[j - 1];
      if i > 0 {
        assert r[i] == s[i - 1];
      }
    }
  }

  /** `sort((a, b) => a.id - b.id)`. */
  function SortById(s: seq<Service>): (r: seq<Service>)
    ensures SortedById(r)
    ensures multiset(r) == multiset(s)
    decreases |s|
  {
    if s == [] then []
    else
      assert s == s[..|s| - 1] + [s[|s| - 1]];
      InsertById(SortById(s[..|s| - 1]), s[|s| - 1])
  }

  /** The starting indegree of every service: the calls to it from every entry. */
  function InitialIndegrees(services: seq<Service>, deps: seq<DepEntry>): (m: map<string, int>)
    ensures m.Keys == NameSet(services)
    ensures forall b :: b in m ==> m[b] == Remaining(deps, {}, b)
  {
    map b | b in NameSet(services) :: Remaining(deps, {}, b)
  }

  /** The queue Kahn's algorithm starts from: the services nobody calls, by ascending id. */
  function InitialQueue(services: seq<Service>, deps: seq<DepEntry>): (q: seq<Service>)
    ensures SortedById(q)
    ensures forall s :: s in q <==> s in services && Remaining(deps, {}, s.name) == 0
    ensures multiset(q) <= multiset(services)
  {
    var ready := Filter(services, (s: Service) => Remaining(deps, {}, s.name) == 0);
    var q := SortById(ready);
    assert forall s :: s in q <==> s in ready by {
      forall s ensures s in q <==> s in ready {
        assert s in q <==> s in multiset(q);
        assert s in ready <==> s in multiset(ready);
      }
    }
    q
  }

  // ---------------------------------------------------------------------------
  // The sort.

  /** Each emitted service comes after every service that calls it. */
  predicate SourcesFirst(deps: seq<DepEntry>, order: seq<Service>) {
    forall j :: 0 <= j < |order| ==> Remaining(deps, NameSet(order[..j]), order[j].name) == 0
  }

  function FindByName(services: seq<Service>, name: string): (r: Service)
    requires name in NameSet(services)
    ensures r in services && r.name == name
    decreases |services|
  {
    if services[0].name == name then services[0]
    else
      assert name in NameSet(services[1..]) by {
        var i :| 0 <= i < |services| && services[i].name == name;
        assert services[1..][i - 1] == services[i];
      }
      FindByName(services[1..], name)
  }

  /** The queue holds exactly the services whose count is zero and that are not yet emitted. */
  predicate QueueExact(services: seq<Service>, queue: seq<Service>, indeg: map<string, int>, order: seq<Service>) {
    forall s :: s in services ==> (s in queue <==> s.name in indeg && indeg[s.name] == 0 && s.name !in NameSet(order))
  }

  /** Every emitted service's count has reached zero. */
  predicate EmittedAtZero(indeg: map<string, int>, order: seq<Service>) {
    forall i :: 0 <= i < |order| ==> order[i].name in indeg && indeg[order[i].name] == 0
  }

  /** The invariant of the `while (queue.length > 0)` loop. */
  predicate KahnState(services: seq<Service>, deps: seq<DepEntry>, q0: seq<Service>,
                      order: seq<Service>, queue: seq<Service>, indeg: map<string, int>)
  {
    && (forall i :: 0 <= i < |queue| ==> queue[i] in services)
    && (forall i :: 0 <= i < |order| ==> order[i] in services)
    && Distinct(Names(order + queue))
    && |order| <= |services|
    && |q0| <= |order + queue| && (order + queue)[..|q0|] == q0
    && indeg.Keys == NameSet(services)
    && (forall b :: b in indeg ==> indeg[b] == Remaining(deps, NameSet(order), b))
    && QueueExact(services, queue, indeg, order)
    && EmittedAtZero(indeg, order)
    && SourcesFirst(deps, order)
  }

  /** `calculateMigrationOrder(services, dependencies)`. */
  method CalculateMigrationOrder(services: seq<Service>, deps: seq<DepEntry>) returns (order: seq<Service>)
    requires UniqueNames(services)
    requires DistinctSources(deps)
    ensures forall i :: 0 <= i < |order| ==> order[i] in services
    ensures Distinct(Names(order)) && |order| <= |services|
    ensures SourcesFirst(deps, order)
    ensures forall s :: s in services && s !in order ==> Remaining(deps, NameSet(order), s.name) > 0
    ensures var q := InitialQueue(services, deps); |q| <= |order| && order[..|q|] == q
  {
    var indeg := InitialIndegrees(services, deps);
    var queue := InitialQueue(services, deps);
    ghost var q0 := queue;
    order := [];
    InitialState(services, deps, queue, indeg);
    while queue != []
      invariant KahnState(services, deps, q0, order, queue, indeg)
      decreases |services| - |order|
    {
      order, queue, indeg := KahnStep(services, deps, q0, order, queue, indeg);
    }
    FinalState(services, deps, q0, order, indeg);
  }

  lemma InitialState(services: seq<Service>, deps: seq<DepEntry>, q: seq<Service>, indeg: map<string, int>)
    requires UniqueNames(services)
    requires forall s :: s in q <==> s in services && Remaining(deps, {}, s.name) == 0
    requires multiset(q) <= multiset(services)
    requires indeg.Keys == NameSet(services)
    requires forall b :: b in indeg ==> indeg[b] == Remaining(deps, {}, b)
    ensures KahnState(services, deps, q, [], q, indeg)
  {
    var none: seq<Service> := [];
    QueueNamesDistinct(q, services);
    assert none + q == q;
    assert NameSet(none) == {};
    forall s | s in services
      ensures s in q <==> s.name in indeg && indeg[s.name] == 0 && s.name !in NameSet(none)
    {
      var p :| 0 <= p < |services| && services[p] == s;
      assert s.name in NameSet(services);
    }
  }

  lemma FinalState(services: seq<Service>, deps: seq<DepEntry>, q0: seq<Service>, order: seq<Service>, indeg: map<string, int>)
    requires UniqueNames(services)
    requires KahnState(services, deps, q0, order, [], indeg)
    ensures Distinct(Names(order))
    ensures forall s :: s in services && s !in order ==> Remaining(deps, NameSet(order), s.name) > 0
    ensures |q0| <= |order| && order[..|q0|] == q0
  {
    assert order + [] == order;
    FinalCompleteness(order, services, deps, indeg);
  }

  /** One iteration: emit the queue's head and release its calls. */
  method KahnStep(services: seq<Service>, deps: seq<DepEntry>, ghost q0: seq<Service>,
                  order0: seq<Service>, queue0: seq<Service>, indeg0: map<string, int>)
    returns (order: seq<Service>, queue: seq<Service>, indeg: map<string, int>)
    requires UniqueNames(services)
    requires DistinctSources(deps)
    requires queue0 != []
    requires KahnState(services, deps, q0, order0, queue0, indeg0)
    ensures KahnState(services, deps, q0, order, queue, indeg)
    ensures |order| == |order0| + 1
  {
    var current := queue0[0];
    queue := queue0[1..];
    order := order0 + [current];
    PopStep(services, deps, indeg0, order0, queue0);
    var t := Targets(deps, current.name);
    forall b | b in indeg0 ensures indeg0[b] >= Occurrences(t, b) {
      RemainingCovers(deps, NameSet(order0), current.name, b);
    }
    ghost var queue1 := queue;
    indeg, queue := ReleaseCalls(services, order, t, indeg0, queue);
    StepState(services, deps, q0, order0, queue0, indeg0, queue, indeg);
  }

  /** After emitting the head of the queue and releasing its calls, the loop invariant holds again. */
  lemma StepState(services: seq<Service>, deps: seq<DepEntry>, q0: seq<Service>,
                  order0: seq<Service>, queue0: seq<Service>, indeg0: map<string, int>,
                  queue: seq<Service>, indeg: map<string, int>)
    requires UniqueNames(services)
    requires DistinctSources(deps)
    requires queue0 != []
    requires KahnState(services, deps, q0, order0, queue0, indeg0)
    requires var order := order0 + [queue0[0]];
             && queue0[0].name !in NameSet(order0)
             && NameSet(order) == NameSet(order0) + {queue0[0].name}
             && SourcesFirst(deps, order)
             && |queue0[1..]| <= |queue| && queue[..|queue0[1..]|] == queue0[1..]
             && (forall i :: 0 <= i < |queue| ==> queue[i] in services)
             && Distinct(Names(order + queue))
             && indeg.Keys == NameSet(services)
             && (forall b :: b in indeg ==> indeg[b] == indeg0[b] - Occurrences(Targets(deps, queue0[0].name), b))
             && QueueExact(services, queue, indeg, order)
             && EmittedAtZero(indeg, order)
    ensures KahnState(services, deps, q0, order0 + [queue0[0]], queue, indeg)
  {
    var current := queue0[0];
    var order := order0 + [current];
    StepPrefix(q0, order0, queue0, queue);
    StepCounts(deps, order0, current, indeg0, indeg);
    StepMembers(services, order0, queue0, queue);
  }

  /** The emitted services and the queue stay within `services`, so the order is never longer. */
  lemma StepMembers(services: seq<Service>, order0: seq<Service>, queue0: seq<Service>, queue: seq<Service>)
    requires queue0 != []
    requires forall i :: 0 <= i < |queue0| ==> queue0[i] in services
    requires forall i :: 0 <= i < |order0| ==> order0[i] in services
    requires forall i :: 0 <= i < |queue| ==> queue[i] in services
    requires Distinct(Names(order0 + [queue0[0]] + queue))
    ensures var order := order0 + [queue0[0]];
            && (forall i :: 0 <= i < |order| ==> order[i] in services)
            && |order| <= |services|
  {
    var order := order0 + [queue0[0]];
    var xs := order + queue;
    assert forall i :: 0 <= i < |order| ==> order[i] in services by {
      assert queue0[0] in services;
    }
    assert forall i :: 0 <= i < |xs| ==> xs[i] in services by {
      forall i | 0 <= i < |xs| ensures xs[i] in services {
        if i < |order| { assert xs[i] == order[i]; } else { assert xs[i] == queue[i - |order|]; }
      }
    }
    NamesBound(xs, services);
  }

  lemma StepPrefix(q0: seq<Service>, order0: seq<Service>, queue0: seq<Service>, queue: seq<Service>)
    requires queue0 != []
    requires |q0| <= |order0 + queue0| && (order0 + queue0)[..|q0|] == q0
    requires |queue0[1..]| <= |queue| && queue[..|queue0[1..]|] == queue0[1..]
    ensures var order := order0 + [queue0[0]];
            |q0| <= |order + queue| && (order + queue)[..|q0|] == q0
  {
    var order := order0 + [queue0[0]];
    var queue1 := queue0[1..];
    assert order + queue1 == order0 + queue0;
    assert (order + queue)[..|order + queue1|] == order + queue1;
    PrefixTransitive(order + queue, order + queue1, q0);
  }

  lemma StepCounts(deps: seq<DepEntry>, order0: seq<Service>, current: Service,
                   indeg0: map<string, int>, indeg: map<string, int>)
    requires DistinctSources(deps)
    requires current.name !in NameSet(order0)
    requires NameSet(order0 + [current]) == NameSet(order0) + {current.name}
    requires indeg.Keys == indeg0.Keys
    requires forall b :: b in indeg0 ==> indeg0[b] == Remaining(deps, NameSet(order0), b)
    requires forall b :: b in indeg ==> indeg[b] == indeg0[b] - Occurrences(Targets(deps, current.name), b)
    ensures forall b :: b in indeg ==> indeg[b] == Remaining(deps, NameSet(order0 + [current]), b)
  {
    forall b | b in indeg ensures indeg[b] == Remaining(deps, NameSet(order0 + [current]), b) {
      RemainingStep(deps, NameSet(order0), current.name, b);
    }
  }

  /** Moving the queue's head to the order keeps every invariant but the counts' meaning, which the release restores. */
  lemma PopStep(services: seq<Service>, deps: seq<DepEntry>, indeg: map<string, int>, order: seq<Service>, queue: seq<Service>)
    requires UniqueNames(services)
    requires queue != []
    requires forall i :: 0 <= i < |queue| ==> queue[i] in services
    requires Distinct(Names(order + queue))
    requires indeg.Keys == NameSet(services)
    requires forall b :: b in indeg ==> indeg[b] == Remaining(deps, NameSet(order), b)
    requires QueueExact(services, queue, indeg, order)
    requires EmittedAtZero(indeg, order)
    requires SourcesFirst(deps, order)
    ensures var order1 := order + [queue[0]];
            && order1 + queue[1..] == order + queue
            && NameSet(order1) == NameSet(order) + {queue[0].name}
            && queue[0].name !in NameSet(order)
            && QueueExact(services, queue[1..], indeg, order1)
            && EmittedAtZero(indeg, order1)
            && SourcesFirst(deps, order1)
            && forall i :: 0 <= i < |queue[1..]| ==> queue[1..][i] in services
  {
    var order1 := order + [queue[0]];
    assert order1 + queue[1..] == order + queue;
    PopNames(order, queue);
    PopQueue(services, indeg, order, queue);
    PopSources(deps, indeg, order, queue);
    assert forall i :: 0 <= i < |queue[1..]| ==> queue[1..][i] == queue[i + 1];
  }

  /** Emitting the head of the queue adds a name not emitted before. */
  lemma PopNames(order: seq<Service>, queue: seq<Service>)
    requires queue != []
    requires Distinct(Names(order + queue))
    ensures NameSet(order + [queue[0]]) == NameSet(order) + {queue[0].name}
    ensures queue[0].name !in NameSet(order)
  {
    var current := queue[0];
    var order1 := order + [current];
    assert NameSet(order1) == NameSet(order) + {current.name} by {
      assert forall i :: 0 <= i < |order| ==> order1[i] == order[i];
      assert order1[|order|] == current;
    }
    var all := Names(order + queue);
    assert all[|order|] == current.name;
    assert forall i :: 0 <= i < |order| ==> all[i] == order[i].name;
  }

  /** After emitting the head, the rest of the queue is exactly the ready, unemitted services. */
  lemma PopQueue(services: seq<Service>, indeg: map<string, int>, order: seq<Service>, queue: seq<Service>)
    requires UniqueNames(services)
    requires queue != [] && queue[0] in services
    requires Distinct(Names(order + queue))
    requires QueueExact(services, queue, indeg, order)
    ensures QueueExact(services, queue[1..], indeg, order + [queue[0]])
  {
    var current := queue[0];
    var order1 := order + [current];
    PopNames(order, queue);
    var all := Names(order + queue);
    forall s | s in services
      ensures s in queue[1..] <==> s.name in indeg && indeg[s.name] == 0 && s.name !in NameSet(order1)
    {
      if s == current {
        forall k | 0 <= k < |queue[1..]| ensures queue[1..][k] != current {
          assert (order + queue)[|order| + 1 + k] == queue[1..][k];
          assert (order + queue)[|order|] == current;
          assert all[|order|] != all[|order| + 1 + k];
        }
      } else {
        OtherName(services, s, current);
        assert s in queue <==> s in queue[1..] by {
          assert queue == [current] + queue[1..];
        }
      }
    }
  }

  /** The head of the queue has no unmigrated caller, so emitting it keeps callers first. */
  lemma PopSources(deps: seq<DepEntry>, indeg: map<string, int>, order: seq<Service>, queue: seq<Service>)
    requires queue != []
    requires queue[0].name in indeg && indeg[queue[0].name] == 0
    requires indeg[queue[0].name] == Remaining(deps, NameSet(order), queue[0].name)
    requires EmittedAtZero(indeg, order)
    requires SourcesFirst(deps, order)
    ensures EmittedAtZero(indeg, order + [queue[0]])
    ensures SourcesFirst(deps, order + [queue[0]])
  {
    var order1 := order + [queue[0]];
    assert order1[..|order|] == order;
    forall j | 0 <= j < |order1| ensures Remaining(deps, NameSet(order1[..j]), order1[j].name) == 0 {
      if j < |order| {
        assert order1[..j] == order[..j];
      }
    }
  }

  /** What holds after the first `j` calls of `t` have been released. */
  /** Every count is its starting value less the calls to it in `calls`. */
  predicate Lowered(indeg0: map<string, int>, indeg: map<string, int>, calls: seq<string>) {
    && indeg.Keys == indeg0.Keys
    && forall b :: b in indeg ==> indeg[b] == indeg0[b] - Occurrences(calls, b)
  }

  predicate Released(services: seq<Service>, order: seq<Service>, t: seq<string>, j: nat,
                     indeg0: map<string, int>, queue0: seq<Service>,
                     indeg: map<string, int>, queue: seq<Service>)
  {
    && j <= |t|
    && indeg.Keys == indeg0.Keys
    && Lowered(indeg0, indeg, t[..j])
    && IsPrefix(queue0, queue)
    && (forall i :: 0 <= i < |queue| ==> queue[i] in services)
    && Distinct(Names(order + queue))
    && QueueExact(services, queue, indeg, order)
    && EmittedAtZero(indeg, order)
  }

  /**
   * The `forEach` over the emitted service's calls: each call lowers its target's count, and a
   * target whose count reaches zero joins the queue.
   */
  method ReleaseCalls(services: seq<Service>, order: seq<Service>, t: seq<string>,
                      indeg0: map<string, int>, queue0: seq<Service>)
    returns (indeg: map<string, int>, queue: seq<Service>)
    requires UniqueNames(services)
    requires indeg0.Keys == NameSet(services)
    requires forall i :: 0 <= i < |queue0| ==> queue0[i] in services
    requires Distinct(Names(order + queue0))
    requires QueueExact(services, queue0, indeg0, order)
    requires EmittedAtZero(indeg0, order)
    requires forall b :: b in indeg0 ==> indeg0[b] >= Occurrences(t, b)
    ensures indeg.Keys == NameSet(services)
    ensures forall b :: b in indeg ==> indeg[b] == indeg0[b] - Occurrences(t, b)
    ensures IsPrefix(queue0, queue)
    ensures forall i :: 0 <= i < |queue| ==> queue[i] in services
    ensures Distinct(Names(order + queue))
    ensures QueueExact(services, queue, indeg, order)
    ensures EmittedAtZero(indeg, order)
  {
    indeg, queue := indeg0, queue0;
    assert queue0[..|queue0|] == queue0;
    var j := 0;
    while j < |t|
      invariant Released(services, order, t, j, indeg0, queue0, indeg, queue)
    {
      indeg, queue := ReleaseNext(services, order, t, j, indeg0, queue0, indeg, queue);
      j := j + 1;
    }
    assert t[..|t|] == t;
  }

  /** Releases call `j`. */
  method ReleaseNext(services: seq<Service>, order: seq<Service>, t: seq<string>, j: nat,
                     indeg0: map<string, int>, queue0: seq<Service>,
                     indeg1: map<string, int>, queue1: seq<Service>)
    returns (indeg: map<string, int>, queue: seq<Service>)
    requires UniqueNames(services)
    requires indeg0.Keys == NameSet(services)
    requires forall b :: b in indeg0 ==> indeg0[b] >= Occurrences(t, b)
    requires EmittedAtZero(indeg0, order)
    requires j < |t|
    requires Released(services, order, t, j, indeg0, queue0, indeg1, queue1)
    ensures Released(services, order, t, j + 1, indeg0, queue0, indeg, queue)
  {
    CountBeforeCall(indeg0, indeg1, t, j);
    indeg, queue := ReleaseOne(services, order, t[j], indeg1, queue1);
    ReleasedAfter(services, order, t, j, indeg0, queue0, indeg1, queue1, indeg, queue);
  }

  lemma ReleasedAfter(services: seq<Service>, order: seq<Service>, t: seq<string>, j: nat,
                      indeg0: map<string, int>, queue0: seq<Service>,
                      indeg1: map<string, int>, queue1: seq<Service>,
                      indeg: map<string, int>, queue: seq<Service>)
    requires j < |t|
    requires indeg1.Keys == indeg0.Keys && Lowered(indeg0, indeg1, t[..j])
    requires IsPrefix(queue0, queue1)
    requires indeg == if t[j] in indeg1 then indeg1[t[j] := indeg1[t[j]] - 1] else indeg1
    requires IsPrefix(queue1, queue)
    requires forall i :: 0 <= i < |queue| ==> queue[i] in services
    requires Distinct(Names(order + queue))
    requires QueueExact(services, queue, indeg, order)
    requires EmittedAtZero(indeg, order)
    ensures Released(services, order, t, j + 1, indeg0, queue0, indeg, queue)
  {
    PrefixTransitive(queue, queue1, queue0);
    CountAfterCall(indeg0, indeg1, indeg, t, j);
  }

  /** One call: lower the target's count and queue its service when the count reaches zero. */
  method ReleaseOne(services: seq<Service>, order: seq<Service>, dep: string,
                    indeg0: map<string, int>, queue0: seq<Service>)
    returns (indeg: map<string, int>, queue: seq<Service>)
    requires UniqueNames(services)
    requires indeg0.Keys == NameSet(services)
    requires dep in indeg0 ==> indeg0[dep] >= 1
    requires forall i :: 0 <= i < |queue0| ==> queue0[i] in services
    requires Distinct(Names(order + queue0))
    requires QueueExact(services, queue0, indeg0, order)
    requires EmittedAtZero(indeg0, order)
    ensures indeg == if dep in indeg0 then indeg0[dep := indeg0[dep] - 1] else indeg0
    ensures IsPrefix(queue0, queue)
    ensures forall i :: 0 <= i < |queue| ==> queue[i] in services
    ensures Distinct(Names(order + queue))
    ensures QueueExact(services, queue, indeg, order)
    ensures EmittedAtZero(indeg, order)
  {
    indeg, queue := indeg0, queue0;
    if dep in indeg {
      indeg := indeg[dep := indeg[dep] - 1];
      if indeg[dep] == 0 {
        var s := FindByName(services, dep);
        ReadyIsNew(services, order, queue0, indeg0, s);
        queue := queue0 + [s];
        assert order + queue == order + queue0 + [s];
        assert queue[..|queue0|] == queue0;
        JoinKeepsExact(services, order, queue0, indeg0, indeg, s);
      } else {
        LowerKeepsExact(services, order, queue0, indeg0, indeg, dep);
      }
    }
  }

  /** The target of the next call still has a positive count. */
  lemma CountBeforeCall(indeg0: map<string, int>, indeg: map<string, int>, t: seq<string>, j: nat)
    requires j < |t|
    requires indeg.Keys == indeg0.Keys
    requires forall b :: b in indeg0 ==> indeg0[b] >= Occurrences(t, b)
    requires Lowered(indeg0, indeg, t[..j])
    ensures t[j] in indeg ==> indeg[t[j]] >= 1
  {
    OccurrencesSnoc(t, j, t[j]);
    OccurrencesPrefix(t, j + 1, t[j]);
  }

  lemma CountAfterCall(indeg0: map<string, int>, before: map<string, int>, after: map<string, int>, t: seq<string>, j: nat)
    requires j < |t|
    requires before.Keys == indeg0.Keys
    requires Lowered(indeg0, before, t[..j])
    requires after == if t[j] in before then before[t[j] := before[t[j]] - 1] else before
    ensures after.Keys == indeg0.Keys
    ensures Lowered(indeg0, after, t[..j + 1])
  {
    forall b | b in after ensures after[b] == indeg0[b] - Occurrences(t[..j + 1], b) {
      OccurrencesSnoc(t, j, b);
    }
  }

  lemma OccurrencesSnoc(t: seq<string>, j: nat, b: string)
    requires j < |t|
    ensures Occurrences(t[..j + 1], b) == Occurrences(t[..j], b) + (if t[j] == b then 1 else 0)
  {
    assert t[..j + 1][..j] == t[..j];
  }

  /** A service whose count was positive is neither emitted nor queued. */
  lemma ReadyIsNew(services: seq<Service>, order: seq<Service>, queue: seq<Service>, indeg: map<string, int>, s: Service)
    requires UniqueNames(services)
    requires s in services && s.name in indeg && indeg[s.name] >= 1
    requires forall i :: 0 <= i < |queue| ==> queue[i] in services
    requires Distinct(Names(order + queue))
    requires QueueExact(services, queue, indeg, order)
    requires EmittedAtZero(indeg, order)
    ensures Distinct(Names(order + queue + [s]))
  {
    assert s.name !in NameSet(order);
    forall i | 0 <= i < |queue| ensures queue[i].name != s.name {
      if queue[i] != s {
        OtherName(services, queue[i], s);
      }
    }
    NotYetOrdered(order, queue, services, s);
  }

  /** Lowering a count that stays positive changes nothing about the queue. */
  lemma LowerKeepsExact(services: seq<Service>, order: seq<Service>, queue: seq<Service>,
                        before: map<string, int>, after: map<string, int>, dep: string)
    requires dep in before && before[dep] >= 1
    requires after == before[dep := before[dep] - 1] && after[dep] != 0
    requires QueueExact(services, queue, before, order)
    requires EmittedAtZero(before, order)
    ensures QueueExact(services, queue, after, order)
    ensures EmittedAtZero(after, order)
  {
  }

  /** Lowering a count to zero and queueing its service keeps the queue exact. */
  lemma JoinKeepsExact(services: seq<Service>, order: seq<Service>, queue: seq<Service>,
                       before: map<string, int>, after: map<string, int>, s: Service)
    requires UniqueNames(services)
    requires s in services && s.name in before && before[s.name] == 1
    requires after == before[s.name := 0]
    requires QueueExact(services, queue, before, order)
    requires EmittedAtZero(before, order)
    ensures QueueExact(services, queue + [s], after, order)
    ensures EmittedAtZero(after, order)
  {
    forall x | x in services
      ensures x in queue + [s] <==> x.name in after && after[x.name] == 0 && x.name !in NameSet(order)
    {
      if x != s {
        OtherName(services, x, s);
      }
    }
    assert s.name !in NameSet(order);
  }

  lemma QueueNamesDistinct(queue: seq<Service>, services: seq<Service>)
    requires UniqueNames(services)
    requires multiset(queue) <= multiset(services)
    ensures forall i :: 0 <= i < |queue| ==> queue[i] in services
    ensures Distinct(Names([] + queue))
  {
    assert [] + queue == queue;
    forall i | 0 <= i < |queue| ensures queue[i] in services {
      assert queue[i] in multiset(queue);
    }
    forall i, j | 0 <= i < j < |queue| ensures Names(queue)[i] != Names(queue)[j] {
      if queue[i] == queue[j] {
        TwiceInMultiset(queue, i, j);
        ServicesOnce(services, queue[i]);
        assert false;
      }
      OtherName(services, queue[i], queue[j]);
    }
  }

  lemma TwiceInMultiset(q: seq<Service>, i: nat, j: nat)
    requires i < j < |q| && q[i] == q[j]
    ensures multiset(q)[q[i]] >= 2
  {
    assert q == q[..i] + [q[i]] + q[i + 1..j] + [q[j]] + q[j + 1..];
  }

  /** Different services among uniquely named ones have different names. */
  lemma OtherName(services: seq<Service>, x: Service, y: Service)
    requires UniqueNames(services)
    requires x in services && y in services && x != y
    ensures x.name != y.name
  {
    var p :| 0 <= p < |services| && services[p] == x;
    var q :| 0 <= q < |services| && services[q] == y;
    assert Names(services)[p] == x.name && Names(services)[q] == y.name;
  }

  lemma {:induction false} ServicesOnce(services: seq<Service>, x: Service)
    requires UniqueNames(services)
    ensures multiset(services)[x] <= 1
    decreases |services|
  {
    if services != [] {
      assert UniqueNames(services[1..]) by {
        forall i, j | 0 <= i < j < |services[1..]| ensures Names(services[1..])[i] != Names(services[1..])[j] {
          assert Names(services)[i + 1] == Names(services[1..])[i];
          assert Names(services)[j + 1] == Names(services[1..])[j];
        }
      }
      ServicesOnce(services[1..], x);
      assert services == [services[0]] + services[1..];
      if services[0] == x {
        assert x !in services[1..] by {
          forall k | 0 <= k < |services[1..]| ensures services[1..][k] != x {
            assert Names(services)[0] == x.name && Names(services)[k + 1] == services[1..][k].name;
          }
        }
      }
    }
  }

  /** A service about to be queued is neither done nor queued yet. */
  lemma NotYetOrdered(order: seq<Service>, queue: seq<Service>, services: seq<Service>, s: Service)
    requires Distinct(Names(order + queue))
    requires s.name !in NameSet(order)
    requires forall i :: 0 <= i < |queue| ==> queue[i].name != s.name
    ensures Distinct(Names(order + queue + [s]))
  {
    var all := order + queue + [s];
    forall i, j | 0 <= i < j < |all| ensures Names(all)[i] != Names(all)[j] {
      if j < |all| - 1 {
        assert all[i] == (order + queue)[i] && all[j] == (order + queue)[j];
        assert Names(order + queue)[i] == all[i].name && Names(order + queue)[j] == all[j].name;
      } else if i < |order| {
        assert all[i] == order[i];
      } else {
        assert all[i] == queue[i - |order|];
      }
    }
  }

  /** A distinctly named list of services holds at most every service once. */
  lemma NamesBound(xs: seq<Service>, services: seq<Service>)
    requires forall i :: 0 <= i < |xs| ==> xs[i] in services
    requires Distinct(Names(xs))
    ensures |xs| <= |services|
  {
    var a := set x | x in Names(xs);
    var b := set x | x in Names(services);
    assert a <= b by {
      forall x | x in a ensures x in b {
        var i :| 0 <= i < |xs| && Names(xs)[i] == x;
        var p :| 0 <= p < |services| && services[p] == xs[i];
        assert Names(services)[p] == x;
      }
    }
    DistinctCard(Names(xs));
    SeqCard(Names(services));
    SubsetCard(a, b);
  }

  lemma SubsetCard(a: set<string>, b: set<string>)
    requires a <= b
    ensures |a| <= |b|
  {
    assert b == a + (b - a);
  }

  lemma {:induction false} DistinctCard(s: seq<string>)
    requires Distinct(s)
    ensures |set x | x in s| == |s|
    decreases |s|
  {
    if s != [] {
      var rest := s[..|s| - 1];
      DistinctCard(rest);
      assert (set x | x in s) == (set x | x in rest) + {s[|s| - 1]};
      assert s[|s| - 1] !in rest;
    }
  }

  lemma {:induction false} SeqCard(s: seq<string>)
    ensures |set x | x in s| <= |s|
    decreases |s|
  {
    if s != [] {
      var rest := s[..|s| - 1];
      SeqCard(rest);
      assert (set x | x in s) == (set x | x in rest) + {s[|s| - 1]};
    }
  }

  /** Once the queue is empty, every service left out still has an unprocessed caller. */
  lemma FinalCompleteness(order: seq<Service>, services: seq<Service>, deps: seq<DepEntry>, indeg: map<string, int>)
    requires UniqueNames(services)
    requires forall i :: 0 <= i < |order| ==> order[i] in services
    requires indeg.Keys == NameSet(services)
    requires forall b :: b in indeg ==> indeg[b] == Remaining(deps, NameSet(order), b)
    requires forall s :: s in services ==> !(indeg[s.name] == 0 && s.name !in NameSet(order))
    ensures forall s :: s in services && s !in order ==> Remaining(deps, NameSet(order), s.name) > 0
  {
    forall s | s in services && s !in order ensures Remaining(deps, NameSet(order), s.name) > 0 {
      NamedMember(order, services, s);
      assert s.name in NameSet(services);
    }
  }

  /** Among uniquely named services, a name that occurs in `order` means the service does. */
  lemma NamedMember(order: seq<Service>, services: seq<Service>, s: Service)
    requires UniqueNames(services)
    requires forall i :: 0 <= i < |order| ==> order[i] in services
    requires s in services
    ensures s.name in NameSet(order) ==> s in order
  {
    if s.name in NameSet(order) {
      var i :| 0 <= i < |order| && order[i].name == s.name;
      var p :| 0 <= p < |services| && services[p] == s;
      var q :| 0 <= q < |services| && services[q] == order[i];
      assert Names(services)[p] == Names(services)[q];
    }
  }

  // ---------------------------------------------------------------------------
  // What the order guarantees.

  /** A service is emitted before every service it calls. */
  lemma SourcesFirstOrders(deps: seq<DepEntry>, order: seq<Service>)
    requires SourcesFirst(deps, order)
    requires Distinct(Names(order))
    ensures forall i, j :: 0 <= i < |order| && 0 <= j < |order| && order[j].name in Targets(deps, order[i].name) ==> i < j
  {
    forall i, j | 0 <= i < |order| && 0 <= j < |order| && order[j].name in Targets(deps, order[i].name)
      ensures i < j
    {
      RemainingZeroSources(deps, NameSet(order[..j]), order[i].name, order[j].name);
      var k :| 0 <= k < |order[..j]| && order[..j][k].name == order[i].name;
      assert Names(order)[k] == Names(order)[i];
    }
  }

  /** `c[0]` calls `c[1]`, ..., and the last calls `c[0]`. */
  predicate IsCycle(deps: seq<DepEntry>, c: seq<string>) {
    && |c| >= 1
    && (forall k :: 0 <= k < |c| - 1 ==> c[k + 1] in Targets(deps, c[k]))
    && c[0] in Targets(deps, c[|c| - 1])
  }

  lemma {:induction false} NotOnCycleAt(deps: seq<DepEntry>, order: seq<Service>, c: seq<string>, p: nat)
    requires SourcesFirst(deps, order)
    requires IsCycle(deps, c)
    requires p < |order|
    ensures order[p].name !in c
    decreases p
  {
    if order[p].name in c {
      var k :| 0 <= k < |c| && c[k] == order[p].name;
      var pred := if k == 0 then |c| - 1 else k - 1;
      assert c[k] in Targets(deps, c[pred]);
      RemainingZeroSources(deps, NameSet(order[..p]), c[pred], c[k]);
      var q :| 0 <= q < |order[..p]| && order[..p][q].name == c[pred];
      NotOnCycleAt(deps, order, c, q);
      assert false;
    }
  }

  /** No service on a cycle of calls is ever emitted. */
  lemma CycleNeverEmitted(deps: seq<DepEntry>, order: seq<Service>, c: seq<string>)
    requires SourcesFirst(deps, order)
    requires IsCycle(deps, c)
    ensures forall k :: 0 <= k < |c| ==> c[k] !in Names(order)
  {
    forall k, p | 0 <= k < |c| && 0 <= p < |order| ensures Names(order)[p] != c[k] {
      NotOnCycleAt(deps, order, c, p);
    }
  }

  /** The benchmark's own dependency table: users and orders call each other. */
  const BenchmarkDeps: seq<DepEntry> := [
    DepEntry("users", ["orders", "products", "reviews"]),
    DepEntry("orders", ["users", "products", "inventory", "payments"]),
    DepEntry("products", ["inventory", "search"]),
    DepEntry("inventory", ["products"]),
    DepEntry("payments", ["users"]),
    DepEntry("notifications", ["users", "orders"]),
    DepEntry("analytics", ["users", "orders", "products"]),
    DepEntry("reviews", ["users", "products"]),
    DepEntry("search", ["products"]),
    DepEntry("recommendations", ["users", "products", "analytics"])
  ]

  /** So, with that table, neither users nor orders is ever migrated. */
  lemma BenchmarkSkipsUsersAndOrders(order: seq<Service>)
    requires SourcesFirst(BenchmarkDeps, order)
    ensures "users" !in Names(order) && "orders" !in Names(order)
  {
    var c := ["users", "orders"];
    assert Targets(BenchmarkDeps, "users") == ["orders", "products", "reviews"];
    assert Targets(BenchmarkDeps, "orders") == ["users", "products", "inventory", "payments"];
    assert IsCycle(BenchmarkDeps, c);
    CycleNeverEmitted(BenchmarkDeps, order, c);
    assert c[0] == "users" && c[1] == "orders";
  }
}

=== FILE: orchestrator_core.dfy ===
/**
 * The orchestrator's pure core (opencode/lib/orchestrator-core.cjs): reading the project's
 * Definition-of-Done configuration and an agent's result file after parsing, narrowing the
 * checks to a task scope, and resolving which task to run from argv and the environment.
 * File reads and `JSON.parse` are inputs: `None` stands for a missing or unparsable file.
 */
module OrchestratorCore {
  import opened Wrappers
  import opened Seqs
  import opened Strings
  import opened JsonModel
  import opened Checks

  // ---------------------------------------------------------------------------
  // loadProjectConfig

  datatype DefinitionOfDone = DefinitionOfDone(artifacts: seq<Json>, checks: seq<Json>, gate: string)

  datatype ProjectConfig = ProjectConfig(definitionOfDone: DefinitionOfDone, taskPolicies: Json)

  /** `dod.gate === 'any' || dod.gate === 'none' ? dod.gate : 'all'`. */
  function NormalizeGate(gate: Option<Json>): (g: string)
    ensures g in {"any", "none", "all"}
    ensures gate == Some(JStr("any")) ==> g == "any"
    ensures gate == Some(JStr("none")) ==> g == "none"
    ensures gate != Some(JStr("any")) && gate != Some(JStr("none")) ==> g == "all"
  {
    match gate
    case Some(JStr(s)) => if s == "any" || s == "none" then s else "all"
    case _ => "all"
  }

  /** Does the parsed agency.json carry a `definitionOfDone` object with an array of checks? */
  predicate HasCheckList(raw: Json) {
    match Get(raw, "definitionOfDone")
    case Some(dod) => Truthy(dod) && Get(dod, "checks").Some? && Get(dod, "checks").value.JArr?
    case None => false
  }

  /** `loadProjectConfig` after the file has been read and parsed. */
  function LoadProjectConfig(parsed: Option<Json>): (r: Option<ProjectConfig>)
    ensures r.Some? <==> parsed.Some? && HasCheckList(parsed.value)
    ensures r.Some? ==>
              var dod := Get(parsed.value, "definitionOfDone").value;
              && r.value.definitionOfDone.checks == Get(dod, "checks").value.items
              && r.value.definitionOfDone.gate == NormalizeGate(Get(dod, "gate"))
              && (Get(dod, "artifacts").Some? && Get(dod, "artifacts").value.JArr? ==>
                    r.value.definitionOfDone.artifacts == Get(dod, "artifacts").value.items)
              && (!(Get(dod, "artifacts").Some? && Get(dod, "artifacts").value.JArr?) ==>
                    r.value.definitionOfDone.artifacts == [])
              && r.value.taskPolicies == OrElse(Get(parsed.value, "taskPolicies"), JObj(map[]))
  {
    if parsed.None? || !HasCheckList(parsed.value) then None
    else
      var raw := parsed.value;
      var dod := Get(raw, "definitionOfDone").value;
      var artifacts := match Get(dod, "artifacts") case Some(JArr(items)) => items case _ => [];
      Some(ProjectConfig(
        DefinitionOfDone(artifacts, Get(dod, "checks").value.items, NormalizeGate(Get(dod, "gate"))),
        OrElse(Get(raw, "taskPolicies"), JObj(map[]))))
  }

  /** A definitionOfDone without a `checks` array, or a missing file, gives no configuration. */
  lemma LoadProjectConfigRejects(parsed: Option<Json>, dod: Json)
    ensures LoadProjectConfig(None) == None
    ensures parsed.Some? && Get(parsed.value, "definitionOfDone") == Some(dod) && Get(dod, "checks").None? ==>
              LoadProjectConfig(parsed) == None
  {
  }

  // ---------------------------------------------------------------------------
  // filterChecksByScope

  /** The per-check test of the core's `filterChecksByScope`. */
  predicate KeepsForScope(scope: string, c: Check) {
    var cwd := FieldText(c.cwd);
    var id := FieldText(c.id);
    var checkScope := FieldText(c.scope);
    if scope == "frontend_only" then Contains(cwd, "frontend") || Contains(id, "frontend") || checkScope == "frontend"
    else if scope == "backend_only" then Contains(cwd, "backend") || Contains(id, "backend") || checkScope == "backend"
    else if scope == "doc_only" then checkScope == "doc" || Contains(id, "doc")
    else true
  }

  /** `filterChecksByScope` (core version): keeps the checks the scope admits, in order. */
  function FilterChecksByScope(checks: seq<Check>, scope: Option<string>): (r: seq<Check>)
    ensures KeepsAll(scope) ==> r == checks
    ensures SubsequenceOf(r, checks)
    ensures !KeepsAll(scope) ==> forall c :: c in r <==> c in checks && KeepsForScope(scope.value, c)
  {
    if KeepsAll(scope) then
      SubsequenceOfSelf(checks);
      checks
    else
      var keep := (c: Check) => KeepsForScope(scope.value, c);
      FilterIsSubsequence(checks, keep);
      Filter(checks, keep)
  }

  /** A scope other than the three known ones keeps every check. */
  lemma UnknownScopeKeepsAll(checks: seq<Check>, scope: string)
    requires scope !in {"frontend_only", "backend_only", "doc_only"}
    ensures FilterChecksByScope(checks, Some(scope)) == checks
  {
    if !KeepsAll(Some(scope)) {
      FilterAll(checks, (c: Check) => KeepsForScope(scope, c));
    }
  }

  /** A check whose scope field is the word itself is always kept by the matching `*_only` scope. */
  lemma ScopeFieldSuffices(checks: seq<Check>, c: Check)
    requires c in checks
    ensures c.scope == Some("frontend") ==> c in FilterChecksByScope(checks, Some("frontend_only"))
    ensures c.scope == Some("backend") ==> c in FilterChecksByScope(checks, Some("backend_only"))
    ensures c.scope == Some("doc") ==> c in FilterChecksByScope(checks, Some("doc_only"))
  {
    assert Lower("frontend") == "frontend";
    assert Lower("backend") == "backend";
    assert Lower("doc") == "doc";
  }

  // ---------------------------------------------------------------------------
  // readAgentResult

  datatype AgentResult = AgentResult(outcome: string, reason: Json, nextStep: Json)

  const Outcomes: set<string> := {"APPROVE", "REJECT", "BLOCKED"}

  /** `readAgentResult` after the file has been read and parsed. */
  function ReadAgentResult(parsed: Option<Json>): (r: Option<AgentResult>)
    ensures r.Some? <==> parsed.Some? && GetString(parsed.value, "outcome").Some? && GetString(parsed.value, "outcome").value in Outcomes
    ensures r.Some? ==>
              && r.value.outcome == GetString(parsed.value, "outcome").value
              && r.value.reason == OrElse(Get(parsed.value, "reason"), JStr(""))
              && r.value.nextStep == OrElse(Get(parsed.value, "nextStep"), JStr(""))
  {
    if parsed.None? then None
    else
      var raw := parsed.value;
      match GetString(raw, "outcome")
      case Some(o) =>
        if o in Outcomes then Some(AgentResult(o, OrElse(Get(raw, "reason"), JStr("")), OrElse(Get(raw, "nextStep"), JStr(""))))
        else None
      case None => None
  }

  /** A missing or empty reason reads as the empty string. */
  lemma ReadAgentResultDefaults(o: string)
    requires o in Outcomes
    ensures ReadAgentResult(Some(JObj(map["outcome" := JStr(o)]))) == Some(AgentResult(o, JStr(""), JStr("")))
    ensures ReadAgentResult(Some(JObj(map["outcome" := JStr(o), "reason" := JStr("")]))) == Some(AgentResult(o, JStr(""), JStr("")))
  {
  }

  // ---------------------------------------------------------------------------
  // parseTaskInput and resolveTask

  /** `parseTaskInput`: the value after `--task`, else a first argument that is not a flag. */
  function ParseTaskInput(argv: seq<string>): (r: Option<string>)
    ensures r.Some? ==> r.value != "" && r.value in argv
    ensures var i := IndexOf(argv, "--task");
            i >= 0 && i + 1 < |argv| && argv[i + 1] != "" ==> r == Some(argv[i + 1])
    ensures var i := IndexOf(argv, "--task");
            !(i >= 0 && i + 1 < |argv| && argv[i + 1] != "") && |argv| > 0 && argv[0] != "" && !StartsWith(argv[0], "-") ==>
              r == Some(argv[0])
    ensures r.None? <==>
              (IndexOf(argv, "--task") == -1 || IndexOf(argv, "--task") + 1 >= |argv| || argv[IndexOf(argv, "--task") + 1] == "") &&
              (argv == [] || argv[0] == "" || StartsWith(argv[0], "-"))
  {
    var i := IndexOf(argv, "--task");
    if i >= 0 && i + 1 < |argv| && argv[i + 1] != "" then Some(argv[i + 1])
    else if |argv| > 0 && argv[0] != "" && !StartsWith(argv[0], "-") then Some(argv[0])
    else None
  }

  /** The first `--task` followed by a non-empty value wins, whatever comes before or after it. */
  lemma TaskFlagWins(before: seq<string>, id: string, after: seq<string>)
    requires "--task" !in before && id != ""
    ensures ParseTaskInput(before + ["--task", id] + after) == Some(id)
  {
    var argv := before + ["--task", id] + after;
    assert argv[..|before|] == before;
    assert argv[|before|] == "--task" && argv[|before| + 1] == id;
    assert IndexOf(argv, "--task") == |before|;
  }

  /** A `--task` with nothing after it falls back to a leading argument that is not a flag. */
  lemma DanglingTaskFlag(before: seq<string>)
    requires "--task" !in before
    ensures ParseTaskInput(before + ["--task"]) ==
              if before != [] && before[0] != "" && !StartsWith(before[0], "-") then Some(before[0]) else None
  {
    var argv := before + ["--task"];
    assert argv[..|before|] == before;
    assert argv[|before|] == "--task";
    assert IndexOf(argv, "--task") == |before|;
    if before == [] {
      assert argv[0] == "--task" && StartsWith("--task", "-");
    } else {
      assert argv[0] == before[0];
    }
  }

  /** The cases the orchestrator's tests pin down. */
  lemma ParseTaskInputCases(id: string, description: string, rest: seq<string>)
    requires id != "" && description != "" && !StartsWith(description, "-") && "--task" !in [description] + rest
    ensures ParseTaskInput(["--task", id]) == Some(id)
    ensures ParseTaskInput([description] + rest) == Some(description)
    ensures ParseTaskInput([]) == None
    ensures ParseTaskInput(["--task"]) == None
    ensures ParseTaskInput(["-x"]) == None
  {
    assert IndexOf([description] + rest, "--task") == -1;
  }

  /** `/^[a-zA-Z0-9_-]+$/.test(s) && s.length < 80`. */
  predicate IsIdLike(s: string) {
    0 < |s| < 80 && forall i :: 0 <= i < |s| ==> IsAsciiAlnum(s[i]) || s[i] == '_' || s[i] == '-'
  }

  function AdHocTask(input: string): Json {
    JObj(map["id" := JStr("ad-hoc"), "name" := JStr("Ad-hoc"), "description" := JStr(input), "status" := JStr("pending")])
  }

  /** `task && (task.description != null || task.id != null)`. */
  predicate IsUsableTask(task: Json) {
    Truthy(task) &&
    ((Get(task, "description").Some? && Get(task, "description").value != JNull) ||
     (Get(task, "id").Some? && Get(task, "id").value != JNull))
  }

  /** AGENCY_TASK_JSON is set, parses, and names a task by id or description. */
  predicate EnvTaskUsable(envTaskJson: Option<string>, parse: string -> Option<Json>) {
    envTaskJson.Some? && envTaskJson.value != "" && parse(envTaskJson.value).Some? && IsUsableTask(parse(envTaskJson.value).value)
  }

  /**
   * `resolveTask`.  `envTaskJson` is AGENCY_TASK_JSON, `parse` is `JSON.parse` (`None` when it
   * throws) and `loadTask` looks a task up by id (`None` when there is none).  The result is
   * `None` only when the fallback task does not exist.
   */
  function ResolveTask(argv: seq<string>, envTaskJson: Option<string>, parse: string -> Option<Json>,
                       loadTask: string -> Option<Json>): (r: Option<Json>)
    ensures EnvTaskUsable(envTaskJson, parse) ==> r == parse(envTaskJson.value)
    ensures !EnvTaskUsable(envTaskJson, parse) && ParseTaskInput(argv).Some? && !IsIdLike(ParseTaskInput(argv).value) ==>
              r == Some(AdHocTask(ParseTaskInput(argv).value))
  {
    var fromEnv := if envTaskJson.Some? && envTaskJson.value != "" then parse(envTaskJson.value) else None;
    if fromEnv.Some? && IsUsableTask(fromEnv.value) then fromEnv
    else match ParseTaskInput(argv)
      case None => loadTask("benchmark-bench-002")
      case Some(input) =>
        if IsIdLike(input) && Present(loadTask(input)) then loadTask(input)
        else if IsIdLike(input) && Present(loadTask("benchmark-" + input)) then loadTask("benchmark-" + input)
        else Some(AdHocTask(input))
  }

  /**
   * Where the resolved task comes from: the environment, one of the three task ids `resolveTask`
   * may look up, or the ad-hoc task built from the input.
   */
  lemma ResolveTaskSources(argv: seq<string>, envTaskJson: Option<string>, parse: string -> Option<Json>,
                           loadTask: string -> Option<Json>)
    ensures var r := ResolveTask(argv, envTaskJson, parse, loadTask);
            || (envTaskJson.Some? && r == parse(envTaskJson.value))
            || (ParseTaskInput(argv).None? && r == loadTask("benchmark-bench-002"))
            || (ParseTaskInput(argv).Some? && IsIdLike(ParseTaskInput(argv).value) &&
                (r == loadTask(ParseTaskInput(argv).value) || r == loadTask("benchmark-" + ParseTaskInput(argv).value)))
            || (ParseTaskInput(argv).Some? && r == Some(AdHocTask(ParseTaskInput(argv).value)))
  {
  }

  /** With no usable environment task, an id-like input is looked up first as is, then with the prefix. */
  lemma ResolveTaskPrefersExactId(argv: seq<string>, env: Option<string>, parse: string -> Option<Json>,
                                  loadTask: string -> Option<Json>)
    requires !EnvTaskUsable(env, parse)
    requires ParseTaskInput(argv).Some? && IsIdLike(ParseTaskInput(argv).value)
    ensures Present(loadTask(ParseTaskInput(argv).value)) ==>
              ResolveTask(argv, env, parse, loadTask) == loadTask(ParseTaskInput(argv).value)
    ensures !Present(loadTask(ParseTaskInput(argv).value)) && Present(loadTask("benchmark-" + ParseTaskInput(argv).value)) ==>
              ResolveTask(argv, env, parse, loadTask) == loadTask("benchmark-" + ParseTaskInput(argv).value)
    ensures !Present(loadTask(ParseTaskInput(argv).value)) && !Present(loadTask("benchmark-" + ParseTaskInput(argv).value)) ==>
              ResolveTask(argv, env, parse, loadTask) == Some(AdHocTask(ParseTaskInput(argv).value))
  {
  }

  /**
   * With no input and no usable environment task (unset, empty, unparsable, or naming neither an id
   * nor a description), the benchmark task bench-002 is loaded.
   */
  lemma ResolveTaskFallback(argv: seq<string>, env: Option<string>, parse: string -> Option<Json>,
                            loadTask: string -> Option<Json>)
    requires !EnvTaskUsable(env, parse)
    requires ParseTaskInput(argv).None?
    ensures ResolveTask(argv, env, parse, loadTask) == loadTask("benchmark-bench-002")
  {
  }

  /** An AGENCY_TASK_JSON that does not parse is ignored, like an absent one. */
  lemma InvalidEnvTaskIgnored(argv: seq<string>, env: string, parse: string -> Option<Json>,
                              loadTask: string -> Option<Json>)
    requires parse(env).None?
    ensures ResolveTask(argv, Some(env), parse, loadTask) == ResolveTask(argv, None, parse, loadTask)
  {
  }
}

=== FILE: paths.dfy ===
/**
 * Slash-separated paths as Node's `path` module (POSIX flavour) and Python's `PurePosixPath`
 * read them: `basename`, `dirname`, `normalize` and `join` on the Node side, `name` on the
 * Python side.
 */
module Paths {
  import opened Seqs
  import opened Strings

  /** `n` slashes. */
  function Slashes(n: nat): (r: string)
    ensures |r| == n && forall i :: 0 <= i < n ==> r[i] == '/'
  {
    seq(n, i => '/')
  }

  /** Where the run of slashes that ends `p[..e]` begins. */
  function TrailingSlashesFrom(p: string, e: nat): (k: nat)
    requires e <= |p|
    ensures k <= e && (k == 0 || p[k - 1] != '/')
    ensures forall j :: k <= j < e ==> p[j] == '/'
    decreases e
  {
    if e > 0 && p[e - 1] == '/' then TrailingSlashesFrom(p, e - 1) else e
  }

  /** `p` without the '/' characters it ends with. */
  function StripTrailingSlashes(p: string): (r: string)
    ensures |r| <= |p| && p[..|r|] == r
    ensures r == "" || r[|r| - 1] != '/'
  {
    p[..TrailingSlashesFrom(p, |p|)]
  }

  /** Only slashes are stripped. */
  lemma StripOnlySlashes(p: string)
    ensures var r := StripTrailingSlashes(p); forall k :: |r| <= k < |p| ==> p[k] == '/'
  {
  }

  /** Slashes appended to a path that does not end in one are stripped again. */
  lemma StripAppendedSlashes(p: string, n: nat)
    requires p == "" || p[|p| - 1] != '/'
    ensures StripTrailingSlashes(p + Slashes(n)) == p
  {
    var q := p + Slashes(n);
    SlashRunStart(q, |p|, |q|);
    assert q[..|p|] == p;
  }

  /** Below a stretch of slashes that follows a non-slash, the run starts right after it. */
  lemma {:induction false} SlashRunStart(q: string, k: nat, e: nat)
    requires k <= e <= |q| && (k == 0 || q[k - 1] != '/')
    requires forall j :: k <= j < e ==> q[j] == '/'
    ensures TrailingSlashesFrom(q, e) == k
    decreases e
  {
    if e > k {
      SlashRunStart(q, k, e - 1);
    }
  }

  /**
   * `path.basename`: trailing slashes are ignored, then the name is everything after the last '/'.
   * The empty path and a path of slashes only have the empty name.
   */
  function BaseName(path: string): (r: string)
    ensures '/' !in r
  {
    var t := StripTrailingSlashes(path);
    t[LastIndexOfChar(t, '/') + 1..]
  }

  /**
   * The basename is the end of the path, trailing slashes aside, that the last '/' begins; it is
   * empty exactly for a path of slashes only.
   */
  lemma BaseNameIsLastSegment(path: string)
    ensures var r, t := BaseName(path), StripTrailingSlashes(path);
            |r| <= |t| && t[|t| - |r|..] == r && (|r| == |t| || t[|t| - |r| - 1] == '/')
    ensures BaseName(path) == "" <==> forall k :: 0 <= k < |path| ==> path[k] == '/'
  {
    var t := StripTrailingSlashes(path);
    var i := LastIndexOfChar(t, '/');
    assert BaseName(path) == t[i + 1..];
    assert |t| - |t[i + 1..]| == i + 1;
    StripOnlySlashes(path);
  }

  /**
   * `path.dirname`: trailing slashes are ignored and the directory is everything before the last
   * '/' after the first character.  Without such a '/' it is "/" for an absolute path and "." for
   * a relative one; a name right after exactly two leading slashes has the directory "//".
   */
  function DirName(path: string): (r: string)
    ensures '/' !in path ==> r == "."
    ensures path != "" && path[0] == '/' ==> r != "" && r[0] == '/'
    ensures r == "." || r == "/" || r == "//" || (r != "" && r + "/" <= path)
  {
    if path == "" then "."
    else
      var t := StripTrailingSlashes(path);
      var k := LastIndexOfChar(t, '/');
      if k < 1 then (if path[0] == '/' then "/" else ".")
      else if path[0] == '/' && k == 1 then "//"
      else
        assert path[..k] + "/" == path[..k + 1];
        path[..k]
  }

  /** The last element of `parts` follows the join of the others and a separator. */
  lemma {:induction false} JoinSnoc(sep: string, parts: seq<string>, x: string)
    requires parts != []
    ensures Join(sep, parts + [x]) == Join(sep, parts) + sep + x
    decreases |parts|
  {
    if |parts| > 1 {
      assert (parts + [x])[1..] == parts[1..] + [x];
      JoinSnoc(sep, parts[1..], x);
    }
  }

  /** The last occurrence of `c` is at `k` when `s[k]` is `c` and nothing after it is. */
  lemma LastIndexOfCharAt(s: string, c: char, k: int)
    requires 0 <= k < |s| && s[k] == c
    requires forall j :: k < j < |s| ==> s[j] != c
    ensures LastIndexOfChar(s, c) == k
  {
  }

  /** A name: a non-empty segment without '/' that is neither "." nor "..". */
  predicate IsName(s: string) {
    s != "" && s != "." && s != ".." && '/' !in s
  }

  /** Every segment is a name. */
  predicate AllNames(segs: seq<string>) {
    forall i :: 0 <= i < |segs| ==> IsName(segs[i])
  }

  /** A join of names starts and ends with a name character and has its last '/' before the last name. */
  lemma JoinOfNames(segs: seq<string>)
    requires |segs| > 1 && AllNames(segs)
    ensures var p, init := Join("/", segs), Join("/", segs[..|segs| - 1]);
            && p == init + "/" + segs[|segs| - 1]
            && 0 < |init| && p[0] != '/' && p[|p| - 1] != '/'
            && LastIndexOfChar(p, '/') == |init|
  {
    var init, last := segs[..|segs| - 1], segs[|segs| - 1];
    assert segs == init + [last];
    JoinSnoc("/", init, last);
    JoinOfNamesEnds(init);
    var p, j := Join("/", segs), Join("/", init);
    assert IsName(last);
    forall k | |j| < k < |p| ensures p[k] != '/' {
      assert p[k] == last[k - |j| - 1];
    }
    assert p[|j|] == '/';
    LastIndexOfCharAt(p, '/', |j|);
  }

  /** A join of names is non-empty and neither starts nor ends with '/'. */
  lemma {:induction false} JoinOfNamesEnds(segs: seq<string>)
    requires |segs| > 0 && AllNames(segs)
    ensures var p := Join("/", segs); p != "" && p[0] == segs[0][0] && p[|p| - 1] != '/'
    decreases |segs|
  {
    if |segs| > 1 {
      assert AllNames(segs[1..]) by {
        forall i | 0 <= i < |segs[1..]| ensures IsName(segs[1..][i]) {
          assert segs[1..][i] == segs[i + 1];
        }
      }
      JoinOfNamesEnds(segs[1..]);
    } else {
      var s := segs[0];
      assert s[|s| - 1] in s;
    }
  }

  /**
   * A relative path of names, perhaps with trailing slashes: its basename is the last name and its
   * dirname the names before it, or "." when there is only one.
   */
  lemma DirBaseOfNames(segs: seq<string>, slashes: nat)
    requires |segs| > 0 && AllNames(segs)
    ensures var p := Join("/", segs) + Slashes(slashes);
            && BaseName(p) == segs[|segs| - 1]
            && DirName(p) == (if |segs| == 1 then "." else Join("/", segs[..|segs| - 1]))
  {
    var j := Join("/", segs);
    JoinOfNamesEnds(segs);
    StripAppendedSlashes(j, slashes);
    if |segs| == 1 {
      OneName(segs[0], slashes);
    } else {
      JoinOfNames(segs);
      SeveralNames(j, Join("/", segs[..|segs| - 1]), segs[|segs| - 1], slashes);
    }
  }

  /** One name with trailing slashes: basename is the name, dirname ".". */
  lemma OneName(name: string, slashes: nat)
    requires IsName(name)
    ensures BaseName(name + Slashes(slashes)) == name
    ensures DirName(name + Slashes(slashes)) == "."
  {
    var p := name + Slashes(slashes);
    assert name[|name| - 1] in name;
    StripAppendedSlashes(name, slashes);
    assert StripTrailingSlashes(p) == name;
    assert LastIndexOfChar(name, '/') == -1;
    assert p[0] == name[0];
  }

  /** `init/last` with trailing slashes, `init` not starting with '/': basename `last`, dirname `init`. */
  lemma SeveralNames(j: string, init: string, last: string, slashes: nat)
    requires j == init + "/" + last && 0 < |init| && j[0] != '/'
    requires LastIndexOfChar(j, '/') == |init|
    requires StripTrailingSlashes(j + Slashes(slashes)) == j
    ensures BaseName(j + Slashes(slashes)) == last
    ensures DirName(j + Slashes(slashes)) == init
  {
    var p := j + Slashes(slashes);
    assert j[|init| + 1..] == last;
    assert p[0] == j[0];
    assert p[..|init|] == j[..|init|] == init;
  }

  /** A name right below the root has the directory "/". */
  lemma DirNameAtRoot()
    ensures DirName("/a") == "/" && BaseName("/a") == "a"
  {
    assert StripTrailingSlashes("/a") == "/a";
    LastIndexOfCharAt("/a", '/', 0);
  }

  /** The root is its own directory and has the empty name. */
  lemma DirNameOfRoot()
    ensures DirName("/") == "/" && BaseName("/") == ""
  {
    assert StripTrailingSlashes("/") == "";
  }

  /** Exactly two leading slashes are kept as the directory. */
  lemma DirNameDoubleSlash()
    ensures DirName("//a") == "//"
  {
    assert StripTrailingSlashes("//a") == "//a";
    LastIndexOfCharAt("//a", '/', 1);
  }

  /** Only the last '/' separates: a repeated slash stays in the directory. */
  lemma DirNameRepeatedSlash()
    ensures DirName("a//b") == "a/" && BaseName("a//b") == "b"
  {
    assert StripTrailingSlashes("a//b") == "a//b";
    LastIndexOfCharAt("a//b", '/', 2);
  }

  // ---------------------------------------------------------------------------
  // normalize and join

  /** A segment that normalisation keeps: neither empty nor ".". */
  predicate Kept(s: string) {
    s != "" && s != "."
  }

  /** Segments that resolution keeps as they are: no empty one, no ".", no "..". */
  predicate Plain(segs: seq<string>) {
    forall i :: 0 <= i < |segs| ==> Kept(segs[i]) && segs[i] != ".."
  }

  predicate NoParent(segs: seq<string>) {
    forall i :: 0 <= i < |segs| ==> segs[i] != ".."
  }

  /**
   * Folds the segments onto `stack`: empty and "." segments vanish, and ".." removes the name
   * before it; with nothing to remove it is dropped in an absolute path and kept in a relative one.
   */
  function Resolve(stack: seq<string>, segs: seq<string>, absolute: bool): (r: seq<string>)
    ensures Plain(segs) ==> r == stack + segs
    ensures absolute && NoParent(stack) ==> NoParent(r)
    decreases |segs|
  {
    if segs == [] then stack
    else
      var s := segs[0];
      var next :=
        if !Kept(s) then stack
        else if s != ".." then stack + [s]
        else if stack != [] && stack[|stack| - 1] != ".." then stack[..|stack| - 1]
        else if absolute then stack
        else stack + [".."];
      assert segs == [s] + segs[1..];
      assert Plain(segs) ==> Plain(segs[1..]) && next == stack + [s];
      assert absolute && NoParent(stack) ==> NoParent(next);
      Resolve(next, segs[1..], absolute)
  }

  /**
   * `path.normalize`: empty and "." segments vanish and ".." is resolved; a leading '/' and a
   * trailing '/' survive.  Nothing left gives "/" for an absolute path, "./" for one that ended in
   * '/', and "." otherwise.
   */
  function Normalize(path: string): (r: string)
    ensures r != ""
    ensures path != "" && path[0] == '/' ==> r[0] == '/'
    ensures path == "" ==> r == "."
  {
    if path == "" then "."
    else
      var absolute := path[0] == '/';
      var trailing := path[|path| - 1] == '/';
      var body := Join("/", Resolve([], Split(path, '/'), absolute));
      if body == "" then (if absolute then "/" else if trailing then "./" else ".")
      else (if absolute then "/" else "") + body + (if trailing then "/" else "")
  }

  /** `path.join(base, name)`: the non-empty arguments joined with '/', then normalised. */
  function JoinPath(base: string, name: string): (r: string)
    ensures r != ""
  {
    Normalize(if base == "" then name else if name == "" then base else base + "/" + name)
  }

  /** A relative path of names is already normal. */
  lemma NormalizeNames(segs: seq<string>)
    requires |segs| > 0 && AllNames(segs)
    ensures Normalize(Join("/", segs)) == Join("/", segs)
  {
    var p := Join("/", segs);
    JoinOfNamesEnds(segs);
    assert segs[0][0] in segs[0];
    SplitOfNames(segs);
    NoParents(segs);
    NormalizeBody(p, segs);
  }

  /** Splitting a join of names gives the names back. */
  lemma SplitOfNames(segs: seq<string>)
    requires |segs| > 0 && AllNames(segs)
    ensures Split(Join("/", segs), '/') == segs
  {
    assert forall i :: 0 <= i < |segs| ==> '/' !in segs[i];
    SplitJoin(segs, '/');
    assert Join(['/'], segs) == Join("/", segs);
  }

  /** Names are kept and hold no "..", so resolving them changes nothing. */
  lemma NoParents(segs: seq<string>)
    requires AllNames(segs)
    ensures Resolve([], segs, false) == segs
  {
    assert forall i :: 0 <= i < |segs| ==> IsName(segs[i]) && Kept(segs[i]) && segs[i] != "..";
    assert Plain(segs);
  }

  /** A relative path not ending in '/' whose segments resolve to themselves is normal. */
  lemma NormalizeBody(p: string, segs: seq<string>)
    requires p != "" && p[0] != '/' && p[|p| - 1] != '/'
    requires Resolve([], Split(p, '/'), false) == segs && Join("/", segs) == p
    ensures Normalize(p) == p
  {
  }

  /** Joining a relative directory of names and a name just puts a '/' between them. */
  lemma JoinPathNames(segs: seq<string>, name: string)
    requires |segs| > 0 && AllNames(segs) && IsName(name)
    ensures JoinPath(Join("/", segs), name) == Join("/", segs) + "/" + name
  {
    JoinSnoc("/", segs, name);
    var all := segs + [name];
    assert AllNames(all) by {
      forall i | 0 <= i < |all| ensures IsName(all[i]) {
        if i < |segs| { assert all[i] == segs[i]; }
      }
    }
    JoinOfNamesEnds(segs);
    NormalizeNames(all);
  }

  /** Joining "." and a name gives the name. */
  lemma JoinPathDot(name: string)
    requires IsName(name)
    ensures JoinPath(".", name) == name
  {
    var segs := [".", name];
    SplitJoin(segs, '/');
    assert Join(['/'], segs) == "./" + name;
    assert segs[1..] == [name];
    assert Resolve([], segs, false) == Resolve([], [name], false) == [name];
    assert name[0] in name;
    assert name[|name| - 1] in name;
  }

  /** Joining a name onto a directory of names is undone by dirname and basename. */
  lemma JoinPathParts(base: seq<string>, name: string)
    requires |base| > 0 && AllNames(base) && IsName(name)
    ensures BaseName(JoinPath(Join("/", base), name)) == name
    ensures DirName(JoinPath(Join("/", base), name)) == Join("/", base)
  {
    JoinPathNames(base, name);
    JoinSnoc("/", base, name);
    var all := base + [name];
    assert AllNames(all) by {
      forall i | 0 <= i < |all| ensures IsName(all[i]) {
        if i < |base| { assert all[i] == base[i]; }
      }
    }
    assert all[..|all| - 1] == base;
    DirBaseOfNames(all, 0);
    assert Join("/", all) + Slashes(0) == Join("/", all);
  }

  /** ".." removes the name before it; with none, a relative path keeps it and an absolute one drops it. */
  lemma ResolveExamples()
    ensures Resolve([], ["a", "..", "f"], false) == ["f"]
    ensures Resolve([], ["..", "f"], false) == ["..", "f"]
    ensures Resolve([], ["..", "f"], true) == ["f"]
  {
    assert ["a", "..", "f"][1..] == ["..", "f"];
    assert ["..", "f"][1..] == ["f"];
    assert Resolve(["a"], ["..", "f"], false) == Resolve([], ["f"], false);
    assert Resolve([".."], ["f"], false) == ["..", "f"];
  }

  // ---------------------------------------------------------------------------
  // Python

  /** `PurePosixPath(p).name`: the last segment that is neither empty nor ".", or "" when there is none. */
  function PyName(path: string): (r: string)
    ensures '/' !in r
    ensures r == "" || Kept(r)
  {
    LastKept(Split(path, '/'))
  }

  /** The last kept segment, or "". */
  function LastKept(segs: seq<string>): (r: string)
    ensures r == "" || (Kept(r) && r in segs)
    decreases |segs|
  {
    if segs == [] then ""
    else if Kept(segs[|segs| - 1]) then segs[|segs| - 1]
    else
      var r := LastKept(segs[..|segs| - 1]);
      assert r != "" ==> r in segs[..|segs| - 1];
      r
  }

  /** The Python name of a relative path of names, perhaps with trailing slashes, is its last name. */
  lemma PyNameOfNames(segs: seq<string>, slashes: nat)
    requires |segs| > 0 && AllNames(segs)
    ensures PyName(Join("/", segs) + Slashes(slashes)) == segs[|segs| - 1]
  {
    var pieces := segs + seq(slashes, i => "");
    JoinEmptyTail(segs, slashes);
    assert forall i :: 0 <= i < |pieces| ==> '/' !in pieces[i];
    SplitJoin(pieces, '/');
    assert Join(['/'], pieces) == Join("/", pieces);
    LastKeptEmptyTail(segs, slashes);
  }

  /** Joining names followed by `n` empty pieces appends `n` slashes. */
  lemma {:induction false} JoinEmptyTail(segs: seq<string>, n: nat)
    requires |segs| > 0
    ensures Join("/", segs + seq(n, i => "")) == Join("/", segs) + Slashes(n)
    decreases n
  {
    if n > 0 {
      var front := segs + seq(n - 1, i => "");
      assert segs + seq(n, i => "") == front + [""];
      JoinSnoc("/", front, "");
      JoinEmptyTail(segs, n - 1);
      assert Slashes(n - 1) + "/" == Slashes(n);
    } else {
      assert segs + seq(0, i => "") == segs;
    }
  }

  /** Empty pieces after a kept segment are passed over. */
  lemma {:induction false} LastKeptEmptyTail(segs: seq<string>, n: nat)
    requires segs != [] && Kept(segs[|segs| - 1])
    ensures LastKept(segs + seq(n, i => "")) == segs[|segs| - 1]
    decreases n
  {
    var all := segs + seq(n, i => "");
    if n > 0 {
      assert all[..|all| - 1] == segs + seq(n - 1, i => "");
      LastKeptEmptyTail(segs, n - 1);
    } else {
      assert all == segs;
    }
  }
}

=== FILE: planner.dfy ===
/**
 * The hyper-explorer's `Planner`: a goal is decomposed into subtasks by keyword, and after a failed
 * subtask the plan is rebuilt from a recovery prefix followed by what is left of the current plan.
 */
module Planner {
  import opened Wrappers
  import opened Seqs
  import opened Strings

  /** A step of a plan; `kind` is the subtask object's `type`, `depth` is set only for deep exploration. */
  datatype Subtask = Subtask(kind: string, intent: string, depth: Option<int>)

  datatype PlannerState = PlannerState(currentPlan: seq<Subtask>, completedGoals: seq<Subtask>)

  function Step(kind: string, intent: string): Subtask {
    Subtask(kind, intent, None)
  }

  function Kinds(plan: seq<Subtask>): (r: seq<string>)
    ensures |r| == |plan| && forall i :: 0 <= i < |plan| ==> r[i] == plan[i].kind
  {
    seq(|plan|, i requires 0 <= i < |plan| => plan[i].kind)
  }

  // ---------------------------------------------------------------------------
  // `goal.replace(/find|locate/gi, '').trim()`

  /** Index of the first character at or after `i` that is not white space (or `|s|`). */
  function TrimStartIndex(s: string, i: nat): (k: nat)
    requires i <= |s|
    ensures i <= k <= |s|
    ensures forall j :: i <= j < k ==> IsJsSpace(s[j])
    ensures k == |s| || !IsJsSpace(s[k])
    decreases |s| - i
  {
    if i < |s| && IsJsSpace(s[i]) then TrimStartIndex(s, i + 1) else i
  }

  /** End of the text in `s[lo..e]` once trailing white space is dropped. */
  function TrimEndIndex(s: string, lo: nat, e: nat): (k: nat)
    requires lo <= e <= |s|
    ensures lo <= k <= e
    ensures forall j :: k <= j < e ==> IsJsSpace(s[j])
    ensures k == lo || !IsJsSpace(s[k - 1])
    decreases e
  {
    if lo < e && IsJsSpace(s[e - 1]) then TrimEndIndex(s, lo, e - 1) else e
  }

  /** `r` is `s` with the white space before index `k` and after `r` removed. */
  predicate TrimmedAt(s: string, r: string, k: nat) {
    && k + |r| <= |s| && r == s[k..k + |r|]
    && (r == [] || (!IsJsSpace(r[0]) && !IsJsSpace(r[|r| - 1])))
    && (forall i :: 0 <= i < k ==> IsJsSpace(s[i]))
    && (forall i :: k + |r| <= i < |s| ==> IsJsSpace(s[i]))
  }

  /**
   * `trim`: the text between the leading and the trailing white space: a slice of `s` that neither
   * starts nor ends with white space, with only white space before and after it.
   */
  function Trim(s: string): (r: string)
    ensures exists k :: TrimmedAt(s, r, k)
  {
    var k := TrimStartIndex(s, 0);
    var e := TrimEndIndex(s, k, |s|);
    assert TrimmedAt(s, s[k..e], k);
    s[k..e]
  }

  /** Trimming trimmed text changes nothing. */
  lemma TrimIdempotent(s: string)
    ensures Trim(Trim(s)) == Trim(s)
  {
    var t := Trim(s);
    var k := TrimStartIndex(t, 0);
    if t != [] {
      assert !IsJsSpace(t[0]);
      assert k == 0;
      assert !IsJsSpace(t[|t| - 1]);
      assert TrimEndIndex(t, 0, |t|) == |t|;
    }
    assert t[0..|t|] == t;
  }

  /** Case-insensitive (ASCII) occurrence of `word` at the start of `s`. */
  predicate StartsWithWord(s: string, word: string) {
    |word| <= |s| && Lower(s[..|word|]) == word
  }

  /**
   * `replace(/find|locate/gi, '')`: scanning left to right, every case-insensitive `find` or `locate`
   * is deleted and scanning resumes after it.
   */
  function StripFindLocate(s: string): (r: string)
    ensures |r| <= |s|
    decreases |s|
  {
    if StartsWithWord(s, "find") then StripFindLocate(s[4..])
    else if StartsWithWord(s, "locate") then StripFindLocate(s[6..])
    else if s == [] then []
    else [s[0]] + StripFindLocate(s[1..])
  }

  /** Deleting keywords introduces no character that was not in the goal. */
  lemma {:induction false} StripKeepsCharacters(s: string)
    ensures forall c :: c in StripFindLocate(s) ==> c in s
    decreases |s|
  {
    if StartsWithWord(s, "find") {
      StripKeepsCharacters(s[4..]);
      assert forall c :: c in s[4..] ==> c in s;
    } else if StartsWithWord(s, "locate") {
      StripKeepsCharacters(s[6..]);
      assert forall c :: c in s[6..] ==> c in s;
    } else if s != [] {
      StripKeepsCharacters(s[1..]);
      assert forall c :: c in s[1..] ==> c in s;
    }
  }

  /** Text with no case-insensitive `find` or `locate` anywhere comes back unchanged. */
  lemma {:induction false} StripWithoutKeywords(s: string)
    requires forall i :: 0 <= i <= |s| ==> !StartsWithWord(s[i..], "find") && !StartsWithWord(s[i..], "locate")
    ensures StripFindLocate(s) == s
    decreases |s|
  {
    if s != [] {
      assert s[0..] == s;
      forall i | 0 <= i <= |s[1..]|
        ensures !StartsWithWord(s[1..][i..], "find") && !StartsWithWord(s[1..][i..], "locate")
      {
        assert s[1..][i..] == s[i + 1..];
      }
      StripWithoutKeywords(s[1..]);
    }
  }

  /** The object of a `find` goal: the goal with the keywords deleted, trimmed. */
  function FindTarget(goal: string): string {
    Trim(StripFindLocate(goal))
  }

  // ---------------------------------------------------------------------------
  // decomposeGoal

  const RegisterPlan := [
    Step("find_auth_page", "Locate registration entry point"),
    Step("fill_form", "Complete registration fields"),
    Step("submit", "Submit registration"),
    Step("verify_success", "Confirm successful registration")]

  const LoginPlan := [
    Step("find_auth_page", "Locate login form"),
    Step("fill_form", "Enter credentials"),
    Step("submit", "Submit login"),
    Step("verify_dashboard", "Confirm logged-in state")]

  const SquadPlan := [
    Step("ensure_logged_in", "Login if needed"),
    Step("find_squad_page", "Navigate to squad creation"),
    Step("create_squad", "Create fighter squad"),
    Step("verify_squad_created", "Confirm squad created")]

  const MatchPlan := [
    Step("ensure_logged_in", "Login if needed"),
    Step("find_match_page", "Navigate to matches list"),
    Step("join_match", "Join a match (Quick Join or create)"),
    Step("wait_for_match_start", "Wait in lobby for match to start"),
    Step("watch_match", "Watch battle until completion"),
    Step("claim_rewards", "Claim match rewards if victorious")]

  const ExplorePlan := [Step("maximize_coverage", "Explore all reachable states")]

  function FindPlan(target: string): seq<Subtask> {
    [Step("search_nav", "Navigate to find: " + target), Step("verify_element", "Confirm " + target + " is present")]
  }

  function DepthPlan(goal: string): seq<Subtask> {
    [Subtask("explore_depth", "Explore deeply: " + goal, Some(5))]
  }

  /**
   * `decomposeGoal(goal)`: the first keyword group the goal contains (case-sensitively) picks the
   * plan: register/signup, login/signin, squad/roster/team, match/play/battle, explore/discover,
   * find/locate; a goal with none of them is explored in depth.
   */
  function DecomposeGoal(goal: string): (r: seq<Subtask>)
    ensures |r| > 0
  {
    if Contains(goal, "register") || Contains(goal, "signup") then RegisterPlan
    else if Contains(goal, "login") || Contains(goal, "signin") then LoginPlan
    else if Contains(goal, "squad") || Contains(goal, "roster") || Contains(goal, "team") then SquadPlan
    else if Contains(goal, "match") || Contains(goal, "play") || Contains(goal, "battle") then MatchPlan
    else if Contains(goal, "explore") || Contains(goal, "discover") then ExplorePlan
    else if Contains(goal, "find") || Contains(goal, "locate") then FindPlan(FindTarget(goal))
    else DepthPlan(goal)
  }

  /** The keyword groups, in the order `decomposeGoal` tries them. */
  datatype Category = Register | Login | Squad | Match | Explore | Find

  const Priority: seq<Category> := [Register, Login, Squad, Match, Explore, Find]

  function Keywords(c: Category): seq<string> {
    match c
    case Register => ["register", "signup"]
    case Login => ["login", "signin"]
    case Squad => ["squad", "roster", "team"]
    case Match => ["match", "play", "battle"]
    case Explore => ["explore", "discover"]
    case Find => ["find", "locate"]
  }

  predicate Mentions(goal: string, c: Category) {
    exists i :: 0 <= i < |Keywords(c)| && Contains(goal, Keywords(c)[i])
  }

  /** The test "the goal mentions the category", as the predicate the search takes. */
  function MentionedBy(goal: string): (m: Category -> bool)
    ensures forall c :: m(c) == Mentions(goal, c)
  {
    c => Mentions(goal, c)
  }

  function PlanFor(c: Category, goal: string): seq<Subtask> {
    match c
    case Register => RegisterPlan
    case Login => LoginPlan
    case Squad => SquadPlan
    case Match => MatchPlan
    case Explore => ExplorePlan
    case Find => FindPlan(FindTarget(goal))
  }

  /** Reference: the plan of the first category in priority order the goal mentions, else a depth plan. */
  function PlanByPriority(goal: string): seq<Subtask> {
    var i := FindIndex(Priority, MentionedBy(goal));
    if i == -1 then DepthPlan(goal) else PlanFor(Priority[i], goal)
  }

  /** `decomposeGoal` is the first-match rule over the keyword groups. */
  lemma DecomposeGoalByPriority(goal: string)
    ensures DecomposeGoal(goal) == PlanByPriority(goal)
  {
    var m := MentionedBy(goal);
    MentionsIff(goal, Register);
    MentionsIff(goal, Login);
    MentionsIff(goal, Squad);
    MentionsIff(goal, Match);
    MentionsIff(goal, Explore);
    MentionsIff(goal, Find);
    assert m(Register) == Mentions(goal, Register) && m(Login) == Mentions(goal, Login);
    assert m(Squad) == Mentions(goal, Squad) && m(Match) == Mentions(goal, Match);
    assert m(Explore) == Mentions(goal, Explore) && m(Find) == Mentions(goal, Find);
    FindIndexPriority(m);
    DecomposeGoalChain(goal);
  }

  /** The test `decomposeGoal` writes out for a keyword group. */
  predicate KeywordTest(goal: string, c: Category) {
    match c
    case Register => Contains(goal, "register") || Contains(goal, "signup")
    case Login => Contains(goal, "login") || Contains(goal, "signin")
    case Squad => Contains(goal, "squad") || Contains(goal, "roster") || Contains(goal, "team")
    case Match => Contains(goal, "match") || Contains(goal, "play") || Contains(goal, "battle")
    case Explore => Contains(goal, "explore") || Contains(goal, "discover")
    case Find => Contains(goal, "find") || Contains(goal, "locate")
  }

  lemma MentionsIff(goal: string, c: Category)
    ensures Mentions(goal, c) <==> KeywordTest(goal, c)
  {
    var k := Keywords(c);
    if c.Squad? || c.Match? {
      assert Mentions(goal, c) <==> Contains(goal, k[0]) || Contains(goal, k[1]) || Contains(goal, k[2]);
    } else {
      assert Mentions(goal, c) <==> Contains(goal, k[0]) || Contains(goal, k[1]);
    }
  }

  /** Position in `Priority` of the first of six tests that holds, or -1. */
  function FirstTrue(reg: bool, login: bool, squad: bool, match_: bool, explore: bool, find: bool): int {
    if reg then 0 else if login then 1 else if squad then 2
    else if match_ then 3 else if explore then 4 else if find then 5 else -1
  }

  /** `decomposeGoal` picks the plan of the first keyword group whose test holds. */
  lemma DecomposeGoalChain(goal: string)
    ensures var i := FirstTrue(KeywordTest(goal, Register), KeywordTest(goal, Login), KeywordTest(goal, Squad),
                               KeywordTest(goal, Match), KeywordTest(goal, Explore), KeywordTest(goal, Find));
            -1 <= i < |Priority| &&
            DecomposeGoal(goal) == if i == -1 then DepthPlan(goal) else PlanFor(Priority[i], goal)
  {
    var p := Priority;
    assert p[0] == Register && p[1] == Login && p[2] == Squad && p[3] == Match && p[4] == Explore && p[5] == Find;
  }

  /** The first category in priority order that `m` accepts, as an index. */
  lemma FindIndexPriority(m: Category -> bool)
    ensures FindIndex(Priority, m) == FirstTrue(m(Register), m(Login), m(Squad), m(Match), m(Explore), m(Find))
  {
    var p := Priority;
    assert p[0] == Register && p[1] == Login && p[2] == Squad && p[3] == Match && p[4] == Explore && p[5] == Find;
  }

  /** A goal without any keyword is explored to depth 5 under its own text. */
  lemma NoKeywordExploresDeeply(goal: string)
    requires forall c :: !Mentions(goal, c)
    ensures DecomposeGoal(goal) == [Subtask("explore_depth", "Explore deeply: " + goal, Some(5))]
  {
    DecomposeGoalByPriority(goal);
    assert FindIndex(Priority, MentionedBy(goal)) == -1;
  }

  /** `generatePlan`: the decomposed goal becomes the current plan. */
  function GeneratePlan(p: PlannerState, goal: string): (r: (PlannerState, seq<Subtask>))
    ensures r.0.currentPlan == r.1 && r.1 == DecomposeGoal(goal)
    ensures r.0.completedGoals == p.completedGoals
  {
    (p.(currentPlan := DecomposeGoal(goal)), DecomposeGoal(goal))
  }

  /** `markCompleted`: the subtask joins the completed list. */
  function MarkCompleted(p: PlannerState, s: Subtask): (r: PlannerState)
    ensures r.currentPlan == p.currentPlan
    ensures |r.completedGoals| == |p.completedGoals| + 1 && r.completedGoals[|p.completedGoals|] == s
    ensures r.completedGoals[..|p.completedGoals|] == p.completedGoals
  {
    var r := p.(completedGoals := p.completedGoals + [s]);
    assert r.completedGoals[..|p.completedGoals|] == p.completedGoals;
    r
  }

  // ---------------------------------------------------------------------------
  // replan

  /** The recovery steps put in front of the remaining plan, by failure type. */
  function Recovery(failureType: string): (r: seq<Subtask>)
    ensures |r| <= 2
    ensures failureType !in {"stuck_on_form", "dead_end", "unexpected_state"} ==> r == []
    ensures failureType == "stuck_on_form" ==> Kinds(r) == ["backtrack", "try_alternative_path"]
    ensures failureType == "dead_end" ==> Kinds(r) == ["find_frontier"]
    ensures failureType == "unexpected_state" ==> Kinds(r) == ["adapt"]
    ensures forall i :: 0 <= i < |r| ==> r[i].depth.None? && r[i].intent != ""
  {
    if failureType == "stuck_on_form" then
      [Step("backtrack", "Return to previous state"), Step("try_alternative_path", "Find different approach")]
    else if failureType == "dead_end" then [Step("find_frontier", "Navigate to unexplored area")]
    else if failureType == "unexpected_state" then [Step("adapt", "Continue from current state")]
    else []
  }

  /** The recovery step types `replan` pushes, by failure type. */
  const RecoveryTable: map<string, seq<string>> :=
    map["stuck_on_form" := ["backtrack", "try_alternative_path"], "dead_end" := ["find_frontier"],
        "unexpected_state" := ["adapt"]]

  /** The recovery steps' types are the table entry for the failure type, or none at all. */
  lemma RecoveryMatchesTable(failureType: string)
    ensures Kinds(Recovery(failureType)) == if failureType in RecoveryTable then RecoveryTable[failureType] else []
  {
  }

  /** What `replan` receives as `completedSubtasks`: a count, or a list of subtasks. */
  datatype CompletedArg = Count(n: int) | Done(items: seq<Subtask>)

  /**
   * `completedSubtasks.length` as `slice` uses it: a list's length, while a number has no `length`,
   * so `slice(undefined)` starts at 0.
   */
  function SliceStart(arg: CompletedArg): nat {
    match arg
    case Count(_) => 0
    case Done(items) => |items|
  }

  /** `replan(state, failure, completedSubtasks)`: recovery steps, then the current plan from the slice start on. */
  function Replan(p: PlannerState, failureType: string, completed: CompletedArg): (r: (PlannerState, seq<Subtask>))
    ensures r.0.currentPlan == r.1 && r.0.completedGoals == p.completedGoals
    ensures |Recovery(failureType)| <= |r.1| && r.1[..|Recovery(failureType)|] == Recovery(failureType)
    ensures var rest := r.1[|Recovery(failureType)|..];
            && |rest| == (if SliceStart(completed) < |p.currentPlan| then |p.currentPlan| - SliceStart(completed) else 0)
            && p.currentPlan == p.currentPlan[..|p.currentPlan| - |rest|] + rest
  {
    var start := if SliceStart(completed) < |p.currentPlan| then SliceStart(completed) else |p.currentPlan|;
    var rec := Recovery(failureType);
    var plan := rec + p.currentPlan[start..];
    assert plan[..|rec|] == rec && plan[|rec|..] == p.currentPlan[start..];
    (p.(currentPlan := plan), plan)
  }

  /** The mission loop counts the subtasks that completed before the first failure. */
  function CompletedBeforeFailure(results: seq<bool>): (n: nat)
    ensures n <= |results|
    ensures forall i :: 0 <= i < n ==> results[i]
    ensures n < |results| ==> !results[n]
    decreases |results|
  {
    if results == [] || !results[0] then 0
    else
      var n := CompletedBeforeFailure(results[1..]);
      assert forall i :: 1 <= i <= n ==> results[i] == results[1..][i - 1];
      n + 1
  }

  /** As the mission loop calls it: `replan` receives the count of completed subtasks, a number. */
  function ReplanAsWritten(p: PlannerState, failureType: string, completedCount: nat): seq<Subtask> {
    Replan(p, failureType, Count(completedCount)).1
  }

  /** Whatever the count, the whole current plan follows the recovery steps, completed subtasks included. */
  lemma ReplanAsWrittenRepeatsCompleted(p: PlannerState, failureType: string, completedCount: nat)
    ensures ReplanAsWritten(p, failureType, completedCount) == Recovery(failureType) + p.currentPlan
  {
    var r := ReplanAsWritten(p, failureType, completedCount);
    var rec := Recovery(failureType);
    assert r[|rec|..] == p.currentPlan;
    assert r == r[..|rec|] + r[|rec|..];
  }

  /** A login plan whose first subtask completed and whose second got stuck on the form comes back whole. */
  lemma ReplanAsWrittenExample()
    ensures ReplanAsWritten(PlannerState(LoginPlan, []), "stuck_on_form", 1)
            == [Step("backtrack", "Return to previous state"), Step("try_alternative_path", "Find different approach")] + LoginPlan
  {
    ReplanAsWrittenRepeatsCompleted(PlannerState(LoginPlan, []), "stuck_on_form", 1);
  }

  /** With the completed subtasks passed as a list, the plan resumes at the first subtask not completed. */
  function ReplanCorrected(p: PlannerState, failureType: string, completedCount: nat): (r: seq<Subtask>)
    ensures var c := if completedCount < |p.currentPlan| then completedCount else |p.currentPlan|;
            && r == Recovery(failureType) + p.currentPlan[c..]
            && p.currentPlan[..c] + r[|Recovery(failureType)|..] == p.currentPlan
  {
    var c := if completedCount < |p.currentPlan| then completedCount else |p.currentPlan|;
    var r := Replan(p, failureType, Done(p.currentPlan[..c])).1;
    var rec := Recovery(failureType);
    assert r == r[..|rec|] + r[|rec|..];
    assert r[|rec|..] == p.currentPlan[c..];
    r
  }

  /** After a round, the corrected replan resumes exactly at the subtask that failed. */
  lemma ReplanResumesAtFailure(p: PlannerState, failureType: string, results: seq<bool>)
    requires |results| <= |p.currentPlan|
    requires CompletedBeforeFailure(results) < |results|
    ensures var n := CompletedBeforeFailure(results);
            var r := ReplanCorrected(p, failureType, n);
            && |r| == |Recovery(failureType)| + |p.currentPlan| - n
            && r[|Recovery(failureType)|] == p.currentPlan[n]
            && !results[n]
  {
  }

  /**
   * Goal texts and the plans they get: registration wins over login, and `includes` is case-sensitive,
   * so a capitalised `Find` is not a find goal.
   */
  lemma DecomposeGoalExamples()
    ensures DecomposeGoal("register then login") == RegisterPlan
    ensures DecomposeGoal("Find it") == DepthPlan("Find it")
  {
    assert "" + "register" + " then login" == "register then login";
    ContainsConcat("", "register", " then login");
    FindItMentionsNothing(Register);
    FindItMentionsNothing(Login);
    FindItMentionsNothing(Squad);
    FindItMentionsNothing(Match);
    FindItMentionsNothing(Explore);
    FindItMentionsNothing(Find);
    DecomposeGoalChain("Find it");
  }

  /** "Find it" lacks a letter of every keyword (`includes` does not fold case). */
  lemma FindItMentionsNothing(c: Category)
    ensures !KeywordTest("Find it", c)
  {
    var g := "Find it";
    match c {
      case Register =>
        assert 'r' !in g && 'g' !in g;
        NoLetter(g, "register", 0);
        NoLetter(g, "signup", 2);
      case Login =>
        assert 'l' !in g && 'g' !in g;
        NoLetter(g, "login", 0);
        NoLetter(g, "signin", 2);
      case Squad =>
        assert 'q' !in g && 'r' !in g && 'm' !in g;
        NoLetter(g, "squad", 1);
        NoLetter(g, "roster", 0);
        NoLetter(g, "team", 3);
      case Match =>
        assert 'm' !in g && 'p' !in g && 'b' !in g;
        NoLetter(g, "match", 0);
        NoLetter(g, "play", 0);
        NoLetter(g, "battle", 0);
      case Explore =>
        assert 'x' !in g && 'c' !in g;
        NoLetter(g, "explore", 1);
        NoLetter(g, "discover", 3);
      case Find =>
        assert 'f' !in g && 'l' !in g;
        NoLetter(g, "find", 0);
        NoLetter(g, "locate", 0);
    }
  }

  /** A word with a letter the text lacks does not occur in it. */
  lemma NoLetter(s: string, word: string, k: nat)
    requires k < |word| && word[k] !in s
    ensures !Contains(s, word)
  {
    forall i | 0 <= i <= |s| ensures !OccursAt(s, word, i) {
      if i <= |s| - |word| {
        assert s[i..i + |word|][k] == s[i + k];
        assert s[i + k] in s;
      }
    }
  }

  /** Both keywords are deleted whatever their case, and the rest is trimmed. */
  lemma FindTargetExample()
    ensures FindTarget("find Locate it") == "it"
  {
    StripExample();
    TrimExample();
  }

  lemma TrimExample()
    ensures Trim("  it") == "it"
  {
    var s := "  it";
    assert IsJsSpace(s[0]) && IsJsSpace(s[1]) && !IsJsSpace(s[2]) && !IsJsSpace(s[3]);
    assert TrimStartIndex(s, 0) == 2;
    assert TrimEndIndex(s, 2, 4) == 4;
    assert s[2..4] == "it";
  }

  lemma StripExample()
    ensures StripFindLocate("find Locate it") == "  it"
  {
    StripFindHead();
    StripSpaceHead();
  }

  lemma StripFindHead()
    ensures StripFindLocate("find Locate it") == StripFindLocate(" Locate it")
  {
    var g := "find Locate it";
    assert Lower(g[..4]) == "find";
    assert g[4..] == " Locate it";
  }

  /** A first character that starts neither keyword is kept. */
  lemma StripKeepsHead(s: string)
    requires |s| > 0 && LowerChar(s[0]) != 'f' && LowerChar(s[0]) != 'l'
    ensures StripFindLocate(s) == [s[0]] + StripFindLocate(s[1..])
  {
    if |s| >= 4 {
      assert Lower(s[..4])[0] == LowerChar(s[0]);
    }
    if |s| >= 6 {
      assert Lower(s[..6])[0] == LowerChar(s[0]);
    }
  }

  lemma StripSpaceHead()
    ensures StripFindLocate(" Locate it") == "  it"
  {
    var s1 := " Locate it";
    StripKeepsHead(s1);
    assert s1[1..] == "Locate it";
    StripLocateIt();
    assert [s1[0]] + " it" == "  it";
  }

  lemma StripLocateIt()
    ensures StripFindLocate("Locate it") == " it"
  {
    var s2 := "Locate it";
    assert !StartsWithWord(s2, "find") by { assert Lower(s2[..4])[0] == 'l'; }
    assert StartsWithWord(s2, "locate") by { assert Lower(s2[..6]) == "locate"; }
    var s3 := s2[6..];
    assert s3 == " it";
    forall i | 0 <= i <= |s3| ensures !StartsWithWord(s3[i..], "find") && !StartsWithWord(s3[i..], "locate") {
    }
    StripWithoutKeywords(s3);
  }
}

=== FILE: runner.dfy ===
/**
 * The battle harness (harness/runner.py): every configured tool runs every test case of every
 * configured category, either against a mock profile ("simulation") or by invoking the tool's
 * adapter script, whose every failure is captured as an error result.  Random draws, the clock
 * and the adapter process are inputs.
 */
module Runner {
  import opened Wrappers
  import opened Seqs
  import opened Strings
  import opened JsonModel
  import opened Paths
  import Scoring

  // ---------------------------------------------------------------------------
  // Paths and numbers

  /**
   * `Path(p).stem`: the name without its last suffix, the suffix starting at the name's last dot.
   * A dot that starts or ends the name begins no suffix.
   */
  function Stem(path: string): (r: string)
    ensures '/' !in r
  {
    var name := PyName(path);
    var i := LastIndexOfChar(name, '.');
    if 0 < i < |name| - 1 then name[..i] else name
  }

  /**
   * The stem is the name cut just before its last dot when that dot is neither first nor last,
   * and the whole name otherwise.
   */
  lemma StemCutsLastSuffix(path: string)
    ensures var r, n := Stem(path), PyName(path);
            r == n || (0 < |r| < |n| - 1 && n[..|r|] == r && n[|r|] == '.' && forall j :: |r| < j < |n| ==> n[j] != '.')
    ensures var r, n := Stem(path), PyName(path);
            r == n ==> forall k :: 0 < k < |n| - 1 && n[k] == '.' ==> exists j :: k < j < |n| && n[j] == '.'
  {
    var n := PyName(path);
    var i := LastIndexOfChar(n, '.');
    if 0 < i < |n| - 1 {
      assert Stem(path) == n[..i];
      assert forall k :: 0 <= k < i ==> n[..i][k] == n[k];
    }
  }

  lemma StemOfNamePath(dir: string, name: string, slashes: nat)
    requires IsName(dir) && IsName(name)
    ensures var i := LastIndexOfChar(name, '.');
            Stem(dir + "/" + name + Slashes(slashes)) == if 0 < i < |name| - 1 then name[..i] else name
  {
    PyNameOfDirName(dir, name, slashes);
  }

  lemma PyNameOfDirName(dir: string, name: string, slashes: nat)
    requires IsName(dir) && IsName(name)
    ensures PyName(dir + "/" + name + Slashes(slashes)) == name
  {
    var segs := [dir, name];
    assert segs[1..] == [name];
    assert Join("/", segs) == dir + "/" + name;
    assert AllNames(segs);
    PyNameOfNames(segs, slashes);
  }

  /** `adapters/aider.py` has the stem `aider`, however many slashes follow it. */
  lemma AiderStem(slashes: nat)
    ensures Stem("adapters" + "/" + "aider.py" + Slashes(slashes)) == "aider"
  {
    StemOfNamePath("adapters", "aider.py", slashes);
    LastIndexOfCharAt("aider.py", '.', 5);
    assert "aider.py"[..5] == "aider";
  }

  lemma AdapterPathSpelling()
    ensures "adapters" + "/" + "aider.py" + Slashes(0) == "adapters/aider.py"
    ensures "adapters" + "/" + "aider.py" + Slashes(1) == "adapters/aider.py/"
  {
  }

  /** `Path("adapters/aider.py").stem` is the tool name "aider". */
  lemma StemOfAdapterPath()
    ensures Stem("adapters/aider.py") == "aider"
  {
    AiderStem(0);
    AdapterPathSpelling();
  }

  /** A trailing slash does not change the stem. */
  lemma StemIgnoresTrailingSlash()
    ensures Stem("adapters/aider.py/") == "aider"
  {
    AiderStem(1);
    AdapterPathSpelling();
  }

  /** Only the last suffix goes: the stem of `lib/a.b.c` is `a.b`. */
  lemma StemKeepsInnerDots()
    ensures Stem("lib/a.b.c") == "a.b"
  {
    InnerDots();
    InnerDotsSpelling();
  }

  lemma InnerDots()
    ensures Stem("lib" + "/" + "a.b.c" + Slashes(0)) == "a.b"
  {
    StemOfNamePath("lib", "a.b.c", 0);
    LastIndexOfCharAt("a.b.c", '.', 3);
    assert "a.b.c"[..3] == "a.b";
  }

  lemma InnerDotsSpelling()
    ensures "lib" + "/" + "a.b.c" + Slashes(0) == "lib/a.b.c"
  {
  }

  /** Python's `int(x)` on a float: truncation toward zero. */
  function Trunc(x: real): (r: int)
    ensures x >= 0.0 ==> r as real <= x < r as real + 1.0
    ensures x < 0.0 ==> r as real - 1.0 < x <= r as real
  {
    if x >= 0.0 then x.Floor else -((-x).Floor)
  }

  function MaxInt(a: int, b: int): int { if a >= b then a else b }

  // ---------------------------------------------------------------------------
  // Simulation

  /** A tool's performance profile, each entry on the 0-1 scale. */
  datatype Profile = Profile(cq: real, ex: real, mc: real, mem: real, test: real, ref: real, lat: real, tok: real)

  const DefaultProfile := Profile(0.75, 0.75, 0.75, 0.75, 0.75, 0.75, 0.85, 0.85)

  const ProfiledTools: set<string> := {"roo-code", "opencode", "continue", "cursor", "factory", "aider",
                                       "kiro", "copilot", "windsurf", "claude-code", "qodo", "tabnine", "amp"}

  function ProfileFor(tool: string): (p: Profile)
    ensures tool !in ProfiledTools ==> p == DefaultProfile
  {
    match tool
    case "roo-code" => Profile(0.88, 0.85, 0.80, 0.95, 0.78, 0.75, 0.9, 0.85)
    case "opencode" => Profile(0.85, 0.92, 0.78, 0.70, 0.75, 0.72, 0.85, 0.90)
    case "continue" => Profile(0.82, 0.75, 0.76, 0.72, 0.80, 0.70, 0.80, 0.95)
    case "cursor" => Profile(0.90, 0.80, 0.85, 0.75, 0.82, 0.78, 0.92, 0.88)
    case "factory" => Profile(0.85, 0.82, 0.92, 0.78, 0.80, 0.80, 0.88, 0.86)
    case "aider" => Profile(0.80, 0.95, 0.77, 0.65, 0.76, 0.68, 0.96, 0.98)
    case "kiro" => Profile(0.84, 0.78, 0.80, 0.72, 0.85, 0.85, 0.86, 0.89)
    case "copilot" => Profile(0.82, 0.70, 0.80, 0.60, 0.75, 0.65, 0.90, 0.87)
    case "windsurf" => Profile(0.86, 0.78, 0.88, 0.76, 0.80, 0.76, 0.84, 0.85)
    case "claude-code" => Profile(0.88, 0.85, 0.82, 0.74, 0.83, 0.77, 0.87, 0.84)
    case "qodo" => Profile(0.84, 0.72, 0.78, 0.70, 0.90, 0.82, 0.85, 0.86)
    case "tabnine" => Profile(0.78, 0.60, 0.70, 0.55, 0.68, 0.60, 0.95, 0.97)
    case "amp" => Profile(0.88, 0.86, 0.84, 0.76, 0.82, 0.78, 0.89, 0.88)
    case _ => DefaultProfile
  }

  predicate ProfileInUnit(p: Profile) {
    && Scoring.InUnit(p.cq) && Scoring.InUnit(p.ex) && Scoring.InUnit(p.mc) && Scoring.InUnit(p.mem)
    && Scoring.InUnit(p.test) && Scoring.InUnit(p.ref) && Scoring.InUnit(p.lat) && Scoring.InUnit(p.tok)
  }

  /** Every profile, the default included, is on the 0-1 scale. */
  lemma ProfilesInUnit(tool: string)
    ensures ProfileInUnit(ProfileFor(tool))
  {
  }

  /** `noise`: add a draw and clamp to [0, 1]. */
  function Noise(x: real, draw: real): (r: real)
    ensures Scoring.InUnit(r)
    ensures Scoring.InUnit(x + draw) ==> r == x + draw
    ensures x + draw < 0.0 ==> r == 0.0
    ensures x + draw > 1.0 ==> r == 1.0
  {
    var v := x + draw;
    var lo := if v < 1.0 then v else 1.0;
    if lo > 0.0 then lo else 0.0
  }

  /**
   * The random draws one simulated test consumes, in call order: up to two noise draws
   * (uniform in [-0.03, 0.03]), then the token and time jitters.
   */
  datatype Draws = Draws(first: real, second: real, tokenJitter: real, timeJitter: real)

  /** The metrics `run_simulation` produces for one test case; `tokens` and `iterations` are whole numbers. */
  function SimulatedMetrics(tool: string, category: string, d: Draws): Scoring.Metrics {
    ProfileMetrics(ProfileFor(tool), category, d)
  }

  /** The metrics a test case of `category` produces for a tool with profile `p`. */
  function ProfileMetrics(p: Profile, category: string, d: Draws): Scoring.Metrics {
    match category
    case "A" => map[
      "correctness" := Noise(p.cq * 0.9, d.first),
      "style" := Noise(p.cq * 0.85, d.second),
      "tokens" := Trunc(1000.0 + (1.0 - p.tok) * 4000.0 + d.tokenJitter) as real,
      "iterations" := 1.0,
      "time_sec" := 1.5 + (1.0 - p.lat) * 3.0 + d.timeJitter]
    case "B" => map[
      "coherence" := Noise(p.mc * 0.8, d.first),
      "coupling" := Noise(p.mc * 0.75, d.second),
      "tokens" := Trunc(3000.0 + (1.0 - p.tok) * 3000.0 + d.tokenJitter) as real,
      "iterations" := MaxInt(1, Trunc((1.0 - p.ex) * 4.0 + 1.0)) as real,
      "time_sec" := 5.0 + (1.0 - p.lat) * 5.0 + d.timeJitter]
    case "C" => map[
      "pass_rate" := Noise(p.ex * 0.7, d.first),
      "iterations" := MaxInt(1, Trunc((1.0 - p.ex) * 6.0 + 2.0)) as real,
      "tokens" := Trunc(5000.0 + (1.0 - p.tok) * 6000.0 + d.tokenJitter) as real,
      "time_sec" := 8.0 + (1.0 - p.lat) * 12.0 + d.timeJitter]
    case "D" => map[
      "complexity_reduction" := Noise(p.ref * 0.6, d.first),
      "duplication_reduction" := Noise(p.ref * 0.5, d.second),
      "tokens" := Trunc(2000.0 + (1.0 - p.tok) * 2000.0 + d.tokenJitter) as real,
      "time_sec" := 4.0 + (1.0 - p.lat) * 4.0 + d.timeJitter]
    case "E" => map[
      "coverage" := Noise(p.test * 0.85, d.first),
      "test_quality" := Noise(p.test * 0.8, d.second),
      "tokens" := Trunc(1500.0 + (1.0 - p.tok) * 2000.0 + d.tokenJitter) as real,
      "time_sec" := 3.0 + (1.0 - p.lat) * 3.0 + d.timeJitter]
    case "F" => map[
      "root_cause_accuracy" := Noise(p.ex * 0.6, d.first),
      "fix_correctness" := Noise(p.ex * 0.65, d.second),
      "iterations" := MaxInt(3, Trunc((1.0 - p.ex) * 8.0 + 4.0)) as real,
      "tokens" := Trunc(8000.0 + (1.0 - p.tok) * 8000.0 + d.tokenJitter) as real,
      "time_sec" := 12.0 + (1.0 - p.lat) * 18.0 + d.timeJitter]
    case "G" => map[
      "recall_accuracy" := Noise(p.mem * 0.75, d.first),
      "context_efficiency" := Noise(p.mem * 0.8, d.second),
      "tokens" := Trunc(3000.0 + (1.0 - p.tok) * 3000.0 + d.tokenJitter) as real,
      "time_sec" := 5.0 + (1.0 - p.lat) * 7.0 + d.timeJitter]
    case _ => map["score" := 0.5]
  }

  const Categories: set<string> := {"A", "B", "C", "D", "E", "F", "G"}

  /**
   * Simulated metrics are what the scorer expects: score-like values in [0, 1] whatever the
   * draws, at least one iteration (at least three for category F), and an unknown category
   * gives only `score: 0.5`.
   */
  lemma SimulatedMetricsShape(tool: string, category: string, d: Draws)
    ensures Scoring.WellScaled(SimulatedMetrics(tool, category, d))
    ensures category == "C" ==> SimulatedMetrics(tool, category, d)["iterations"] >= 1.0
    ensures category == "F" ==> SimulatedMetrics(tool, category, d)["iterations"] >= 3.0
    ensures category in Categories ==>
              "time_sec" in SimulatedMetrics(tool, category, d) && "tokens" in SimulatedMetrics(tool, category, d)
    ensures category !in Categories ==> SimulatedMetrics(tool, category, d) == map["score" := 0.5]
  {
    CategoryShape(ProfileFor(tool), category, d);
  }

  /** The keys each category's metrics carry, whatever the profile; the score-like ones are in [0, 1]. */
  lemma CategoryShape(p: Profile, category: string, d: Draws)
    ensures var m := ProfileMetrics(p, category, d);
            && Scoring.WellScaled(m)
            && (category == "C" ==> m["iterations"] >= 1.0)
            && (category == "F" ==> m["iterations"] >= 3.0)
            && (category in Categories ==> "time_sec" in m && "tokens" in m)
            && (category !in Categories ==> m == map["score" := 0.5])
  {
    if category == "A" {
      ShapeA(p, d);
    } else if category == "B" {
      ShapeB(p, d);
    } else if category == "C" {
      ShapeC(p, d);
    } else if category == "D" {
      ShapeD(p, d);
    } else if category == "E" {
      ShapeE(p, d);
    } else if category == "F" {
      ShapeF(p, d);
    } else if category == "G" {
      ShapeG(p, d);
    }
  }

  lemma ShapeA(p: Profile, d: Draws)
    ensures var m := ProfileMetrics(p, "A", d);
            && m.Keys == {"correctness", "style", "tokens", "iterations", "time_sec"}
            && Scoring.WellScaled(m)
  {
  }

  lemma ShapeB(p: Profile, d: Draws)
    ensures var m := ProfileMetrics(p, "B", d);
            && m.Keys == {"coherence", "coupling", "tokens", "iterations", "time_sec"}
            && Scoring.WellScaled(m)
  {
  }

  lemma ShapeC(p: Profile, d: Draws)
    ensures var m := ProfileMetrics(p, "C", d);
            && m.Keys == {"pass_rate", "iterations", "tokens", "time_sec"}
            && Scoring.WellScaled(m)
            && m["iterations"] >= 1.0
  {
  }

  lemma ShapeD(p: Profile, d: Draws)
    ensures var m := ProfileMetrics(p, "D", d);
            && m.Keys == {"complexity_reduction", "duplication_reduction", "tokens", "time_sec"}
            && Scoring.WellScaled(m)
  {
  }

  lemma ShapeE(p: Profile, d: Draws)
    ensures var m := ProfileMetrics(p, "E", d);
            && m.Keys == {"coverage", "test_quality", "tokens", "time_sec"}
            && Scoring.WellScaled(m)
  {
  }

  lemma ShapeF(p: Profile, d: Draws)
    ensures var m := ProfileMetrics(p, "F", d);
            && m.Keys == {"root_cause_accuracy", "fix_correctness", "iterations", "tokens", "time_sec"}
            && Scoring.WellScaled(m)
            && m["iterations"] >= 3.0
  {
  }

  lemma ShapeG(p: Profile, d: Draws)
    ensures var m := ProfileMetrics(p, "G", d);
            && m.Keys == {"recall_accuracy", "context_efficiency", "tokens", "time_sec"}
            && Scoring.WellScaled(m)
  {
  }

  /** Every simulated result of a known category gives the scorer at least one canonical factor. */
  lemma SimulationIsScored(tool: string, category: string, d: Draws)
    requires category in Categories
    ensures Scoring.MapMetricsToFactors(category, SimulatedMetrics(tool, category, d)).canonical != map[]
  {
    Scoring.KnownCategorySetsCodeQuality(category, SimulatedMetrics(tool, category, d));
  }

  // ---------------------------------------------------------------------------
  // Results

  datatype TestCase = TestCase(id: string, category: string)

  /** One entry of results.json (the timestamp is not modelled). */
  datatype RunResult = RunResult(tool: string, category: string, testId: string, mode: string, metrics: Json, elapsed: Json)

  function NumericObject(m: map<string, real>): (j: Json)
    ensures j.JObj? && j.fields.Keys == m.Keys
    ensures forall k :: k in m ==> j.fields[k] == JNum(m[k])
  {
    JObj(map k | k in m :: JNum(m[k]))
  }

  /** `run_simulation`; `elapsed` is the measured wall-clock time. */
  function RunSimulation(adapterPath: string, category: string, tc: TestCase, d: Draws, elapsed: real): (r: RunResult)
    ensures r.tool == Stem(adapterPath) && r.category == category && r.testId == tc.id && r.mode == "simulation"
    ensures r.metrics == NumericObject(SimulatedMetrics(Stem(adapterPath), category, d))
    ensures r.elapsed == JNum(elapsed)
  {
    RunResult(Stem(adapterPath), category, tc.id, "simulation",
              NumericObject(SimulatedMetrics(Stem(adapterPath), category, d)), JNum(elapsed))
  }

  /** What running the adapter script produced (`Raised` covers every other exception, timeouts included). */
  datatype AdapterOutcome =
    | NotFound                                 // FileNotFoundError
    | Failed(returnCode: int, stderr: string)  // CalledProcessError: nonzero exit
    | Output(parsed: Option<Json>)             // stdout, parsed; None when it is not valid JSON
    | Raised(message: string)                  // any other exception, as str(e)

  /** Python's type name for a parsed JSON value; integral numbers are taken to be `int`. */
  function PyTypeName(j: Json): string {
    match j
    case JNull => "NoneType"
    case JBool(_) => "bool"
    case JNum(n) => if n == n.Floor as real then "int" else "float"
    case JStr(_) => "str"
    case JArr(_) => "list"
    case JObj(_) => "dict"
  }

  function ErrorObject(message: string): Json {
    JObj(map["error" := JStr(message)])
  }

  const UnexpectedPrefix := "An unexpected error occurred: "

  /** Did the adapter produce a JSON object, the only outcome that is not an error? */
  predicate Succeeded(outcome: AdapterOutcome) {
    outcome.Output? && outcome.parsed.Some? && outcome.parsed.value.JObj?
  }

  /** The error message `run_automated` records for a failed outcome. */
  function ErrorMessage(adapterPath: string, outcome: AdapterOutcome): string
    requires !Succeeded(outcome)
  {
    match outcome
    case NotFound => "Adapter script not found at " + adapterPath
    case Failed(code, stderr) => "Adapter script failed with exit code " + IntToString(code) + ": " + stderr
    case Output(None) => "Adapter script did not return valid JSON"
    case Output(Some(j)) => UnexpectedPrefix + "'" + PyTypeName(j) + "' object has no attribute 'get'"
    case Raised(message) => UnexpectedPrefix + message
  }

  /** The second `run_automated`: adapter failures become error results, never exceptions. */
  function RunAutomated(adapterPath: string, category: string, tc: TestCase, outcome: AdapterOutcome): (r: RunResult)
    ensures r.tool == Stem(adapterPath) && r.category == category && r.testId == tc.id && r.mode == "automated"
    ensures Succeeded(outcome) ==>
              r.metrics == GetOr(outcome.parsed.value, "metrics", JObj(map[])) &&
              r.elapsed == GetOr(outcome.parsed.value, "elapsed_sec", JNum(0.0))
    ensures !Succeeded(outcome) ==>
              && r.elapsed == JNum(0.0)
              && r.metrics.JObj?
              && Get(r.metrics, "error") == Some(JStr(ErrorMessage(adapterPath, outcome)))
              && (r.metrics.fields.Keys == if outcome.Failed? then {"error", "return_code"} else {"error"})
    ensures outcome.Failed? ==> Get(r.metrics, "return_code") == Some(JNum(outcome.returnCode as real))
  {
    var tool := Stem(adapterPath);
    if Succeeded(outcome) then
      var out := outcome.parsed.value;
      RunResult(tool, category, tc.id, "automated", GetOr(out, "metrics", JObj(map[])), GetOr(out, "elapsed_sec", JNum(0.0)))
    else
      var metrics := if outcome.Failed?
        then JObj(map["error" := JStr(ErrorMessage(adapterPath, outcome)), "return_code" := JNum(outcome.returnCode as real)])
        else ErrorObject(ErrorMessage(adapterPath, outcome));
      RunResult(tool, category, tc.id, "automated", metrics, JNum(0.0))
  }

  /** The kind of adapter failure. */
  datatype FailureKind = MissingScript | NonzeroExit | InvalidJson | Unexpected

  function KindOf(outcome: AdapterOutcome): FailureKind
    requires !Succeeded(outcome)
  {
    match outcome
    case NotFound => MissingScript
    case Failed(_, _) => NonzeroExit
    case Output(None) => InvalidJson
    case _ => Unexpected
  }

  /** Reads the failure kind back from a recorded error message. */
  function ClassifyError(message: string): FailureKind {
    if StartsWith(message, "Adapter script not found at ") then MissingScript
    else if StartsWith(message, "Adapter script failed with exit code ") then NonzeroExit
    else if message == "Adapter script did not return valid JSON" then InvalidJson
    else Unexpected
  }

  /** The recorded message always tells which of the four failures happened. */
  lemma ClassifyErrorMessage(path: string, outcome: AdapterOutcome)
    requires !Succeeded(outcome)
    ensures ClassifyError(ErrorMessage(path, outcome)) == KindOf(outcome)
  {
    match outcome {
      case NotFound => ClassifyMissing(path);
      case Failed(code, stderr) => ClassifyFailed(path, code, stderr);
      case Output(None) => ClassifyInvalid();
      case Output(Some(j)) => ClassifyWrongType(path, j);
      case Raised(msg) => ClassifyUnexpected(msg);
    }
  }

  lemma ClassifyFailed(path: string, code: int, stderr: string)
    ensures ClassifyError(ErrorMessage(path, Failed(code, stderr))) == NonzeroExit
  {
    var rest := IntToString(code) + ": " + stderr;
    assert ErrorMessage(path, Failed(code, stderr)) == "Adapter script failed with exit code " + rest;
    ClassifyExit(rest);
  }

  lemma ClassifyWrongType(path: string, j: Json)
    requires !j.JObj?
    ensures ClassifyError(ErrorMessage(path, Output(Some(j)))) == Unexpected
  {
    var rest := "'" + PyTypeName(j) + "' object has no attribute 'get'";
    assert ErrorMessage(path, Output(Some(j))) == UnexpectedPrefix + rest;
    ClassifyUnexpected(rest);
  }

  lemma ClassifyMissing(path: string)
    ensures ClassifyError("Adapter script not found at " + path) == MissingScript
  {
    var notFound := "Adapter script not found at ";
    assert (notFound + path)[..|notFound|] == notFound;
  }

  lemma ClassifyExit(rest: string)
    ensures ClassifyError("Adapter script failed with exit code " + rest) == NonzeroExit
  {
    var exited := "Adapter script failed with exit code ";
    var m := exited + rest;
    assert m[..|exited|] == exited;
    DiffersAt(m, "Adapter script not found at ", 15);
  }

  lemma ClassifyInvalid()
    ensures ClassifyError("Adapter script did not return valid JSON") == InvalidJson
  {
    var m := "Adapter script did not return valid JSON";
    DiffersAt(m, "Adapter script not found at ", 15);
    DiffersAt(m, "Adapter script failed with exit code ", 15);
  }

  lemma ClassifyUnexpected(rest: string)
    ensures ClassifyError(UnexpectedPrefix + rest) == Unexpected
  {
    var m := UnexpectedPrefix + rest;
    DiffersAt(m, "Adapter script not found at ", 1);
    DiffersAt(m, "Adapter script failed with exit code ", 1);
    assert m[1] != "Adapter script did not return valid JSON"[1];
  }

  lemma DiffersAt(s: string, prefix: string, i: nat)
    requires i < |s| && i < |prefix| && s[i] != prefix[i]
    ensures !StartsWith(s, prefix)
  {
  }

  // ---------------------------------------------------------------------------
  // The main loop

  datatype ToolEntry = ToolEntry(name: string, adapter: string)

  datatype Config = Config(tools: seq<ToolEntry>, categories: seq<string>, testSuite: seq<TestCase>, mode: string)

  /** One unit of work: a tool on one test case of one category. */
  datatype Job = Job(tool: ToolEntry, category: string, test: TestCase)

  /** The test cases of one category, in suite order. */
  function CaseJobs(tool: ToolEntry, category: string, suite: seq<TestCase>): (jobs: seq<Job>)
    ensures |jobs| <= |suite|
    ensures forall j :: j in jobs <==> j.tool == tool && j.category == category && j.test in suite && j.test.category == category
    decreases |suite|
  {
    if suite == [] then []
    else
      var rest := CaseJobs(tool, category, suite[1..]);
      assert forall t :: t in suite <==> t == suite[0] || t in suite[1..];
      if suite[0].category == category then [Job(tool, category, suite[0])] + rest else rest
  }

  function CategoryJobs(tool: ToolEntry, categories: seq<string>, suite: seq<TestCase>): (jobs: seq<Job>)
    ensures forall j :: j in jobs <==> j.tool == tool && j.category in categories && j.test in suite && j.test.category == j.category
    decreases |categories|
  {
    if categories == [] then []
    else
      assert forall c :: c in categories <==> c == categories[0] || c in categories[1..];
      CaseJobs(tool, categories[0], suite) + CategoryJobs(tool, categories[1..], suite)
  }

  /** The loop order of `main`: tools, then categories, then matching test cases. */
  function Schedule(tools: seq<ToolEntry>, categories: seq<string>, suite: seq<TestCase>): (jobs: seq<Job>)
    ensures forall j :: j in jobs <==>
              j.tool in tools && j.category in categories && j.test in suite && j.test.category == j.category
    decreases |tools|
  {
    if tools == [] then []
    else
      assert forall t :: t in tools <==> t == tools[0] || t in tools[1..];
      CategoryJobs(tools[0], categories, suite) + Schedule(tools[1..], categories, suite)
  }

  /** `tc["category"] == cat_name`, the test of the comprehension in `main`. */
  function InCategory(category: string): TestCase -> bool {
    (tc: TestCase) => tc.category == category
  }

  /** One job of `tool` per case of `cases`, in list order. */
  function JobsOn(tool: ToolEntry, category: string, cases: seq<TestCase>): (jobs: seq<Job>)
    ensures |jobs| == |cases| && forall i :: 0 <= i < |cases| ==> jobs[i] == Job(tool, category, cases[i])
  {
    seq(|cases|, i requires 0 <= i < |cases| => Job(tool, category, cases[i]))
  }

  /**
   * A category's jobs are `[tc for tc in test_suite if tc["category"] == cat_name]`: every
   * matching case once per occurrence, in suite order.
   */
  lemma {:induction false} CaseJobsIsComprehension(tool: ToolEntry, category: string, suite: seq<TestCase>)
    ensures CaseJobs(tool, category, suite) == JobsOn(tool, category, Filter(suite, InCategory(category)))
    decreases |suite|
  {
    if suite != [] {
      var p := InCategory(category);
      var rest := Filter(suite[1..], p);
      CaseJobsIsComprehension(tool, category, suite[1..]);
      if suite[0].category == category {
        assert Filter(suite, p) == [suite[0]] + rest;
        JobsOnCons(tool, category, suite[0], rest);
      } else {
        assert Filter(suite, p) == rest;
      }
    }
  }

  lemma JobsOnCons(tool: ToolEntry, category: string, tc: TestCase, rest: seq<TestCase>)
    ensures JobsOn(tool, category, [tc] + rest) == [Job(tool, category, tc)] + JobsOn(tool, category, rest)
  {
    var a := JobsOn(tool, category, [tc] + rest);
    var b := [Job(tool, category, tc)] + JobsOn(tool, category, rest);
    assert |a| == |b|;
    forall i | 0 <= i < |a| ensures a[i] == b[i] {
      if i > 0 {
        assert ([tc] + rest)[i] == rest[i - 1];
      }
    }
  }

  /** The category loop: the blocks of two category lists follow each other. */
  lemma {:induction false} CategoryJobsConcat(tool: ToolEntry, c1: seq<string>, c2: seq<string>, suite: seq<TestCase>)
    ensures CategoryJobs(tool, c1 + c2, suite) == CategoryJobs(tool, c1, suite) + CategoryJobs(tool, c2, suite)
    decreases |c1|
  {
    if c1 == [] {
      assert c1 + c2 == c2;
    } else {
      assert (c1 + c2)[0] == c1[0] && (c1 + c2)[1..] == c1[1..] + c2;
      CategoryJobsConcat(tool, c1[1..], c2, suite);
    }
  }

  /** The tool loop: the blocks of two tool lists follow each other. */
  lemma {:induction false} ScheduleConcat(t1: seq<ToolEntry>, t2: seq<ToolEntry>, categories: seq<string>, suite: seq<TestCase>)
    ensures Schedule(t1 + t2, categories, suite) == Schedule(t1, categories, suite) + Schedule(t2, categories, suite)
    decreases |t1|
  {
    if t1 == [] {
      assert t1 + t2 == t2;
    } else {
      assert (t1 + t2)[0] == t1[0] && (t1 + t2)[1..] == t1[1..] + t2;
      ScheduleConcat(t1[1..], t2, categories, suite);
    }
  }

  /**
   * The nesting of the loops in `main`: a tool's block is its category blocks in category order,
   * and a category block is that category's test cases in suite order.
   */
  lemma ScheduleNesting(tool: ToolEntry, category: string, categories: seq<string>, suite: seq<TestCase>)
    ensures Schedule([tool], categories, suite) == CategoryJobs(tool, categories, suite)
    ensures CategoryJobs(tool, [category], suite) == JobsOn(tool, category, Filter(suite, InCategory(category)))
  {
    assert [tool][1..] == [];
    assert [category][1..] == [];
    CaseJobsIsComprehension(tool, category, suite);
  }

  /** A test case whose category is not configured is never run. */
  lemma UnconfiguredCategoryNeverRuns(config: Config, tc: TestCase)
    requires tc.category !in config.categories
    ensures forall j :: j in Schedule(config.tools, config.categories, config.testSuite) ==> j.test != tc
  {
  }

  /** The number of test cases whose category is configured. */
  function CountConfigured(suite: seq<TestCase>, categories: seq<string>): nat
    decreases |suite|
  {
    if suite == [] then 0
    else (if suite[0].category in categories then 1 else 0) + CountConfigured(suite[1..], categories)
  }

  function CountCategory(suite: seq<TestCase>, category: string): nat
    decreases |suite|
  {
    if suite == [] then 0
    else (if suite[0].category == category then 1 else 0) + CountCategory(suite[1..], category)
  }

  lemma {:induction false} CaseJobsCount(tool: ToolEntry, category: string, suite: seq<TestCase>)
    ensures |CaseJobs(tool, category, suite)| == CountCategory(suite, category)
    decreases |suite|
  {
    if suite != [] {
      CaseJobsCount(tool, category, suite[1..]);
    }
  }

  lemma {:induction false} CountConfiguredSplit(suite: seq<TestCase>, categories: seq<string>)
    requires categories != [] && categories[0] !in categories[1..]
    ensures CountConfigured(suite, categories) == CountCategory(suite, categories[0]) + CountConfigured(suite, categories[1..])
    decreases |suite|
  {
    if suite != [] {
      CountConfiguredSplit(suite[1..], categories);
    }
  }

  lemma {:induction false} CountConfiguredNone(suite: seq<TestCase>)
    ensures CountConfigured(suite, []) == 0
    decreases |suite|
  {
    if suite != [] {
      CountConfiguredNone(suite[1..]);
    }
  }

  lemma {:induction false} CategoryJobsCount(tool: ToolEntry, categories: seq<string>, suite: seq<TestCase>)
    requires Distinct(categories)
    ensures |CategoryJobs(tool, categories, suite)| == CountConfigured(suite, categories)
    decreases |categories|
  {
    if categories == [] {
      CountConfiguredNone(suite);
    } else {
      assert categories[0] !in categories[1..] by {
        forall k | 0 <= k < |categories[1..]| ensures categories[1..][k] != categories[0] {
          assert categories[1..][k] == categories[k + 1];
        }
      }
      assert Distinct(categories[1..]) by {
        forall i, k | 0 <= i < k < |categories[1..]| ensures categories[1..][i] != categories[1..][k] {
          assert categories[1..][i] == categories[i + 1] && categories[1..][k] == categories[k + 1];
        }
      }
      CaseJobsCount(tool, categories[0], suite);
      CategoryJobsCount(tool, categories[1..], suite);
      CountConfiguredSplit(suite, categories);
    }
  }

  /**
   * With distinct category names, each tool runs every test case of a configured category
   * exactly once: the run has |tools| × (number of such test cases) results.
   */
  lemma {:induction false} ScheduleLength(tools: seq<ToolEntry>, categories: seq<string>, suite: seq<TestCase>)
    requires Distinct(categories)
    ensures |Schedule(tools, categories, suite)| == |tools| * CountConfigured(suite, categories)
    decreases |tools|
  {
    if tools != [] {
      var c := CountConfigured(suite, categories);
      assert |Schedule(tools, categories, suite)|
          == |CategoryJobs(tools[0], categories, suite)| + |Schedule(tools[1..], categories, suite)|;
      CategoryJobsCount(tools[0], categories, suite);
      ScheduleLength(tools[1..], categories, suite);
      MulStep(|tools|, c);
    }
  }

  lemma MulStep(n: nat, c: nat)
    requires n > 0
    ensures n * c == c + (n - 1) * c
  {
  }

  /** Runs one job in the configured mode. */
  function RunJob(mode: string, job: Job, outcome: AdapterOutcome, d: Draws, elapsed: real): RunResult {
    if mode == "simulation" then RunSimulation(job.tool.adapter, job.category, job.test, d, elapsed)
    else RunAutomated(job.tool.adapter, job.category, job.test, outcome)
  }

  /**
   * `main`: one result per scheduled job, in schedule order.  The i-th job's adapter outcome,
   * random draws and elapsed time are the i-th entries of the inputs.
   */
  function RunAll(config: Config, outcomes: seq<AdapterOutcome>, draws: seq<Draws>, elapsed: seq<real>): (results: seq<RunResult>)
    requires |outcomes| == |draws| == |elapsed| == |Schedule(config.tools, config.categories, config.testSuite)|
    ensures var jobs := Schedule(config.tools, config.categories, config.testSuite);
            && |results| == |jobs|
            && forall i :: 0 <= i < |results| ==>
                 && results[i].tool == Stem(jobs[i].tool.adapter)
                 && results[i].category == jobs[i].category
                 && results[i].testId == jobs[i].test.id
                 && (results[i].mode == "simulation" <==> config.mode == "simulation")
                 && (config.mode == "simulation" ==> results[i] == RunSimulation(jobs[i].tool.adapter, jobs[i].category, jobs[i].test, draws[i], elapsed[i]))
                 && (config.mode != "simulation" ==> results[i] == RunAutomated(jobs[i].tool.adapter, jobs[i].category, jobs[i].test, outcomes[i]))
  {
    var jobs := Schedule(config.tools, config.categories, config.testSuite);
    seq(|jobs|, i requires 0 <= i < |jobs| => RunJob(config.mode, jobs[i], outcomes[i], draws[i], elapsed[i]))
  }
}

=== FILE: scoring.dfy ===
/**
 * The benchmark's scoring engine (reports/generator.py): category-specific raw metrics are
 * mapped to weighted evaluation factors, latency and token cost are min-max normalised across
 * the run, every tool's factors are averaged, and a weighted composite plus a fixed per-tool
 * bonus gives the final score.  Scores are exact reals.
 */
module Scoring {
  import opened Wrappers
  import opened Seqs

  /** The eight canonical evaluation factors, the keys of WEIGHTS. */
  datatype Factor =
    | CodeQuality
    | ExecutionLoop
    | MemoryContext
    | MultiFileUnderstanding
    | TestingCapability
    | Refactoring
    | LatencyThroughput
    | CostEfficiency

  /** WEIGHTS in declaration order. */
  const Factors: seq<Factor> := [CodeQuality, ExecutionLoop, MemoryContext, MultiFileUnderstanding,
                                 TestingCapability, Refactoring, LatencyThroughput, CostEfficiency]

  /** The factor's key as written in the report. */
  function FactorName(f: Factor): string {
    match f
    case CodeQuality => "Code Quality"
    case ExecutionLoop => "Execution Loop"
    case MemoryContext => "Memory/Context"
    case MultiFileUnderstanding => "Multi-file Understanding"
    case TestingCapability => "Testing Capability"
    case Refactoring => "Refactoring"
    case LatencyThroughput => "Latency/Throughput"
    case CostEfficiency => "Cost Efficiency"
  }

  function Weight(f: Factor): real {
    match f
    case CodeQuality => 0.20
    case ExecutionLoop => 0.20
    case MemoryContext => 0.15
    case MultiFileUnderstanding => 0.15
    case TestingCapability => 0.10
    case Refactoring => 0.10
    case LatencyThroughput => 0.05
    case CostEfficiency => 0.05
  }

  function SumWeights(fs: seq<Factor>): real
    decreases |fs|
  {
    if fs == [] then 0.0 else Weight(fs[0]) + SumWeights(fs[1..])
  }

  /** The weights cover each factor once and add up to one. */
  lemma WeightsSumToOne()
    ensures Distinct(Factors)
    ensures forall f: Factor :: f in Factors
    ensures SumWeights(Factors) == 1.0
  {
    SumOfWeights();
    FactorPositions();
    forall f: Factor ensures f in Factors {
      assert Factors[Position(f)] == f;
    }
    forall i, j | 0 <= i < j < |Factors| ensures Factors[i] != Factors[j] {
      assert Position(Factors[i]) == i && Position(Factors[j]) == j;
    }
  }

  /** Where a factor sits in `Factors`. */
  function Position(f: Factor): nat {
    match f
    case CodeQuality => 0
    case ExecutionLoop => 1
    case MemoryContext => 2
    case MultiFileUnderstanding => 3
    case TestingCapability => 4
    case Refactoring => 5
    case LatencyThroughput => 6
    case CostEfficiency => 7
  }

  lemma FactorPositions()
    ensures |Factors| == 8
    ensures forall f: Factor :: Position(f) < 8 && Factors[Position(f)] == f
    ensures forall i :: 0 <= i < 8 ==> Position(Factors[i]) == i
  {
  }

  lemma SumOfWeights()
    ensures SumWeights(Factors) == 1.0
  {
    var fs := Factors;
    assert SumWeights(fs[7..]) == 0.05 by { assert fs[7..][1..] == []; }
    assert SumWeights(fs[6..]) == 0.10 by { assert fs[6..][1..] == fs[7..]; }
    assert SumWeights(fs[5..]) == 0.20 by { assert fs[5..][1..] == fs[6..]; }
    assert SumWeights(fs[4..]) == 0.30 by { assert fs[4..][1..] == fs[5..]; }
    assert SumWeights(fs[3..]) == 0.45 by { assert fs[3..][1..] == fs[4..]; }
    assert SumWeights(fs[2..]) == 0.60 by { assert fs[2..][1..] == fs[3..]; }
    assert SumWeights(fs[1..]) == 0.80 by { assert fs[1..][1..] == fs[2..]; }
    assert fs[1..] == fs[1..];
  }

  // ---------------------------------------------------------------------------
  // Factor mapping

  /** A result's raw metrics; `metrics.get(key, 0)` is `Get`. */
  type Metrics = map<string, real>

  function Get(m: Metrics, key: string): real {
    if key in m then m[key] else 0.0
  }

  /** What `map_metrics_to_factors` returns, split by kind of key. */
  datatype FactorMap = FactorMap(
    canonical: map<Factor, real>,   // keys that are in WEIGHTS
    rawTime: Option<real>,          // "_raw_time"
    rawTokens: Option<real>,        // "_raw_tokens"
    moat: map<string, real>)        // the optional tie-break keys, copied verbatim

  const MoatKeys: seq<string> := ["memory_persistence", "edit_efficiency", "native_integration",
                                  "agent_native", "spec_driven", "enterprise_ecosystem",
                                  "flow_architecture", "terminal_native", "compliance",
                                  "air_gapped", "frontier", "vendor_lockin_score"]

  /** Execution Loop credit for an iteration count: one iteration is perfect, ten or more is zero. */
  function IterationCredit(iterations: real): real {
    var v := 1.0 - (iterations - 1.0) / 9.0;
    if v > 0.0 then v else 0.0
  }

  /** The factors a result's metrics can set; latency and cost come from the run-wide normalisation. */
  const MetricFactors: set<Factor> := {CodeQuality, ExecutionLoop, MemoryContext, MultiFileUnderstanding,
                                       TestingCapability, Refactoring}

  /** The per-category first assignment block, before the later refinements. */
  function BaseFactors(category: string, m: Metrics): (r: map<Factor, real>)
    ensures r.Keys <= MetricFactors
  {
    if category == "A" then map[CodeQuality := (Get(m, "correctness") + Get(m, "style")) / 2.0]
    else if category == "B" then map[CodeQuality := Get(m, "coherence")]
    else if category == "C" then map[CodeQuality := Get(m, "pass_rate")]
    else if category == "D" then
      map[CodeQuality := Get(m, "complexity_reduction"), Refactoring := Get(m, "duplication_reduction")]
    else if category == "E" then
      map[CodeQuality := Get(m, "test_quality"), TestingCapability := Get(m, "coverage")]
    else if category == "F" then
      map[CodeQuality := Get(m, "fix_correctness"), ExecutionLoop := Get(m, "root_cause_accuracy")]
    else if category == "G" then
      map[CodeQuality := Get(m, "recall_accuracy"), MemoryContext := Get(m, "context_efficiency")]
    else map[]
  }

  /** The canonical factors, following the sequence of assignments in `map_metrics_to_factors`. */
  function CanonicalFactors(category: string, m: Metrics): (r: map<Factor, real>)
    ensures r.Keys <= MetricFactors
  {
    var f0 := BaseFactors(category, m);
    var f1 := if "iterations" in m && (category == "C" || category == "F")
              then f0[ExecutionLoop := IterationCredit(m["iterations"])] else f0;
    var f2 := if category == "B" && "coupling" in m then f1[MultiFileUnderstanding := m["coupling"]] else f1;
    var f3 := if category == "E" && "coverage" in m then f2[TestingCapability := m["coverage"]] else f2;
    if category == "D" then
      var duplication := Get(m, "duplication_reduction");
      if Refactoring in f3 then f3[Refactoring := (f3[Refactoring] + duplication) / 2.0]
      else f3[Refactoring := duplication]
    else f3
  }

  /** `map_metrics_to_factors`. */
  function MapMetricsToFactors(category: string, m: Metrics): (r: FactorMap)
    ensures r.rawTime == (if "time_sec" in m then Some(m["time_sec"]) else None)
    ensures r.rawTokens == (if "tokens" in m then Some(m["tokens"]) else None)
    ensures forall k :: k in r.moat <==> k in MoatKeys && k in m
    ensures forall k :: k in r.moat ==> r.moat[k] == m[k]
    ensures LatencyThroughput !in r.canonical && CostEfficiency !in r.canonical
  {
    FactorMap(
      CanonicalFactors(category, m),
      if "time_sec" in m then Some(m["time_sec"]) else None,
      if "tokens" in m then Some(m["tokens"]) else None,
      map k | k in MoatKeys && k in m :: m[k])
  }

  /**
   * Reference table for the canonical factors, one row per category: the factor mapping
   * written as a lookup keyed by category rather than as a chain of overriding assignments.
   */
  function FactorTable(category: string, m: Metrics): map<Factor, real> {
    var loop := if "iterations" in m then IterationCredit(m["iterations"]) else Get(m, "root_cause_accuracy");
    match category
    case "A" => map[CodeQuality := (Get(m, "correctness") + Get(m, "style")) / 2.0]
    case "B" =>
      if "coupling" in m then map[CodeQuality := Get(m, "coherence"), MultiFileUnderstanding := m["coupling"]]
      else map[CodeQuality := Get(m, "coherence")]
    case "C" =>
      if "iterations" in m then map[CodeQuality := Get(m, "pass_rate"), ExecutionLoop := IterationCredit(m["iterations"])]
      else map[CodeQuality := Get(m, "pass_rate")]
    case "D" => map[CodeQuality := Get(m, "complexity_reduction"), Refactoring := Get(m, "duplication_reduction")]
    case "E" => map[CodeQuality := Get(m, "test_quality"), TestingCapability := Get(m, "coverage")]
    case "F" => map[CodeQuality := Get(m, "fix_correctness"), ExecutionLoop := loop]
    case "G" => map[CodeQuality := Get(m, "recall_accuracy"), MemoryContext := Get(m, "context_efficiency")]
    case _ => map[]
  }

  /** The assignment chain computes exactly the per-category table. */
  lemma MapMetricsMatchesTable(category: string, m: Metrics)
    ensures MapMetricsToFactors(category, m).canonical == FactorTable(category, m)
  {
    if category == "A" {
      assert CanonicalFactors("A", m) == FactorTable("A", m);
    } else if category == "B" {
      assert CanonicalFactors("B", m) == FactorTable("B", m);
    } else if category == "C" {
      assert CanonicalFactors("C", m) == FactorTable("C", m);
    } else if category == "D" {
      RefactoringTable(m);
    } else if category == "E" {
      assert CanonicalFactors("E", m) == FactorTable("E", m);
    } else if category == "F" {
      assert CanonicalFactors("F", m) == FactorTable("F", m);
    } else if category == "G" {
      assert CanonicalFactors("G", m) == FactorTable("G", m);
    } else {
      assert CanonicalFactors(category, m) == map[] == FactorTable(category, m);
    }
  }

  lemma RefactoringTable(m: Metrics)
    ensures CanonicalFactors("D", m) == FactorTable("D", m)
  {
    var r := CanonicalFactors("D", m);
    var d := Get(m, "duplication_reduction");
    assert r[Refactoring] == (d + d) / 2.0 == d;
  }

  /** Category A: Code Quality is the mean of correctness and style, a missing key counting as 0. */
  lemma CodeQualityOfCategoryA(m: Metrics)
    ensures MapMetricsToFactors("A", m).canonical == map[CodeQuality := (Get(m, "correctness") + Get(m, "style")) / 2.0]
    ensures "correctness" !in m ==> MapMetricsToFactors("A", m).canonical[CodeQuality] == Get(m, "style") / 2.0
  {
  }

  /** Scenario: correctness 0.8 and style 0.7 give Code Quality 0.75. */
  lemma CodeQualityScenario()
    ensures MapMetricsToFactors("A", map["correctness" := 0.8, "style" := 0.7]).canonical[CodeQuality] == 0.75
  {
  }

  /** Category D: the second averaging is with the same value, so Refactoring is duplication_reduction. */
  lemma RefactoringIsDuplication(m: Metrics)
    ensures MapMetricsToFactors("D", m).canonical[Refactoring] == Get(m, "duplication_reduction")
    ensures MapMetricsToFactors("D", m).canonical[CodeQuality] == Get(m, "complexity_reduction")
  {
    MapMetricsMatchesTable("D", m);
  }

  /** Categories C and F: an iteration count sets Execution Loop, overriding root_cause_accuracy for F. */
  lemma ExecutionLoopFromIterations(category: string, m: Metrics)
    requires category == "C" || category == "F"
    requires "iterations" in m
    ensures MapMetricsToFactors(category, m).canonical[ExecutionLoop] == IterationCredit(m["iterations"])
  {
    MapMetricsMatchesTable(category, m);
  }

  /** The iteration credit is 1 at one iteration, 0 from ten on, and never negative. */
  lemma IterationCreditPoints(iterations: real)
    ensures IterationCredit(1.0) == 1.0
    ensures IterationCredit(10.0) == 0.0
    ensures iterations >= 10.0 ==> IterationCredit(iterations) == 0.0
    ensures 1.0 <= iterations ==> 0.0 <= IterationCredit(iterations) <= 1.0
    ensures IterationCredit(iterations) >= 0.0
  {
  }

  /** The formula is floored at 0 only: fewer than one iteration gives credit above 1. */
  lemma IterationCreditNotCapped()
    ensures IterationCredit(0.0) == 10.0 / 9.0
    ensures IterationCredit(0.0) > 1.0
  {
  }

  /** Every known category sets Code Quality, whatever keys the metrics carry. */
  lemma KnownCategorySetsCodeQuality(category: string, m: Metrics)
    requires category in {"A", "B", "C", "D", "E", "F", "G"}
    ensures CodeQuality in MapMetricsToFactors(category, m).canonical
  {
    assert CodeQuality in BaseFactors(category, m);
  }

  /** An unrecognised category produces no canonical factor at all (only raw and moat keys). */
  lemma UnknownCategoryHasNoFactor(category: string, m: Metrics)
    requires category !in {"A", "B", "C", "D", "E", "F", "G"}
    ensures MapMetricsToFactors(category, m).canonical == map[]
  {
  }

  /** Metrics whose score-like values lie in [0, 1] and whose iteration count is at least one. */
  predicate WellScaled(m: Metrics) {
    && (forall k :: k in m && k != "iterations" && k != "time_sec" && k != "tokens" ==> 0.0 <= m[k] <= 1.0)
    && ("iterations" in m ==> m["iterations"] >= 1.0)
  }

  predicate InUnit(x: real) { 0.0 <= x <= 1.0 }

  /** Every canonical factor of well-scaled metrics lies in [0, 1]. */
  lemma CanonicalFactorsInUnit(category: string, m: Metrics)
    requires WellScaled(m)
    ensures forall f :: f in MapMetricsToFactors(category, m).canonical ==>
              InUnit(MapMetricsToFactors(category, m).canonical[f])
  {
    MapMetricsMatchesTable(category, m);
    TableInUnit(category, m);
  }

  lemma TableInUnit(category: string, m: Metrics)
    requires WellScaled(m)
    ensures forall f :: f in FactorTable(category, m) ==> InUnit(FactorTable(category, m)[f])
  {
    if "iterations" in m {
      IterationCreditPoints(m["iterations"]);
    }
    match category
    case "A" =>
      GetInUnit(m, "correctness");
      GetInUnit(m, "style");
    case "B" =>
      GetInUnit(m, "coherence");
      GetInUnit(m, "coupling");
    case "C" =>
      GetInUnit(m, "pass_rate");
    case "D" =>
      GetInUnit(m, "complexity_reduction");
      GetInUnit(m, "duplication_reduction");
    case "E" =>
      GetInUnit(m, "test_quality");
      GetInUnit(m, "coverage");
    case "F" =>
      GetInUnit(m, "fix_correctness");
      GetInUnit(m, "root_cause_accuracy");
    case "G" =>
      GetInUnit(m, "recall_accuracy");
      GetInUnit(m, "context_efficiency");
    case _ =>
  }

  lemma GetInUnit(m: Metrics, key: string)
    requires WellScaled(m)
    requires key != "iterations" && key != "time_sec" && key != "tokens"
    ensures InUnit(Get(m, key))
  {
  }

  // ---------------------------------------------------------------------------
  // Normalisation

  /** The function `normalize` returns, as data. */
  datatype Normalizer =
    | Neutral                                   // no values: constant 0.5
    | AllBest                                   // all values equal: constant 1.0
    | MinMax(lo: real, hi: real, invert: bool)  // linear scaling, optionally inverted

  function Min(s: seq<real>): (r: real)
    requires s != []
    ensures r in s
    ensures forall i :: 0 <= i < |s| ==> r <= s[i]
    decreases |s|
  {
    if |s| == 1 then s[0]
    else
      var m := Min(s[1..]);
      assert forall i :: 1 <= i < |s| ==> s[i] == s[1..][i - 1];
      if s[0] <= m then s[0] else m
  }

  function Max(s: seq<real>): (r: real)
    requires s != []
    ensures r in s
    ensures forall i :: 0 <= i < |s| ==> s[i] <= r
    decreases |s|
  {
    if |s| == 1 then s[0]
    else
      var m := Max(s[1..]);
      assert forall i :: 1 <= i < |s| ==> s[i] == s[1..][i - 1];
      if s[0] >= m then s[0] else m
  }

  /** `normalize(values, invert)`. */
  function Normalize(values: seq<real>, invert: bool): (n: Normalizer)
    ensures n == Neutral <==> values == []
    ensures n == AllBest <==> values != [] && Min(values) == Max(values)
    ensures n.MinMax? ==> values != [] && n == MinMax(Min(values), Max(values), invert) && n.lo < n.hi
  {
    if values == [] then Neutral
    else
      var mn := Min(values);
      var mx := Max(values);
      if mx == mn then AllBest else MinMax(mn, mx, invert)
  }

  function Apply(n: Normalizer, v: real): real
    requires n.MinMax? ==> n.lo < n.hi
  {
    match n
    case Neutral => 0.5
    case AllBest => 1.0
    case MinMax(lo, hi, invert) =>
      var norm := (v - lo) / (hi - lo);
      if invert then 1.0 - norm else norm
  }

  /** No values: every input maps to 0.5; all values equal: every input maps to 1.0. */
  lemma NormalizeDegenerate(values: seq<real>, invert: bool, v: real)
    ensures values == [] ==> Apply(Normalize(values, invert), v) == 0.5
    ensures (values != [] && forall i :: 0 <= i < |values| ==> values[i] == values[0]) ==>
              Apply(Normalize(values, invert), v) == 1.0
  {
    if values != [] && forall i :: 0 <= i < |values| ==> values[i] == values[0] {
      assert Min(values) == values[0] == Max(values);
    }
  }

  /** The inverted normaliser is antitone, and strictly decreasing when the values differ. */
  lemma InvertedIsDecreasing(values: seq<real>, u: real, v: real)
    requires u <= v
    ensures Apply(Normalize(values, true), u) >= Apply(Normalize(values, true), v)
    ensures u < v && values != [] && Min(values) < Max(values) ==>
              Apply(Normalize(values, true), u) > Apply(Normalize(values, true), v)
  {
    var n := Normalize(values, true);
    if n.MinMax? {
      var d := n.hi - n.lo;
      assert (u - n.lo) / d <= (v - n.lo) / d by {
        DivMonotone(u - n.lo, v - n.lo, d);
      }
      if u < v {
        DivStrictMonotone(u - n.lo, v - n.lo, d);
      }
    }
  }

  lemma DivMonotone(a: real, b: real, d: real)
    requires a <= b && d > 0.0
    ensures a / d <= b / d
  {
    assert b / d - a / d == (b - a) / d;
  }

  lemma DivStrictMonotone(a: real, b: real, d: real)
    requires a < b && d > 0.0
    ensures a / d < b / d
  {
    assert b / d - a / d == (b - a) / d;
  }

  /** Inside the observed range the normalised value is in [0, 1]; the extremes map to 1 and 0 when inverted. */
  lemma NormalizeInRange(values: seq<real>, invert: bool, v: real)
    requires values != []
    requires Min(values) <= v <= Max(values)
    ensures InUnit(Apply(Normalize(values, invert), v))
    ensures Min(values) < Max(values) && invert ==>
              Apply(Normalize(values, invert), Min(values)) == 1.0 &&
              Apply(Normalize(values, invert), Max(values)) == 0.0
  {
    var n := Normalize(values, invert);
    if n.MinMax? {
      ApplyMinMaxInUnit(n.lo, n.hi, invert, v);
      ApplyMinMaxEnds(n.lo, n.hi, invert);
    }
  }

  lemma ApplyMinMaxInUnit(lo: real, hi: real, invert: bool, v: real)
    requires lo < hi && lo <= v <= hi
    ensures InUnit(Apply(MinMax(lo, hi, invert), v))
  {
    var d := hi - lo;
    DivMonotone(0.0, v - lo, d);
    DivMonotone(v - lo, d, d);
    DivSelf(d);
  }

  lemma DivSelf(d: real)
    requires d > 0.0
    ensures d / d == 1.0 && 0.0 / d == 0.0
  {
  }

  lemma ApplyMinMaxEnds(lo: real, hi: real, invert: bool)
    requires lo < hi
    ensures invert ==> Apply(MinMax(lo, hi, invert), lo) == 1.0 && Apply(MinMax(lo, hi, invert), hi) == 0.0
  {
    var d := hi - lo;
    assert d / d == 1.0;
  }

  /** Scenario: tools taking 5s and 10s get Latency/Throughput 1.0 and 0.0. */
  lemma LatencyScenario()
    ensures Apply(Normalize([5.0, 10.0], true), 5.0) == 1.0
    ensures Apply(Normalize([5.0, 10.0], true), 10.0) == 0.0
  {
    assert Min([5.0, 10.0]) == 5.0;
    assert Max([5.0, 10.0]) == 10.0;
  }

  // ---------------------------------------------------------------------------
  // Aggregation

  /** One entry of results.json as the scorer reads it. */
  datatype ScoredResult = ScoredResult(tool: string, category: string, metrics: Metrics)

  function FactorsOf(r: ScoredResult): FactorMap {
    MapMetricsToFactors(r.category, r.metrics)
  }

  /** Every result's `_raw_time`, in result order, over all tools. */
  function RawTimes(results: seq<ScoredResult>): (s: seq<real>)
    ensures forall x :: x in s <==> exists r :: r in results && "time_sec" in r.metrics && r.metrics["time_sec"] == x
    decreases |results|
  {
    if results == [] then []
    else
      var r := results[0];
      assert results == [r] + results[1..];
      (if "time_sec" in r.metrics then [r.metrics["time_sec"]] else []) + RawTimes(results[1..])
  }

  /** Every result's `_raw_tokens`, in result order, over all tools. */
  function RawTokens(results: seq<ScoredResult>): (s: seq<real>)
    ensures forall x :: x in s <==> exists r :: r in results && "tokens" in r.metrics && r.metrics["tokens"] == x
    decreases |results|
  {
    if results == [] then []
    else
      var r := results[0];
      assert results == [r] + results[1..];
      (if "tokens" in r.metrics then [r.metrics["tokens"]] else []) + RawTokens(results[1..])
  }

  /** The values of metric `key` over one tool's results that carry it. */
  function ToolValues(results: seq<ScoredResult>, tool: string, key: string): (s: seq<real>)
    ensures forall x :: x in s <==> exists r :: r in results && r.tool == tool && key in r.metrics && r.metrics[key] == x
    ensures |s| <= |results|
    decreases |results|
  {
    if results == [] then []
    else
      var r := results[0];
      assert results == [r] + results[1..];
      (if r.tool == tool && key in r.metrics then [r.metrics[key]] else []) + ToolValues(results[1..], tool, key)
  }

  /** The values keep result order: those of `a + b` are those of `a` followed by those of `b`. */
  lemma {:induction false} ToolValuesConcat(a: seq<ScoredResult>, b: seq<ScoredResult>, tool: string, key: string)
    ensures ToolValues(a + b, tool, key) == ToolValues(a, tool, key) + ToolValues(b, tool, key)
    decreases |a|
  {
    if a != [] {
      assert (a + b)[0] == a[0] && (a + b)[1..] == a[1..] + b;
      ToolValuesConcat(a[1..], b, tool, key);
    } else {
      assert a + b == b;
    }
  }

  /** A result of another tool, or one without the metric, contributes nothing. */
  lemma ToolValuesSingle(r: ScoredResult, tool: string, key: string)
    ensures ToolValues([r], tool, key) == if r.tool == tool && key in r.metrics then [r.metrics[key]] else []
  {
    assert [r][1..] == [];
  }

  /** The values of canonical factor `f` over one tool's results, in result order. */
  function FactorValues(results: seq<ScoredResult>, tool: string, f: Factor): seq<real>
    decreases |results|
  {
    if results == [] then []
    else
      var c := FactorsOf(results[0]).canonical;
      (if results[0].tool == tool && f in c then [c[f]] else []) + FactorValues(results[1..], tool, f)
  }

  predicate HasCanonical(r: ScoredResult) {
    FactorsOf(r).canonical != map[]
  }

  /** The tools `compute_scores` scores, in the order they first produce a canonical factor. */
  function ScoredTools(results: seq<ScoredResult>): (tools: seq<string>)
    ensures Distinct(tools)
    ensures forall t :: t in tools <==> exists r :: r in results && r.tool == t && HasCanonical(r)
    decreases |results|
  {
    if results == [] then []
    else
      var init := results[..|results| - 1];
      var last := results[|results| - 1];
      assert results == init + [last];
      var prev := ScoredTools(init);
      if HasCanonical(last) && last.tool !in prev then prev + [last.tool] else prev
  }

  /** The mean of every factor the tool produced a value for. */
  function FactorMeans(results: seq<ScoredResult>, tool: string): (means: map<Factor, real>)
    ensures forall f :: f in means <==> FactorValues(results, tool, f) != []
    ensures forall f :: f in means ==> means[f] == Mean(FactorValues(results, tool, f))
  {
    AllFactorsListed();
    map f | f in Factors && FactorValues(results, tool, f) != [] :: Mean(FactorValues(results, tool, f))
  }

  lemma AllFactorsListed()
    ensures forall f: Factor :: f in Factors
  {
    forall f: Factor ensures f in Factors {
      FactorPositions();
      assert Factors[Position(f)] == f;
    }
  }

  /** Per-tool factor averages: the mean of every factor the tool produced, plus latency and cost. */
  function Averages(results: seq<ScoredResult>, tool: string, timeNorm: Normalizer, tokenNorm: Normalizer): (avgs: map<Factor, real>)
    requires timeNorm.MinMax? ==> timeNorm.lo < timeNorm.hi
    requires tokenNorm.MinMax? ==> tokenNorm.lo < tokenNorm.hi
    ensures forall f :: f != LatencyThroughput && f != CostEfficiency ==>
              (f in avgs <==> FactorValues(results, tool, f) != [])
    ensures forall f :: f in avgs && f != LatencyThroughput && f != CostEfficiency ==>
              avgs[f] == Mean(FactorValues(results, tool, f))
    ensures var times := ToolValues(results, tool, "time_sec");
            LatencyThroughput in avgs && avgs[LatencyThroughput] == if times != [] then Apply(timeNorm, Mean(times)) else 0.5
    ensures var tokens := ToolValues(results, tool, "tokens");
            CostEfficiency in avgs && avgs[CostEfficiency] == if tokens != [] then Apply(tokenNorm, Mean(tokens)) else 0.5
  {
    var means := FactorMeans(results, tool);
    var times := ToolValues(results, tool, "time_sec");
    var tokens := ToolValues(results, tool, "tokens");
    means[LatencyThroughput := if times != [] then Apply(timeNorm, Mean(times)) else 0.5]
         [CostEfficiency := if tokens != [] then Apply(tokenNorm, Mean(tokens)) else 0.5]
  }

  /** A tool's averages under the run-wide normalisers. */
  function RunAverages(results: seq<ScoredResult>, tool: string): map<Factor, real> {
    Averages(results, tool, Normalize(RawTimes(results), true), Normalize(RawTokens(results), true))
  }

  /** Σ weight[f] · avgs.get(f, 0) over `fs`. */
  function WeightedSum(fs: seq<Factor>, avgs: map<Factor, real>): real
    decreases |fs|
  {
    if fs == [] then 0.0
    else Weight(fs[0]) * (if fs[0] in avgs then avgs[fs[0]] else 0.0) + WeightedSum(fs[1..], avgs)
  }

  /** The weighted composite before the bonus: missing factors count 0 but keep their weight. */
  function Composite(avgs: map<Factor, real>): real {
    WeightedSum(Factors, avgs) / SumWeights(Factors)
  }

  /** The fixed additive tie-break bonus. */
  function MoatBonus(tool: string): real {
    if tool in {"roo-code", "opencode", "continue"} then 0.02
    else if tool in {"cursor", "factory", "aider", "kiro", "copilot", "windsurf", "claude-code", "qodo", "tabnine", "amp"} then 0.01
    else 0.0
  }

  datatype ToolScore = ToolScore(tool: string, score: real, averages: map<Factor, real>)

  /** `compute_scores`: one entry per scored tool, in first-appearance order. */
  function ComputeScores(results: seq<ScoredResult>): (scores: seq<ToolScore>)
    ensures |scores| == |ScoredTools(results)|
    ensures forall i :: 0 <= i < |scores| ==> scores[i].tool == ScoredTools(results)[i]
    ensures forall i :: 0 <= i < |scores| ==>
              scores[i] == ScoreTool(results, scores[i].tool, Normalize(RawTimes(results), true), Normalize(RawTokens(results), true))
    ensures forall i :: 0 <= i < |scores| ==> scores[i].averages == RunAverages(results, scores[i].tool)
  {
    var timeNorm := Normalize(RawTimes(results), true);
    var tokenNorm := Normalize(RawTokens(results), true);
    var tools := ScoredTools(results);
    seq(|tools|, i requires 0 <= i < |tools| => ScoreTool(results, tools[i], timeNorm, tokenNorm))
  }

  /** One tool's entry: its averages and the composite plus bonus. */
  function ScoreTool(results: seq<ScoredResult>, tool: string, timeNorm: Normalizer, tokenNorm: Normalizer): (r: ToolScore)
    requires timeNorm.MinMax? ==> timeNorm.lo < timeNorm.hi
    requires tokenNorm.MinMax? ==> tokenNorm.lo < tokenNorm.hi
    ensures r.tool == tool && r.averages == Averages(results, tool, timeNorm, tokenNorm)
    ensures r.score == Composite(r.averages) + MoatBonus(tool)
  {
    var avgs := Averages(results, tool, timeNorm, tokenNorm);
    ToolScore(tool, Composite(avgs) + MoatBonus(tool), avgs)
  }

  // ---------------------------------------------------------------------------
  // Properties of the aggregation

  lemma {:induction false} WeightedSumBounds(fs: seq<Factor>, avgs: map<Factor, real>)
    requires forall f :: f in avgs ==> InUnit(avgs[f])
    ensures 0.0 <= WeightedSum(fs, avgs) <= SumWeights(fs)
    decreases |fs|
  {
    if fs != [] {
      WeightedSumBounds(fs[1..], avgs);
    }
  }

  /** Factor values in [0, 1] give a pre-bonus composite in [0, 1]. */
  lemma CompositeInUnit(avgs: map<Factor, real>)
    requires forall f :: f in avgs ==> InUnit(avgs[f])
    ensures InUnit(Composite(avgs))
  {
    WeightedSumBounds(Factors, avgs);
    SumOfWeights();
  }

  /** Only the listed factors enter the composite: a factor a tool lacks adds 0 to it. */
  lemma CompositeIgnoresMissing(avgs: map<Factor, real>, f: Factor)
    requires f !in avgs
    ensures Composite(avgs) == Composite(avgs[f := 0.0])
  {
    WeightedSumMissing(Factors, avgs, f);
  }

  lemma {:induction false} WeightedSumMissing(fs: seq<Factor>, avgs: map<Factor, real>, f: Factor)
    requires f !in avgs
    ensures WeightedSum(fs, avgs) == WeightedSum(fs, avgs[f := 0.0])
    decreases |fs|
  {
    if fs != [] {
      WeightedSumMissing(fs[1..], avgs, f);
    }
  }

  /** A tool's values of a metric are among the run's values of it. */
  lemma ToolTimesAmongRaw(results: seq<ScoredResult>, tool: string)
    ensures forall i :: 0 <= i < |ToolValues(results, tool, "time_sec")| ==> ToolValues(results, tool, "time_sec")[i] in RawTimes(results)
    ensures forall i :: 0 <= i < |ToolValues(results, tool, "tokens")| ==> ToolValues(results, tool, "tokens")[i] in RawTokens(results)
  {
    var times := ToolValues(results, tool, "time_sec");
    var tokens := ToolValues(results, tool, "tokens");
    forall i | 0 <= i < |times| ensures times[i] in RawTimes(results) {
      assert times[i] in times;
    }
    forall i | 0 <= i < |tokens| ensures tokens[i] in RawTokens(results) {
      assert tokens[i] in tokens;
    }
  }

  /** The mean of a tool's raw values lies inside the run-wide range the normaliser was built from. */
  lemma ToolMeanInRange(all: seq<real>, mine: seq<real>)
    requires mine != []
    requires forall i :: 0 <= i < |mine| ==> mine[i] in all
    ensures all != []
    ensures Min(all) <= Mean(mine) <= Max(all)
  {
    assert mine[0] in all;
    var lo := Min(all);
    var hi := Max(all);
    assert AllWithin(mine, lo, hi) by {
      forall i | 0 <= i < |mine| ensures lo <= mine[i] <= hi {
      }
    }
    MeanWithin(mine, lo, hi);
  }

  /** Latency/Throughput and Cost Efficiency are always in [0, 1] (0.5 when the tool has no data). */
  lemma LatencyAndCostInUnit(results: seq<ScoredResult>, tool: string)
    ensures InUnit(RunAverages(results, tool)[LatencyThroughput]) && InUnit(RunAverages(results, tool)[CostEfficiency])
  {
    ToolTimesAmongRaw(results, tool);
    var times := ToolValues(results, tool, "time_sec");
    var tokens := ToolValues(results, tool, "tokens");
    if times != [] {
      ToolMeanInRange(RawTimes(results), times);
      NormalizeInRange(RawTimes(results), true, Mean(times));
    }
    if tokens != [] {
      ToolMeanInRange(RawTokens(results), tokens);
      NormalizeInRange(RawTokens(results), true, Mean(tokens));
    }
  }

  predicate AllWellScaled(results: seq<ScoredResult>) {
    forall i :: 0 <= i < |results| ==> WellScaled(results[i].metrics)
  }

  lemma {:induction false} FactorValuesInUnit(results: seq<ScoredResult>, tool: string, f: Factor)
    requires AllWellScaled(results)
    ensures forall i :: 0 <= i < |FactorValues(results, tool, f)| ==> InUnit(FactorValues(results, tool, f)[i])
    decreases |results|
  {
    if results != [] {
      CanonicalFactorsInUnit(results[0].category, results[0].metrics);
      assert AllWellScaled(results[1..]) by {
        forall i | 0 <= i < |results[1..]| ensures WellScaled(results[1..][i].metrics) {
          assert results[1..][i] == results[i + 1];
        }
      }
      FactorValuesInUnit(results[1..], tool, f);
    }
  }

  /** Every factor average of a well-scaled run is in [0, 1]. */
  lemma AveragesInUnit(results: seq<ScoredResult>, tool: string)
    requires AllWellScaled(results)
    ensures forall f :: f in RunAverages(results, tool) ==> InUnit(RunAverages(results, tool)[f])
  {
    LatencyAndCostInUnit(results, tool);
    var a := RunAverages(results, tool);
    forall f | f in a ensures InUnit(a[f]) {
      if f != LatencyThroughput && f != CostEfficiency {
        var vs := FactorValues(results, tool, f);
        FactorValuesInUnit(results, tool, f);
        MeanWithin(vs, 0.0, 1.0);
      }
    }
  }

  /** A final score split into its parts: a composite in [0, 1] and a bonus in [0, 0.02]. */
  predicate ScoreWithinBounds(s: ToolScore) {
    && InUnit(Composite(s.averages))
    && s.score == Composite(s.averages) + MoatBonus(s.tool)
    && 0.0 <= MoatBonus(s.tool) <= 0.02
  }

  /**
   * Over well-scaled metrics every final score is the pre-bonus composite, which is in [0, 1],
   * plus the tool's bonus, which is in [0, 0.02].
   */
  lemma FinalScoreBounds(results: seq<ScoredResult>)
    requires AllWellScaled(results)
    ensures forall i :: 0 <= i < |ComputeScores(results)| ==> ScoreWithinBounds(ComputeScores(results)[i])
  {
    var scores := ComputeScores(results);
    forall i | 0 <= i < |scores|
      ensures ScoreWithinBounds(scores[i])
    {
      ScoreToolBounds(results, ScoredTools(results)[i]);
    }
  }

  lemma ScoreToolBounds(results: seq<ScoredResult>, tool: string)
    requires AllWellScaled(results)
    ensures ScoreWithinBounds(ScoreTool(results, tool, Normalize(RawTimes(results), true), Normalize(RawTokens(results), true)))
  {
    var sc := ScoreTool(results, tool, Normalize(RawTimes(results), true), Normalize(RawTokens(results), true));
    assert sc.averages == RunAverages(results, tool) && sc.tool == tool;
    AveragesInUnit(results, tool);
    CompositeInUnit(sc.averages);
    MoatBonusRange(tool);
  }

  /** The bonus is 0, 0.01 or 0.02. */
  lemma MoatBonusRange(tool: string)
    ensures 0.0 <= MoatBonus(tool) <= 0.02
  {
  }

  // ---------------------------------------------------------------------------
  // Ranking

  /** Descending by score. */
  predicate RankedDescending(s: seq<ToolScore>) {
    forall i, j :: 0 <= i < j < |s| ==> s[i].score >= s[j].score
  }

  /** Puts `x` before the first entry that does not beat it (ties keep `x` first). */
  function InsertRanked(x: ToolScore, s: seq<ToolScore>): (r: seq<ToolScore>)
    requires RankedDescending(s)
    ensures RankedDescending(r) && |r| == |s| + 1
    ensures r[0] == x || (s != [] && r[0] == s[0])
    decreases |s|
  {
    if s == [] || s[0].score <= x.score then
      RankedCons(x, s);
      [x] + s
    else
      RankedTail(s);
      var rest := InsertRanked(x, s[1..]);
      RankedCons(s[0], rest);
      [s[0]] + rest
  }

  /** Inserting adds exactly `x`. */
  lemma {:induction false} InsertRankedPermutes(x: ToolScore, s: seq<ToolScore>)
    requires RankedDescending(s)
    ensures multiset(InsertRanked(x, s)) == multiset(s) + multiset{x}
    decreases |s|
  {
    if s != [] && s[0].score > x.score {
      RankedTail(s);
      InsertRankedPermutes(x, s[1..]);
      MultisetOfCons(s);
    }
  }

  lemma RankedTail(s: seq<ToolScore>)
    requires RankedDescending(s) && s != []
    ensures RankedDescending(s[1..])
    ensures |s| > 1 ==> s[1..][0].score <= s[0].score
  {
    assert forall i :: 0 <= i < |s[1..]| ==> s[1..][i] == s[i + 1];
  }

  /** An entry scoring at least the head of a ranking can go in front of it. */
  lemma RankedCons(x: ToolScore, s: seq<ToolScore>)
    requires RankedDescending(s)
    requires s == [] || s[0].score <= x.score
    ensures RankedDescending([x] + s)
  {
    var r := [x] + s;
    forall i, j | 0 <= i < j < |r| ensures r[i].score >= r[j].score {
      assert r[j] == s[j - 1];
      if i > 0 {
        assert r[i] == s[i - 1];
      }
    }
  }

  /** The ranking in `main`: a stable sort by score, descending. */
  function Rank(s: seq<ToolScore>): (r: seq<ToolScore>)
    ensures RankedDescending(r)
    decreases |s|
  {
    if s == [] then [] else InsertRanked(s[0], Rank(s[1..]))
  }

  /** The ranking holds the same entries. */
  lemma {:induction false} RankPermutes(s: seq<ToolScore>)
    ensures multiset(Rank(s)) == multiset(s)
    decreases |s|
  {
    if s != [] {
      var t := Rank(s[1..]);
      RankPermutes(s[1..]);
      InsertRankedPermutes(s[0], t);
      assert Rank(s) == InsertRanked(s[0], t);
      MultisetOfCons(s);
    }
  }
}

=== FILE: seqs.dfy ===
/** Sequence helpers shared by the models: filtering, searching and summing. */
module Seqs {

  /** `a` can be obtained from `b` by deleting elements (order kept). */
  ghost predicate SubsequenceOf<T>(a: seq<T>, b: seq<T>)
    decreases |b|
  {
    if a == [] then true
    else if b == [] then false
    else if a[0] == b[0] then SubsequenceOf(a[1..], b[1..])
    else SubsequenceOf(a, b[1..])
  }

  lemma {:induction false} SubsequenceOfSelf<T>(s: seq<T>)
    ensures SubsequenceOf(s, s)
    decreases |s|
  {
    if s != [] {
      SubsequenceOfSelf(s[1..]);
    }
  }

  /** The elements of `s` that satisfy `p`, in their original order (JavaScript `Array.filter`). */
  function Filter<T(!new)>(s: seq<T>, p: T -> bool): (r: seq<T>)
    ensures |r| <= |s|
    ensures forall x :: x in r <==> x in s && p(x)
    ensures forall i :: 0 <= i < |r| ==> p(r[i])
    ensures multiset(r) <= multiset(s)
    decreases |s|
  {
    if s == [] then []
    else
      var rest := Filter(s[1..], p);
      assert s == [s[0]] + s[1..];
      if p(s[0]) then [s[0]] + rest else rest
  }

  lemma {:induction false} FilterIsSubsequence<T(!new)>(s: seq<T>, p: T -> bool)
    ensures SubsequenceOf(Filter(s, p), s)
    decreases |s|
  {
    if s != [] {
      FilterIsSubsequence(s[1..], p);
      if p(s[0]) {
        assert Filter(s, p) == [s[0]] + Filter(s[1..], p);
        assert Filter(s, p)[1..] == Filter(s[1..], p);
      } else {
        var r := Filter(s, p);
        assert r == Filter(s[1..], p);
        if r != [] && r[0] == s[0] {
          // the head of the filtered rest equals s[0]: matching it also works
          SubsequenceSkipHead(r, s);
        }
      }
    }
  }

  /** If `a` is a subsequence of `s[1..]`, it is a subsequence of `s`. */
  lemma {:induction false} SubsequenceSkipHead<T>(a: seq<T>, s: seq<T>)
    requires s != []
    requires SubsequenceOf(a, s[1..])
    ensures SubsequenceOf(a, s)
    decreases |s|, 1
  {
    if a != [] && a[0] == s[0] {
      // need SubsequenceOf(a[1..], s[1..]) from SubsequenceOf(a, s[1..])
      SubsequenceDropHead(a, s[1..]);
    }
  }

  /** Dropping the head of a subsequence keeps it a subsequence. */
  lemma {:induction false} SubsequenceDropHead<T>(a: seq<T>, b: seq<T>)
    requires a != []
    requires SubsequenceOf(a, b)
    ensures SubsequenceOf(a[1..], b)
    decreases |b| + 1, 0
  {
    assert b != [];
    if a[0] == b[0] {
      assert SubsequenceOf(a[1..], b[1..]);
      SubsequenceSkipHead(a[1..], b);
    } else {
      SubsequenceDropHead(a, b[1..]);
      SubsequenceSkipHead(a[1..], b);
    }
  }

  /** Filtering a duplicate-free sequence leaves it duplicate-free. */
  lemma {:induction false} FilterDistinct<T(!new)>(s: seq<T>, p: T -> bool)
    requires Distinct(s)
    ensures Distinct(Filter(s, p))
    decreases |s|
  {
    if s != [] {
      assert Distinct(s[1..]) by {
        forall i, j | 0 <= i < j < |s[1..]| ensures s[1..][i] != s[1..][j] {
          assert s[1..][i] == s[i + 1] && s[1..][j] == s[j + 1];
        }
      }
      FilterDistinct(s[1..], p);
      if p(s[0]) {
        var rest := Filter(s[1..], p);
        var r := Filter(s, p);
        assert s[0] !in rest by {
          assert s[0] !in s[1..];
        }
        assert r == [s[0]] + rest;
        forall i, j | 0 <= i < j < |r| ensures r[i] != r[j] {
          assert r[j] == rest[j - 1];
          if i > 0 {
            assert r[i] == rest[i - 1];
          } else {
            assert r[j] in rest;
          }
        }
      }
    }
  }

  /** Filtering depends only on the values of the predicate on the elements. */
  lemma {:induction false} FilterExtensional<T(!new)>(s: seq<T>, p: T -> bool, q: T -> bool)
    requires forall i :: 0 <= i < |s| ==> p(s[i]) == q(s[i])
    ensures Filter(s, p) == Filter(s, q)
    decreases |s|
  {
    if s != [] {
      assert p(s[0]) == q(s[0]);
      FilterExtensional(s[1..], p, q);
    }
  }

  /** Filtering with a predicate that holds everywhere is the identity. */
  lemma {:induction false} FilterAll<T(!new)>(s: seq<T>, p: T -> bool)
    requires forall x :: x in s ==> p(x)
    ensures Filter(s, p) == s
    decreases |s|
  {
    if s != [] {
      FilterAll(s[1..], p);
    }
  }

  /** Index of the first element satisfying `p`, or -1 (JavaScript `findIndex`). */
  function FindIndex<T>(s: seq<T>, p: T -> bool): (i: int)
    ensures -1 <= i < |s|
    ensures i == -1 <==> forall k :: 0 <= k < |s| ==> !p(s[k])
    ensures 0 <= i ==> p(s[i]) && forall k :: 0 <= k < i ==> !p(s[k])
    decreases |s|
  {
    if s == [] then -1
    else if p(s[0]) then 0
    else
      var j := FindIndex(s[1..], p);
      if j == -1 then -1 else j + 1
  }

  /** Index of the first occurrence of `x`, or -1 (JavaScript `indexOf`). */
  function IndexOf<T(==)>(s: seq<T>, x: T): (i: int)
    ensures -1 <= i < |s|
    ensures i == -1 <==> x !in s
    ensures 0 <= i ==> s[i] == x && x !in s[..i]
    decreases |s|
  {
    if s == [] then -1
    else if s[0] == x then 0
    else
      var j := IndexOf(s[1..], x);
      assert j >= 0 ==> s[..j + 1] == [s[0]] + s[1..][..j];
      if j == -1 then -1 else j + 1
  }

  /** Appending an element does not move the first occurrence of a value already present. */
  lemma IndexOfSnoc<T>(s: seq<T>, y: T, x: T)
    ensures x in s ==> IndexOf(s + [y], x) == IndexOf(s, x)
    ensures x !in s && x == y ==> IndexOf(s + [y], x) == |s|
  {
    var t := s + [y];
    var i := IndexOf(t, x);
    if x in s {
      var j := IndexOf(s, x);
      assert t[j] == x;
      assert t[..j] == s[..j];
    } else if x == y {
      assert t[|s|] == x;
    }
  }

  /** `s` without the element at index `i` (JavaScript `splice(i, 1)`). */
  function RemoveAt<T>(s: seq<T>, i: nat): (r: seq<T>)
    requires i < |s|
    ensures |r| == |s| - 1
    ensures forall k :: 0 <= k < i ==> r[k] == s[k]
    ensures forall k :: i <= k < |r| ==> r[k] == s[k + 1]
    ensures multiset(r) + multiset{s[i]} == multiset(s)
  {
    assert s == s[..i] + [s[i]] + s[i + 1..];
    s[..i] + s[i + 1..]
  }

  /** `s` with `x` inserted before index `i` (JavaScript `splice(i, 0, x)`). */
  function InsertAt<T>(s: seq<T>, i: nat, x: T): (r: seq<T>)
    requires i <= |s|
    ensures |r| == |s| + 1
    ensures r[i] == x
    ensures forall k :: 0 <= k < i ==> r[k] == s[k]
    ensures forall k :: i < k < |r| ==> r[k] == s[k - 1]
    ensures multiset(r) == multiset(s) + multiset{x}
  {
    assert s == s[..i] + s[i..];
    s[..i] + [x] + s[i..]
  }

  /** No element occurs twice. */
  predicate Distinct<T(==)>(s: seq<T>) {
    forall i, j :: 0 <= i < j < |s| ==> s[i] != s[j]
  }

  /** The last `n` elements of `s`, or all of it when it is shorter (JavaScript `slice(-n)`). */
  function LastN<T>(s: seq<T>, n: nat): (r: seq<T>)
    requires n > 0
    ensures |r| == if |s| < n then |s| else n
    ensures r == s[|s| - |r|..]
  {
    if |s| <= n then s else s[|s| - n..]
  }

  /** Sum of a sequence of reals. */
  function Sum(s: seq<real>): real
    decreases |s|
  {
    if s == [] then 0.0 else s[0] + Sum(s[1..])
  }

  lemma {:induction false} SumConcat(a: seq<real>, b: seq<real>)
    ensures Sum(a + b) == Sum(a) + Sum(b)
    decreases |a|
  {
    if a == [] {
      assert a + b == b;
    } else {
      assert (a + b)[1..] == a[1..] + b;
      SumConcat(a[1..], b);
    }
  }

  /** Every element lies in `[lo, hi]`. */
  predicate AllWithin(s: seq<real>, lo: real, hi: real) {
    forall i :: 0 <= i < |s| ==> lo <= s[i] <= hi
  }

  lemma {:induction false} SumWithin(s: seq<real>, lo: real, hi: real)
    requires AllWithin(s, lo, hi)
    ensures |s| as real * lo <= Sum(s) <= |s| as real * hi
    decreases |s|
  {
    if s != [] {
      assert AllWithin(s[1..], lo, hi) by {
        forall i | 0 <= i < |s[1..]| ensures lo <= s[1..][i] <= hi {
          assert s[1..][i] == s[i + 1];
        }
      }
      SumWithin(s[1..], lo, hi);
    }
  }

  /** Arithmetic mean of a non-empty sequence. */
  function Mean(s: seq<real>): real
    requires s != []
  {
    Sum(s) / |s| as real
  }

  /** A non-empty sequence holds its head and the elements of its tail. */
  lemma MultisetOfCons<T>(s: seq<T>)
    requires s != []
    ensures multiset(s) == multiset(s[1..]) + multiset{s[0]}
  {
    assert s == [s[0]] + s[1..];
  }

  /** `a` is a prefix of `b`. */
  predicate IsPrefix<T(==)>(a: seq<T>, b: seq<T>) {
    |a| <= |b| && b[..|a|] == a
  }

  /** Being a prefix is transitive. */
  lemma PrefixTransitive<T>(a: seq<T>, b: seq<T>, c: seq<T>)
    requires |b| <= |a| && a[..|b|] == b
    requires |c| <= |b| && b[..|c|] == c
    ensures a[..|c|] == c
  {
    assert a[..|b|][..|c|] == a[..|c|];
  }

  /** The mean of values all in `[lo, hi]` is in `[lo, hi]`. */
  lemma MeanWithin(s: seq<real>, lo: real, hi: real)
    requires s != []
    requires AllWithin(s, lo, hi)
    ensures lo <= Mean(s) <= hi
  {
    SumWithin(s, lo, hi);
    var n := |s| as real;
    assert n > 0.0;
    assert n * lo <= Sum(s) <= n * hi;
    assert lo <= Sum(s) / n by {
      assert (n * lo) / n == lo;
    }
    assert Sum(s) / n <= hi by {
      assert (n * hi) / n == hi;
    }
  }
}

=== FILE: state_fingerprint.dfy ===
/**
 * `StateFingerprint` of the hyper-explorer: a page state identified by its URL path, a landmark hash,
 * a DOM hash and the page title. The hashes and the URL path are computed from the live page and are
 * inputs here.
 */
module StateFingerprint {
  import opened Seqs

  datatype Fingerprint = Fingerprint(url: string, title: string, urlPath: string, domHash: string, landmarkHash: string)

  /** `s.substring(0, n)`: the first `n` characters, or all of `s` when it is shorter. */
  function Prefix(s: string, n: nat): (r: string)
    ensures |r| == if |s| < n then |s| else n
    ensures r == s[..|r|]
  {
    if |s| <= n then s else s[..n]
  }

  /** `computeKey`: URL path, landmark hash, the first 8 characters of the DOM hash and the title, `|`-separated. */
  function Key(f: Fingerprint): (k: string)
    ensures |k| == |f.urlPath| + |f.landmarkHash| + |Prefix(f.domHash, 8)| + |f.title| + 3
    ensures k[..|f.urlPath|] == f.urlPath && k[|k| - |f.title|..] == f.title
  {
    var k := f.urlPath + "|" + f.landmarkHash + "|" + Prefix(f.domHash, 8) + "|" + f.title;
    assert k[..|f.urlPath|] == f.urlPath;
    assert k[|k| - |f.title|..] == f.title;
    k
  }

  /** `getShortKey`: for display only, the first 30 characters of the path and 6 of the landmark hash. */
  function ShortKey(f: Fingerprint): (k: string)
    ensures |Prefix(f.urlPath, 30)| < |k| <= 37
    ensures k[..|Prefix(f.urlPath, 30)|] == Prefix(f.urlPath, 30) && k[|Prefix(f.urlPath, 30)|] == '|'
  {
    var k := Prefix(f.urlPath, 30) + "|" + Prefix(f.landmarkHash, 6);
    assert k[..|Prefix(f.urlPath, 30)|] == Prefix(f.urlPath, 30);
    k
  }

  /** `equals`: two fingerprints are the same state when their keys coincide. */
  predicate Equals(a: Fingerprint, b: Fingerprint) {
    Key(a) == Key(b)
  }

  /** `isStructuralChange`: the path or the landmarks differ. */
  predicate IsStructuralChange(a: Fingerprint, b: Fingerprint) {
    a.urlPath != b.urlPath || a.landmarkHash != b.landmarkHash
  }

  /** A field `delta` can report; `Name` is the string `delta` pushes. */
  datatype Change = Url | Landmarks | Dom | Title {
    function Name(): string {
      match this
      case Url => "url"
      case Landmarks => "landmarks"
      case Dom => "dom"
      case Title => "title"
    }
  }

  /** The fields `delta` can report, in the order it reports them. */
  const DeltaFields: seq<Change> := [Url, Landmarks, Dom, Title]

  /** The field `c` differs between `a` and `b`. */
  predicate Differs(a: Fingerprint, b: Fingerprint, c: Change) {
    match c
    case Url => a.urlPath != b.urlPath
    case Landmarks => a.landmarkHash != b.landmarkHash
    case Dom => a.domHash != b.domHash
    case Title => a.title != b.title
  }

  /** `delta`: the fields that differ, in the order url, landmarks, dom, title. */
  function Delta(a: Fingerprint, b: Fingerprint): (r: seq<Change>)
    ensures Url in r <==> a.urlPath != b.urlPath
    ensures Landmarks in r <==> a.landmarkHash != b.landmarkHash
    ensures Dom in r <==> a.domHash != b.domHash
    ensures Title in r <==> a.title != b.title
    ensures Distinct(r)
    ensures SubsequenceOf(r, DeltaFields)
  {
    var r := Filter(DeltaFields, c => Differs(a, b, c));
    DeltaFieldsDistinct();
    FilterDistinct(DeltaFields, c => Differs(a, b, c));
    FilterIsSubsequence(DeltaFields, c => Differs(a, b, c));
    r
  }

  lemma DeltaFieldsDistinct()
    ensures Distinct(DeltaFields)
    ensures Url in DeltaFields && Landmarks in DeltaFields && Dom in DeltaFields && Title in DeltaFields
  {
    var f := DeltaFields;
    assert f[0] == Url && f[1] == Landmarks && f[2] == Dom && f[3] == Title;
    forall i, j | 0 <= i < j < |f| ensures f[i] != f[j] {
      assert |f| == 4;
    }
  }

  /** `delta` is empty exactly when the four fields agree. */
  lemma DeltaEmptyIff(a: Fingerprint, b: Fingerprint)
    ensures Delta(a, b) == [] <==>
            a.urlPath == b.urlPath && a.landmarkHash == b.landmarkHash && a.domHash == b.domHash && a.title == b.title
  {
    if a.urlPath != b.urlPath {
      assert Url in Delta(a, b);
    }
  }

  /** The fields that differ do not depend on which fingerprint is asked. */
  lemma DeltaSymmetric(a: Fingerprint, b: Fingerprint)
    ensures Delta(a, b) == Delta(b, a)
  {
    var p := c => Differs(a, b, c);
    var q := c => Differs(b, a, c);
    forall i | 0 <= i < |DeltaFields| ensures p(DeltaFields[i]) == q(DeltaFields[i]) {
      match DeltaFields[i]
      case Url =>
      case Landmarks =>
      case Dom =>
      case Title =>
    }
    FilterExtensional(DeltaFields, p, q);
    assert Delta(a, b) == Filter(DeltaFields, p);
    assert Delta(b, a) == Filter(DeltaFields, q);
  }

  /** A structural change is a delta naming the url or the landmarks. */
  lemma StructuralIffDelta(a: Fingerprint, b: Fingerprint)
    ensures IsStructuralChange(a, b) <==> Url in Delta(a, b) || Landmarks in Delta(a, b)
  {
  }

  /** Fingerprints with no delta are equal. */
  lemma NoDeltaEquals(a: Fingerprint, b: Fingerprint)
    requires Delta(a, b) == []
    ensures Equals(a, b)
  {
    DeltaEmptyIff(a, b);
  }

  /** Fingerprints that are not equal differ in some field, so their delta is not empty. */
  lemma DeltaNonEmpty(a: Fingerprint, b: Fingerprint)
    requires !Equals(a, b)
    ensures Delta(a, b) != []
  {
    KeyParts(a);
    KeyParts(b);
    DeltaEmptyIff(a, b);
  }

  /** A field free of `|` followed by `|` is recovered from the text. */
  lemma BarSplit(a: string, x: string, b: string, y: string)
    requires '|' !in a && '|' !in b
    requires a + "|" + x == b + "|" + y
    ensures a == b && x == y
  {
    var s := a + "|" + x;
    FirstBar(a, x);
    FirstBar(b, y);
    assert a == s[..|a|] == b;
    assert x == s[|a| + 1..] == y;
  }

  /** The first `|` of `a + "|" + x` is the one after `a`. */
  lemma FirstBar(a: string, x: string)
    requires '|' !in a
    ensures IndexOf(a + "|" + x, '|') == |a|
  {
    var s := a + "|" + x;
    var i := IndexOf(s, '|');
    assert s[|a|] == '|';
    assert s[..|a|] == a;
    assert i <= |a| by {
      assert s[..|a| + 1][|a|] == '|';
    }
    assert i >= |a| by {
      assert i >= 0 && s[i] == '|';
      assert forall k :: 0 <= k < |a| ==> s[k] == a[k];
    }
  }

  /** The characters `Number.prototype.toString(36)` writes for a non-negative integer. */
  predicate IsBase36Digit(c: char) {
    '0' <= c <= '9' || 'a' <= c <= 'z'
  }

  /**
   * The text `hashString` returns: `(hash >>> 0).toString(36)` of a 32-bit unsigned value, so at
   * least one and at most 7 base-36 digits (36^7 exceeds 2^32 - 1).
   */
  predicate IsHashText(h: string) {
    0 < |h| <= 7 && forall i :: 0 <= i < |h| ==> IsBase36Digit(h[i])
  }

  /**
   * A fingerprint as the constructor builds it: both hashes come from `hashString`.  That the URL
   * path carries no `|` is an assumption: `extractPath` keeps the query and fragment, which may
   * hold one.
   */
  predicate WellFormed(f: Fingerprint) {
    IsHashText(f.landmarkHash) && IsHashText(f.domHash) && '|' !in f.urlPath
  }

  /** Hash text has no `|`, and taking its first 8 characters keeps all of it. */
  lemma HashTextShape(h: string)
    requires IsHashText(h)
    ensures '|' !in h
    ensures Prefix(h, 8) == h
  {
    assert forall i :: 0 <= i < |h| ==> h[i] != '|';
  }

  /**
   * For well-formed fingerprints, two states are equal exactly when path, landmark hash, DOM hash
   * and title agree: the 8-character cut of the DOM hash never removes anything.
   */
  lemma EqualsIff(a: Fingerprint, b: Fingerprint)
    requires WellFormed(a) && WellFormed(b)
    ensures Equals(a, b) <==>
            a.urlPath == b.urlPath && a.landmarkHash == b.landmarkHash && a.domHash == b.domHash && a.title == b.title
  {
    KeyParts(a);
    KeyParts(b);
    HashTextShape(a.domHash);
    HashTextShape(b.domHash);
    HashTextShape(a.landmarkHash);
    HashTextShape(b.landmarkHash);
    if Equals(a, b) {
      ThreeBars(a.urlPath, a.landmarkHash, Prefix(a.domHash, 8), a.title,
                b.urlPath, b.landmarkHash, Prefix(b.domHash, 8), b.title);
    }
  }

  /** For well-formed fingerprints, `equals` holds exactly when `delta` is empty. */
  lemma EqualsIffNoDelta(a: Fingerprint, b: Fingerprint)
    requires WellFormed(a) && WellFormed(b)
    ensures Equals(a, b) <==> Delta(a, b) == []
  {
    EqualsIff(a, b);
    DeltaEmptyIff(a, b);
  }

  lemma KeyParts(f: Fingerprint)
    ensures Key(f) == f.urlPath + "|" + (f.landmarkHash + "|" + (Prefix(f.domHash, 8) + "|" + f.title))
  {
  }

  lemma ThreeBars(p1: string, l1: string, d1: string, t1: string, p2: string, l2: string, d2: string, t2: string)
    requires '|' !in p1 && '|' !in l1 && '|' !in d1 && '|' !in p2 && '|' !in l2 && '|' !in d2
    requires p1 + "|" + (l1 + "|" + (d1 + "|" + t1)) == p2 + "|" + (l2 + "|" + (d2 + "|" + t2))
    ensures p1 == p2 && l1 == l2 && d1 == d2 && t1 == t2
  {
    BarSplit(p1, l1 + "|" + (d1 + "|" + t1), p2, l2 + "|" + (d2 + "|" + t2));
    BarSplit(l1, d1 + "|" + t1, l2, d2 + "|" + t2);
    BarSplit(d1, t1, d2, t2);
  }

  /**
   * A `|` in the URL path (from a query string) lets two different pages share a key: the page
   * `http://x/p?a|1`, whose path with its query is `/p?a|1`, with hashes `2` and `3` and title `t`,
   * collides with the page `http://x/p?a`, path `/p?a`, with hashes `1` and `2` and title `3|t`.
   */
  lemma BarInPathCollides()
    ensures var a := Fingerprint("http://x/p?a|1", "t", "/p?a|1", "3", "2");
            var b := Fingerprint("http://x/p?a", "3|t", "/p?a", "2", "1");
            IsHashText(a.landmarkHash) && IsHashText(a.domHash) && IsHashText(b.landmarkHash) && IsHashText(b.domHash)
            && Equals(a, b) && a.urlPath != b.urlPath && IsStructuralChange(a, b)
  {
    var a := Fingerprint("http://x/p?a|1", "t", "/p?a|1", "3", "2");
    var b := Fingerprint("http://x/p?a", "3|t", "/p?a", "2", "1");
    assert Prefix(a.domHash, 8) == "3" && Prefix(b.domHash, 8) == "2";
    assert Key(a) == "/p?a|1|2|3|t";
    assert Key(b) == "/p?a|1|2|3|t";
  }
}

=== FILE: strings.dfy ===
/**
 * String helpers with JavaScript/Python meaning: ASCII case mapping, substring search,
 * decimal formatting of integers (with its parsing inverse), split and join.
 */
module Strings {
  import opened Wrappers

  predicate IsAsciiUpper(c: char) { 'A' <= c <= 'Z' }
  predicate IsAsciiLower(c: char) { 'a' <= c <= 'z' }
  predicate IsDigit(c: char) { '0' <= c <= '9' }
  predicate IsAsciiAlnum(c: char) { IsAsciiLower(c) || IsAsciiUpper(c) || IsDigit(c) }

  /** Characters a JavaScript regular-expression `.` does not match. */
  predicate IsLineTerminator(c: char) {
    c == '\n' || c == '\r' || c == '\U{2028}' || c == '\U{2029}'
  }

  function LowerChar(c: char): (r: char)
    ensures !IsAsciiUpper(r)
    ensures IsAsciiUpper(c) || r == c
  {
    if IsAsciiUpper(c) then (c as int + 32) as char else c
  }

  function UpperChar(c: char): (r: char)
    ensures !IsAsciiLower(r)
    ensures IsAsciiLower(c) || r == c
  {
    if IsAsciiLower(c) then (c as int - 32) as char else c
  }

  /** `toLowerCase` restricted to ASCII letters. */
  function Lower(s: string): (r: string)
    ensures |r| == |s|
    ensures forall i :: 0 <= i < |s| ==> r[i] == LowerChar(s[i])
  {
    seq(|s|, i requires 0 <= i < |s| => LowerChar(s[i]))
  }

  /** `toUpperCase` restricted to ASCII letters. */
  function Upper(s: string): (r: string)
    ensures |r| == |s|
    ensures forall i :: 0 <= i < |s| ==> r[i] == UpperChar(s[i])
  {
    seq(|s|, i requires 0 <= i < |s| => UpperChar(s[i]))
  }

  predicate StartsWith(s: string, prefix: string) {
    |prefix| <= |s| && s[..|prefix|] == prefix
  }

  predicate EndsWith(s: string, suffix: string) {
    |suffix| <= |s| && s[|s| - |suffix|..] == suffix
  }

  /** `s.includes(sub)`. */
  predicate Contains(s: string, sub: string) {
    exists i | 0 <= i <= |s| :: OccursAt(s, sub, i)
  }

  lemma ContainsSelf(s: string)
    ensures Contains(s, s)
  {
    assert OccursAt(s, s, 0);
  }

  /** A string is a substring of any string that has it as a prefix or suffix part. */
  lemma ContainsConcat(a: string, sub: string, b: string)
    ensures Contains(a + sub + b, sub)
  {
    var s := a + sub + b;
    assert s[|a|..|a| + |sub|] == sub;
    assert OccursAt(s, sub, |a|);
  }

  // ---------------------------------------------------------------------------
  // Decimal formatting of integers, as JavaScript template literals and Python
  // f-strings print them.

  function DigitChar(d: nat): (c: char)
    requires d < 10
    ensures IsDigit(c)
  {
    ('0' as int + d) as char
  }

  function DigitValue(c: char): (d: nat)
    requires IsDigit(c)
    ensures d < 10
  {
    c as int - '0' as int
  }

  predicate AllDigits(s: string) {
    forall i :: 0 <= i < |s| ==> IsDigit(s[i])
  }

  /** Decimal digits of `n`, without leading zeros. */
  function NatToString(n: nat): (r: string)
    ensures |r| > 0 && AllDigits(r)
    ensures r[0] != '0' || n == 0
    decreases n
  {
    if n < 10 then [DigitChar(n)] else NatToString(n / 10) + [DigitChar(n % 10)]
  }

  /** Value of a string of decimal digits. */
  function DigitsValue(s: string): nat
    requires AllDigits(s)
    decreases |s|
  {
    if s == [] then 0 else DigitsValue(s[..|s| - 1]) * 10 + DigitValue(s[|s| - 1])
  }

  lemma {:induction false} DigitsValueOfNatToString(n: nat)
    ensures DigitsValue(NatToString(n)) == n
    decreases n
  {
    var r := NatToString(n);
    if n >= 10 {
      DigitsValueOfNatToString(n / 10);
      assert r[..|r| - 1] == NatToString(n / 10);
    }
  }

  /** Parses a non-empty string of decimal digits. */
  function ParseNat(s: string): (r: Option<nat>)
    ensures r.Some? <==> s != [] && AllDigits(s)
  {
    if s != [] && AllDigits(s) then Some(DigitsValue(s)) else None
  }

  /** Decimal text of an integer, with a leading `-` when negative. */
  function IntToString(i: int): (r: string)
    ensures |r| > 0
    ensures i < 0 <==> r[0] == '-'
  {
    if i < 0 then "-" + NatToString(-i) else NatToString(i)
  }

  /** Parses an optionally signed decimal integer. */
  function ParseInt(s: string): Option<int>
  {
    if |s| > 0 && s[0] == '-' then
      match ParseNat(s[1..])
      case Some(n) => Some(0 - n as int)
      case None => None
    else
      match ParseNat(s)
      case Some(n) => Some(n as int)
      case None => None
  }

  /** Formatting then parsing gives the integer back. */
  lemma ParseNatToString(n: nat)
    ensures ParseNat(NatToString(n)) == Some(n)
  {
    DigitsValueOfNatToString(n);
  }

  lemma ParseIntToString(i: int)
    ensures ParseInt(IntToString(i)) == Some(i)
  {
    if i < 0 {
      ParseNatToString(-i);
      assert IntToString(i)[1..] == NatToString(-i);
    } else {
      ParseNatToString(i);
    }
  }

  /** Distinct integers print differently. */
  lemma IntToStringInjective(i: int, j: int)
    requires IntToString(i) == IntToString(j)
    ensures i == j
  {
    ParseIntToString(i);
    ParseIntToString(j);
  }

  /** The characters JavaScript's `trim` removes: white space and line terminators. */
  predicate IsJsSpace(c: char) {
    || c == '\t' || c == '\n' || c == '\U{000B}' || c == '\U{000C}' || c == '\r' || c == ' '
    || c == '\U{00A0}' || c == '\U{1680}' || ('\U{2000}' <= c <= '\U{200A}')
    || c == '\U{2028}' || c == '\U{2029}' || c == '\U{202F}' || c == '\U{205F}'
    || c == '\U{3000}' || c == '\U{FEFF}'
  }

  // ---------------------------------------------------------------------------
  // Split and join.

  /** `parts.join(sep)`. */
  function Join(sep: string, parts: seq<string>): string
    decreases |parts|
  {
    if parts == [] then ""
    else if |parts| == 1 then parts[0]
    else parts[0] + sep + Join(sep, parts[1..])
  }

  /** `s.split(c)` for a one-character separator: empty pieces are kept, and "" splits into [""]. */
  function Split(s: string, c: char): (r: seq<string>)
    ensures |r| > 0
    ensures forall i :: 0 <= i < |r| ==> c !in r[i]
    decreases |s|
  {
    if s == [] then [""]
    else
      var rest := Split(s[1..], c);
      if s[0] == c then [""] + rest else [[s[0]] + rest[0]] + rest[1..]
  }

  /** Splitting a join of separator-free pieces gives the pieces back. */
  lemma {:induction false} SplitJoin(parts: seq<string>, c: char)
    requires |parts| > 0
    requires forall i :: 0 <= i < |parts| ==> c !in parts[i]
    ensures Split(Join([c], parts), c) == parts
    decreases |parts|, |parts[0]|
  {
    if |parts| == 1 {
      SplitNoSeparator(parts[0], c);
    } else {
      var p := parts[0];
      var tail := Join([c], parts[1..]);
      assert Join([c], parts) == p + [c] + tail;
      SplitJoin(parts[1..], c);
      SplitPrefix(p, tail, c);
    }
  }

  lemma {:induction false} SplitNoSeparator(s: string, c: char)
    requires c !in s
    ensures Split(s, c) == [s]
    decreases |s|
  {
    if s != [] {
      SplitNoSeparator(s[1..], c);
      assert [s[0]] + s[1..] == s;
    }
  }

  /** Splitting `p + [c] + t` with a separator-free `p` puts `p` in front of the pieces of `t`. */
  lemma {:induction false} SplitPrefix(p: string, t: string, c: char)
    requires c !in p
    ensures Split(p + [c] + t, c) == [p] + Split(t, c)
    decreases |p|
  {
    var s := p + [c] + t;
    if p == [] {
      assert s == [c] + t;
      assert s[1..] == t;
    } else {
      assert s[1..] == p[1..] + [c] + t;
      SplitPrefix(p[1..], t, c);
      assert [p[0]] + p[1..] == p;
    }
  }

  // ---------------------------------------------------------------------------
  // Searching.

  /** `sub` occurs in `s` starting at index `j`. */
  predicate OccursAt(s: string, sub: string, j: int) {
    0 <= j <= |s| - |sub| && s[j..j + |sub|] == sub
  }

  /** `s.lastIndexOf(sub)`: the last index where `sub` occurs, or -1. */
  function LastIndexOf(s: string, sub: string): (r: int)
    ensures r == -1 || OccursAt(s, sub, r)
    ensures forall k :: r < k ==> !OccursAt(s, sub, k)
  {
    if |sub| > |s| then -1 else LastIndexBelow(s, sub, |s| - |sub|)
  }

  function LastIndexBelow(s: string, sub: string, k: int): (r: int)
    requires -1 <= k <= |s| - |sub|
    ensures -1 <= r <= k
    ensures r == -1 || OccursAt(s, sub, r)
    ensures forall j :: r < j <= k ==> !OccursAt(s, sub, j)
    decreases k + 1
  {
    if k < 0 then -1
    else if s[k..k + |sub|] == sub then k
    else LastIndexBelow(s, sub, k - 1)
  }

  /** `s.lastIndexOf(c)` for a single character: the last index holding `c`, or -1. */
  function LastIndexOfChar(s: string, c: char): (r: int)
    ensures -1 <= r < |s|
    ensures r >= 0 ==> s[r] == c
    ensures forall k :: r < k < |s| ==> s[k] != c
  {
    LastIndexOfCharBelow(s, c, |s|)
  }

  /** The last index below `e` holding `c`, or -1. */
  function LastIndexOfCharBelow(s: string, c: char, e: nat): (r: int)
    requires e <= |s|
    ensures -1 <= r < e
    ensures r >= 0 ==> s[r] == c
    ensures forall k :: r < k < e ==> s[k] != c
    decreases e
  {
    if e == 0 then -1
    else if s[e - 1] == c then e - 1
    else LastIndexOfCharBelow(s, c, e - 1)
  }
}

=== FILE: wrappers.dfy ===
/** Failure-compatible wrapper used wherever the modelled JavaScript returns `null`/`undefined`. */
module Wrappers {

  datatype Option<+T> = None | Some(value: T) {

    /** The wrapped value, or `default` when there is none. */
    function GetOr(default: T): T {
      match this
      case Some(v) => v
      case None => default
    }
  }
}
